=== FILE: README.md ===
# Herbit points and progression, modelled in Dafny

Herbit is the back end of a habit app for living sustainably. A user
completes five daily tasks drawn for the day. Each completed task grows a
green leaf on the user's tree, and every fifth leaf brings a fruit that can
be harvested for points. Idle trees turn yellow overnight. A sorting game
keeps a daily streak. Eco-enzyme projects run for three months and earn
pre-points and a final claim. Points go into a ledger and buy vouchers.
Streak milestones pay out once. Summaries for the profile, home and weekly
screens put all of this together.

This project models that points-and-progression core. Every source file of
the core is one Dafny module:

| module | source file |
|---|---|
| `Common`, `Entities` | shared JavaScript-value helpers; the records of `src/models/user.js`, `treeTrackers.js`, `treeFruits.js`, `gameSorting.js` |
| `DateUtils` | `src/utils/date.js` |
| `StreakService`, `SortingStreakReset`, `GameSortingService` | `src/services/streakService.js`, `src/jobs/sortingStreakReset.js`, `src/services/gameSortingService.js` |
| `PointsHistory`, `PointsHistoryAdmin` | `src/services/pointsHistoryService.js`, `src/controllers/pointsHistoryAdminController.js` |
| `DailyTaskChecklistService`, `DailyTaskController`, `DailyController` | the seeded daily draw and get-or-create of the checklist |
| `DailyTaskChecklistController`, `DailyTaskChecklistModel` | completing, unchecking and generating checklist rows; the `completedAt` hook |
| `TreeLeavesController`, `TreeLeavesModel`, `TreeFruitsController`, `TreeTrackersController` | the tree |
| `EcoenzimController`, `EcoenzimProjectModel` | eco-enzyme projects |
| `VoucherService`, `RewardService` | vouchers and streak milestones |
| `ProfileService`, `HomeService`, `WeeklyProgressController` | the summaries |
| `UsernameUtils`, `UsernameService`, `Validators`, `UserManagementValidators` | username rules and request validators |

Each Mongo collection the core writes is a small store class. A store holds
a `map` keyed by identifier or unique key, or a `seq` for the append-only
ledger and upload collections. Each operation that changes stores is a
method whose `modifies` clause names exactly those stores. Its `ensures`
ties the new state to a pure function of the old one, such as `Bumped`,
`Claimed` or `Settled`. Lemmas about those functions state what the
application promises: exactly-once awards, idempotent nightly jobs,
permutations, round trips and error precedence.

The model keeps these places where the code behaves unlike its
documentation or unlike itself:
- Completing a task revives any yellow leaf, while the nightly sweep picks the oldest (`TreeLeavesController`).
- The controller's project status rule and the model method's rule disagree on the end date and on which uploads count (`StatusRulesDisagreeAtEnd`).
- The eco-enzyme claim records its points under the source "ecoenzim", which the ledger's source list (spelled "ecoenzym") refuses (`EcoenzimNotALedgerSource`).
- Fruit claims write no ledger entry.
- A milestone progress update unsets the awarded points, so a paid milestone can be claimed again (`ProgressUpdateReopensClaim`).
- The profile can show a milestone as claimable when the claim itself refuses it (`ClaimableOverstatesStreak`).
- Usernames need at least 2 characters when normalised but 3 when an administrator updates them (`TwoCharacterUsernameRefused`).

The clock (`now`), randomness and the date parser are parameters. So are
the e-mail syntax test of the `validator` package and `isValidUploadDay`,
which the controller calls but the repository never defines. As written, the
call at src/controllers/ecoenzimController.js:139 therefore throws a
ReferenceError, so every monthly photo upload to an existing project with a
valid month and a photo answers 500; the model gives the intended rule a
name instead. Timestamps are integer milliseconds and calendar days are
integer day numbers.

## Model

| member | source | states |
|---|---|---|
| Common.Clamp | src/services/homeService.js:9-11 | the result lies in [lo, hi]; a value inside is kept, one below gives lo, one above gives hi |
| Common.RoundDiv | src/services/homeService.js:28 | `Math.round(a / b)`: the integer nearest to a / b, halves rounded up |
| Common.RoundDivMonotone | src/services/homeService.js:28 | rounding keeps the order of quotients over the same divisor |
| Common.CeilDiv | src/services/pointsHistoryService.js:167 | `Math.ceil(a / b)`: the least r with a <= b * r |
| Common.Dedupe | src/services/pointsHistoryService.js:78 | no repetitions, exactly the elements of the input, no longer than it |
| Common.DedupeExtends | src/services/pointsHistoryService.js:78 | appending elements never reorders or drops what was already kept, so the kept elements stay in first-occurrence order |
| Common.DedupeDistinct | src/services/pointsHistoryService.js:78 | a list without repetitions is its own deduplication |
| Common.SplitJoin | src/controllers/pointsHistoryAdminController.js:31-33 | splitting a join on the same separator gives the parts back |
| Common.TrimmedNonEmptyKeeps | src/services/pointsHistoryService.js:72-74 | parts already trimmed and non-empty all survive the trim-and-filter, in order |
| Common.ParseIntOfNumeral | src/services/dailyTaskChecklistService.js:37 | `parseInt` reads back any numeral written by `String(n)` |
| Common.StringToNumberOfNumeral | src/services/pointsHistoryService.js:83 | `Number` reads back any numeral written by `String(n)` |
| Common.StringToNumberOfExponent | src/services/pointsHistoryService.js:83 | `Number` reads a numeral with an exponent, such as "1e2", as the numeral times ten to the exponent |
| Common.StringToNumberOfPointZeros | src/services/rewardService.js:407 | `Number` reads a numeral followed by a dot and zeros, such as "1.0", as the numeral |
| Common.StringToNumberOfRadix | src/controllers/ecoenzimController.js:118 | `Number` reads "0x", "0o" or "0b" (either case) followed by digits of that base as their value in that base |
| Entities.NewUser | src/models/user.js:17-21 | a new user has 0 points, streak and best streak, and a null last bucket |
| Entities.NewTracker | src/models/treeTrackers.js:12-34 | a new tracker has all counters 0 and the activity date now |
| DateUtils.DaysBetweenIsDayDifference | src/utils/date.js:2-7 | `daysBetween(a, b)` is the difference of the two calendar days |
| DateUtils.DaysBetweenAntisymmetric | src/utils/date.js:2-7 | swapping the arguments negates the count; `daysBetween(a, a)` is 0 |
| DateUtils.SameDayIffNoDaysBetween | src/utils/date.js:2-13 | `isSameDay(a, b)` holds exactly when `daysBetween(a, b)` is 0; `isSameDay` is symmetric |
| DateUtils.DaysBetweenIgnoresTimeOfDay | src/utils/date.js:4-6 | two instants of the same day give the same count to any `b` |
| StreakService.Bumped | src/services/streakService.js:23-34 | the last played day becomes today; the best streak is at least the streak unless the user already played today; other fields are kept |
| StreakService.BumpSortingStreak | src/services/streakService.js:11-38 | an unknown user gives null and changes nothing; otherwise the stored user becomes `Bumped` and is returned |
| StreakService.BumpIdempotentWithinDay | src/services/streakService.js:23 | a second play on the same day changes nothing |
| StreakService.BumpStreakRule | src/services/streakService.js:25-33 | a play the day after the last one adds 1 to the streak; any other first play of a day sets it to 1; best becomes max(old best, new streak) |
| StreakService.BumpKeepsBestAtLeastStreak | src/services/streakService.js:30-33 | best stays at least the streak and never decreases |
| StreakService.PlayRunStreak | src/services/streakService.js:23-34 | plays on k consecutive days give a streak of k, added to the old streak when the run starts the day after the last play |
| SortingStreakReset.AfterReset | src/jobs/sortingStreakReset.js:12-21 | only `sortingStreak` can change, only to 0, and exactly for the users the query selects |
| SortingStreakReset.ResetTable | src/jobs/sortingStreakReset.js:12-21 | the reset keeps the set of users |
| SortingStreakReset.ResetStreaks | src/jobs/sortingStreakReset.js:12-21 | the user table becomes `ResetTable` of the old table |
| SortingStreakReset.RecentPlayerKeepsStreak | src/jobs/sortingStreakReset.js:16 | a user who played today or yesterday keeps the streak |
| SortingStreakReset.StaleStreakIsZeroed | src/jobs/sortingStreakReset.js:15-19 | a positive streak whose last day is missing or before yesterday drops to 0; best is kept |
| SortingStreakReset.NullBucketNotReset | src/jobs/sortingStreakReset.js:15-16 | a stored null last day matches neither `$exists: false` nor `$lt`, so the streak is kept |
| SortingStreakReset.ResetIdempotent | src/jobs/sortingStreakReset.js:12-21 | running the reset twice on one day equals running it once |
| GameSortingService.Completed | src/services/gameSortingService.js:7-17 | the session is completed and its day is filled only when absent |
| GameSortingService.CompleteGameSession | src/services/gameSortingService.js:6-22 | an unknown session fails with "Session not found" and changes nothing; otherwise the session is completed and the streak bumped with the same day |
| PointsHistory.MapHistoryEntry | src/services/pointsHistoryService.js:4-19 | identifiers as strings; the reference is kept exactly when it is present and its trim is not empty, else null |
| PointsHistory.StoredEntry | src/models/pointsHistory.js:5-27 | the stored entry carries the given user, amount, source and time; the reference as the schema trims it |
| PointsHistory.RecordPointsChange | src/services/pointsHistoryService.js:28-43 | a source outside the schema's list fails and writes nothing; otherwise exactly one entry is appended and returned in mapped form |
| PointsHistory.RecordedReference | src/services/pointsHistoryService.js:6-9 | a recorded reference reads back trimmed when it is not blank, and as null when it is |
| PointsHistory.EcoenzimNotALedgerSource | src/controllers/ecoenzimController.js:275-281 | the spelling "ecoenzim" is not in the ledger's source list, "ecoenzym" is |
| PointsHistory.PageFor | src/services/pointsHistoryService.js:21-26 | 1 <= limit <= 100 (20 when missing or 0, clamped otherwise); page >= 1 (1 when missing or below 1) |
| PointsHistory.SkipsEarlierPages | src/services/pointsHistoryService.js:24 | skip = (page - 1) * limit |
| PointsHistory.PaginationOfNumerals | src/services/pointsHistoryService.js:21-26 | a numeral limit in [1, 100] and page >= 1 are taken as given |
| PointsHistory.Pages | src/services/pointsHistoryService.js:167 | pages >= 1; for a positive total, (pages - 1) * limit < total <= pages * limit; 1 for no entries |
| PointsHistory.CoerceDate | src/services/pointsHistoryService.js:52-63 | falsy gives none; a number is kept exactly when it is a valid time; other values are parsed as strings and kept exactly when the parse is a valid time, as that time |
| PointsHistory.CoerceNumber | src/services/pointsHistoryService.js:81-86 | null and undefined give none; otherwise `Number(v)`, none for NaN |
| PointsHistory.CoerceNumberOfNumeral | src/services/pointsHistoryService.js:83 | a numeral string reads as its number and "" reads as 0 |
| PointsHistory.StringItemTokens | src/services/pointsHistoryService.js:69-76 | every token is non-empty, trimmed and free of commas |
| PointsHistory.CommaTokens | src/services/pointsHistoryService.js:72-74 | every part is non-empty, trimmed and free of commas |
| PointsHistory.LowerAll | src/services/pointsHistoryService.js:77 | element k is the lowercase of token k, same length |
| PointsHistory.NormalizeSources | src/services/pointsHistoryService.js:65-79 | falsy gives []; otherwise the lowercased comma-split tokens of the string items, each kept at its first occurrence in order (hence no duplicates, none empty, comma-free or with capitals) |
| PointsHistory.SingleToken | src/services/pointsHistoryService.js:72-74 | a clean token splits to itself |
| PointsHistory.ArraySources | src/services/pointsHistoryService.js:65-79 | an array of clean tokens normalises to its lowercased tokens deduplicated |
| PointsHistory.CleanTokensKept | src/services/pointsHistoryService.js:68-76 | clean tokens passed as an array come out of the tokenizer unchanged |
| PointsHistory.SourceFilterFor | src/services/pointsHistoryService.js:108-113 | no condition for 0 sources, equality for 1, membership for 2 or more |
| PointsHistory.SourceFilterAdmits | src/services/pointsHistoryService.js:108-113 | whatever its shape, the condition admits exactly the listed sources, or every source for none |
| PointsHistory.NormalizeDirection | src/services/pointsHistoryService.js:129-130 | a string gives its trimmed lowercase, anything else none |
| PointsHistory.DirectionBounds | src/services/pointsHistoryService.js:125-143 | "credit" sets the lower bound to max(min, 0) or 0; "debit" sets the upper bound to min(max, 0) or 0; any other direction keeps the bounds |
| PointsHistory.DirectionSelectsSign | src/services/pointsHistoryService.js:129-143 | "credit" admits exactly the non-negative amounts in the given bounds; "debit" exactly the non-positive ones |
| PointsHistory.RangeCondition | src/services/pointsHistoryService.js:145-147 | the points condition is set exactly when a bound exists |
| PointsHistory.BuildFilter | src/services/pointsHistoryService.js:102-147 | the user when given; the source condition of the normalised list; a date range when either end is a valid date; the points range after the direction when a bound exists |
| PointsHistory.PointsBounds | src/services/pointsHistoryService.js:123-143 | the given bounds with the direction's bound applied |
| PointsHistory.MatchCount | src/services/pointsHistoryService.js:156 | the count is at most the number of entries |
| PointsHistory.MatchingIds | src/services/pointsHistoryService.js:149-157 | exactly the positions of the entries passing the filter: each listed one passes, every passing one is listed, in strictly increasing ledger order, `MatchCount` of them |
| PointsHistory.Window | src/services/pointsHistoryService.js:151-152 | `limit` items after skipping `skip`, in order |
| PointsHistory.PageOf | src/services/pointsHistoryService.js:149-159 | min(limit, total - skip) items; the `k`-th is the mapped form of the `skip + k`-th newest matching entry |
| PointsHistory.Query | src/services/pointsHistoryService.js:149-170 | the total counts the entries passing the filter; page, limit and pages as normalised; the `k`-th item is the mapped `skip + k`-th newest matching entry (`Answers`) |
| PointsHistory.AnswersFromParts | src/services/pointsHistoryService.js:149-170 | a count and a page of the matching positions, newest first, make up an answer |
| PointsHistory.Search | src/services/pointsHistoryService.js:88-170 | `Answers` for the filter built from the arguments and the normalised page window: the count and the newest-first page of matching entries |
| PointsHistoryAdmin.ParseBoolean | src/controllers/pointsHistoryAdminController.js:19-26 | a boolean as it is; a string is true exactly when its trimmed lowercase is "1", "true" or "yes"; anything else false |
| PointsHistoryAdmin.ParseBooleanIgnoresPadding | src/controllers/pointsHistoryAdminController.js:19-26 | white space on both sides of a string flag and its letter case do not change how it reads |
| PointsHistoryAdmin.ReadsAsTrimmed | src/controllers/pointsHistoryAdminController.js:19-26 | a string flag reads as its trimmed text lowercased |
| PointsHistoryAdmin.ParseArrayParam | src/controllers/pointsHistoryAdminController.js:28-36 | a falsy value gives no tokens; every token is non-empty, trimmed and comma-free |
| PointsHistoryAdmin.ParseArrayParamOfJoin | src/controllers/pointsHistoryAdminController.js:28-36 | a comma-joined list of clean tokens parses back to the same tokens |
| PointsHistoryAdmin.SourceTokens | src/controllers/pointsHistoryAdminController.js:54-55 | the `sources` tokens followed by the `source` tokens |
| PointsHistoryAdmin.AdminSearchArgs | src/controllers/pointsHistoryAdminController.js:57-74 | the tokens as an array; the user trimmed or null when blank; the direction trimmed and lowercased or null when blank; dates, bounds, limit and page as given |
| PointsHistoryAdmin.AdminSourcesReachFilter | src/controllers/pointsHistoryAdminController.js:54-62 | the search filters on the query's tokens lowercased, each kept once at its first occurrence |
| PointsHistoryAdmin.AdminDirectionReachesFilter | src/controllers/pointsHistoryAdminController.js:67-70 | the direction the search applies is the typed one, whatever its case and padding |
| PointsHistoryAdmin.ErrorStatus | src/controllers/pointsHistoryAdminController.js:11-12 | the failure's status when it is a positive integer, the fallback otherwise |
| PointsHistoryAdmin.ErrorMessage | src/controllers/pointsHistoryAdminController.js:8-10 | the failure's trimmed message when non-blank, the fallback otherwise |
| PointsHistoryAdmin.ListingFailure | src/controllers/pointsHistoryAdminController.js:77-79 | an error answer: status 400 and "Gagal memuat riwayat poin" unless the failure carries its own |
| PointsHistoryAdmin.ListPointsHistoryAdmin | src/controllers/pointsHistoryAdminController.js:38-79 | a failing store is answered through `respondError` (400 or its own status); otherwise the search's answer for the assembled arguments, filtering on the deduplicated lowercased tokens |
| DailyTaskChecklistService.SwapIndex | src/services/dailyTaskChecklistService.js:13 | with a random value in [0, 1), the position swapped with `i` lies in [0, i] |
| DailyTaskChecklistService.Swap | src/services/dailyTaskChecklistService.js:14 | exchanging two positions keeps the length |
| DailyTaskChecklistService.SwapPermutes | src/services/dailyTaskChecklistService.js:14 | exchanging two positions keeps the multiset of elements |
| DailyTaskChecklistService.ShuffleFromPermutes | src/services/dailyTaskChecklistService.js:12-15 | the swaps from position `i` down to 1 keep the length and the multiset of elements |
| DailyTaskChecklistService.ShuffledPermutes | src/services/dailyTaskChecklistService.js:10-17 | the shuffle is a permutation of its input |
| DailyTaskChecklistService.ShuffleArray | src/services/dailyTaskChecklistService.js:10-17 | the in-place loop over a copy produces exactly the shuffle of the input, which is left as it was |
| DailyTaskChecklistService.DistinctPermutation | src/services/dailyTaskChecklistService.js:46-47 | a permutation of a list without repetitions has none either |
| DailyTaskChecklistService.SelectionFromPool | src/services/dailyTaskChecklistService.js:46-47 | min(5, n) tasks, all from the pool, distinct when the pool is |
| DailyTaskChecklistService.Pad2Digits | src/services/dailyTaskChecklistService.js:34-35 | a number below 100 pads to its two decimal digits |
| DailyTaskChecklistService.DateStringShape | src/services/dailyTaskChecklistService.js:33-36 | the date string is the year, a dash, the two-digit month, a dash, the two-digit day |
| DailyTaskChecklistService.AppendPad2 | src/services/dailyTaskChecklistService.js:37 | appending a padded number below 100 shifts the decimal value by two places |
| DailyTaskChecklistService.SeedValue | src/services/dailyTaskChecklistService.js:37 | the seed digits parse to yyyy * 10000 + mm * 100 + dd |
| DailyTaskChecklistService.EntryFor | src/services/dailyTaskChecklistService.js:64-72 | the entry carries the row's id, completion and leaf, and the task's id |
| DailyTaskChecklistService.BackedKept | src/services/dailyTaskChecklistService.js:49-62 | an entry stays backed by its row when later rows are appended |
| DailyTaskChecklistService.AllBackedStep | src/services/dailyTaskChecklistService.js:49-74 | appending rows keeps earlier entries backed, and the next entry extends the list |
| DailyTaskChecklistService.GetOrCreateRow | src/services/dailyTaskChecklistService.js:51-62 | the user's first row for the task is reused and nothing changes; otherwise exactly one unchecked row is appended; other tasks' rows stay as found |
| DailyTaskChecklistService.CollectEntries | src/services/dailyTaskChecklistService.js:49-74 | one entry per selected task, each backed by the user's row for it; rows are only appended, each a new unchecked row for a selected task that had none, no task getting two; nothing is appended when every row exists |
| DailyTaskChecklistService.CollectStep | src/services/dailyTaskChecklistService.js:49-74 | one find-or-create step keeps the old rows, the backing of the entries and the appended-rows property |
| DailyTaskChecklistService.AppendedForStep | src/services/dailyTaskChecklistService.js:52-64 | appending a new row for a selected task without a row keeps the appended rows one per task |
| DailyTaskChecklistService.GetTodayChecklistForUser | src/services/dailyTaskChecklistService.js:19-80 | an empty pool fails with 404 NO_DAILY_TASKS_AVAILABLE and writes nothing; otherwise the date string and one entry per selected task whose completion is its row's; existing rows are untouched, and each new one is an unchecked row for a selected task that had none, at most one per task |
| DailyTaskController.GetTodayTasks | src/controllers/dailyTaskController.js:19-55 | 404 "No tasks available" exactly for an empty pool; otherwise the "YYYY-MM-DD" date and the first min(5, n) tasks of the pool shuffled with the date's seed, all from the pool |
| DailyController.LocaleDateSplit | src/controllers/dailyController.js:27-28 | splitting the "d/m/yyyy" date on "/" gives day, month and year |
| DailyController.LocaleRoundTrip | src/controllers/dailyController.js:31-37 | the locale parts give the same seed digits and date string as the zero-padded date |
| DailyController.GetTodayTasksFromLocale | src/controllers/dailyController.js:19-39 | 404 exactly for an empty pool; otherwise the same date and the same at most five distinct pool tasks as the other handler |
| DailyTaskChecklistController.MarkComplete | src/controllers/dailyTaskChecklistController.js:19-39 | 404 "Checklist not found" with no change for an unknown id; otherwise the row becomes completed at `now` and nothing else of it changes |
| DailyTaskChecklistController.Uncheck | src/controllers/dailyTaskChecklistController.js:42-62 | 404 with no change for an unknown id; otherwise the row becomes not completed with no completion time and nothing else of it changes |
| DailyTaskChecklistController.GeneratedRows | src/controllers/dailyTaskChecklistController.js:90-94 | one new unchecked row of the user per task, in pool order |
| DailyTaskChecklistController.GenerateDailyChecklist | src/controllers/dailyTaskChecklistController.js:65-101 | 400 when the user has a row created since midnight, else 404 for no tasks, both writing nothing; otherwise the rows are appended and their count returned |
| DailyTaskChecklistController.GenerateOncePerDay | src/controllers/dailyTaskChecklistController.js:70-80 | once a generation succeeded today, a second one the same day is refused |
| DailyTaskChecklistModel.NewChecklist | src/models/dailyTaskChecklist.js:4-33 | a new row holds the user and task, is not completed, has no completion time and no leaf, and carries its creation time |
| DailyTaskChecklistModel.PreSave | src/models/dailyTaskChecklist.js:36-41 | only the completion time can change; it is stamped exactly when completion was modified, is true and no time is set; a set time is never overwritten, and nothing changes while not completed |
| DailyTaskChecklistModel.FindRow | src/services/dailyTaskChecklistService.js:51-54 | the first row of the user for the task, or none exactly when there is no such row |
| DailyTaskChecklistModel.FindRowAppend | src/services/dailyTaskChecklistService.js:51-62 | appending a row never moves where an existing pair is first found, nor any pair the row is not for |
| DailyTaskChecklistModel.SaveRow | src/models/dailyTaskChecklist.js:30-41 | the saved row is the hook's result against the stored row, with `updatedAt` moved to now; no other row changes |
| DailyTaskChecklistModel.CreateRow | src/models/dailyTaskChecklist.js:36-41 | the hook's result is appended and its position returned |
| TreeLeavesController.Revived | src/controllers/treeLeavesController.js:13-15 | the leaf turns green, no longer needs recovery, its change is stamped, and nothing else of it changes |
| TreeLeavesController.Yellowed | src/controllers/treeLeavesController.js:99-101 | the leaf turns yellow, needs recovery, its change is stamped, and nothing else of it changes |
| TreeLeavesController.LinkChecklist | src/controllers/treeLeavesController.js:19-21 | the checklist row, when it exists, points to the leaf; every other row is kept |
| TreeLeavesController.GreenLeafCounted | src/controllers/treeLeavesController.js:41-48 | the green count grows by one from the tracker's (0 for a missing tracker, which is created); the other counters are kept |
| TreeLeavesController.NewFruit | src/controllers/treeLeavesController.js:55-60 | a fruit of the user, ready now, not claimed, no points yet |
| TreeLeavesController.NewGreenLeafCount | src/controllers/treeLeavesController.js:31-51 | a new green leaf raises both the user's green count and leaf count by exactly one |
| TreeLeavesController.LeafAdded | src/controllers/treeLeavesController.js:31 | a new leaf joins exactly the user's leaf sets whose filter it matches |
| TreeLeavesController.HandleChecklistComplete | src/controllers/treeLeavesController.js:8-65 | with a yellow leaf, some yellow leaf of the user is revived and linked and trackers and fruits are untouched; otherwise a new green leaf numbered count + 1 is stored and linked, the tracker counts it, and a fruit appears exactly when the green count becomes a multiple of 5 |
| TreeLeavesController.ActiveUsers | src/controllers/treeLeavesController.js:82-92 | users who completed a row yesterday, all of them users with rows |
| TreeLeavesController.Swept | src/controllers/treeLeavesController.js:95-117 | the sweep keeps the set of leaves |
| TreeLeavesController.OldestStable | src/controllers/treeLeavesController.js:97-109 | where a user's leaves are untouched, the user's oldest leaf of each status stays the same |
| TreeLeavesController.YellowOne | src/controllers/treeLeavesController.js:96-105 | handling one more inactive user yellows exactly that user's oldest green leaf |
| TreeLeavesController.GreenOne | src/controllers/treeLeavesController.js:108-117 | handling one more active user revives exactly that user's oldest yellow leaf |
| TreeLeavesController.NoLeafUntouched | src/controllers/treeLeavesController.js:98-110 | a user without a leaf of the status looked for is left alone |
| TreeLeavesController.YellowOldestGreen | src/controllers/treeLeavesController.js:97-104 | the user's oldest green leaf, if any, turns yellow and nothing else changes |
| TreeLeavesController.ReviveOldestYellow | src/controllers/treeLeavesController.js:109-116 | the user's oldest yellow leaf, if any, turns green and nothing else changes |
| TreeLeavesController.YellowOldestGreenLeaves | src/controllers/treeLeavesController.js:96-105 | after the first loop, the leaves are those of the sweep over the given users |
| TreeLeavesController.ReviveOldestYellowLeaves | src/controllers/treeLeavesController.js:108-117 | after the second loop, the leaves are those of the sweep over both user sets |
| TreeLeavesController.UpdateYellowLeavesForInactiveUsers | src/controllers/treeLeavesController.js:69-123 | users with rows but no completion yesterday lose their oldest green leaf to yellow; users with a completion yesterday get their oldest yellow leaf back; no leaf is created or deleted |
| TreeLeavesController.SweepOneLeafPerUser | src/controllers/treeLeavesController.js:95-117 | the sweep changes at most one leaf of each user |
| TreeLeavesController.GreenLeafRemoved | src/controllers/treeLeavesController.js:135-139 | the green count drops by one; the other counters are kept |
| TreeLeavesController.HandleChecklistUncheck | src/controllers/treeLeavesController.js:127-148 | with no leaf grown for the checklist nothing changes; otherwise one such leaf is deleted and the user's tracker, if any, counts one green leaf less |
| TreeLeavesController.UncheckUndoesNewLeaf | src/controllers/treeLeavesController.js:27-38 | unchecking after a completion on the new-leaf path deletes exactly the leaf just grown |
| TreeLeavesModel.NewLeaf | src/models/treeLeaves.js:3-49 | a new leaf is green, not in need of recovery, created on today's midnight, with no status change recorded |
| TreeLeavesModel.LeafPreSave | src/models/treeLeaves.js:52-57 | only the status change date can change, and it is stamped exactly when the status was modified (always for a new leaf) |
| TreeLeavesModel.SaveLeaf | src/models/treeLeaves.js:52-57 | the saved leaf is the hook's result against the stored one; no other leaf changes |
| TreeLeavesModel.InsertLeaf | src/models/treeLeaves.js:52-57 | the hook's result is stored under a fresh identifier |
| TreeLeavesModel.OldestExists | src/controllers/treeLeavesController.js:97-109 | a user with a leaf of some status has an oldest one |
| TreeLeavesModel.OldestUnique | src/controllers/treeLeavesController.js:97-109 | the oldest matching leaf is unique |
| TreeLeavesModel.LeafSet | src/controllers/treeLeavesController.js:31-51 | exactly the user's leaves passing the optional status filter |
| TreeFruitsController.AvailableFruits | src/controllers/treeFruitsController.js:7-15 | exactly the user's unclaimed fruits, as stored |
| TreeFruitsController.Harvested | src/controllers/treeFruitsController.js:28-30 | the fruit is claimed now and worth 10 points; owner and ready date are kept |
| TreeFruitsController.ClaimCheck | src/controllers/treeFruitsController.js:23-25 | success exactly for the user's own unclaimed fruit; 404 exactly when the user has no such fruit, 400 when it is already claimed |
| TreeFruitsController.ClaimAtMostOnce | src/controllers/treeFruitsController.js:25-31 | a harvested fruit is refused with 400 when claimed again |
| TreeFruitsController.FruitCounted | src/controllers/treeFruitsController.js:36-43 | the harvested count grows by one and the leaf counters are kept |
| TreeFruitsController.ClaimFruit | src/controllers/treeFruitsController.js:18-52 | a refused claim changes nothing; otherwise the fruit is harvested, the stored user gains 10 points and the tracker, if any, counts one more fruit; no ledger entry is written |
| TreeTrackersController.CreateTreeTrackerForUser | src/controllers/treeTrackersController.js:5-27 | an existing tracker is returned unchanged; otherwise a zeroed one is stored and returned |
| TreeTrackersController.GetTreeTracker | src/controllers/treeTrackersController.js:31-43 | the user's tracker, 404 exactly when there is none |
| TreeTrackersController.CastCounter | src/controllers/treeTrackersController.js:49-60 | a counter missing from the body is dropped from the `$set`; an array, or a value whose `Number(v)` is NaN, fails to cast; any other value is written as `Number(v)` |
| TreeTrackersController.Overwritten | src/controllers/treeTrackersController.js:55-60 | no tracker when any counter fails to cast; otherwise each given counter is overwritten with its number, each missing counter keeps its stored value, and the activity date is now |
| TreeTrackersController.UpdateTreeTracker | src/controllers/treeTrackersController.js:46-72 | a counter that fails to cast answers 500 with no change, whether or not a tracker exists; otherwise 404 with no change without a tracker, or the stored tracker replaced by the `$set` applied to it |
| TreeTrackersController.CreateNewTreeTracker | src/controllers/treeTrackersController.js:75-107 | 400 with the existing tracker and no change, or 201 with a new zeroed tracker stored |
| EcoenzimController.CalculateProjectStatus | src/controllers/ecoenzimController.js:6-21 | a completed project stays completed and unclaimable; strictly after the end date, at least three verified uploads give completed and claimable, fewer give cancelled; before that ongoing or not started by the started flag; claimable exactly in the completed-after-end case |
| EcoenzimController.ClaimableIsCompleted | src/controllers/ecoenzimController.js:16-20 | a claimable project is reported as completed |
| EcoenzimController.StatusRulesAgreeAfterEnd | src/controllers/ecoenzimController.js:9-18 | for a started project strictly after the end date, the handlers' rule and the model's update give the same status and claim flag when the counts agree |
| EcoenzimController.StatusRulesDisagreeAtEnd | src/controllers/ecoenzimController.js:9 | at the end date itself the handlers' rule still says ongoing while the model's update closes the project |
| EcoenzimController.Synced | src/controllers/ecoenzimController.js:250-255 | only the status and the claim flag are overwritten |
| EcoenzimController.NewUpload | src/controllers/ecoenzimController.js:117-167 | a blank month makes a daily check-in, any other month a photo upload; the upload carries the project, user and day |
| EcoenzimController.NewCheckIn | src/controllers/ecoenzimController.js:153-167 | a check-in is accepted exactly when its points are absent or a number; it has no month or photo, is verified and worth the given points or 1 |
| EcoenzimController.NewPhotoUpload | src/controllers/ecoenzimController.js:129-167 | accepted exactly for month 1, 2 or 3 with a photo on a day the upload-day rule allows and a stage not yet recorded; pending and worth 50 |
| EcoenzimController.NewUploadKeepsStagesUnique | src/controllers/ecoenzimController.js:145-152 | recording an upload keeps each photo stage recorded at most once per project |
| EcoenzimController.AfterUpload | src/controllers/ecoenzimController.js:171-184 | the project's pending points become 50 per verified upload before its status update |
| EcoenzimController.CreateUpload | src/controllers/ecoenzimController.js:113-191 | 404 for an unknown project and a refused upload's error change nothing; otherwise the upload is appended, the pending points recomputed and the status updated |
| EcoenzimController.CheckInAddsFifty | src/controllers/ecoenzimController.js:166-178 | a daily check-in raises the project's pending points by exactly 50 |
| EcoenzimController.MarkVerified | src/controllers/ecoenzimController.js:222-223 | exactly one upload becomes verified, the rest are kept |
| EcoenzimController.VerifyAddsOne | src/controllers/ecoenzimController.js:222-231 | verifying adds one to its project's verified count unless it was verified already |
| EcoenzimController.VerifyUpload | src/controllers/ecoenzimController.js:217-238 | 404 with no change for an unknown upload; otherwise it is verified and its project's pending points become 50 per verified upload; a missing project fails with 500 after the upload was saved |
| EcoenzimController.Claimed | src/controllers/ecoenzimController.js:265-270 | pending points become points, pending is cleared, the project is claimed now, completed and no longer claimable |
| EcoenzimController.ClaimedNotClaimable | src/controllers/ecoenzimController.js:16 | a claimed project can never be claimed again |
| EcoenzimController.ClaimPoints | src/controllers/ecoenzimController.js:244-288 | 404 for an unknown project; otherwise the status is recalculated and stored; an unclaimable project gives 400; a claimable one is closed with its points, and when those are non-zero the ledger refuses the source "ecoenzim", so the answer is 500 and the ledger is unchanged |
| EcoenzimController.Cancellable | src/controllers/ecoenzimController.js:299-313 | exactly the ongoing projects past their end date with fewer than three verified uploads |
| EcoenzimController.AfterAutoCancel | src/controllers/ecoenzimController.js:313-316 | such a project is cancelled and unclaimable; any other is untouched |
| EcoenzimController.AutoCancelIdempotent | src/controllers/ecoenzimController.js:294-327 | running the job twice at the same moment cancels nothing more |
| EcoenzimController.CancelIfShort | src/controllers/ecoenzimController.js:305-318 | one expired project is cancelled exactly when it has fewer than three verified uploads |
| EcoenzimController.ShortGrows | src/controllers/ecoenzimController.js:317 | the cancelled count grows by one exactly for a project that is cancelled |
| EcoenzimController.VisitOne | src/controllers/ecoenzimController.js:305-319 | visiting one more project updates exactly that project |
| EcoenzimController.Visit | src/controllers/ecoenzimController.js:305-319 | one loop step extends the visited set and the count |
| EcoenzimController.CancelEach | src/controllers/ecoenzimController.js:305-319 | after the loop every visited project is updated and the count is the number cancelled |
| EcoenzimController.AutoCancelExpiredProjects | src/controllers/ecoenzimController.js:294-327 | every expired project with fewer than three verified uploads is cancelled, every other project is left alone, no project is added or removed, and the number cancelled is returned |
| EcoenzimProjectModel.NewProject | src/models/ecoenzimProject.js:5-23 | not started, no start time, status not started, 0 pending points and points, not claimable, not claimed |
| EcoenzimProjectModel.VerifiedCount | src/controllers/ecoenzimController.js:11-14 | the count is at most the number of uploads |
| EcoenzimProjectModel.MilestonesAmongVerified | src/models/ecoenzimProject.js:28-32 | the verified photo stages are among the verified uploads |
| EcoenzimProjectModel.CountsAppend | src/models/ecoenzimProject.js:28-32 | appending an upload adds one to a count exactly when the upload is counted |
| EcoenzimProjectModel.StatusUpdated | src/models/ecoenzimProject.js:25-43 | a started project at or after its end date becomes completed and claimable with three photo stages, cancelled otherwise; before that a started "not started" project becomes ongoing; nothing else changes |
| EcoenzimProjectModel.StatusUpdateIdempotent | src/models/ecoenzimProject.js:25-43 | updating twice at the same moment equals updating once |
| EcoenzimProjectModel.UnstartedUntouched | src/models/ecoenzimProject.js:27-38 | a project never started is left exactly as it is |
| EcoenzimProjectModel.StatusFinalAfterEnd | src/models/ecoenzimProject.js:27-34 | once the end date has passed, a later update changes nothing |
| EcoenzimProjectModel.UpdateProjectStatus | src/models/ecoenzimProject.js:25-43 | the stored project becomes its status update over its verified photo stages |
| VoucherService.StatusName | src/services/voucherService.js:42-56 | the four status spellings the services use |
| VoucherService.DetermineVoucherStatus | src/services/voucherService.js:42-56 | inactive exactly when switched off; upcoming exactly when on and before the window; expired exactly when on, not upcoming, and past the window or with a used-up limited stock; active in exactly the remaining case |
| VoucherService.StatusSideEffect | src/services/voucherService.js:31-40 | "inactive" and "expired" switch the voucher off, "active" and "upcoming" switch it on, anything else leaves the switch |
| VoucherService.TrimmedStrings | src/services/voucherService.js:18-20 | every kept element is non-blank and trimmed, and there are no more of them than items |
| VoucherService.NormalizeStringArray | src/services/voucherService.js:15-29 | a falsy value or one neither array nor string gives []; every element is non-blank and trimmed; from a string no element holds a line break |
| VoucherService.CleanStringsKept | src/services/voucherService.js:17-21 | an array of clean strings keeps every string, in order |
| VoucherService.NormalizeStringArrayIdempotent | src/services/voucherService.js:15-29 | normalizing a normalized list again changes nothing |
| VoucherService.CleanArrayKept | src/services/voucherService.js:17-21 | an array of clean strings normalizes to those strings |
| VoucherService.NormalizeJoinedLines | src/services/voucherService.js:22-27 | clean lines joined with line breaks read back as the same lines |
| VoucherService.ProgressOf | src/services/voucherService.js:60-67 | the target is the price but at least 1; the percentage is the rounded share capped at 100, 100 once the target is reached, never negative for a non-negative balance |
| VoucherService.ProgressMonotone | src/services/voucherService.js:60-67 | more points never show less progress |
| VoucherService.MapVoucher | src/services/voucherService.js:58-99 | the derived status; a progress exactly for a known user, computed from the user's points; the voucher's own fields (slug, name, category, price, stock, counts, switch) copied |
| VoucherService.EnsureVoucherAvailability | src/services/voucherService.js:426-439 | 404 for a missing voucher; otherwise it passes exactly when its status is active, and any refusal is a 400 |
| VoucherService.EvaluateVoucherEligibility | src/services/voucherService.js:393-424 | the points (0 when unknown), the price, the stock left floored at 0; eligible exactly when there is no reason, that is when the voucher is available and affordable; the first reason is the availability refusal; the points reason appears exactly when the user is short |
| VoucherService.PreviewVoucher | src/services/voucherService.js:451-461 | 404 for a missing voucher, then for a missing user; otherwise the user's eligibility |
| VoucherService.HexDigit | src/services/voucherService.js:447 | an upper-case hexadecimal digit |
| VoucherService.HexUpper | src/services/voucherService.js:447 | two upper-case hexadecimal digits per byte |
| VoucherService.HexRoundTrip | src/services/voucherService.js:447 | the hexadecimal suffix reads back as the random bytes |
| VoucherService.ByteDigits | src/services/voucherService.js:447 | the two digits of a byte read back as the byte |
| VoucherService.AlnumOnly | src/services/voucherService.js:445 | only ASCII letters and digits remain, never more characters than given |
| VoucherService.CodePrefix | src/services/voucherService.js:442-446 | one to three upper-case letters or digits from the slug's first three characters, "HER" when none |
| VoucherService.RedemptionCode | src/services/voucherService.js:441-449 | PREFIX-SUFFIX with a six-digit suffix, 8 to 10 characters |
| VoucherService.RedemptionCodeRoundTrip | src/services/voucherService.js:441-449 | the code splits at its dash into the prefix and a suffix that reads back as the random bytes |
| VoucherService.Redeemed | src/services/voucherService.js:474-477 | a limited stock loses one unit, never below 0; one more redemption is counted; nothing else changes |
| VoucherService.Charged | src/services/voucherService.js:479 | the balance drops by the price, never below 0; nothing else changes |
| VoucherService.NoteOf | src/services/voucherService.js:491 | a string note trimmed, null when blank or not a string |
| VoucherService.ChargeIsExact | src/services/voucherService.js:470-479 | a user who can afford the voucher pays exactly its price, which is what the ledger entry records |
| VoucherService.AvailableStockTakesOne | src/services/voucherService.js:474-475 | an available voucher with a limited stock loses exactly one unit |
| VoucherService.LastUnitRedeemedOnce | src/services/voucherService.js:436-438 | after the last unit is redeemed the voucher is sold out and refused again |
| VoucherService.SpendEntry | src/services/voucherService.js:496-502 | the entry is minus the price, source "voucher", referring to the redemption, at the redemption time |
| VoucherService.IssueRedemption | src/services/voucherService.js:483-502 | a negative price or a taken code fails with 500 and writes nothing; otherwise the unused redemption is appended and the spend recorded |
| VoucherService.RecordVoucherSpend | src/services/voucherService.js:496-502 | exactly one "voucher" entry is appended to the ledger |
| VoucherService.RedeemCheck | src/services/voucherService.js:464-472 | the availability refusal first, then 404 for a missing user, then 409 exactly when the user cannot afford it; success exactly for an active voucher and an affordable known user |
| VoucherService.RedeemVoucher | src/services/voucherService.js:463-505 | a refused redemption changes nothing; otherwise the voucher and user are saved, and the redemption with its code and the ledger entry of minus the price are appended unless the code is taken |
| VoucherService.SaveRedeemed | src/services/voucherService.js:474-481 | the voucher's counters and the user's balance are saved |
| VoucherService.RedemptionStatusFilter | src/services/voucherService.js:515-524 | no filter unless a non-blank string is given; that string trimmed and lowercased must name a redemption status, else 400 "Status riwayat tidak valid" |
| VoucherService.RedemptionStatusNamed | src/services/voucherService.js:519-520 | the status with that name, or none exactly when no status has it |
| VoucherService.RedemptionStatusFilterOfName | src/services/voucherService.js:516-523 | every status name, in any case and with any padding, selects that status |
| VoucherService.FilterOfName | src/services/voucherService.js:516-523 | a string that normalizes to a status name selects that status |
| VoucherService.Created | src/services/voucherService.js:112-140 | the created voucher is the draft with its derived status applied: on exactly when it would be active or upcoming |
| VoucherService.CreatedNeverExpired | src/services/voucherService.js:137-140 | a voucher is never created expired yet switched on: it shows as inactive instead |
| VoucherService.CreateVoucher | src/services/voucherService.js:101-144 | 400 without a slug, 409 when it is taken, a validation failure when the price is missing, the schema is broken (no name, a category outside the list, a negative price or stock) or the trimmed slug is taken, all changing nothing; otherwise the created voucher is stored under a fresh identifier |
| VoucherService.Draft | src/models/voucher.js:7-17 | slug and name trimmed, category defaulting to "other"; the schema accepts it exactly when slug and name are non-empty, the category is listed and price and stock are not negative |
| VoucherService.FieldsApplied | src/services/voucherService.js:163-192 | slug and switch are kept; a given name replaces the old one trimmed, a given category replaces the old one; the window's "from" and "until", when given, override the plain fields |
| VoucherService.AppliedStatus | src/services/voucherService.js:194-200 | the applied status is always truthy |
| VoucherService.Updated | src/services/voucherService.js:194-219 | an explicit switch wins; given text lists are normalized, absent ones kept; the slug as settled |
| VoucherService.UpdateDerivesActivity | src/services/voucherService.js:198-201 | without a status or a switch, an edit leaves the voucher on exactly when it is active or upcoming |
| VoucherService.UpdateToClosedStatusSwitchesOff | src/services/voucherService.js:194-201 | setting "inactive" or "expired" without a switch leaves the voucher off |
| VoucherService.EditVoucher | src/services/voucherService.js:163-219 | the step-by-step edits give exactly the edited voucher |
| VoucherService.UpdateVoucher | src/services/voucherService.js:146-223 | 404 for a missing voucher; any failure changes nothing; a success had its new slug free and a schema-valid result, which is stored |
| RewardService.NormalizeCode | src/services/rewardService.js:9-12 | none for a falsy value; otherwise a trimmed string, the trim of a given string |
| RewardService.NormalizeCodeIdempotent | src/services/rewardService.js:9-12 | a normalized code fed back in comes out unchanged |
| RewardService.RequestedCode | src/services/rewardService.js:244-249 | a code exactly when the normalized code is non-empty |
| RewardService.FindReward | src/services/rewardService.js:251-253 | the first stored reward whose code matches without regard to case, or none exactly when no reward matches |
| RewardService.FindRewardIgnoresCase | src/services/rewardService.js:7-253 | the lookup finds the same reward for a code and its upper case |
| RewardService.FindRewardSameKey | src/services/rewardService.js:7-253 | two codes that lowercase alike find the same reward |
| RewardService.DaySet | src/services/rewardService.js:219-226 | exactly the calendar days of the valid timestamps |
| RewardService.DaySetStep | src/services/rewardService.js:220-226 | one more timestamp adds its day, if it has one |
| RewardService.DaysUpToShrinks | src/services/rewardService.js:233-236 | stepping back from a day of the set leaves fewer days to walk |
| RewardService.StreakFrom | src/services/rewardService.js:231-236 | every day of the run back from the given day is in the set, and the day before it is not |
| RewardService.StreakFromUnique | src/services/rewardService.js:231-236 | a run is determined by the days present and the first day missing |
| RewardService.ComputeStreakDays | src/services/rewardService.js:217-238 | the number of consecutive days ending today that carry a timestamp; 0 when today has none |
| RewardService.CollectDays | src/services/rewardService.js:219-226 | the loop builds exactly the set of the timestamps' days |
| RewardService.CountBack | src/services/rewardService.js:231-236 | the walk back from today counts exactly the run ending today |
| RewardService.ClaimCheck | src/services/rewardService.js:244-302 | in order: 400 without a code, 404 for an unknown code, 400 for an inactive reward, 404 for an unknown user, 409 when the claim already awarded points, 409 when the streak is short; success exactly when none applies |
| RewardService.Settled | src/services/rewardService.js:304-334 | the claim is brought to the streak and completed; when it has awarded nothing yet it takes the reward's points and the claim time, otherwise it keeps them |
| RewardService.Credited | src/services/rewardService.js:335 | the user's total grows by the points; nothing else changes |
| RewardService.AwardPoints | src/services/rewardService.js:335-344 | the user's total and the ledger take the reward's points |
| RewardService.RecordRewardClaim | src/services/rewardService.js:338-344 | exactly one "reward" entry of the points, referring to the reward's code, is appended |
| RewardService.ClaimTimestamps | src/services/rewardService.js:292-295 | each row counts for its completion time, else its last update |
| RewardService.ClaimRewardMilestone | src/services/rewardService.js:240-358 | a refused claim changes nothing; otherwise the claim is settled and stored, and exactly when it had awarded nothing the user's total and the ledger take the reward's points, which are reported |
| RewardService.SettleClaim | src/services/rewardService.js:304-351 | the settled claim is stored, and points are awarded exactly when it awards now |
| RewardService.ClaimedOnce | src/services/rewardService.js:277-281 | once a claim awarded a reward worth points, every later claim of it by the same user fails as already claimed |
| RewardService.SettledAwards | src/services/rewardService.js:329-333 | a claim settled while it awards has awarded the reward's points |
| RewardService.CheckOfClaimed | src/services/rewardService.js:277-281 | a claim that has awarded points refuses the next claim, whatever the streak |
| RewardService.SafeProgress | src/services/rewardService.js:407 | never negative; a non-negative number is kept; not a number or not positive gives 0 |
| RewardService.ProgressSet | src/services/rewardService.js:408-419 | code and progress set, awarded points unset, completed exactly when the progress reaches the target; the claim time is kept, or none for a new claim |
| RewardService.UpdateMilestoneProgress | src/services/rewardService.js:386-422 | 400 without a code, 404 for an unknown one, both changing nothing; otherwise the claim is upserted |
| RewardService.ProgressUpdateReopensClaim | src/services/rewardService.js:416 | after a progress update a paid claim no longer counts as claimed: with a long enough streak claiming again passes and awards again |
| RewardService.CheckOfOpen | src/services/rewardService.js:277-302 | a claim that has awarded nothing passes once the streak is long enough |
| RewardService.ClaimStatusFilter | src/services/rewardService.js:438-447 | no filter for a falsy value; otherwise its string trimmed and lowercased must name a claim status, else 400 INVALID_STATUS |
| RewardService.ClaimStatusNamed | src/services/rewardService.js:440-441 | the status with that name, or none exactly when no status has it |
| RewardService.BlankStatusRefused | src/services/rewardService.js:438-445 | a blank string is truthy, so it is refused |
| RewardService.ClaimStatusFilterOfName | src/services/rewardService.js:439-446 | every status name, in any case and with any padding, selects that status |
| RewardService.StatusOfName | src/services/rewardService.js:439-446 | a string that normalizes to a status name selects that status |
| RewardService.NamedOfName | src/services/rewardService.js:440 | every claim status is found by its name |
| ProfileService.InsertDescending | src/services/profileService.js:22 | the result is strictly descending and holds exactly the old values and the new one |
| ProfileService.ConsDescending | src/services/profileService.js:22 | putting the head back in front of an insertion into the tail keeps the order and the values |
| ProfileService.SortedDays | src/services/profileService.js:14-22 | the distinct calendar days of the timestamps, latest first |
| ProfileService.SortedDaysStartLatest | src/services/profileService.js:22-27 | the first sorted day is the latest day of all |
| ProfileService.ProfileStreak | src/services/profileService.js:10-43 | 0 without timestamps or when the latest day is before today; otherwise the run of consecutive days ending at the latest day: all of them present and the day before absent |
| ProfileService.RunEnds | src/services/profileService.js:31-41 | a run at the head of the sorted days that stops there leaves out the day before it and covers every day of it |
| ProfileService.ComputeStreakDays | src/services/profileService.js:10-43 | the loop counts exactly the profile's streak |
| ProfileService.Completions | src/services/profileService.js:219-221 | exactly the completion times that the rows carry |
| ProfileService.AsRewardTimestamps | src/services/profileService.js:219-221 | the same completions as the reward claim reads them |
| ProfileService.StreaksAgree | src/services/profileService.js:10-43 | when no completion lies after today, the profile's streak equals the reward claim's streak |
| ProfileService.MapLeafActivity | src/services/profileService.js:45-51 | a leaf activity timed by the completion, untimed without one |
| ProfileService.MapVoucherActivity | src/services/profileService.js:53-62 | a redemption activity of minus the points deducted, timed by the redemption |
| ProfileService.MapCompletedProjectActivity | src/services/profileService.js:64-82 | the project's points or 0, its status and identifier, timed by its claim or else its end date |
| ProfileService.MapOngoingProjectActivity | src/services/profileService.js:84-97 | the pre-points earned or 0, timed by the project's last update |
| ProfileService.MapGameActivity | src/services/profileService.js:99-113 | the reward's points or 0, its day bucket, its claim time and the label "+N point" |
| ProfileService.MapFruitActivity | src/services/profileService.js:115-125 | the fruit's points, timed by its harvest when it has one |
| ProfileService.StreakActivities | src/services/profileService.js:224-266 | nothing without completions; otherwise a 7-day milestone exactly when the streak reaches 7, a 30-day one exactly when it reaches 30, and a broken streak exactly when the latest completion was two days before today |
| ProfileService.BrokenStreakTwoDaysBack | src/services/profileService.js:248-265 | a broken streak is reported exactly when the latest completion's day is two days before today |
| ProfileService.Timed | src/services/profileService.js:269 | exactly the activities that have a time, none added |
| ProfileService.InsertByTime | src/services/profileService.js:270 | the result stays newest first and holds the old activities plus the new one |
| ProfileService.NewestFirstTail | src/services/profileService.js:270 | the tail of a sorted feed is sorted |
| ProfileService.BehindNewest | src/services/profileService.js:270 | inserting behind the newest activity keeps the order and the activities |
| ProfileService.InsertedBehind | src/services/profileService.js:270 | nothing inserted behind the newest activity is more recent than it |
| ProfileService.NewerInFront | src/services/profileService.js:270 | an activity at least as recent as all of a sorted feed may lead it |
| ProfileService.SortNewestFirst | src/services/profileService.js:270 | newest first and a permutation of the activities |
| ProfileService.Feed | src/services/profileService.js:268-279 | every activity has a time, the feed is newest first, and it is a permutation of the timed activities |
| ProfileService.ClaimMap | src/services/profileService.js:200-208 | a key is present exactly when some claim has it as non-empty reward identifier or code, and it holds the last such claim |
| ProfileService.FileClaimStep | src/services/profileService.js:201-207 | filing one more claim keeps "each key holds the last claim filed under it" |
| ProfileService.FileClaimKey | src/services/profileService.js:201-207 | after filing a claim a key is present exactly when some claim so far is filed under it |
| ProfileService.FileClaimValue | src/services/profileService.js:201-207 | after filing a claim each key holds a claim filed under it with no later one filed there |
| ProfileService.ClaimFor | src/services/profileService.js:283-286 | the claim filed under the reward's identifier when there is one; none exactly when neither its identifier nor its code is filed |
| ProfileService.Milestone | src/services/profileService.js:281-309 | code and target copied; progress is the streak without a claim, and the larger of the streak and the recorded progress with one; points awarded and claim time come from the claim, or are 0 and none; claimable exactly when nothing was awarded, the target is positive and progress reaches it |
| ProfileService.ClaimableWhenStreakReaches | src/services/profileService.js:289-292 | a reward whose target the streak reaches and that awarded nothing is shown claimable |
| ProfileService.ClaimableOverstatesStreak | src/services/profileService.js:288-292 | recorded progress alone can show a reward claimable while claiming it is refused for a short streak |
| ProfileService.Card | src/services/profileService.js:321-336 | the voucher's price and stock with the listed progress, or 0 out of the price (at least 1) |
| ProfileService.FirstPerId | src/services/profileService.js:311-319 | no identifier twice, only listed vouchers, every listed identifier kept |
| ProfileService.Cards | src/services/profileService.js:325-336 | one card per listed voucher, in order |
| ProfileService.FirstPerIdStep | src/services/profileService.js:315-319 | one more voucher is kept exactly when its identifier is new |
| ProfileService.CardsGrow | src/services/profileService.js:315 | a card is added while fewer than five are taken, and none after |
| ProfileService.AvailableVouchers | src/services/profileService.js:311-338 | the cards of the first five vouchers of distinct identifiers: at most five, no identifier twice |
| ProfileService.RawActivities | src/services/profileService.js:210-217 | one activity per record of each source |
| ProfileService.Milestones | src/services/profileService.js:281-309 | one milestone per listed reward, in order, each with its claim and the streak |
| ProfileService.GetUserProfileSummary | src/services/profileService.js:127-379 | 404 USER_NOT_FOUND for an unknown user; otherwise the user's total, the feed with the streak events, the milestones and the available vouchers |
| HomeService.HabitOf | src/services/homeService.js:19-24 | the habit carries its task's title and is done exactly when the row is completed |
| HomeService.HabitsOf | src/services/homeService.js:19-24 | one habit per task, in order |
| HomeService.DoneCount | src/services/homeService.js:27 | the habits done, never more than all of them |
| HomeService.DoneCountExtremes | src/services/homeService.js:27 | all habits done count all of them; none done count none |
| HomeService.HabitPercent | src/services/homeService.js:28 | 0 without habits; otherwise the share done as the nearest whole percentage, halves up, between 0 and 100, 0 for none done and 100 for all |
| HomeService.PercentBounds | src/services/homeService.js:28 | a rounded share of a whole lies between 0 and 100 and is exact at none and at all |
| HomeService.NoHabits | src/services/homeService.js:47-54 | no habits, all counts 0, dated today |
| HomeService.BuildHabitsToday | src/services/homeService.js:13-58 | no tasks available or a 404 give the empty summary; any other failure is passed on; otherwise the habits of the tasks with their total, the number done and its percentage |
| HomeService.HabitPercentExtremes | src/services/homeService.js:26-28 | a day with every habit done reads 100%, one with none done 0% |
| HomeService.ProjectProgress | src/services/homeService.js:81-85 | between 0 and 100; 0 before the start; 100 from the end on |
| HomeService.ProgressMonotone | src/services/homeService.js:83-85 | progress never goes back as time passes |
| HomeService.DaysRemaining | src/services/homeService.js:86-89 | 0 once the end has passed; otherwise the number of days left, counting a started day |
| HomeService.LatestOngoing | src/services/homeService.js:67-78 | the most recently created ongoing project, or none exactly when no project is ongoing |
| HomeService.IndexOfProject | src/services/homeService.js:108-116 | the first position holding the identifier, or none exactly when no position does |
| HomeService.BatchNumber | src/services/homeService.js:117 | one more than the project's position in creation order, or 1 when it is not found |
| HomeService.BatchOfPosition | src/services/homeService.js:108-117 | with unique identifiers a project's batch number is its position plus one |
| HomeService.LatestVerifiedMonth | src/services/homeService.js:97-106 | the greatest month number among the project's verified uploads, or none exactly when none of them has one |
| HomeService.BuildEcoenzymSummary | src/services/homeService.js:60-127 | none exactly when no project is ongoing; otherwise the latest ongoing project's card with its progress and days remaining |
| HomeService.BatchOfOngoing | src/services/homeService.js:108-117 | with unique identifiers the card's batch counts the projects up to and including the ongoing one |
| HomeService.VoucherBanners | src/services/homeService.js:129-143 | one banner per listed voucher with its name, banner image and landing link; none when listing fails |
| HomeService.GetHomeSummary | src/services/homeService.js:145-185 | 404 USER_NOT_FOUND for an unknown user, storing nothing; otherwise the user, the project card, the banners and today's habits with their counts and percentage; no tasks give no habits at 0% dated today and store nothing; otherwise the date is the checklist's date string parsed, or today when it does not parse |
| HomeService.HabitsBacked | src/services/homeService.js:19-24 | habits made from backed checklist entries are backed by the same rows |
| WeeklyProgressController.WeekdayOf | src/controllers/weeklyProgressController.js:55 | a weekday number below seven |
| WeeklyProgressController.WeekdaysDistinct | src/controllers/weeklyProgressController.js:37-55 | seven consecutive days fall on seven different weekdays |
| WeeklyProgressController.InDaySpan | src/controllers/weeklyProgressController.js:41-51 | an instant lies in a day's span from 00:00 to 23:59:59.999 exactly when it falls on that day |
| WeeklyProgressController.CountInDay | src/controllers/weeklyProgressController.js:47-52 | never more than the rows |
| WeeklyProgressController.CountInRange | src/controllers/weeklyProgressController.js:47-52 | never more than the rows |
| WeeklyProgressController.CountInDayIsDay | src/controllers/weeklyProgressController.js:41-52 | counting one day's span is counting the rows of that day |
| WeeklyProgressController.CountInRangeSplit | src/controllers/weeklyProgressController.js:37-61 | a range of days counts its first days plus its last day |
| WeeklyProgressController.QueryRows | src/controllers/weeklyProgressController.js:26-32 | only the user's rows completed within the query's bounds |
| WeeklyProgressController.WeekWindow | src/controllers/weeklyProgressController.js:28-31 | a completion on one of the week's days lies inside the query's window |
| WeeklyProgressController.CountInRangeAppend | src/controllers/weeklyProgressController.js:47-52 | one more row adds one exactly when it falls in the range |
| WeeklyProgressController.WeekRowsCoverWeek | src/controllers/weeklyProgressController.js:26-52 | counting the week over the queried rows counts every completion of the user in that week |
| WeeklyProgressController.DayEntry | src/controllers/weeklyProgressController.js:54-60 | the day, its weekday name, its count against five tasks and twenty per cent per task |
| WeeklyProgressController.DayEntries | src/controllers/weeklyProgressController.js:37-61 | one entry per day |
| WeeklyProgressController.DayEntryAt | src/controllers/weeklyProgressController.js:37-61 | the k-th entry is the entry of the k-th day |
| WeeklyProgressController.DaysTotalIsRange | src/controllers/weeklyProgressController.js:63 | the days' counts add up to the count over the whole span |
| WeeklyProgressController.SumOfDays | src/controllers/weeklyProgressController.js:63 | the entries' completed counts add up to the days' total |
| WeeklyProgressController.SumOfPercentages | src/controllers/weeklyProgressController.js:59-64 | the percentages add up to twenty per completed task |
| WeeklyProgressController.EmptyRange | src/controllers/weeklyProgressController.js:37 | an empty range counts nothing |
| WeeklyProgressController.GetWeeklyProgress | src/controllers/weeklyProgressController.js:5-87 | the week from six days back to today, an entry per day of the user's rows, the total of the user's completions that week and the average percentage rounded; the record is upserted under the user and the week |
| WeeklyProgressController.WeekDays | src/controllers/weeklyProgressController.js:37-61 | the loop builds exactly the entries of the seven days |
| WeeklyProgressController.WeekTotals | src/controllers/weeklyProgressController.js:63-64 | the week's total is the user's completions over the seven days, and the percentages add up to twenty per completion |
| WeeklyProgressController.WeekNamesDistinct | src/controllers/weeklyProgressController.js:34-55 | each of the seven days has its own weekday name |
| WeeklyProgressController.ReportAgainReplaces | src/controllers/weeklyProgressController.js:67-78 | running the report again for the same week replaces its record rather than adding one |
| UsernameUtils.CheckNormalized | src/utils/usernameUtils.js:47-71 | accepted exactly when the name is 2 to 30 characters of letters, digits, ".", "_" or "-", and then unchanged |
| UsernameUtils.NormalizeUsername | src/utils/usernameUtils.js:14-72 | null or undefined give "" when empty is allowed and are refused as required otherwise; a non-string is refused; blank text gives "" when empty is allowed, else the "@" refusal when it is required and the required refusal when not; text that is only "@" and blanks gives "" or the required refusal; with "@" required, other text without it is refused; an accepted non-empty name is well formed |
| UsernameUtils.NormalizeText | src/utils/usernameUtils.js:26-45 | with "@" required, non-empty text without it is refused; empty text and an empty name after "@" give "" or the refusals as for `NormalizeUsername`; an accepted non-empty name is well formed |
| UsernameUtils.StringUsernameIsText | src/utils/usernameUtils.js:22-26 | a string is normalised by its trimmed text |
| UsernameUtils.NormalizeRest | src/utils/usernameUtils.js:41-71 | an accepted non-empty name is well formed; "" only when empty is allowed |
| UsernameUtils.LowerOfUpper | src/utils/usernameUtils.js:47 | a well-formed name comes back unchanged from upper-casing and lower-casing |
| UsernameUtils.NormalizeRoundTrip | src/utils/usernameUtils.js:14-72 | a normalised name typed back as "@name", in any case and with any padding, normalises to itself under every option |
| UsernameUtils.UpperNoSpace | src/utils/usernameUtils.js:61 | upper-casing a well-formed name brings in no white space |
| UsernameUtils.PaddedAt | src/utils/usernameUtils.js:26 | padding around "@" and a name without white space is trimmed away |
| UsernameUtils.NormalizeAtName | src/utils/usernameUtils.js:26-47 | text that trims to "@" and a trimmed name normalises to the name lower-cased, when that is well formed |
| UsernameUtils.TextAfterAt | src/utils/usernameUtils.js:32-41 | after a leading "@" the trimmed name is what is checked |
| UsernameUtils.PlainNameAccepted | src/utils/usernameUtils.js:37-47 | without a required "@", a normalised name typed as it is normalises to itself |
| UsernameUtils.BareNameRefused | src/utils/usernameUtils.js:32-35 | with "@" required, the bare name is refused |
| UsernameService.RandomSuffix | src/services/usernameService.js:19 | a three-digit number from 100 to 999 |
| UsernameService.BuildCandidate | src/services/usernameService.js:12-43 | every candidate is 2 to 30 characters long |
| UsernameService.CandidateShape | src/services/usernameService.js:12-43 | attempt 0 of a base of at least two characters gives the base cut to 30; otherwise the base, or "user" when too short, with "eco" on every fifth attempt and the drawn three-digit number on the others, cut to 30 |
| UsernameService.EveryFifthIsEco | src/services/usernameService.js:27-29 | on every fifth attempt the candidate does not depend on the draw |
| UsernameService.NormalizedBase | src/services/usernameService.js:81-84 | the base cut to 30, or "user" when shorter than two characters; always 2 to 30 characters |
| UsernameService.CandidateOf | src/services/usernameService.js:90 | each attempt's candidate is built from the base with that attempt's draw, and has a username's length |
| UsernameService.SliceOfSuggestions | src/services/usernameService.js:134 | the slice keeps only suggestions, keeps them distinct, and keeps between 1 and count of a non-empty list |
| UsernameService.Unused | src/services/usernameService.js:109-111 | exactly the candidates not taken, still distinct |
| UsernameService.FirstCandidates | src/services/usernameService.js:86-95 | at most 60 attempts; none kept for a count below 1, some otherwise; distinct candidates of the attempts made, every attempt's candidate kept |
| UsernameService.TopUp | src/services/usernameService.js:113-126 | at most 60 attempts, all spent when fewer than count are free; the free names stay free and distinct, and every free candidate of an attempt made is among them |
| UsernameService.SuggestFrom | src/services/usernameService.js:89-134 | distinct names of a username's length; none for a count below 1, otherwise 1 to count of them, all free candidates of an attempt or else the last resort alone, and the last resort only when none of the 60 attempts gives a free candidate; fewer than count only when every free candidate of the 60 attempts is suggested |
| UsernameService.SuggestionsOffered | src/services/usernameService.js:128-134 | the first count names offered keep every property of the free candidates found; when any of the 60 attempts gives a free candidate, every name offered is one |
| UsernameService.GenerateUsernameSuggestions | src/services/usernameService.js:77-135 | distinct names of a username's length; none for a count below 1, otherwise 1 to count of them, all free candidates of the base, or else the last resort alone, and the last resort only when none of the 60 attempts gives a free candidate; fewer than count only when every free candidate of the 60 attempts is suggested |
| Validators.Field | src/utils/validators.js:10 | an absent key reads as undefined, a present one as its value |
| Validators.EmailText | src/utils/validators.js:2-3 | a falsy value is tested as "", a string as itself |
| Validators.JsLength | src/utils/validators.js:33 | a length exactly for strings and arrays, a string's being its number of characters (Unicode scalar values, not UTF-16 code units) |
| Validators.FirstMissing | src/utils/validators.js:9-17 | none exactly when no listed field is undefined, null or ""; otherwise the first listed field that is |
| Validators.RequireBody | src/utils/validators.js:7-20 | passes exactly when no listed field is missing; otherwise 422 naming the first missing field |
| Validators.MissingPrefix | src/utils/validators.js:9-17 | the first missing field of a prefix that has one is the first missing field of the whole list |
| Validators.RequireFewer | src/utils/validators.js:9-17 | a body passing a list of fields passes each part of it |
| Validators.RegisterVerdict | src/utils/validators.js:22-49 | 422 VALIDATION_ERROR "Invalid email format" for a bad e-mail; a thrown error exactly when the e-mail is good and there is no password; 422 VALIDATION_ERROR "Password minimal 8 karakter" for a shorter password; 422 PASSWORD_NOT_MATCH "Password tidak sama" when the confirmation differs; passes exactly when none of these applies |
| Validators.ValidateRegister | src/utils/validators.js:22-53 | the verdict of the checks; on success the confirmation is deleted from the body, otherwise the body is left alone |
| Validators.RegisterNotRepeatable | src/utils/validators.js:43-50 | once the confirmation is deleted, the same body is refused as a mismatch |
| Validators.RegisterAccepts | src/utils/validators.js:22-52 | a valid e-mail and the same password of at least 8 characters twice pass |
| UserManagementValidators.EmailCheck | src/utils/userManagementValidators.js:9-22 | passes exactly when the e-mail is absent or a well-formed non-empty one; "" is refused as empty, a bad one as badly formed |
| UserManagementValidators.UsernameCheck | src/utils/userManagementValidators.js:25-41 | null throws; a string passes exactly when it is 3 to 30 characters long, and is refused as empty or as of the wrong length; values without a length pass |
| UserManagementValidators.RoleCheck | src/utils/userManagementValidators.js:44-52 | passes exactly when the role is absent, "user" or "admin" |
| UserManagementValidators.PhoneCheck | src/utils/userManagementValidators.js:55-66 | absent, null or "" pass; a string passes exactly when it is made of digits, "+", "-", white space and brackets |
| UserManagementValidators.FieldVerdicts | src/utils/userManagementValidators.js:8-66 | four verdicts: the e-mail, username, role and phone checks, in that order |
| UserManagementValidators.FirstFailure | src/utils/userManagementValidators.js:8-68 | passes exactly when every verdict passes; otherwise the first failing verdict |
| UserManagementValidators.UserUpdateVerdict | src/utils/userManagementValidators.js:4-70 | passes exactly when all four field checks pass; otherwise the verdict of the first failing check among e-mail, username, role and phone |
| UserManagementValidators.EmptyUpdatePasses | src/utils/userManagementValidators.js:9-68 | an update giving no field passes |
| UserManagementValidators.OtherFieldsIgnored | src/utils/userManagementValidators.js:6 | fields other than the four checked do not change the verdict |
| UserManagementValidators.TwoCharacterUsernameRefused | src/utils/userManagementValidators.js:32 | a two-character name that normalisation accepts is refused here |
| UserManagementValidators.NormalUsernameAccepted | src/utils/userManagementValidators.js:32 | every normalised name of 3 or more characters passes |

## Left out

- HTTP glue: routes, response envelopes and the controllers' error-to-status maps. Errors are `Err(status, message)` values, and an exception the source throws without a status is a generic thrown outcome.
- A missing `req.body` is not modelled: every validator is given a parsed body.
- Authentication, passwords, OAuth, e-mail, photo storage, schedulers and notifications: the identity is given and the nightly jobs are plain methods.
- Floating point: numbers are integers, `NaN` is `None`, and `Math.round` of a quotient is integer rounding with halves up.
- `seededRandom` (`Math.sin`), `Math.random` and `crypto.randomBytes` are parameters. The model assumes only that a draw lies in [0, 1) or is a byte.
- Clock and time zones: the WIB +7 hour shift, `setHours` in the server's zone and `toLocaleDateString` are replaced by integer day numbers. ISO date strings in the home and weekly answers are not modelled.
- Database details: query sort orders and limits (the reward claim's 120 rows; the profile's 50, 10 and 20), collation, `populate` and the projection of fields. Query results are parameters in the order the query sorts them.
- The user join of the points search (src/services/pointsHistoryService.js:173-210) is not modelled. The search lists entries newest-appended first rather than by `createdAt`.
- `getUserPointsHistoryAdminHandler` (src/controllers/pointsHistoryAdminController.js:82-101) is not modelled; it only forwards to the search.
- The reward service's `getPagination` (src/services/rewardService.js:76-81) is the same rule as the points history's and is modelled once, as `PointsHistory.GetPagination`.
- `redeemVoucher` saves the voucher, the user, the redemption and the ledger entry without a transaction. The model runs these steps in sequence and claims no rollback.
- `isUsernameTaken` and `updateUsernameForUser` (src/services/usernameService.js:45-75) are single database calls and are not modelled.
- The profile's redemption history list (src/services/profileService.js:340-360) and the user's display fields are not modelled.
- `startGameSession`, `claimGameReward`, `getAvailableLeaves` and the day-bucket helpers are imported but never defined in the repository, so they have no model. Yesterday is today − 1.
- The duplicate model files are not modelled separately. `treeLeaf.js`, `treeFruit.js`, `treeTracker.js` and `dailyTask.js` register the same model names and collections as `treeLeaves.js`, `treeFruits.js`, `treeTrackers.js` and `dailyTasks.js` (TreeLeaf/treeLeaves, TreeFruit/treeFruits, TreeTracker/treeTrackers, DailyTask/dailyTasks). They reuse a model already registered, so the profile service and the checklist controller, which import them, read the same stored records. `voucherReedemption.js` is imported only by the notification scheduler, and `ecoenzimUpload.js` by no file; neither is modelled.
- UsernameUtils.NormalizeUsername: lower-casing covers ASCII letters only (see the Common line below).
- Common.Lower: `toLowerCase` and `toUpperCase` are modelled on the ASCII letters only; other letters, such as U+212A KELVIN SIGN, which JavaScript lower-cases to "k", are kept. Every trim-and-lowercase filter inherits this (the claim and redemption status filters, the points direction, the admin flags, the source lists, usernames).
- Validators.JsLength: a string's length is its number of Unicode scalar values, whereas `.length` counts UTF-16 code units, so a character outside the Basic Multilingual Plane (an emoji) counts once here and twice in the source. The password length check, the username length check (3 to 30 characters) and the `slice(0, 3)` and `slice(0, 30)` of voucher codes and username candidates count the same way.
- Validators.JsLength: a body value that is an object is read as having no length, since objects carry no properties in the model; the source would read an object's own `length` property, so `{"length": 3}` as a password would get the short-password 422 rather than the mismatch answer.
- Common.StringToNumber: `Number` is modelled for blank text, the `0x`, `0o` and `0b` numerals and the decimal numerals with an optional sign, fraction and exponent. A numeral whose value is not a whole number (such as "1.5") reads as NaN (none), since numbers are integers here. "Infinity", numerals beyond the range of a double and the precision loss above 2^53 are not modelled.
- UsernameService.GenerateUsernameSuggestions: the two fallback candidates take their draws from fixed positions of the random parameter. The fallback candidate is computed even when it is not used. The further fallback of `buildCandidate` (src/services/usernameService.js:38-40) can never be reached, and the model leaves it out.
- Common.Dedupe: first-occurrence order is stated by `DedupeExtends` (deduplicating a longer list extends the shorter result), not position by position.
- VoucherService.CreateVoucher: a name or category given as null or as a non-string value is not modelled, and the descriptive fields (description, images, partner name, discount text, links, metadata) are not stored.
- PointsHistoryAdmin.ListPointsHistoryAdmin: the store's failure is a parameter; which database errors occur, and their messages, are not modelled.
- VoucherService.UpdateVoucher: its 409 and validation refusals are stated as leaving the store unchanged, not as exact conditions.
- TreeTrackersController.GetTreeTracker: states the 404 status, not its message.
- TreeTrackersController.CastCounter: a null or empty-string counter is written as 0 (its `Number(v)`), where Mongoose stores null, because the counters are integers here. A string holding a fraction fails to cast here, because numbers are integers. Older Mongoose versions that write null for an undefined key are not modelled.
- TreeTrackersController.UpdateTreeTracker: the 500 message names only the path of the first counter that fails to cast. Mongoose's CastError message also quotes the value and its type.
- WeeklyProgressController.DayEntry: a day with more than five completions reports more than 100%, as the source does; no bound is claimed.
- EcoenzimController.ClaimPoints: with non-zero points the claim answers 500 and leaves the ledger unchanged while the project stays claimed. The model states this outcome rather than a successful ledger entry.

=== FILE: common.dfy ===
/**
 * Helpers shared by the whole model: optional values, the JavaScript values
 * that reach the handlers from query strings and JSON bodies, and the string
 * and integer operations of the JavaScript runtime that the services rely on
 * (trim, ASCII case mapping, split, parseInt, Number, Math.round).
 */
module Common {

  datatype Option<T> = None | Some(value: T)

  /**
   * The outcome of an operation that can fail with an HTTP status and a
   * message code. A plain thrown `Error` without a status carries
   * `ServerError`, the status the HTTP layer answers it with.
   */
  datatype Result<T> = Ok(value: T) | Err(status: int, message: string)

  const ServerError: int := 500

  /** A JavaScript value as it reaches a handler. Numbers are integers here, and objects carry no properties. */
  datatype JsValue =
    | JsUndefined
    | JsNull
    | JsBool(b: bool)
    | JsNum(n: int)
    | JsStr(s: string)
    | JsArray(items: seq<JsValue>)
    | JsObject

  /** JavaScript truthiness (NaN is not representable). */
  predicate Truthy(v: JsValue)
  {
    match v
    case JsUndefined => false
    case JsNull => false
    case JsBool(b) => b
    case JsNum(n) => n != 0
    case JsStr(s) => s != ""
    case _ => true
  }

  /** `v === undefined || v === null` */
  predicate IsNullish(v: JsValue)
  {
    v.JsUndefined? || v.JsNull?
  }

  /** `v === undefined || v === null || v === ""` */
  predicate IsBlankValue(v: JsValue)
  {
    IsNullish(v) || v == JsStr("")
  }

  function Max(a: int, b: int): int { if a >= b then a else b }

  function Min(a: int, b: int): int { if a <= b then a else b }

  /** Clamps `x` into `[lo, hi]` as `Math.min(Math.max(x, lo), hi)`. */
  function Clamp(x: int, lo: int, hi: int): (r: int)
    ensures lo <= hi ==> lo <= r <= hi
    ensures lo <= x <= hi ==> r == x
    ensures x < lo && lo <= hi ==> r == lo
    ensures hi < x ==> r == hi
  {
    Min(Max(x, lo), hi)
  }

  // ---------------------------------------------------------------------
  // Integer arithmetic of Math.round and Math.ceil on a quotient
  // ---------------------------------------------------------------------

  /** `Math.round(a / b)` for a positive divisor: the nearest integer, halves rounded up. */
  function RoundDiv(a: int, b: int): (r: int)
    requires b > 0
    ensures b * (2 * r - 1) <= 2 * a < b * (2 * r + 1)
  {
    var q := (2 * a + b) / (2 * b);
    assert 2 * a + b == (2 * b) * q + (2 * a + b) % (2 * b);
    q
  }

  lemma MulMonotone(d: int, m: int, n: int)
    requires d > 0 && m <= n
    ensures d * m <= d * n
  {
    assert d * n - d * m == d * (n - m);
  }

  /** Division by a positive divisor keeps the order of its dividends. */
  lemma DivMonotone(x: int, y: int, d: int)
    requires x <= y && d > 0
    ensures x / d <= y / d
  {
    var qx, qy := x / d, y / d;
    assert x == d * qx + x % d;
    assert y == d * qy + y % d;
    if qx > qy {
      MulMonotone(d, qy + 1, qx);
    }
  }

  /** Rounding keeps the order of the quotients. */
  lemma RoundDivMonotone(a: int, b: int, d: int)
    requires a <= b && d > 0
    ensures RoundDiv(a, d) <= RoundDiv(b, d)
  {
    DivMonotone(2 * a + d, 2 * b + d, 2 * d);
  }

  /** `Math.ceil(a / b)` for a positive divisor. */
  function CeilDiv(a: int, b: int): (r: int)
    requires b > 0
    ensures b * (r - 1) < a <= b * r
  {
    var q := (-a) / b;
    assert -a == b * q + (-a) % b;
    -q
  }

  // ---------------------------------------------------------------------
  // Characters and strings
  // ---------------------------------------------------------------------

  /**
   * The white space that `String.prototype.trim` removes and `/\s/` matches: tab, line
   * and page breaks, the space separators of Unicode, the line and paragraph separators
   * and the byte-order mark.
   */
  predicate IsSpace(c: char)
  {
    c == ' ' || c == '\t' || c == '\n' || c == '\r' || c == '\U{000B}' || c == '\U{000C}'
    || c == '\U{00A0}' || c == '\U{1680}' || '\U{2000}' <= c <= '\U{200A}'
    || c == '\U{2028}' || c == '\U{2029}' || c == '\U{202F}' || c == '\U{205F}'
    || c == '\U{3000}' || c == '\U{FEFF}'
  }

  predicate NoSpace(s: string)
  {
    forall i :: 0 <= i < |s| ==> !IsSpace(s[i])
  }

  predicate IsDigit(c: char) { '0' <= c <= '9' }

  predicate IsUpperAscii(c: char) { 'A' <= c <= 'Z' }

  predicate IsLowerAscii(c: char) { 'a' <= c <= 'z' }

  predicate IsAlnumAscii(c: char) { IsDigit(c) || IsUpperAscii(c) || IsLowerAscii(c) }

  function LowerChar(c: char): char
  {
    if IsUpperAscii(c) then (c as int + 32) as char else c
  }

  function UpperChar(c: char): char
  {
    if IsLowerAscii(c) then (c as int - 32) as char else c
  }

  /** `toLowerCase` on the ASCII letters; every other character is kept. */
  function Lower(s: string): (r: string)
    ensures |r| == |s|
    ensures forall i :: 0 <= i < |s| ==> r[i] == LowerChar(s[i])
  {
    seq(|s|, i requires 0 <= i < |s| => LowerChar(s[i]))
  }

  /** `toUpperCase` on the ASCII letters; every other character is kept. */
  function Upper(s: string): (r: string)
    ensures |r| == |s|
    ensures forall i :: 0 <= i < |s| ==> r[i] == UpperChar(s[i])
  {
    seq(|s|, i requires 0 <= i < |s| => UpperChar(s[i]))
  }

  /** Lower-casing forgets an upper-casing. */
  lemma LowerUpper(s: string)
    ensures Lower(Upper(s)) == Lower(s)
  {
    var l := Lower(Upper(s));
    forall k | 0 <= k < |s|
      ensures l[k] == Lower(s)[k]
    {
      assert l[k] == LowerChar(UpperChar(s[k]));
    }
  }

  predicate IsLowered(s: string)
  {
    forall i :: 0 <= i < |s| ==> !IsUpperAscii(s[i])
  }

  function TrimStart(s: string): (r: string)
    ensures |r| <= |s| && r == s[|s| - |r|..]
    ensures r == [] || !IsSpace(r[0])
    ensures forall i :: 0 <= i < |s| - |r| ==> IsSpace(s[i])
  {
    if |s| > 0 && IsSpace(s[0]) then TrimStart(s[1..]) else s
  }

  function TrimEnd(s: string): (r: string)
    ensures |r| <= |s| && r == s[..|r|]
    ensures r == [] || !IsSpace(r[|r| - 1])
    ensures forall i :: |r| <= i < |s| ==> IsSpace(s[i])
  {
    if |s| > 0 && IsSpace(s[|s| - 1]) then TrimEnd(s[..|s| - 1]) else s
  }

  /** `String.prototype.trim`. */
  function Trim(s: string): (r: string)
    ensures r == [] || (!IsSpace(r[0]) && !IsSpace(r[|r| - 1]))
    ensures |r| <= |s|
  {
    TrimEnd(TrimStart(s))
  }

  /** A string without white space is its own trim. */
  lemma TrimNoSpace(s: string)
    requires NoSpace(s)
    ensures Trim(s) == s
  {
    assert TrimStart(s) == s;
  }

  /** Leading white space is trimmed away up to the first other character. */
  lemma {:induction false} PaddingTrimmed(pad: string, rest: string)
    requires forall k :: 0 <= k < |pad| ==> IsSpace(pad[k])
    requires |rest| > 0 && !IsSpace(rest[0])
    ensures TrimStart(pad + rest) == rest
  {
    if |pad| > 0 {
      assert (pad + rest)[1..] == pad[1..] + rest;
      PaddingTrimmed(pad[1..], rest);
    } else {
      assert pad + rest == rest;
    }
  }

  /** Trailing white space is trimmed away back to the last other character. */
  lemma {:induction false} TrailingPaddingTrimmed(body: string, pad: string)
    requires forall k :: 0 <= k < |pad| ==> IsSpace(pad[k])
    requires |body| > 0 && !IsSpace(body[|body| - 1])
    ensures TrimEnd(body + pad) == body
  {
    if |pad| > 0 {
      assert (body + pad)[..|body + pad| - 1] == body + pad[..|pad| - 1];
      TrailingPaddingTrimmed(body, pad[..|pad| - 1]);
    } else {
      assert body + pad == body;
    }
  }

  /** Trimming a padded string gives back what was padded. */
  lemma PaddedTrim(pad: string, body: string)
    requires forall k :: 0 <= k < |pad| ==> IsSpace(pad[k])
    requires |body| > 0 && !IsSpace(body[0]) && !IsSpace(body[|body| - 1])
    ensures Trim(pad + body + pad) == body
  {
    assert pad + body + pad == pad + (body + pad);
    PaddingTrimmed(pad, body + pad);
    TrailingPaddingTrimmed(body, pad);
  }

  /** Trimming twice is trimming once. */
  lemma TrimIdempotent(s: string)
    ensures Trim(Trim(s)) == Trim(s)
  {
    var t := Trim(s);
    assert TrimStart(t) == t;
  }

  /** `s.split(sep)` for a one-character separator: at least one part, none holding the separator. */
  function Split(s: string, sep: char): (parts: seq<string>)
    ensures |parts| >= 1
    ensures forall k :: 0 <= k < |parts| ==> sep !in parts[k]
  {
    if |s| == 0 then [""]
    else
      var rest := Split(s[1..], sep);
      if s[0] == sep then [""] + rest else [[s[0]] + rest[0]] + rest[1..]
  }

  /** A string without the separator splits into itself. */
  lemma {:induction false} SplitNoSep(a: string, sep: char)
    requires sep !in a
    ensures Split(a, sep) == [a]
  {
    if |a| > 0 {
      SplitNoSep(a[1..], sep);
      assert [a[0]] + a[1..] == a;
    }
  }

  /** Splitting at the first separator: the part before it, then the split of the rest. */
  lemma {:induction false} SplitAtFirst(a: string, sep: char, b: string)
    requires sep !in a
    ensures Split(a + [sep] + b, sep) == [a] + Split(b, sep)
  {
    var s := a + [sep] + b;
    if |a| == 0 {
      assert s[1..] == b;
    } else {
      assert s[1..] == a[1..] + [sep] + b;
      SplitAtFirst(a[1..], sep, b);
      assert [a[0]] + a[1..] == a;
    }
  }

  /** `parts.join(sep)`. */
  function Join(parts: seq<string>, sep: string): string
  {
    if |parts| == 0 then ""
    else if |parts| == 1 then parts[0]
    else parts[0] + sep + Join(parts[1..], sep)
  }

  /** Joining parts whose first part is not empty gives a non-empty string. */
  lemma {:induction false} JoinNonEmpty(parts: seq<string>, sep: string)
    requires |parts| > 0 && parts[0] != ""
    ensures Join(parts, sep) != ""
  {
    assert |Join(parts, sep)| >= |parts[0]|;
  }

  /** Splitting a join on the same one-character separator gives back the parts. */
  lemma {:induction false} SplitJoin(parts: seq<string>, sep: char)
    requires |parts| >= 1
    requires forall k :: 0 <= k < |parts| ==> sep !in parts[k]
    ensures Split(Join(parts, [sep]), sep) == parts
  {
    if |parts| == 1 {
      SplitNoSep(parts[0], sep);
    } else {
      SplitJoin(parts[1..], sep);
      SplitAtFirst(parts[0], sep, Join(parts[1..], [sep]));
      assert [parts[0]] + parts[1..] == parts;
    }
  }

  /** The parts of a split that survive `.map(trim).filter(Boolean)`. */
  function TrimmedNonEmpty(parts: seq<string>): (r: seq<string>)
    ensures forall k :: 0 <= k < |r| ==> r[k] != "" && Trim(r[k]) == r[k]
    ensures |r| <= |parts|
  {
    if |parts| == 0 then []
    else
      var t := Trim(parts[0]);
      var rest := TrimmedNonEmpty(parts[1..]);
      if t == "" then rest
      else
        TrimIdempotent(parts[0]);
        CleanCons(t, rest);
        [t] + rest
  }

  /** A clean part in front of clean parts leaves every part clean. */
  lemma CleanCons(t: string, rest: seq<string>)
    requires t != "" && Trim(t) == t
    requires forall k :: 0 <= k < |rest| ==> rest[k] != "" && Trim(rest[k]) == rest[k]
    ensures forall k :: 0 <= k < |[t] + rest| ==> ([t] + rest)[k] != "" && Trim(([t] + rest)[k]) == ([t] + rest)[k]
  {
    forall k | 0 <= k < |[t] + rest|
      ensures ([t] + rest)[k] != "" && Trim(([t] + rest)[k]) == ([t] + rest)[k]
    {
      if k > 0 {
        assert ([t] + rest)[k] == rest[k - 1];
      }
    }
  }

  /** Every character of a trimmed string occurs in the original. */
  lemma TrimChars(s: string, c: char)
    requires c in Trim(s)
    ensures c in s
  {
    var t := TrimStart(s);
    assert c in t;
  }

  /** A character absent from every part is absent from every surviving trimmed part. */
  lemma {:induction false} TrimmedNonEmptyAvoids(parts: seq<string>, c: char)
    requires forall k :: 0 <= k < |parts| ==> c !in parts[k]
    ensures forall k :: 0 <= k < |TrimmedNonEmpty(parts)| ==> c !in TrimmedNonEmpty(parts)[k]
  {
    if |parts| > 0 {
      TrimmedNonEmptyAvoids(parts[1..], c);
      if c in Trim(parts[0]) {
        TrimChars(parts[0], c);
      }
    }
  }

  /** Parts that are already trimmed and non-empty all survive, in order. */
  lemma {:induction false} TrimmedNonEmptyKeeps(parts: seq<string>)
    requires forall k :: 0 <= k < |parts| ==> parts[k] != "" && Trim(parts[k]) == parts[k]
    ensures TrimmedNonEmpty(parts) == parts
  {
    if |parts| > 0 {
      TrimmedNonEmptyKeeps(parts[1..]);
      assert [parts[0]] + parts[1..] == parts;
    }
  }

  function Repeat(c: char, n: nat): (r: string)
    ensures |r| == n && forall i :: 0 <= i < n ==> r[i] == c
  {
    if n == 0 then "" else [c] + Repeat(c, n - 1)
  }

  /** `s.padStart(n, c)`. */
  function PadStart(s: string, n: nat, c: char): (r: string)
    ensures |r| == Max(|s|, n)
    ensures r[|r| - |s|..] == s
  {
    if |s| >= n then s else Repeat(c, n - |s|) + s
  }

  /** `s.slice(0, n)` for a non-negative `n`. */
  function Prefix<T>(s: seq<T>, n: nat): (r: seq<T>)
    ensures |r| == Min(n, |s|) && r == s[..|r|]
  {
    if n <= |s| then s[..n] else s
  }

  /** `s.slice(0, end)` with JavaScript's treatment of a negative end. */
  function SliceTo<T>(s: seq<T>, end: int): (r: seq<T>)
    ensures end >= 0 ==> r == Prefix(s, end)
    ensures end < 0 ==> |r| == Max(|s| + end, 0)
    ensures r == s[..|r|]
  {
    if end >= 0 then Prefix(s, end) else s[..Max(|s| + end, 0)]
  }

  // ---------------------------------------------------------------------
  // Decimal numerals: String(n), parseInt and Number
  // ---------------------------------------------------------------------

  predicate AllDigits(s: string)
  {
    forall i :: 0 <= i < |s| ==> IsDigit(s[i])
  }

  function DigitChar(d: nat): (c: char)
    requires d < 10
    ensures IsDigit(c)
  {
    ('0' as int + d) as char
  }

  function DigitValue(c: char): (d: nat)
    requires IsDigit(c)
    ensures d < 10
  {
    c as int - '0' as int
  }

  /** The decimal numeral of a natural number, as `String(n)` writes it. */
  function NatToString(n: nat): (r: string)
    ensures |r| >= 1 && AllDigits(r)
  {
    if n < 10 then [DigitChar(n)] else NatToString(n / 10) + [DigitChar(n % 10)]
  }

  /** `String(n)` for an integer. */
  function IntToString(n: int): string
  {
    if n < 0 then "-" + NatToString(-n) else NatToString(n)
  }

  /** The value of a string of decimal digits (empty string: 0). */
  function DigitsValue(s: string): nat
    requires AllDigits(s)
  {
    if |s| == 0 then 0 else DigitsValue(s[..|s| - 1]) * 10 + DigitValue(s[|s| - 1])
  }

  function Pow10(k: nat): (r: nat)
    ensures r >= 1
  {
    if k == 0 then 1 else 10 * Pow10(k - 1)
  }

  /** Reading back a numeral gives the number it was written from. */
  lemma {:induction false} NatToStringValue(n: nat)
    ensures DigitsValue(NatToString(n)) == n
  {
    var s := NatToString(n);
    if n >= 10 {
      NatToStringValue(n / 10);
      assert s[..|s| - 1] == NatToString(n / 10);
    }
  }

  /** The value of a concatenation of digit strings, position by position. */
  lemma {:induction false} DigitsValueAppend(a: string, b: string)
    requires AllDigits(a) && AllDigits(b)
    ensures AllDigits(a + b)
    ensures DigitsValue(a + b) == DigitsValue(a) * Pow10(|b|) + DigitsValue(b)
  {
    if |b| > 0 {
      var ab := a + b;
      var b' := b[..|b| - 1];
      var last := DigitValue(b[|b| - 1]);
      assert ab[..|ab| - 1] == a + b';
      assert ab[|ab| - 1] == b[|b| - 1];
      DigitsValueAppend(a, b');
      var x, p, y := DigitsValue(a), Pow10(|b'|), DigitsValue(b');
      assert DigitsValue(ab) == DigitsValue(a + b') * 10 + last;
      assert DigitsValue(b) == y * 10 + last;
      assert Pow10(|b|) == 10 * p;
      ShiftDigit(x, p, y, last);
    } else {
      assert a + b == a;
    }
  }

  /** Appending a digit to `x * p + y` multiplies the place value `p` by ten. */
  lemma ShiftDigit(x: int, p: int, y: int, d: int)
    ensures (x * p + y) * 10 + d == x * (10 * p) + (y * 10 + d)
  {
  }

  /** The longest prefix of decimal digits. */
  function DigitPrefix(s: string): (r: string)
    ensures |r| <= |s| && AllDigits(r) && r == s[..|r|]
    ensures |r| == |s| || !IsDigit(s[|r|])
  {
    if |s| > 0 && IsDigit(s[0]) then [s[0]] + DigitPrefix(s[1..]) else ""
  }

  lemma {:induction false} DigitPrefixOfDigits(s: string)
    requires AllDigits(s)
    ensures DigitPrefix(s) == s
  {
    if |s| > 0 {
      DigitPrefixOfDigits(s[1..]);
    }
  }

  /** `parseInt(s, 10)`: leading blanks, an optional sign, the longest digit prefix; None is NaN. */
  function ParseIntPrefix(s: string): Option<int>
  {
    var t := TrimStart(s);
    var signed := |t| > 0 && (t[0] == '-' || t[0] == '+');
    var body := if signed then t[1..] else t;
    var d := DigitPrefix(body);
    var value: int := DigitsValue(d);
    if d == "" then None
    else if signed && t[0] == '-' then Some(-value)
    else Some(value)
  }

  /** `parseInt` of a non-empty digit string is its decimal value. */
  lemma ParseIntOfDigits(s: string)
    requires |s| > 0 && AllDigits(s)
    ensures ParseIntPrefix(s) == Some(DigitsValue(s))
  {
    assert IsDigit(s[0]) && !IsSpace(s[0]);
    assert TrimStart(s) == s;
    assert !(s[0] == '-' || s[0] == '+');
    DigitPrefixOfDigits(s);
  }

  /** `parseInt` reads back any numeral written by `String(n)`. */
  lemma ParseIntOfNumeral(n: nat)
    ensures ParseIntPrefix(NatToString(n)) == Some(n)
  {
    ParseIntOfDigits(NatToString(n));
    NatToStringValue(n);
  }

  /** The value of a digit in bases up to 36: '0'..'9', then the letters in either case; 36 for any other character. */
  function RadixDigit(c: char): (d: nat)
    ensures d <= 36
    ensures d < 36 ==> IsAlnumAscii(c)
  {
    if IsDigit(c) then DigitValue(c)
    else if IsLowerAscii(c) then c as int - 'a' as int + 10
    else if IsUpperAscii(c) then c as int - 'A' as int + 10
    else 36
  }

  predicate AllRadixDigits(s: string, base: nat)
  {
    forall i :: 0 <= i < |s| ==> RadixDigit(s[i]) < base
  }

  /** The value of a string of digits in `base`, most significant first (empty string: 0). */
  function RadixValue(s: string, base: nat): nat
  {
    if |s| == 0 then 0 else RadixValue(s[..|s| - 1], base) * base + RadixDigit(s[|s| - 1])
  }

  /** The base named by the letter of a `0x`, `0o` or `0b` prefix, in either case; 0 for any other letter. */
  function RadixOf(c: char): nat
  {
    if c == 'x' || c == 'X' then 16
    else if c == 'o' || c == 'O' then 8
    else if c == 'b' || c == 'B' then 2
    else 0
  }

  /** The position of the first character of `s` in `cs`, or `|s|` when there is none. */
  function IndexOfAny(s: string, cs: set<char>): (r: nat)
    ensures r <= |s|
    ensures forall i :: 0 <= i < r ==> s[i] !in cs
    ensures r < |s| ==> s[r] in cs
  {
    if |s| == 0 || s[0] in cs then 0 else 1 + IndexOfAny(s[1..], cs)
  }

  /** An optional sign followed by at least one decimal digit, as an exponent is written. */
  function SignedDigits(s: string): Option<int>
  {
    var signed := |s| > 0 && (s[0] == '-' || s[0] == '+');
    var body := if signed then s[1..] else s;
    if body == "" || !AllDigits(body) then None
    else if signed && s[0] == '-' then Some(-(DigitsValue(body) as int))
    else Some(DigitsValue(body))
  }

  /**
   * An unsigned decimal literal of `Number`: digits with an optional fraction after a dot
   * and an optional exponent after `e` or `E`, at least one digit before the exponent.
   * None for a malformed literal, and for a value that is not a whole number.
   */
  function UnsignedDecimal(t: string): Option<nat>
  {
    var e := IndexOfAny(t, {'e', 'E'});
    var exponent := if e < |t| then SignedDigits(t[e + 1..]) else Some(0);
    if exponent.None? then None else ScaledMantissa(t[..e], exponent.value)
  }

  /** The digits before and after an optional dot, scaled by ten to the exponent less the fraction's length. */
  function ScaledMantissa(m: string, exponent: int): Option<nat>
  {
    var d := IndexOfAny(m, {'.'});
    var whole := m[..d];
    var fraction := if d < |m| then m[d + 1..] else "";
    if !AllDigits(whole + fraction) || whole + fraction == "" then None
    else ScaledDigits(DigitsValue(whole + fraction), exponent - |fraction|)
  }

  /** `digits` times ten to `scale`, or None when that is not a whole number. */
  function ScaledDigits(digits: nat, scale: int): Option<nat>
    decreases if scale < 0 then -scale else scale
  {
    if scale == 0 then Some(digits)
    else if scale > 0 then ScaledDigits(10 * digits, scale - 1)
    else if digits % 10 == 0 then ScaledDigits(digits / 10, scale + 1)
    else None
  }

  /**
   * `Number(s)`: after trimming, "" is 0; a `0x`, `0o` or `0b` prefix with at least one
   * digit of its base is read in that base, unsigned; otherwise an optional sign and a
   * decimal literal. None is NaN, and also a value that is not a whole number.
   */
  function StringToNumber(s: string): Option<int>
  {
    var t := Trim(s);
    if t == "" then Some(0)
    else if |t| >= 2 && t[0] == '0' && RadixOf(t[1]) > 0 then
      var digits := t[2..];
      if digits != "" && AllRadixDigits(digits, RadixOf(t[1])) then Some(RadixValue(digits, RadixOf(t[1])))
      else None
    else
      var signed := t[0] == '-' || t[0] == '+';
      var n := UnsignedDecimal(if signed then t[1..] else t);
      if n.None? then None
      else if t[0] == '-' then Some(-(n.value as int))
      else Some(n.value)
  }

  /** A numeral has no white space to trim. */
  lemma NumeralTrimmed(n: nat)
    ensures Trim(NatToString(n)) == NatToString(n)
  {
    var s := NatToString(n);
    forall i | 0 <= i < |s|
      ensures !IsSpace(s[i])
    {
      assert IsDigit(s[i]);
    }
    TrimNoSpace(s);
  }

  /** `Number` reads a numeral back as the number it was written from. */
  lemma StringToNumberOfNumeral(n: nat)
    ensures StringToNumber(NatToString(n)) == Some(n)
  {
    NatToStringValue(n);
    DigitsNumber(NatToString(n));
  }

  /** `Number` reads a non-empty string of decimal digits as its decimal value. */
  lemma DigitsNumber(s: string)
    requires |s| > 0 && AllDigits(s)
    ensures StringToNumber(s) == Some(DigitsValue(s))
  {
    PlainDecimal(s);
    DecimalOfDigits(s);
    NumberOfDecimalText(s);
  }

  /** A digit, a dot or an exponent marker does not name a base. */
  lemma NotARadixLetter(c: char)
    requires IsDigit(c) || c == '.' || c == 'e'
    ensures RadixOf(c) == 0
  {
  }

  /** Trimmed text starting with a digit, with no base prefix. */
  predicate PlainDecimalText(t: string)
  {
    t != "" && Trim(t) == t && IsDigit(t[0]) && (|t| >= 2 ==> RadixOf(t[1]) == 0)
  }

  /** Digits, dots and letters, starting with a digit not followed by a base letter, are plain decimal text. */
  lemma PlainDecimal(t: string)
    requires t != "" && IsDigit(t[0])
    requires forall i :: 0 <= i < |t| ==> IsAlnumAscii(t[i]) || t[i] == '.'
    requires |t| >= 2 ==> IsDigit(t[1]) || t[1] == '.' || t[1] == 'e'
    ensures PlainDecimalText(t)
  {
    AlnumTrimmed(t);
    if |t| >= 2 {
      NotARadixLetter(t[1]);
    }
  }

  /** A trimmed text starting with a digit and no base prefix is read as an unsigned decimal literal. */
  lemma NumberOfDecimalText(t: string)
    requires PlainDecimalText(t)
    ensures UnsignedDecimal(t).Some? ==> StringToNumber(t) == Some(UnsignedDecimal(t).value)
    ensures UnsignedDecimal(t).None? ==> StringToNumber(t).None?
  {
  }

  /** The first position in `cs` is the one before which no character is in `cs`. */
  lemma IndexOfAnyAt(s: string, cs: set<char>, j: nat)
    requires j <= |s| && (j < |s| ==> s[j] in cs)
    requires forall i :: 0 <= i < j ==> s[i] !in cs
    ensures IndexOfAny(s, cs) == j
  {
  }

  /** A digit string with nothing after it is its whole part, with no fraction. */
  lemma MantissaOfDigits(m: string, exponent: int)
    requires |m| > 0 && AllDigits(m)
    ensures ScaledMantissa(m, exponent) == ScaledDigits(DigitsValue(m), exponent)
  {
    DigitsHaveNo(m, {'.'});
    assert m[..|m|] == m && m + "" == m;
  }

  /** A digit string holds none of a set of non-digits. */
  lemma DigitsHaveNo(m: string, cs: set<char>)
    requires AllDigits(m) && forall c :: c in cs ==> !IsDigit(c)
    ensures IndexOfAny(m, cs) == |m|
  {
    IndexOfAnyAt(m, cs, |m|);
  }

  /** A non-empty digit string is a decimal literal worth its digits. */
  lemma DecimalOfDigits(s: string)
    requires |s| > 0 && AllDigits(s)
    ensures UnsignedDecimal(s) == Some(DigitsValue(s))
  {
    DigitsHaveNo(s, {'e', 'E'});
    assert s[..|s|] == s;
    MantissaOfDigits(s, 0);
  }

  /** Any string of zeros is worth 0. */
  lemma {:induction false} ZerosValue(z: nat)
    ensures AllDigits(Repeat('0', z)) && DigitsValue(Repeat('0', z)) == 0
  {
    if z > 0 {
      ZerosValue(z - 1);
      assert Repeat('0', z)[..z - 1] == Repeat('0', z - 1);
    }
  }

  /** A string of decimal digits, letters and dots has no white space to trim. */
  lemma AlnumTrimmed(s: string)
    requires forall i :: 0 <= i < |s| ==> IsAlnumAscii(s[i]) || s[i] == '.'
    ensures Trim(s) == s
  {
    forall i | 0 <= i < |s|
      ensures !IsSpace(s[i])
    {
    }
    TrimNoSpace(s);
  }

  /** `Number` reads a numeral with an exponent, such as "1e2", as the numeral times ten to the exponent. */
  lemma StringToNumberOfExponent(n: nat, k: nat)
    ensures StringToNumber(NatToString(n) + "e" + NatToString(k)) == Some(n * Pow10(k))
  {
    NatToStringValue(n);
    NatToStringValue(k);
    ExponentNumber(NatToString(n), NatToString(k));
  }

  /** Digits, `e` and digits read as the first digits times ten to the second. */
  lemma ExponentNumber(a: string, b: string)
    requires |a| > 0 && AllDigits(a) && |b| > 0 && AllDigits(b)
    ensures StringToNumber(a + "e" + b) == Some(DigitsValue(a) * Pow10(DigitsValue(b)))
  {
    ExponentText(a, b);
    ExponentParts(a, b);
    NumberOfDecimalText(a + "e" + b);
  }

  /** Digits, `e` and digits are plain decimal text. */
  lemma ExponentText(a: string, b: string)
    requires |a| > 0 && AllDigits(a) && AllDigits(b)
    ensures PlainDecimalText(a + "e" + b)
  {
    var t := a + "e" + b;
    forall i | 0 <= i < |t|
      ensures IsAlnumAscii(t[i]) && (i < |a| ==> t[i] == a[i])
    {
      if i > |a| {
        assert t[i] == b[i - |a| - 1];
      }
    }
    PlainDecimal(t);
  }

  /** Splitting digits, `e` and digits at the marker. */
  lemma ExponentParts(a: string, b: string)
    requires |a| > 0 && AllDigits(a) && |b| > 0 && AllDigits(b)
    ensures UnsignedDecimal(a + "e" + b) == Some(DigitsValue(a) * Pow10(DigitsValue(b)))
  {
    var t := a + "e" + b;
    forall i | 0 <= i < |a|
      ensures t[i] !in {'e', 'E'}
    {
      assert t[i] == a[i] && IsDigit(a[i]);
    }
    IndexOfAnyAt(t, {'e', 'E'}, |a|);
    assert t[..|a|] == a && t[|a| + 1..] == b;
    UnsignedDigits(b);
    MantissaOfDigits(a, DigitsValue(b));
    ScaledUp(DigitsValue(a), DigitsValue(b));
  }

  /** Unsigned digits read as their value. */
  lemma UnsignedDigits(b: string)
    requires |b| > 0 && AllDigits(b)
    ensures SignedDigits(b) == Some(DigitsValue(b) as int)
  {
    assert IsDigit(b[0]);
  }

  /** `Number` reads a numeral followed by a dot and zeros, such as "1.0", as the numeral. */
  lemma StringToNumberOfPointZeros(n: nat, z: nat)
    ensures StringToNumber(NatToString(n) + "." + Repeat('0', z)) == Some(n)
  {
    NatToStringValue(n);
    PointZerosNumber(NatToString(n), z);
  }

  /** Digits, a dot and zeros read as the digits. */
  lemma PointZerosNumber(a: string, z: nat)
    requires |a| > 0 && AllDigits(a)
    ensures StringToNumber(a + "." + Repeat('0', z)) == Some(DigitsValue(a))
  {
    PointZerosText(a, z);
    PointZerosParts(a, z);
    NumberOfDecimalText(a + "." + Repeat('0', z));
  }

  /** Digits, a dot and zeros are plain decimal text. */
  lemma PointZerosText(a: string, z: nat)
    requires |a| > 0 && AllDigits(a)
    ensures PlainDecimalText(a + "." + Repeat('0', z))
  {
    var t := a + "." + Repeat('0', z);
    forall i | 0 <= i < |t|
      ensures (IsDigit(t[i]) || t[i] == '.') && (i < |a| ==> t[i] == a[i])
    {
      if i > |a| {
        assert t[i] == Repeat('0', z)[i - |a| - 1];
      }
    }
    PlainDecimal(t);
  }

  /** Splitting digits, a dot and zeros at the dot. */
  lemma PointZerosParts(a: string, z: nat)
    requires |a| > 0 && AllDigits(a)
    ensures UnsignedDecimal(a + "." + Repeat('0', z)) == Some(DigitsValue(a))
  {
    ZerosValue(z);
    PointZerosScaled(a, z);
    ScaledBack(a, z);
  }

  /** Digits, a dot and zeros are the digits and zeros together, scaled down by the zeros. */
  lemma PointZerosScaled(a: string, z: nat)
    requires |a| > 0 && AllDigits(a)
    ensures AllDigits(a + Repeat('0', z))
    ensures UnsignedDecimal(a + "." + Repeat('0', z)) == ScaledDigits(DigitsValue(a + Repeat('0', z)), -(z as int))
  {
    var zs := Repeat('0', z);
    ZerosValue(z);
    PointZerosNoExponent(a, z);
    FractionSplit(a, zs, 0);
    assert 0 - |zs| == -(z as int);
  }

  /** Digits, a dot and zeros hold no exponent marker. */
  lemma PointZerosNoExponent(a: string, z: nat)
    requires AllDigits(a)
    ensures UnsignedDecimal(a + "." + Repeat('0', z)) == ScaledMantissa(a + "." + Repeat('0', z), 0)
  {
    var t := a + "." + Repeat('0', z);
    forall i | 0 <= i < |t|
      ensures IsDigit(t[i]) || t[i] == '.'
    {
      if i > |a| {
        assert t[i] == Repeat('0', z)[i - |a| - 1];
      }
    }
    NoExponent(t);
  }

  /** A literal without an exponent marker is its mantissa, scaled by nothing. */
  lemma NoExponent(t: string)
    requires forall i :: 0 <= i < |t| ==> IsDigit(t[i]) || t[i] == '.'
    ensures UnsignedDecimal(t) == ScaledMantissa(t, 0)
  {
    IndexOfAnyAt(t, {'e', 'E'}, |t|);
    assert t[..|t|] == t;
  }

  /** Digits, a dot and digits: the digits together, scaled down by the fraction's length. */
  lemma FractionSplit(a: string, f: string, exponent: int)
    requires AllDigits(a) && AllDigits(f) && |a| > 0
    ensures AllDigits(a + f)
    ensures ScaledMantissa(a + "." + f, exponent) == ScaledDigits(DigitsValue(a + f), exponent - |f|)
  {
    var t := a + "." + f;
    forall i | 0 <= i < |a|
      ensures t[i] !in {'.'}
    {
      assert t[i] == a[i] && IsDigit(a[i]);
    }
    IndexOfAnyAt(t, {'.'}, |a|);
    assert t[..|a|] == a && t[|a| + 1..] == f;
  }

  /** Digits followed by `z` zeros, scaled down by `z` places, are the digits. */
  lemma {:induction false} ScaledBack(a: string, z: nat)
    requires AllDigits(a)
    ensures AllDigits(a + Repeat('0', z))
    ensures ScaledDigits(DigitsValue(a + Repeat('0', z)), -(z as int)) == Some(DigitsValue(a))
  {
    var t := a + Repeat('0', z);
    assert AllDigits(t) by {
      ZerosValue(z);
    }
    if z == 0 {
      assert t == a;
    } else {
      ScaledBack(a, z - 1);
      ZeroShifts(a, z);
      ScaleDownTen(DigitsValue(a + Repeat('0', z - 1)), -(z as int));
    }
  }

  /** Scaling down ten times a value is scaling the value down one place less. */
  lemma ScaleDownTen(x: nat, scale: int)
    requires scale < 0
    ensures ScaledDigits(10 * x, scale) == ScaledDigits(x, scale + 1)
  {
    assert (10 * x) % 10 == 0 && (10 * x) / 10 == x;
  }

  /** One more trailing zero multiplies the value by ten. */
  lemma ZeroShifts(a: string, z: nat)
    requires AllDigits(a) && z > 0
    ensures AllDigits(a + Repeat('0', z)) && AllDigits(a + Repeat('0', z - 1))
    ensures DigitsValue(a + Repeat('0', z)) == 10 * DigitsValue(a + Repeat('0', z - 1))
  {
    var t := a + Repeat('0', z);
    ZerosValue(z);
    ZerosValue(z - 1);
    assert t[..|t| - 1] == a + Repeat('0', z - 1);
  }

  /** Scaling up by `k` places multiplies by ten to the `k`. */
  lemma {:induction false} ScaledUp(v: nat, k: nat)
    ensures ScaledDigits(v, k) == Some(v * Pow10(k))
    decreases k
  {
    if k > 0 {
      ScaledUp(10 * v, k - 1);
      assert 10 * v * Pow10(k - 1) == v * (10 * Pow10(k - 1));
    }
  }

  /** `Number` reads "0x", "0o" or "0b" followed by digits of that base as their value in the base. */
  lemma StringToNumberOfRadix(letter: char, digits: string)
    requires RadixOf(letter) > 0
    requires digits != "" && AllRadixDigits(digits, RadixOf(letter))
    ensures StringToNumber(['0', letter] + digits) == Some(RadixValue(digits, RadixOf(letter)))
  {
    var t := ['0', letter] + digits;
    forall i | 0 <= i < |t|
      ensures IsAlnumAscii(t[i])
    {
      if i >= 2 {
        assert t[i] == digits[i - 2];
      }
    }
    AlnumTrimmed(t);
    assert t[2..] == digits;
  }

  /** `String(v)`. */
  function JsToString(v: JsValue): string
    decreases v, 1
  {
    match v
    case JsUndefined => "undefined"
    case JsNull => "null"
    case JsBool(b) => if b then "true" else "false"
    case JsNum(n) => IntToString(n)
    case JsStr(s) => s
    case JsArray(items) => ArrayItemsToString(v, 0)
    case JsObject => "[object Object]"
  }

  /** The elements of an array from position `i`, joined with commas; null and undefined print as "". */
  function ArrayItemsToString(v: JsValue, i: nat): string
    requires v.JsArray? && i <= |v.items|
    decreases v, 0, |v.items| - i
  {
    if i == |v.items| then ""
    else
      var item := if IsNullish(v.items[i]) then "" else JsToString(v.items[i]);
      item + (if i + 1 < |v.items| then "," else "") + ArrayItemsToString(v, i + 1)
  }

  /** `Number(v)`; None stands for NaN. */
  function ToNumber(v: JsValue): Option<int>
  {
    match v
    case JsUndefined => None
    case JsNull => Some(0)
    case JsBool(b) => Some(if b then 1 else 0)
    case JsNum(n) => Some(n)
    case JsStr(s) => StringToNumber(s)
    case JsArray(_) => StringToNumber(JsToString(v))
    case JsObject => None
  }

  /** `parseInt(v, 10)`. */
  function ParseInt(v: JsValue): Option<int>
  {
    ParseIntPrefix(JsToString(v))
  }

  /** Every value of a pseudo-random source (`Math.random`, `seededRandom`) lies in [0, 1). */
  ghost predicate UnitInterval(random: int -> real)
  {
    forall x :: 0.0 <= random(x) < 1.0
  }

  // ---------------------------------------------------------------------
  // Counting and distinctness over sequences
  // ---------------------------------------------------------------------

  function Count<T>(s: seq<T>, p: T -> bool): (r: nat)
    ensures r <= |s|
  {
    if |s| == 0 then 0 else Count(s[..|s| - 1], p) + (if p(s[|s| - 1]) then 1 else 0)
  }

  lemma CountAppend<T>(s: seq<T>, x: T, p: T -> bool)
    ensures Count(s + [x], p) == Count(s, p) + (if p(x) then 1 else 0)
  {
    assert (s + [x])[..|s|] == s;
  }

  predicate Distinct<T(==)>(s: seq<T>)
  {
    forall i, j :: 0 <= i < j < |s| ==> s[i] != s[j]
  }

  /**
   * `s.filter((x, i, a) => a.indexOf(x) === i)`: the first occurrence of
   * every element, in the order of first occurrence.
   */
  function Dedupe<T(==,!new)>(s: seq<T>): (r: seq<T>)
    ensures Distinct(r)
    ensures forall x :: x in r <==> x in s
    ensures |r| <= |s|
  {
    if |s| == 0 then []
    else
      var init := s[..|s| - 1];
      assert s == init + [s[|s| - 1]];
      var d := Dedupe(init);
      if s[|s| - 1] in init then d else d + [s[|s| - 1]]
  }

  /** Appending elements never reorders or drops what was already kept. */
  lemma {:induction false} DedupeExtends<T(!new)>(s: seq<T>, t: seq<T>)
    ensures |Dedupe(s)| <= |Dedupe(s + t)|
    ensures Dedupe(s + t)[..|Dedupe(s)|] == Dedupe(s)
    decreases |t|
  {
    if |t| == 0 {
      assert s + t == s;
    } else {
      var t' := t[..|t| - 1];
      DedupeExtends(s, t');
      assert (s + t)[..|s + t| - 1] == s + t';
    }
  }

  /** A sequence without repetitions is its own deduplication. */
  lemma {:induction false} DedupeDistinct<T(!new)>(s: seq<T>)
    requires Distinct(s)
    ensures Dedupe(s) == s
  {
    if |s| > 0 {
      var init := s[..|s| - 1];
      DedupeDistinct(init);
      assert s[|s| - 1] !in init;
      assert init + [s[|s| - 1]] == s;
    }
  }
}

=== FILE: daily_controller.dfy ===
/**
 * The second `GET` today's tasks handler: it reads the date back from the
 * Indonesian locale rendering `d/m/yyyy` of the calendar date, splitting on
 * "/" and padding day and month, and otherwise behaves like the first.
 */
module DailyController {
  import opened Common
  import opened Entities
  import opened DailyTaskChecklistService
  import opened DailyTaskController

  /** `toLocaleDateString("id-ID")`: day and month without padding, then the year. */
  function LocaleDate(d: CalendarDate): string
  {
    NatToString(d.day) + "/" + NatToString(d.month) + "/" + NatToString(d.year)
  }

  /** Splitting the locale date on "/" gives day, month and year in that order. */
  lemma LocaleDateSplit(d: CalendarDate)
    ensures Split(LocaleDate(d), '/') == [NatToString(d.day), NatToString(d.month), NatToString(d.year)]
  {
    var parts := [NatToString(d.day), NatToString(d.month), NatToString(d.year)];
    forall k | 0 <= k < 3
      ensures '/' !in parts[k]
    {
      assert AllDigits(parts[k]) && !IsDigit('/');
    }
    SplitJoin(parts, '/');
    assert parts[1..][1..] == [NatToString(d.year)];
    assert Join(parts[1..], "/") == NatToString(d.month) + "/" + NatToString(d.year);
    assert Join(parts, "/") == LocaleDate(d);
  }

  /** `parseInt(`${year}${month.padStart(2, "0")}${day.padStart(2, "0")}`)` */
  function LocaleSeedDigits(day: string, month: string, year: string): string
  {
    year + PadStart(month, 2, '0') + PadStart(day, 2, '0')
  }

  /** `${year}-${month.padStart(2, "0")}-${day.padStart(2, "0")}` */
  function LocaleDateString(day: string, month: string, year: string): string
  {
    year + "-" + PadStart(month, 2, '0') + "-" + PadStart(day, 2, '0')
  }

  /** Reading the locale date back gives the same seed digits and date string as the first handler. */
  lemma LocaleRoundTrip(d: CalendarDate)
    ensures LocaleSeedDigits(NatToString(d.day), NatToString(d.month), NatToString(d.year)) == SeedDigits(d)
    ensures LocaleDateString(NatToString(d.day), NatToString(d.month), NatToString(d.year)) == DateString(d)
  {
  }

  /**
   * `getTodayTasks` of the locale-based handler: an empty pool answers 404;
   * otherwise the same date string and the same five tasks as the first
   * handler.
   */
  method GetTodayTasksFromLocale(pool: seq<DailyTask>, today: CalendarDate, random: int -> real)
    returns (r: Result<TodayTasks>)
    requires ValidDate(today) && UnitInterval(random)
    ensures |pool| == 0 <==> r.Err?
    ensures r.Err? ==> r == Err(404, "No tasks available")
    ensures r.Ok? ==> r.value.date == DateString(today) && r.value.tasks == Selection(pool, random, Seed(today))
    ensures r.Ok? ==> (|r.value.tasks| == Min(5, |pool|)
                       && (forall k :: 0 <= k < |r.value.tasks| ==> r.value.tasks[k] in pool)
                       && (Distinct(pool) ==> Distinct(r.value.tasks)))
  {
    if |pool| == 0 {
      return Err(404, "No tasks available");
    }
    var todayLocal := LocaleDate(today);
    var parts := Split(todayLocal, '/');
    LocaleDateSplit(today);
    var day, month, year := parts[0], parts[1], parts[2];
    LocaleRoundTrip(today);
    SeedValue(today);
    var seed := ParseIntPrefix(LocaleSeedDigits(day, month, year)).value;
    var shuffled := ShuffleArray(pool, random, seed);
    var selected := Prefix(shuffled, 5);
    SelectionFromPool(pool, random, seed);
    return Ok(TodayTasks(LocaleDateString(day, month, year), selected));
  }
}

=== FILE: daily_task_checklist_controller.dfy ===
/**
 * The checklist endpoints: mark a row completed, uncheck it, and generate
 * one unchecked row per task of the pool unless the user already has a row
 * created since today's midnight. A row identifier is the row's position;
 * an identifier past the end is an unknown row.
 */
module DailyTaskChecklistController {
  import opened Common
  import opened Entities
  import opened DailyTaskChecklistModel

  /** `markComplete`: 404 for an unknown row; otherwise the row is completed at `now` and saved. */
  method MarkComplete(store: ChecklistStore, id: ChecklistId, now: int) returns (r: Result<Checklist>)
    modifies store
    ensures id >= |old(store.rows)| ==> r == Err(404, "Checklist not found") && store.rows == old(store.rows)
    ensures id < |old(store.rows)| ==>
      r.Ok? && |store.rows| == |old(store.rows)|
      && r.value == store.rows[id]
      && r.value.isCompleted && r.value.completedAt == Some(now) && r.value.updatedAt == now
      && r.value.(isCompleted := old(store.rows)[id].isCompleted, completedAt := old(store.rows)[id].completedAt,
                  updatedAt := old(store.rows)[id].updatedAt) == old(store.rows)[id]
      && (forall k :: 0 <= k < |store.rows| && k != id ==> store.rows[k] == old(store.rows)[k])
  {
    if id >= |store.rows| {
      return Err(404, "Checklist not found");
    }
    var checklist := store.rows[id];
    checklist := checklist.(isCompleted := true, completedAt := Some(now));
    SaveRow(store, id, checklist, now);
    return Ok(store.rows[id]);
  }

  /** `uncheck`: 404 for an unknown row; otherwise the row is not completed and has no completion time. */
  method Uncheck(store: ChecklistStore, id: ChecklistId, now: int) returns (r: Result<Checklist>)
    modifies store
    ensures id >= |old(store.rows)| ==> r == Err(404, "Checklist not found") && store.rows == old(store.rows)
    ensures id < |old(store.rows)| ==>
      r.Ok? && |store.rows| == |old(store.rows)|
      && r.value == store.rows[id]
      && !r.value.isCompleted && r.value.completedAt.None? && r.value.updatedAt == now
      && r.value.(isCompleted := old(store.rows)[id].isCompleted, completedAt := old(store.rows)[id].completedAt,
                  updatedAt := old(store.rows)[id].updatedAt) == old(store.rows)[id]
      && (forall k :: 0 <= k < |store.rows| && k != id ==> store.rows[k] == old(store.rows)[k])
  {
    if id >= |store.rows| {
      return Err(404, "Checklist not found");
    }
    var checklist := store.rows[id];
    checklist := checklist.(isCompleted := false, completedAt := None);
    SaveRow(store, id, checklist, now);
    return Ok(store.rows[id]);
  }

  /** The user has a row created at or after `todayStart`. */
  predicate HasRowSince(rows: seq<Checklist>, userId: UserId, todayStart: int)
  {
    exists k :: 0 <= k < |rows| && rows[k].userId == userId && rows[k].createdAt >= todayStart
  }

  /** The rows `insertMany` adds: one unchecked row of `userId` per task, in pool order. */
  function GeneratedRows(userId: UserId, tasks: seq<DailyTask>, now: int): (r: seq<Checklist>)
    ensures |r| == |tasks|
    ensures forall k :: 0 <= k < |r| ==> r[k] == NewChecklist(userId, tasks[k].id, now)
  {
    seq(|tasks|, k requires 0 <= k < |tasks| => NewChecklist(userId, tasks[k].id, now))
  }

  /**
   * `generateDailyChecklist`: 400 when the user already has a row created
   * since midnight, 404 for an empty pool, otherwise one new unchecked row per
   * task and the count of rows inserted.
   */
  method GenerateDailyChecklist(store: ChecklistStore, userId: UserId, todayStart: int, now: int,
                                tasks: seq<DailyTask>) returns (r: Result<nat>)
    modifies store
    ensures HasRowSince(old(store.rows), userId, todayStart) ==>
      r == Err(400, "Checklist hari ini sudah dibuat.") && store.rows == old(store.rows)
    ensures !HasRowSince(old(store.rows), userId, todayStart) && |tasks| == 0 ==>
      r == Err(404, "Tidak ada daily task yang tersedia.") && store.rows == old(store.rows)
    ensures r.Ok? <==> !HasRowSince(old(store.rows), userId, todayStart) && |tasks| > 0
    ensures r.Ok? ==> r.value == |tasks| && store.rows == old(store.rows) + GeneratedRows(userId, tasks, now)
  {
    if exists k :: 0 <= k < |store.rows| && store.rows[k].userId == userId && store.rows[k].createdAt >= todayStart {
      return Err(400, "Checklist hari ini sudah dibuat.");
    }
    if |tasks| == 0 {
      return Err(404, "Tidak ada daily task yang tersedia.");
    }
    var newRows := GeneratedRows(userId, tasks, now);
    store.rows := store.rows + newRows;
    return Ok(|newRows|);
  }

  /** Once generation succeeded at `now >= todayStart`, a second generation the same day is refused. */
  lemma GenerateOncePerDay(rows: seq<Checklist>, userId: UserId, todayStart: int, now: int, tasks: seq<DailyTask>)
    requires |tasks| > 0 && now >= todayStart
    ensures HasRowSince(rows + GeneratedRows(userId, tasks, now), userId, todayStart)
  {
    var all := rows + GeneratedRows(userId, tasks, now);
    assert all[|rows|] == NewChecklist(userId, tasks[0].id, now);
  }
}

=== FILE: daily_task_checklist_model.dfy ===
/**
 * A daily-task checklist row: which user, which task, whether it is done and
 * since when, and the leaf it is linked to. The collection keeps rows in
 * insertion order and a row's identifier is its position. Saving a row runs
 * the schema's pre-save hook, which stamps `completedAt` when `isCompleted`
 * was switched on and no completion time is set.
 */
module DailyTaskChecklistModel {
  import opened Common
  import opened Entities

  type ChecklistId = nat

  datatype Checklist = Checklist(
    userId: UserId,
    dailyTaskId: TaskId,
    treeLeafId: Option<nat>,
    isCompleted: bool,
    completedAt: Option<int>,
    createdAt: int,
    updatedAt: int)

  /** A row created with only the required fields: not completed, no completion time, no leaf. */
  function NewChecklist(userId: UserId, taskId: TaskId, now: int): (c: Checklist)
    ensures c.userId == userId && c.dailyTaskId == taskId
    ensures !c.isCompleted && c.completedAt.None? && c.treeLeafId.None?
    ensures c.createdAt == now && c.updatedAt == now
  {
    Checklist(userId, taskId, None, false, None, now, now)
  }

  /** `isModified("isCompleted")`: a new row, or a value different from the stored one. */
  predicate CompletionModified(stored: Option<Checklist>, doc: Checklist)
  {
    stored.None? || stored.value.isCompleted != doc.isCompleted
  }

  /** The pre-save hook: the row as written, given the stored row (None for a new one). */
  function PreSave(stored: Option<Checklist>, doc: Checklist, now: int): (r: Checklist)
    ensures r.(completedAt := doc.completedAt) == doc
    ensures doc.completedAt.Some? ==> r.completedAt == doc.completedAt
    ensures !doc.isCompleted ==> r == doc
    ensures r.completedAt != doc.completedAt <==>
      CompletionModified(stored, doc) && doc.isCompleted && doc.completedAt.None?
    ensures r.completedAt != doc.completedAt ==> r.completedAt == Some(now)
  {
    if CompletionModified(stored, doc) && doc.isCompleted && doc.completedAt.None? then
      doc.(completedAt := Some(now))
    else
      doc
  }

  class ChecklistStore {
    var rows: seq<Checklist>

    constructor ()
      ensures rows == []
    {
      rows := [];
    }
  }

  /** The first row of `userId` for task `taskId` in natural order (`findOne`). */
  function FindRow(rows: seq<Checklist>, userId: UserId, taskId: TaskId): (r: Option<ChecklistId>)
    ensures r.Some? ==> r.value < |rows| && rows[r.value].userId == userId && rows[r.value].dailyTaskId == taskId
    ensures r.Some? ==> forall k :: 0 <= k < r.value ==> !(rows[k].userId == userId && rows[k].dailyTaskId == taskId)
    ensures r.None? <==> forall k :: 0 <= k < |rows| ==> !(rows[k].userId == userId && rows[k].dailyTaskId == taskId)
  {
    if |rows| == 0 then None
    else
      var earlier := FindRow(rows[..|rows| - 1], userId, taskId);
      if earlier.Some? then earlier
      else if rows[|rows| - 1].userId == userId && rows[|rows| - 1].dailyTaskId == taskId then Some(|rows| - 1)
      else None
  }

  /** Appending rows of other (user, task) pairs does not change where a pair is first found. */
  lemma {:induction false} FindRowAppend(rows: seq<Checklist>, extra: Checklist, userId: UserId, taskId: TaskId)
    ensures FindRow(rows, userId, taskId).Some? ==> FindRow(rows + [extra], userId, taskId) == FindRow(rows, userId, taskId)
    ensures !(extra.userId == userId && extra.dailyTaskId == taskId) ==>
      FindRow(rows + [extra], userId, taskId) == FindRow(rows, userId, taskId)
  {
    assert (rows + [extra])[..|rows|] == rows;
  }

  /** `document.save()` of the row `id`: the hook runs against the stored row and `updatedAt` moves to now. */
  method SaveRow(store: ChecklistStore, id: ChecklistId, doc: Checklist, now: int)
    requires id < |store.rows|
    modifies store
    ensures store.rows == old(store.rows)[id := PreSave(Some(old(store.rows)[id]), doc, now).(updatedAt := now)]
  {
    var written := PreSave(Some(store.rows[id]), doc, now).(updatedAt := now);
    store.rows := store.rows[id := written];
  }

  /** `Model.create(...)`: the hook runs on the new row, which is appended; its identifier is returned. */
  method CreateRow(store: ChecklistStore, doc: Checklist, now: int) returns (id: ChecklistId)
    modifies store
    ensures id == |old(store.rows)|
    ensures store.rows == old(store.rows) + [PreSave(None, doc, now)]
  {
    id := |store.rows|;
    store.rows := store.rows + [PreSave(None, doc, now)];
  }
}

=== FILE: daily_task_checklist_service.dfy ===
/**
 * The daily task engine: the day's five tasks are the first five of the task
 * pool after a Fisher-Yates shuffle driven by a pseudo-random sequence seeded
 * with the date (YYYYMMDD as a number); each selected task gets one checklist
 * row per user, reused on later calls.
 *
 * The pseudo-random source `seededRandom` is a parameter `random` whose only
 * property is that every value lies in [0, 1).
 */
module DailyTaskChecklistService {
  import opened Common
  import opened Entities
  import opened DailyTaskChecklistModel

  lemma ScaleBelow(r: real, n: nat)
    requires 0.0 <= r < 1.0 && n >= 1
    ensures 0.0 <= r * (n as real) < n as real
  {
    assert r * (n as real) <= r * (n as real) + (1.0 - r) * (n as real);
  }

  /** `Math.floor(seededRandom(seed + i) * (i + 1))`: the position swapped with `i`, never beyond `i`. */
  function SwapIndex(random: int -> real, seed: int, i: nat): (j: nat)
    requires UnitInterval(random)
    ensures j <= i
  {
    ScaleBelow(random(seed + i), i + 1);
    (random(seed + i) * ((i + 1) as real)).Floor
  }

  /** Exchanging the elements at two positions. */
  function Swap<T>(s: seq<T>, i: nat, j: nat): (r: seq<T>)
    requires i < |s| && j < |s|
    ensures |r| == |s|
  {
    s[i := s[j]][j := s[i]]
  }

  /** An exchange keeps the elements. */
  lemma SwapPermutes<T>(s: seq<T>, i: nat, j: nat)
    requires i < |s| && j < |s|
    ensures multiset(Swap(s, i, j)) == multiset(s)
  {
  }

  /** The swaps of positions `i`, `i - 1`, ..., 1 applied in turn. */
  function ShuffleFrom<T>(s: seq<T>, random: int -> real, seed: int, i: nat): seq<T>
    requires UnitInterval(random)
    requires i < |s| || i == 0
    decreases i
  {
    if i == 0 then s else ShuffleFrom(Swap(s, i, SwapIndex(random, seed, i)), random, seed, i - 1)
  }

  /** `shuffleArray(array, seed)` as a value. */
  function Shuffled<T>(s: seq<T>, random: int -> real, seed: int): seq<T>
    requires UnitInterval(random)
  {
    if |s| <= 1 then s else ShuffleFrom(s, random, seed, |s| - 1)
  }

  lemma {:induction false} ShuffleFromPermutes<T>(s: seq<T>, random: int -> real, seed: int, i: nat)
    requires UnitInterval(random)
    requires i < |s| || i == 0
    ensures |ShuffleFrom(s, random, seed, i)| == |s|
    ensures multiset(ShuffleFrom(s, random, seed, i)) == multiset(s)
    decreases i
  {
    if i > 0 {
      SwapPermutes(s, i, SwapIndex(random, seed, i));
      ShuffleFromPermutes(Swap(s, i, SwapIndex(random, seed, i)), random, seed, i - 1);
    }
  }

  /** The shuffle is a permutation of its input. */
  lemma ShuffledPermutes<T>(s: seq<T>, random: int -> real, seed: int)
    requires UnitInterval(random)
    ensures |Shuffled(s, random, seed)| == |s|
    ensures multiset(Shuffled(s, random, seed)) == multiset(s)
  {
    if |s| > 1 {
      ShuffleFromPermutes(s, random, seed, |s| - 1);
    }
  }

  /**
   * `shuffleArray`: a copy of the input is shuffled in place, from the last
   * position down to position 1.
   */
  method ShuffleArray<T>(input: seq<T>, random: int -> real, seed: int) returns (result: seq<T>)
    requires UnitInterval(random)
    ensures result == Shuffled(input, random, seed)
  {
    var a := new T[|input|](k requires 0 <= k < |input| => input[k]);
    assert a[..] == input;
    var i := |input| - 1;
    while i > 0
      invariant -1 <= i < |input| || (|input| == 0 && i == -1)
      invariant i >= 0 ==> ShuffleFrom(a[..], random, seed, i) == Shuffled(input, random, seed)
      invariant i < 0 ==> a[..] == Shuffled(input, random, seed)
    {
      var j := SwapIndex(random, seed, i);
      ghost var before := a[..];
      a[i], a[j] := a[j], a[i];
      assert a[..] == Swap(before, i, j);
      i := i - 1;
    }
    result := a[..];
  }

  lemma {:induction false} DistinctCounts<T>(s: seq<T>)
    requires Distinct(s)
    ensures forall x :: multiset(s)[x] <= 1
  {
    if |s| > 0 {
      DistinctCounts(s[1..]);
      assert s == [s[0]] + s[1..];
      assert s[0] !in s[1..];
    }
  }

  lemma RepeatedCount<T>(s: seq<T>, i: nat, j: nat)
    requires i < j < |s| && s[i] == s[j]
    ensures multiset(s)[s[i]] >= 2
  {
    assert s == s[..i] + [s[i]] + s[i + 1..j] + [s[j]] + s[j + 1..];
  }

  /** A permutation of a sequence without repetitions has none either. */
  lemma DistinctPermutation<T>(a: seq<T>, b: seq<T>)
    requires multiset(a) == multiset(b) && Distinct(a)
    ensures Distinct(b)
  {
    DistinctCounts(a);
    forall i, j | 0 <= i < j < |b|
      ensures b[i] != b[j]
    {
      if b[i] == b[j] {
        RepeatedCount(b, i, j);
        assert false;
      }
    }
  }

  /** The tasks of the day: the first five of the shuffled pool. */
  function Selection<T>(pool: seq<T>, random: int -> real, seed: int): seq<T>
    requires UnitInterval(random)
  {
    Prefix(Shuffled(pool, random, seed), 5)
  }

  /** The selection holds `min(5, n)` tasks, all from the pool, without repetition when the pool has none. */
  lemma SelectionFromPool<T>(pool: seq<T>, random: int -> real, seed: int)
    requires UnitInterval(random)
    ensures |Selection(pool, random, seed)| == Min(5, |pool|)
    ensures forall k :: 0 <= k < |Selection(pool, random, seed)| ==> Selection(pool, random, seed)[k] in pool
    ensures Distinct(pool) ==> Distinct(Selection(pool, random, seed))
  {
    var sh := Shuffled(pool, random, seed);
    ShuffledPermutes(pool, random, seed);
    var sel := Selection(pool, random, seed);
    forall k | 0 <= k < |sel|
      ensures sel[k] in pool
    {
      assert sel[k] == sh[k];
      assert sh[k] in multiset(sh);
    }
    if Distinct(pool) {
      DistinctPermutation(pool, sh);
    }
  }

  // ---------------------------------------------------------------------
  // The date string and the seed
  // ---------------------------------------------------------------------

  /** A calendar date as `getFullYear`, `getMonth() + 1` and `getDate` give it. */
  datatype CalendarDate = CalendarDate(year: nat, month: nat, day: nat)

  predicate ValidDate(d: CalendarDate)
  {
    1 <= d.month <= 12 && 1 <= d.day <= 31
  }

  /** `String(n).padStart(2, "0")`. */
  function Pad2(n: nat): string
  {
    PadStart(NatToString(n), 2, '0')
  }

  /** `${yyyy}-${mm}-${dd}` */
  function DateString(d: CalendarDate): string
  {
    NatToString(d.year) + "-" + Pad2(d.month) + "-" + Pad2(d.day)
  }

  /** `${yyyy}${mm}${dd}` */
  function SeedDigits(d: CalendarDate): string
  {
    NatToString(d.year) + Pad2(d.month) + Pad2(d.day)
  }

  /** A number below 100 pads to its two decimal digits. */
  lemma Pad2Digits(n: nat)
    requires n < 100
    ensures Pad2(n) == [DigitChar(n / 10), DigitChar(n % 10)]
    ensures AllDigits(Pad2(n)) && DigitsValue(Pad2(n)) == n
  {
    if n < 10 {
      assert NatToString(n) == [DigitChar(n)];
      assert Repeat('0', 1) == ['0'];
      assert Pad2(n) == ['0', DigitChar(n)];
      assert DigitChar(0) == '0';
    } else {
      assert NatToString(n / 10) == [DigitChar(n / 10)];
      assert NatToString(n) == [DigitChar(n / 10)] + [DigitChar(n % 10)];
    }
    var p := Pad2(n);
    assert p[..1] == [DigitChar(n / 10)];
    assert DigitsValue(p[..1]) == DigitValue(DigitChar(n / 10));
  }

  /** The date string is the year, then month and day as two digits each, separated by dashes. */
  lemma DateStringShape(d: CalendarDate)
    requires ValidDate(d)
    ensures DateString(d) == NatToString(d.year) + ['-', DigitChar(d.month / 10), DigitChar(d.month % 10),
                                                     '-', DigitChar(d.day / 10), DigitChar(d.day % 10)]
  {
    var m, dd := Pad2(d.month), Pad2(d.day);
    Pad2Digits(d.month);
    Pad2Digits(d.day);
    DashJoin(NatToString(d.year), m, dd);
  }

  /** Joining with dashes two two-character parts. */
  lemma DashJoin(y: string, m: string, dd: string)
    requires |m| == 2 && |dd| == 2
    ensures y + "-" + m + "-" + dd == y + ['-', m[0], m[1], '-', dd[0], dd[1]]
  {
  }

  /** Appending a padded number below 100 shifts the value by two decimal places. */
  lemma AppendPad2(a: string, n: nat)
    requires AllDigits(a) && n < 100
    ensures AllDigits(a + Pad2(n)) && DigitsValue(a + Pad2(n)) == DigitsValue(a) * 100 + n
  {
    Pad2Digits(n);
    DigitsValueAppend(a, Pad2(n));
    assert Pow10(2) == 100;
  }

  /** `parseInt(`${yyyy}${mm}${dd}`, 10)` is yyyy * 10000 + mm * 100 + dd. */
  lemma SeedValue(d: CalendarDate)
    requires ValidDate(d)
    ensures ParseIntPrefix(SeedDigits(d)) == Some(Seed(d))
  {
    var s := SeedDigits(d);
    assert |s| > 0 && AllDigits(s) && DigitsValue(s) == Seed(d) by {
      var y, m := NatToString(d.year), Pad2(d.month);
      NatToStringValue(d.year);
      AppendPad2(y, d.month);
      AppendPad2(y + m, d.day);
      SeedArithmetic(d.year, d.month, d.day);
    }
    ParseIntOfDigits(s);
  }

  lemma SeedArithmetic(y: int, m: int, dd: int)
    ensures (y * 100 + m) * 100 + dd == y * 10000 + m * 100 + dd
  {
  }

  /** The seed of a valid date. */
  function Seed(d: CalendarDate): int
  {
    d.year * 10000 + d.month * 100 + d.day
  }

  // ---------------------------------------------------------------------
  // getTodayChecklistForUser
  // ---------------------------------------------------------------------

  datatype TodayTask = TodayTask(
    checklistId: ChecklistId,
    dailyTaskId: TaskId,
    title: string,
    category: string,
    symbol: string,
    isCompleted: bool,
    treeLeafId: Option<nat>)

  datatype TodayChecklist = TodayChecklist(date: string, tasks: seq<TodayTask>)

  /** The entry returned for `task` backed by checklist row `id`. */
  function EntryFor(task: DailyTask, id: ChecklistId, row: Checklist): (e: TodayTask)
    ensures e.isCompleted == row.isCompleted && e.treeLeafId == row.treeLeafId
    ensures e.checklistId == id && e.dailyTaskId == task.id
  {
    TodayTask(id, task.id, task.title, task.category, task.symbol, row.isCompleted, row.treeLeafId)
  }

  /** The entry `e` is backed by the first row of `userId` for `task`. */
  predicate Backed(e: TodayTask, task: DailyTask, rows: seq<Checklist>, userId: UserId)
  {
    var found := FindRow(rows, userId, task.id);
    found.Some? && e == EntryFor(task, found.value, rows[found.value])
  }

  /** Every entry so far is backed by the row of its task. */
  ghost predicate AllBacked(tasks: seq<TodayTask>, selected: seq<DailyTask>, rows: seq<Checklist>, userId: UserId)
  {
    |tasks| <= |selected| && forall m :: 0 <= m < |tasks| ==> Backed(tasks[m], selected[m], rows, userId)
  }

  /** An entry stays backed when rows are appended and its task's row stays the first. */
  lemma BackedKept(e: TodayTask, task: DailyTask, before: seq<Checklist>, after: seq<Checklist>, userId: UserId)
    requires Backed(e, task, before, userId)
    requires |before| <= |after| && after[..|before|] == before
    requires FindRow(after, userId, task.id) == FindRow(before, userId, task.id)
    ensures Backed(e, task, after, userId)
  {
    var w := FindRow(before, userId, task.id).value;
    assert after[w] == after[..|before|][w];
  }

  /** Appending rows keeps existing entries backed; the next entry extends the list. */
  lemma AllBackedStep(tasks: seq<TodayTask>, selected: seq<DailyTask>, before: seq<Checklist>,
                      after: seq<Checklist>, userId: UserId, e: TodayTask)
    requires AllBacked(tasks, selected, before, userId) && |tasks| < |selected|
    requires |before| <= |after| && after[..|before|] == before
    requires forall t :: FindRow(before, userId, t).Some? ==> FindRow(after, userId, t) == FindRow(before, userId, t)
    requires Backed(e, selected[|tasks|], after, userId)
    ensures AllBacked(tasks + [e], selected, after, userId)
  {
    var ts := tasks + [e];
    forall m | 0 <= m < |ts|
      ensures Backed(ts[m], selected[m], after, userId)
    {
      if m < |tasks| {
        assert ts[m] == tasks[m];
        BackedKept(tasks[m], selected[m], before, after, userId);
      } else {
        assert ts[m] == e;
      }
    }
  }

  /**
   * The `findOne`-then-`create` step for one task: the user's first row for
   * the task, or a new unchecked row appended for it when there is none.
   */
  method GetOrCreateRow(store: ChecklistStore, userId: UserId, taskId: TaskId, now: int) returns (id: ChecklistId)
    modifies store
    ensures FindRow(store.rows, userId, taskId) == Some(id)
    ensures FindRow(old(store.rows), userId, taskId).Some? ==> store.rows == old(store.rows)
    ensures FindRow(old(store.rows), userId, taskId).None? ==>
      store.rows == old(store.rows) + [NewChecklist(userId, taskId, now)]
    ensures forall t :: FindRow(old(store.rows), userId, t).Some? ==>
      FindRow(store.rows, userId, t) == FindRow(old(store.rows), userId, t)
  {
    var found := FindRow(store.rows, userId, taskId);
    if found.Some? {
      return found.value;
    }
    ghost var before := store.rows;
    id := CreateRow(store, NewChecklist(userId, taskId, now), now);
    FindRowAppend(before, NewChecklist(userId, taskId, now), userId, taskId);
    forall t | FindRow(before, userId, t).Some?
      ensures FindRow(store.rows, userId, t) == FindRow(before, userId, t)
    {
      FindRowAppend(before, NewChecklist(userId, taskId, now), userId, t);
    }
  }

  /**
   * The rows appended to `before` are new unchecked rows of the user, each
   * for a selected task that had no row of the user before, and no task gets
   * two of them.
   */
  ghost predicate AppendedFor(before: seq<Checklist>, after: seq<Checklist>, selected: seq<DailyTask>, userId: UserId, now: int)
  {
    |before| <= |after|
    && (forall k :: |before| <= k < |after| ==>
          after[k] == NewChecklist(userId, after[k].dailyTaskId, now)
          && FindRow(before, userId, after[k].dailyTaskId).None?
          && exists m :: 0 <= m < |selected| && selected[m].id == after[k].dailyTaskId)
    && (forall k, j :: |before| <= k < j < |after| ==> after[k].dailyTaskId != after[j].dailyTaskId)
  }

  /** Appending a new row for a selected task that has no row keeps `AppendedFor`. */
  lemma AppendedForStep(rows0: seq<Checklist>, before: seq<Checklist>, selected: seq<DailyTask>,
                        userId: UserId, now: int, m: nat)
    requires |rows0| <= |before| && before[..|rows0|] == rows0
    requires AppendedFor(rows0, before, selected, userId, now)
    requires m < |selected| && FindRow(before, userId, selected[m].id).None?
    ensures AppendedFor(rows0, before + [NewChecklist(userId, selected[m].id, now)], selected, userId, now)
  {
    var t := selected[m].id;
    var after := before + [NewChecklist(userId, t, now)];
    assert forall w :: 0 <= w < |rows0| ==> rows0[w] == before[w];
    assert FindRow(rows0, userId, t).None?;
    forall k | |rows0| <= k < |after|
      ensures after[k] == NewChecklist(userId, after[k].dailyTaskId, now)
      ensures FindRow(rows0, userId, after[k].dailyTaskId).None?
      ensures exists i :: 0 <= i < |selected| && selected[i].id == after[k].dailyTaskId
    {
      if k == |before| {
        assert after[k].dailyTaskId == selected[m].id;
      } else {
        assert after[k] == before[k];
      }
    }
    forall k, j | |rows0| <= k < j < |after|
      ensures after[k].dailyTaskId != after[j].dailyTaskId
    {
      if j == |before| {
        assert after[k] == before[k] && before[k].userId == userId;
      } else {
        assert after[k] == before[k] && after[j] == before[j];
      }
    }
  }

  /**
   * What `CollectEntries` keeps after `k` tasks: the old rows are kept, the
   * first `k` entries are backed, the appended rows are new rows for tasks
   * that had none, and nothing is appended when every task had a row.
   */
  ghost predicate CollectedSoFar(rows0: seq<Checklist>, rows: seq<Checklist>, tasks: seq<TodayTask>,
                                 selected: seq<DailyTask>, userId: UserId, now: int)
  {
    |tasks| <= |selected|
    && |rows0| <= |rows| && rows[..|rows0|] == rows0
    && AllBacked(tasks, selected, rows, userId)
    && AppendedFor(rows0, rows, selected, userId, now)
    && ((forall m :: 0 <= m < |selected| ==> FindRow(rows0, userId, selected[m].id).Some?) ==> rows == rows0)
  }

  /** One `findOne`-then-`create` step keeps `CollectedSoFar`. */
  lemma CollectStep(rows0: seq<Checklist>, before: seq<Checklist>, after: seq<Checklist>, tasks: seq<TodayTask>,
                    selected: seq<DailyTask>, userId: UserId, now: int, id: ChecklistId)
    requires CollectedSoFar(rows0, before, tasks, selected, userId, now) && |tasks| < |selected|
    requires var t := selected[|tasks|].id;
      FindRow(after, userId, t) == Some(id)
      && (FindRow(before, userId, t).Some? ==> after == before)
      && (FindRow(before, userId, t).None? ==> after == before + [NewChecklist(userId, t, now)])
      && (forall t' :: FindRow(before, userId, t').Some? ==> FindRow(after, userId, t') == FindRow(before, userId, t'))
    ensures CollectedSoFar(rows0, after, tasks + [EntryFor(selected[|tasks|], id, after[id])], selected, userId, now)
  {
    var k := |tasks|;
    var task := selected[k];
    if FindRow(before, userId, task.id).None? {
      assert forall w :: 0 <= w < |rows0| ==> rows0[w] == before[w];
      AppendedForStep(rows0, before, selected, userId, now, k);
      assert after[..|rows0|] == rows0;
    }
    AllBackedStep(tasks, selected, before, after, userId, EntryFor(task, id, after[id]));
  }

  /** The `selected.map(...)` step: one entry per selected task, its row found or created. */
  method CollectEntries(store: ChecklistStore, selected: seq<DailyTask>, userId: UserId, now: int)
    returns (tasks: seq<TodayTask>)
    modifies store
    ensures |old(store.rows)| <= |store.rows| && store.rows[..|old(store.rows)|] == old(store.rows)
    ensures forall k :: |old(store.rows)| <= k < |store.rows| ==>
      store.rows[k] == NewChecklist(userId, store.rows[k].dailyTaskId, now)
    ensures AppendedFor(old(store.rows), store.rows, selected, userId, now)
    ensures |tasks| == |selected|
    ensures forall k :: 0 <= k < |selected| ==> Backed(tasks[k], selected[k], store.rows, userId)
    ensures (forall k :: 0 <= k < |selected| ==> FindRow(old(store.rows), userId, selected[k].id).Some?) ==>
      store.rows == old(store.rows)
  {
    ghost var rows0 := store.rows;
    tasks := [];
    var k := 0;
    while k < |selected|
      invariant 0 <= k <= |selected| && |tasks| == k
      invariant CollectedSoFar(rows0, store.rows, tasks, selected, userId, now)
    {
      var task := selected[k];
      ghost var before := store.rows;
      var id := GetOrCreateRow(store, userId, task.id, now);
      CollectStep(rows0, before, store.rows, tasks, selected, userId, now, id);
      var entry := EntryFor(task, id, store.rows[id]);
      tasks := tasks + [entry];
      k := k + 1;
    }
  }

  /**
   * `getTodayChecklistForUser`: an empty pool fails with 404; otherwise each
   * of the day's tasks is paired with the user's existing row for it, or with
   * a new unchecked row appended for it. Existing rows are not touched.
   */
  method GetTodayChecklistForUser(store: ChecklistStore, pool: seq<DailyTask>, userId: UserId,
                                  today: CalendarDate, now: int, random: int -> real)
    returns (r: Result<TodayChecklist>)
    requires ValidDate(today) && UnitInterval(random)
    modifies store
    ensures |pool| == 0 ==> r == Err(404, "NO_DAILY_TASKS_AVAILABLE") && store.rows == old(store.rows)
    ensures |old(store.rows)| <= |store.rows| && store.rows[..|old(store.rows)|] == old(store.rows)
    ensures forall k :: |old(store.rows)| <= k < |store.rows| ==>
      store.rows[k] == NewChecklist(userId, store.rows[k].dailyTaskId, now)
    ensures |pool| > 0 ==>
      var sel := Selection(pool, random, Seed(today));
      r.Ok? && r.value.date == DateString(today) && |r.value.tasks| == |sel|
      && (forall k :: 0 <= k < |sel| ==> Backed(r.value.tasks[k], sel[k], store.rows, userId))
      && ((forall k :: 0 <= k < |sel| ==> FindRow(old(store.rows), userId, sel[k].id).Some?) ==>
            store.rows == old(store.rows))
      && AppendedFor(old(store.rows), store.rows, sel, userId, now)
  {
    var todayStr := DateString(today);
    SeedValue(today);
    var seed := ParseIntPrefix(SeedDigits(today)).value;
    if |pool| == 0 {
      return Err(404, "NO_DAILY_TASKS_AVAILABLE");
    }
    var shuffled := ShuffleArray(pool, random, seed);
    var selected := Prefix(shuffled, 5);
    var tasks := CollectEntries(store, selected, userId, now);
    return Ok(TodayChecklist(todayStr, tasks));
  }
}

=== FILE: daily_task_controller.dfy ===
/**
 * `GET` today's tasks: the same seeded shuffle as the checklist service,
 * with the date taken from the calendar date of the request and no
 * checklist rows involved.
 */
module DailyTaskController {
  import opened Common
  import opened Entities
  import opened DailyTaskChecklistService

  datatype TodayTasks = TodayTasks(date: string, tasks: seq<DailyTask>)

  /**
   * `getTodayTasks`: an empty pool answers 404; otherwise the date string and
   * the first five tasks of the pool shuffled with the date's seed.
   */
  method GetTodayTasks(pool: seq<DailyTask>, today: CalendarDate, random: int -> real)
    returns (r: Result<TodayTasks>)
    requires ValidDate(today) && UnitInterval(random)
    ensures |pool| == 0 <==> r.Err?
    ensures r.Err? ==> r == Err(404, "No tasks available")
    ensures r.Ok? ==> r.value.date == DateString(today) && r.value.tasks == Selection(pool, random, Seed(today))
    ensures r.Ok? ==> (|r.value.tasks| == Min(5, |pool|)
                       && (forall k :: 0 <= k < |r.value.tasks| ==> r.value.tasks[k] in pool)
                       && (Distinct(pool) ==> Distinct(r.value.tasks)))
  {
    if |pool| == 0 {
      return Err(404, "No tasks available");
    }
    var todayStr := DateString(today);
    SeedValue(today);
    var seed := ParseIntPrefix(SeedDigits(today)).value;
    var shuffled := ShuffleArray(pool, random, seed);
    var selected := Prefix(shuffled, 5);
    SelectionFromPool(pool, random, seed);
    return Ok(TodayTasks(todayStr, selected));
  }
}

=== FILE: date_utils.dfy ===
/**
 * Calendar-day helpers. An instant is a count of milliseconds; its calendar day
 * is the number of whole days since the epoch (the server's local time zone is
 * taken to be UTC). `DaysBetween` compares the two instants' midnights.
 */
module DateUtils {

  const MsPerDay: int := 1000 * 60 * 60 * 24

  /** The calendar day an instant falls on. */
  function DayOf(t: int): int
  {
    t / MsPerDay
  }

  /** The instant at the start of `t`'s calendar day (`new Date(y, m, d)`). */
  function Midnight(t: int): int
  {
    DayOf(t) * MsPerDay
  }

  /** `daysBetween(a, b)`: whole days from `a`'s midnight to `b`'s midnight, floored. */
  function DaysBetween(a: int, b: int): int
  {
    (Midnight(b) - Midnight(a)) / MsPerDay
  }

  /** `isSameDay(a, b)`: year, month and date agree, that is, the same calendar day. */
  predicate IsSameDay(a: int, b: int)
  {
    DayOf(a) == DayOf(b)
  }

  lemma MultipleDiv(k: int)
    ensures (k * MsPerDay) / MsPerDay == k
  {
    var q := (k * MsPerDay) / MsPerDay;
    var r := (k * MsPerDay) % MsPerDay;
    assert k * MsPerDay == q * MsPerDay + r;
    assert (k - q) * MsPerDay == r;
  }

  /** The number of days between two instants is the difference of their calendar days. */
  lemma DaysBetweenIsDayDifference(a: int, b: int)
    ensures DaysBetween(a, b) == DayOf(b) - DayOf(a)
  {
    assert Midnight(b) - Midnight(a) == (DayOf(b) - DayOf(a)) * MsPerDay;
    MultipleDiv(DayOf(b) - DayOf(a));
  }

  /** Swapping the arguments negates the count, and the count only depends on the two calendar days. */
  lemma DaysBetweenAntisymmetric(a: int, b: int)
    ensures DaysBetween(b, a) == -DaysBetween(a, b)
    ensures DaysBetween(a, a) == 0
  {
    DaysBetweenIsDayDifference(a, b);
    DaysBetweenIsDayDifference(b, a);
    DaysBetweenIsDayDifference(a, a);
  }

  /** Two instants are on the same day exactly when no whole day lies between them. */
  lemma SameDayIffNoDaysBetween(a: int, b: int)
    ensures IsSameDay(a, b) <==> DaysBetween(a, b) == 0
    ensures IsSameDay(a, b) <==> IsSameDay(b, a)
  {
    DaysBetweenIsDayDifference(a, b);
  }

  /** Instants later on the same day give the same count. */
  lemma DaysBetweenIgnoresTimeOfDay(a: int, a': int, b: int)
    requires IsSameDay(a, a')
    ensures DaysBetween(a, b) == DaysBetween(a', b)
  {
    DaysBetweenIsDayDifference(a, b);
    DaysBetweenIsDayDifference(a', b);
  }
}

=== FILE: ecoenzim_controller.dfy ===
/**
 * The eco-enzyme project handlers: the status a project should have now,
 * recording daily check-ins and monthly photo uploads, verifying an upload,
 * claiming a completed project's points, and the nightly job that cancels
 * expired projects without enough verified uploads.
 */
module EcoenzimController {
  import opened Common
  import opened Entities
  import opened EcoenzimProjectModel
  import PointsHistory

  /** The points one verified upload is worth towards a project's pending points. */
  const PointsPerVerifiedUpload: int := 50

  datatype Derived = Derived(status: ProjectStatus, canClaim: bool)

  /**
   * `calculateProjectStatus` given the number of verified uploads: a
   * completed project stays completed and is not claimable; after the end
   * date, three verified uploads make it completed and claimable, fewer make
   * it cancelled; before that it is ongoing or not started by its flag.
   */
  function CalculateProjectStatus(p: Project, verified: nat, now: int): (d: Derived)
    ensures p.status == Completed ==> d == Derived(Completed, false)
    ensures p.status != Completed && now > p.endDate ==>
      d.status == (if verified >= 3 then Completed else Cancelled)
    ensures p.status != Completed && now <= p.endDate ==>
      d.status == (if p.started then Ongoing else NotStarted)
    ensures d.canClaim <==> p.status != Completed && now > p.endDate && verified >= 3
  {
    if p.status == Completed then Derived(Completed, false)
    else if now > p.endDate then
      (if verified >= 3 then Derived(Completed, true) else Derived(Cancelled, false))
    else Derived(if p.started then Ongoing else NotStarted, false)
  }

  /** A claimable project is one the rule also reports as completed. */
  lemma ClaimableIsCompleted(p: Project, verified: nat, now: int)
    ensures CalculateProjectStatus(p, verified, now).canClaim ==> CalculateProjectStatus(p, verified, now).status == Completed
  {
  }

  /**
   * Where the two status rules meet: for a started project whose verified
   * uploads are all photo stages, the handlers' rule and the model's update
   * agree strictly after the end date.
   */
  lemma StatusRulesAgreeAfterEnd(p: Project, verified: nat, now: int)
    requires p.started && p.status != Completed && now > p.endDate
    ensures var d := CalculateProjectStatus(p, verified, now);
      var q := StatusUpdated(p, verified, now);
      d.status == q.status && d.canClaim == q.canClaim
  {
  }

  /**
   * At the end date itself the two rules part: the model's update already
   * closes the project, while the handlers' rule still reports it ongoing.
   */
  lemma StatusRulesDisagreeAtEnd(p: Project, verified: nat)
    requires p.started && p.status == Ongoing
    ensures CalculateProjectStatus(p, verified, p.endDate).status == Ongoing
    ensures StatusUpdated(p, verified, p.endDate).status != Ongoing
  {
  }

  /** The stored project after the handlers' recalculation (`status` and `canClaim` overwritten). */
  function Synced(p: Project, d: Derived): (r: Project)
    ensures r.status == d.status && r.canClaim == d.canClaim
    ensures r.(status := p.status, canClaim := p.canClaim) == p
  {
    p.(status := d.status, canClaim := d.canClaim)
  }

  // ---------------------------------------------------------------------
  // Uploads
  // ---------------------------------------------------------------------

  /** The request body of `createUpload`; an absent upload date is None. */
  datatype UploadBody = UploadBody(
    projectId: ProjectId,
    userId: UserId,
    monthNumber: JsValue,
    photoUrl: JsValue,
    uploadedDate: Option<int>,
    prePointsEarned: JsValue)

  /** A photo stage already recorded for the project. */
  predicate HasStage(uploads: seq<Upload>, pid: ProjectId, month: int)
  {
    exists i :: 0 <= i < |uploads| && uploads[i].projectId == pid && uploads[i].monthNumber == Some(month)
  }

  /**
   * The upload `createUpload` records for an existing project, or the reason
   * it refuses: a blank month makes a daily check-in, any other month a
   * monthly photo upload.
   */
  function NewUpload(p: Project, uploads: seq<Upload>, body: UploadBody, now: int,
                     isValidUploadDay: (Project, int) -> bool): (r: Result<Upload>)
    ensures r.Ok? ==> r.value.projectId == body.projectId && r.value.userId == body.userId
    ensures r.Ok? ==> r.value.uploadedDate == UploadDate(body, now)
    ensures IsBlankValue(body.monthNumber) ==> r == NewCheckIn(body, now)
    ensures !IsBlankValue(body.monthNumber) ==> r == NewPhotoUpload(p, uploads, body, now, isValidUploadDay)
  {
    if IsBlankValue(body.monthNumber) then NewCheckIn(body, now)
    else NewPhotoUpload(p, uploads, body, now, isValidUploadDay)
  }

  /** The day of an upload: the one given, or today. */
  function UploadDate(body: UploadBody, now: int): int
  {
    if body.uploadedDate.Some? then body.uploadedDate.value else now
  }

  /** A daily check-in: no photo, verified, worth the given points or 1; points that are not a number fail validation. */
  function NewCheckIn(body: UploadBody, now: int): (r: Result<Upload>)
    ensures r.Ok? <==> IsNullish(body.prePointsEarned) || ToNumber(body.prePointsEarned).Some?
    ensures r.Ok? ==>
      r.value.projectId == body.projectId && r.value.userId == body.userId && r.value.uploadedDate == UploadDate(body, now)
      && r.value.monthNumber.None? && r.value.photoUrl.None? && r.value.status == Verified
      && r.value.prePointsEarned == (if IsNullish(body.prePointsEarned) then 1 else ToNumber(body.prePointsEarned).value)
    ensures r.Err? ==> r.status == ServerError
  {
    var given := if IsNullish(body.prePointsEarned) then Some(1) else ToNumber(body.prePointsEarned);
    if given.None? then Err(ServerError, "ValidationError")
    else Ok(Upload(body.projectId, body.userId, None, None, UploadDate(body, now), given.value, Verified))
  }

  /**
   * A monthly photo upload: the month must be 1, 2 or 3, a photo is
   * required, the day must be one `isValidUploadDay` allows and the stage
   * must not be recorded yet; it waits for verification and is worth 50.
   * The repository never defines `isValidUploadDay`, so as written the call
   * throws a ReferenceError and such an upload answers 500; here the rule is
   * a parameter.
   */
  function NewPhotoUpload(p: Project, uploads: seq<Upload>, body: UploadBody, now: int,
                          isValidUploadDay: (Project, int) -> bool): (r: Result<Upload>)
    ensures r.Ok? <==>
      IsMilestoneMonth(ToNumber(body.monthNumber)) && Truthy(body.photoUrl)
      && isValidUploadDay(p, UploadDate(body, now))
      && !HasStage(uploads, body.projectId, ToNumber(body.monthNumber).value)
    ensures r.Ok? ==>
      r.value.projectId == body.projectId && r.value.userId == body.userId && r.value.uploadedDate == UploadDate(body, now)
      && r.value.monthNumber == ToNumber(body.monthNumber) && r.value.photoUrl == Some(JsToString(body.photoUrl))
      && r.value.status == Pending && r.value.prePointsEarned == PointsPerVerifiedUpload
    ensures r.Err? ==> r.status == 400
  {
    var month := ToNumber(body.monthNumber);
    if !IsMilestoneMonth(month) then Err(400, "monthNumber invalid")
    else if !Truthy(body.photoUrl) then Err(400, "Foto wajib untuk upload progress bulanan")
    else if !isValidUploadDay(p, UploadDate(body, now)) then
      Err(400, "Upload foto hanya diizinkan di hari ke-30, 60, atau 90 sejak mulai fermentasi")
    else if HasStage(uploads, body.projectId, month.value) then Err(400, "Sudah ada upload foto untuk tahap ini")
    else Ok(Upload(body.projectId, body.userId, month, Some(JsToString(body.photoUrl)), UploadDate(body, now), PointsPerVerifiedUpload, Pending))
  }

  /** No project has two uploads for the same photo stage. */
  predicate StagesUnique(uploads: seq<Upload>)
  {
    forall i, j ::
      (0 <= i < j < |uploads| && uploads[i].monthNumber.Some? && uploads[i].projectId == uploads[j].projectId)
      ==> uploads[i].monthNumber != uploads[j].monthNumber
  }

  /** Recording an upload keeps every photo stage recorded at most once per project. */
  lemma NewUploadKeepsStagesUnique(p: Project, uploads: seq<Upload>, body: UploadBody, now: int,
                                   isValidUploadDay: (Project, int) -> bool)
    requires StagesUnique(uploads)
    requires NewUpload(p, uploads, body, now, isValidUploadDay).Ok?
    ensures StagesUnique(uploads + [NewUpload(p, uploads, body, now, isValidUploadDay).value])
  {
    var u := NewUpload(p, uploads, body, now, isValidUploadDay).value;
    var s := uploads + [u];
    forall i, j | 0 <= i < j < |s| && s[i].monthNumber.Some? && s[i].projectId == s[j].projectId
      ensures s[i].monthNumber != s[j].monthNumber
    {
      if j == |uploads| && u.monthNumber.Some? {
        assert !HasStage(uploads, body.projectId, u.monthNumber.value);
        assert s[i] == uploads[i];
      }
    }
  }

  /** The project after an upload: pending points from the verified count, then the model's status update. */
  function AfterUpload(p: Project, uploads: seq<Upload>, pid: ProjectId, now: int): (r: Project)
    ensures r.prePointsEarned == Some(PointsPerVerifiedUpload * VerifiedCount(uploads, pid))
  {
    StatusUpdated(p.(prePointsEarned := Some(PointsPerVerifiedUpload * VerifiedCount(uploads, pid))),
                  MilestoneCount(uploads, pid), now)
  }

  /**
   * `createUpload`: an unknown project gives 404 and a refused upload its
   * error, both changing nothing; otherwise the upload is appended (its
   * identifier returned), the project's pending points become 50 per
   * verified upload and the project's status is updated.
   */
  method CreateUpload(projects: ProjectStore, uploads: UploadStore, body: UploadBody, now: int,
                      isValidUploadDay: (Project, int) -> bool)
    returns (r: Result<UploadId>)
    modifies projects, uploads
    ensures body.projectId !in old(projects.projects) ==>
      r == Err(404, "Project not found")
      && projects.projects == old(projects.projects) && uploads.uploads == old(uploads.uploads)
    ensures body.projectId in old(projects.projects) ==>
      var made := NewUpload(old(projects.projects)[body.projectId], old(uploads.uploads), body, now, isValidUploadDay);
      (made.Err? ==>
        r == Err(made.status, made.message)
        && projects.projects == old(projects.projects) && uploads.uploads == old(uploads.uploads))
      && (made.Ok? ==>
        r == Ok(|old(uploads.uploads)|)
        && uploads.uploads == old(uploads.uploads) + [made.value]
        && projects.projects == old(projects.projects)[body.projectId :=
             AfterUpload(old(projects.projects)[body.projectId], uploads.uploads, body.projectId, now)])
  {
    if body.projectId !in projects.projects {
      return Err(404, "Project not found");
    }
    var project := projects.projects[body.projectId];
    var made := NewUpload(project, uploads.uploads, body, now, isValidUploadDay);
    if made.Err? {
      return Err(made.status, made.message);
    }
    r := Ok(|uploads.uploads|);
    uploads.uploads := uploads.uploads + [made.value];
    var totalVerifiedCount := VerifiedCount(uploads.uploads, body.projectId);
    project := project.(prePointsEarned := Some(totalVerifiedCount * PointsPerVerifiedUpload));
    projects.projects := projects.projects[body.projectId := project];
    UpdateProjectStatus(projects, uploads.uploads, body.projectId, now);
  }

  /** A daily check-in (what `NewUpload` records for a blank month) raises the project's pending points by exactly 50. */
  lemma CheckInAddsFifty(p: Project, uploads: seq<Upload>, body: UploadBody, now: int)
    requires NewCheckIn(body, now).Ok?
    ensures var u := NewCheckIn(body, now).value;
      AfterUpload(p, uploads + [u], body.projectId, now).prePointsEarned
        == Some(PointsPerVerifiedUpload * (VerifiedCount(uploads, body.projectId) + 1))
  {
    var made := NewCheckIn(body, now);
    assert IsVerifiedOf(made.value, body.projectId);
    CountsAppend(uploads, made.value, body.projectId);
  }

  /** The uploads with one upload marked verified. */
  function MarkVerified(uploads: seq<Upload>, uid: UploadId): (r: seq<Upload>)
    requires uid < |uploads|
    ensures |r| == |uploads| && r[uid] == uploads[uid].(status := Verified)
    ensures forall k :: 0 <= k < |r| && k != uid ==> r[k] == uploads[k]
  {
    uploads[uid := uploads[uid].(status := Verified)]
  }

  /** Verifying an upload adds one to its project's verified count, unless it was verified already. */
  lemma {:induction false} VerifyAddsOne(uploads: seq<Upload>, uid: UploadId, pid: ProjectId)
    requires uid < |uploads|
    ensures VerifiedCount(MarkVerified(uploads, uid), pid)
         == VerifiedCount(uploads, pid) + (if uploads[uid].projectId == pid && uploads[uid].status != Verified then 1 else 0)
  {
    var n := |uploads|;
    var r := MarkVerified(uploads, uid);
    if uid == n - 1 {
      assert r[..n - 1] == uploads[..n - 1];
    } else {
      assert r[..n - 1] == MarkVerified(uploads[..n - 1], uid);
      VerifyAddsOne(uploads[..n - 1], uid, pid);
    }
  }

  /**
   * `verifyUpload`: an unknown upload gives 404 and changes nothing;
   * otherwise the upload is marked verified and its project's pending points
   * become 50 per verified upload. When the project no longer exists the
   * handler fails with 500 after the upload was saved.
   */
  method VerifyUpload(projects: ProjectStore, uploads: UploadStore, uid: UploadId) returns (r: Result<Upload>)
    modifies projects, uploads
    ensures uid >= |old(uploads.uploads)| ==>
      r == Err(404, "Upload not found")
      && uploads.uploads == old(uploads.uploads) && projects.projects == old(projects.projects)
    ensures uid < |old(uploads.uploads)| ==>
      var pid := old(uploads.uploads)[uid].projectId;
      uploads.uploads == MarkVerified(old(uploads.uploads), uid)
      && (pid !in old(projects.projects) ==> r.Err? && r.status == ServerError && projects.projects == old(projects.projects))
      && (pid in old(projects.projects) ==>
        r == Ok(uploads.uploads[uid])
        && projects.projects == old(projects.projects)[pid :=
             old(projects.projects)[pid].(prePointsEarned := Some(PointsPerVerifiedUpload * VerifiedCount(uploads.uploads, pid)))])
  {
    if uid >= |uploads.uploads| {
      return Err(404, "Upload not found");
    }
    var upload := uploads.uploads[uid].(status := Verified);
    uploads.uploads := uploads.uploads[uid := upload];
    var pid := upload.projectId;
    if pid !in projects.projects {
      return Err(ServerError, "TypeError");
    }
    var project := projects.projects[pid];
    var totalVerified := VerifiedCount(uploads.uploads, pid);
    project := project.(prePointsEarned := Some(totalVerified * PointsPerVerifiedUpload));
    projects.projects := projects.projects[pid := project];
    r := Ok(upload);
  }

  // ---------------------------------------------------------------------
  // Claiming
  // ---------------------------------------------------------------------

  /** The project after a successful claim: its pending points become its points, and it closes. */
  function Claimed(p: Project, now: int): (r: Project)
    ensures r.points == p.prePointsEarned && r.prePointsEarned.None?
    ensures r.isClaimed && r.claimedAt == Some(now) && r.status == Completed && !r.canClaim
    ensures r.userId == p.userId && r.startDate == p.startDate && r.endDate == p.endDate && r.started == p.started
  {
    p.(points := p.prePointsEarned, prePointsEarned := None, isClaimed := true, claimedAt := Some(now),
       status := Completed, canClaim := false)
  }

  /** A claimed project can never be claimed again, whatever its uploads and the moment. */
  lemma ClaimedNotClaimable(p: Project, now: int, verified: nat, later: int)
    ensures !CalculateProjectStatus(Claimed(p, now), verified, later).canClaim
  {
  }

  /**
   * `claimPoints`: an unknown project gives 404. Otherwise the project's
   * status is recalculated and stored; a project that cannot be claimed
   * gives 400 with no claim fields changed. A claimable project is closed
   * with its points. When those points are non-zero the handler then
   * records them in the ledger under the source "ecoenzim", which the
   * ledger's source list refuses: the handler answers 500 and the ledger is
   * unchanged, while the project stays claimed.
   */
  method ClaimPoints(projects: ProjectStore, uploads: UploadStore, ledger: PointsHistory.Ledger, pid: ProjectId, now: int)
    returns (r: Result<Option<int>>)
    modifies projects, ledger
    ensures ledger.entries == old(ledger.entries)
    ensures pid !in old(projects.projects) ==> r == Err(404, "Project not found") && projects.projects == old(projects.projects)
    ensures pid in old(projects.projects) ==>
      var p := old(projects.projects)[pid];
      var d := CalculateProjectStatus(p, VerifiedCount(uploads.uploads, pid), now);
      (!d.canClaim ==>
        r == Err(400, "Syarat klaim belum terpenuhi")
        && projects.projects == old(projects.projects)[pid := Synced(p, d)])
      && (d.canClaim ==>
        projects.projects == old(projects.projects)[pid := Claimed(Synced(p, d), now)]
        && (p.prePointsEarned.Some? && p.prePointsEarned.value != 0 ==> r.Err? && r.status == ServerError)
        && (!(p.prePointsEarned.Some? && p.prePointsEarned.value != 0) ==> r == Ok(p.prePointsEarned)))
  {
    if pid !in projects.projects {
      return Err(404, "Project not found");
    }
    var project := projects.projects[pid];
    var d := CalculateProjectStatus(project, VerifiedCount(uploads.uploads, pid), now);
    if d.status != project.status || d.canClaim != project.canClaim {
      project := project.(status := d.status, canClaim := d.canClaim);
      projects.projects := projects.projects[pid := project];
    } else {
      assert project == Synced(project, d);
    }
    if !d.canClaim {
      return Err(400, "Syarat klaim belum terpenuhi");
    }
    project := Claimed(project, now);
    projects.projects := projects.projects[pid := project];
    if project.points.Some? && project.points.value != 0 {
      PointsHistory.EcoenzimNotALedgerSource();
      var recorded := PointsHistory.RecordPointsChange(ledger, project.userId, project.points.value, "ecoenzim",
                                                       Some(IdString(pid)), now);
      if recorded.Err? {
        return Err(recorded.status, recorded.message);
      }
    }
    r := Ok(project.points);
  }

  // ---------------------------------------------------------------------
  // The nightly auto-cancel job
  // ---------------------------------------------------------------------

  /** An ongoing project whose end date has passed. */
  predicate Expired(p: Project, now: int)
  {
    p.status == Ongoing && p.endDate < now
  }

  /** The expired projects with fewer than three verified uploads: the ones the job cancels. */
  function Cancellable(projects: map<ProjectId, Project>, uploads: seq<Upload>, now: int): (ids: set<ProjectId>)
    ensures forall id :: id in ids <==> id in projects && Expired(projects[id], now) && VerifiedCount(uploads, id) < 3
  {
    set id | id in projects && Expired(projects[id], now) && VerifiedCount(uploads, id) < 3
  }

  /** A project after the job: cancelled and not claimable when it is one the job cancels. */
  function AfterAutoCancel(p: Project, verified: nat, now: int): (r: Project)
    ensures Expired(p, now) && verified < 3 ==> r == p.(status := Cancelled, canClaim := false)
    ensures !(Expired(p, now) && verified < 3) ==> r == p
  {
    if Expired(p, now) && verified < 3 then p.(status := Cancelled, canClaim := false) else p
  }

  /** Running the job twice at the same moment cancels nothing more. */
  lemma AutoCancelIdempotent(p: Project, verified: nat, now: int)
    ensures AfterAutoCancel(AfterAutoCancel(p, verified, now), verified, now) == AfterAutoCancel(p, verified, now)
  {
  }

  /** One project of the job: cancelled when it has fewer than three verified uploads. */
  method CancelIfShort(projects: ProjectStore, uploads: seq<Upload>, id: ProjectId, now: int) returns (cancelled: bool)
    requires id in projects.projects && Expired(projects.projects[id], now)
    modifies projects
    ensures cancelled <==> VerifiedCount(uploads, id) < 3
    ensures projects.projects == old(projects.projects)[id :=
      AfterAutoCancel(old(projects.projects)[id], VerifiedCount(uploads, id), now)]
  {
    var project := projects.projects[id];
    var verifiedUploads := VerifiedCount(uploads, id);
    cancelled := verifiedUploads < 3;
    if cancelled {
      project := project.(status := Cancelled, canClaim := false);
    }
    projects.projects := projects.projects[id := project];
  }

  /** The projects among `ids` with fewer than three verified uploads. */
  function ShortOf(uploads: seq<Upload>, ids: set<ProjectId>): (r: set<ProjectId>)
    ensures forall id :: id in r <==> id in ids && VerifiedCount(uploads, id) < 3
  {
    set id | id in ids && VerifiedCount(uploads, id) < 3
  }

  /** Counting the cancelled projects one visited project at a time. */
  lemma ShortGrows(uploads: seq<Upload>, done: set<ProjectId>, id: ProjectId)
    requires id !in done
    ensures |ShortOf(uploads, done + {id})| == |ShortOf(uploads, done)| + (if VerifiedCount(uploads, id) < 3 then 1 else 0)
  {
    if VerifiedCount(uploads, id) < 3 {
      assert ShortOf(uploads, done + {id}) == ShortOf(uploads, done) + {id};
    } else {
      assert ShortOf(uploads, done + {id}) == ShortOf(uploads, done);
    }
  }

  /** The projects once the job has visited the projects `done`. */
  function PartlyCancelled(start: map<ProjectId, Project>, uploads: seq<Upload>, done: set<ProjectId>, now: int)
    : (m: map<ProjectId, Project>)
    ensures m.Keys == start.Keys
  {
    map id | id in start :: if id in done then AfterAutoCancel(start[id], VerifiedCount(uploads, id), now) else start[id]
  }

  /** Visiting one more project updates exactly that project. */
  lemma VisitOne(start: map<ProjectId, Project>, uploads: seq<Upload>, done: set<ProjectId>, id: ProjectId, now: int)
    requires id in start && id !in done
    ensures PartlyCancelled(start, uploads, done + {id}, now)
         == PartlyCancelled(start, uploads, done, now)[id := AfterAutoCancel(start[id], VerifiedCount(uploads, id), now)]
  {
  }

  /**
   * One step of the job's loop: visiting the expired project `id` extends the
   * projects seen so far by `id` and counts it when it is cancelled.
   */
  method Visit(projects: ProjectStore, uploads: seq<Upload>, id: ProjectId, now: int,
               ghost start: map<ProjectId, Project>, ghost done: set<ProjectId>,
               count: nat) returns (count': nat)
    requires id in start && id !in done && Expired(start[id], now)
    requires projects.projects == PartlyCancelled(start, uploads, done, now)
    requires count == |ShortOf(uploads, done)|
    modifies projects
    ensures projects.projects == PartlyCancelled(start, uploads, done + {id}, now)
    ensures count' == |ShortOf(uploads, done + {id})|
  {
    assert projects.projects[id] == start[id];
    var cancelled := CancelIfShort(projects, uploads, id, now);
    VisitOne(start, uploads, done, id, now);
    ShortGrows(uploads, done, id);
    count' := if cancelled then count + 1 else count;
  }

  /** The job's loop over the expired projects `ids`, counting the ones it cancels. */
  method CancelEach(projects: ProjectStore, uploads: seq<Upload>, ids: set<ProjectId>, now: int) returns (cancelledCount: nat)
    requires forall id :: id in ids ==> id in projects.projects && Expired(projects.projects[id], now)
    modifies projects
    ensures projects.projects == PartlyCancelled(old(projects.projects), uploads, ids, now)
    ensures cancelledCount == |ShortOf(uploads, ids)|
  {
    ghost var start := projects.projects;
    var pending := ids;
    ghost var done: set<ProjectId> := {};
    cancelledCount := 0;
    assert ShortOf(uploads, done) == {};
    assert projects.projects == PartlyCancelled(start, uploads, done, now);
    while pending != {}
      invariant pending <= ids && done == ids - pending
      invariant projects.projects == PartlyCancelled(start, uploads, done, now)
      invariant cancelledCount == |ShortOf(uploads, done)|
      decreases |pending|
    {
      var id :| id in pending;
      cancelledCount := Visit(projects, uploads, id, now, start, done, cancelledCount);
      pending := pending - {id};
      done := done + {id};
    }
    assert done == ids;
  }

  /**
   * `autoCancelExpiredProjects`: every expired project with fewer than three
   * verified uploads is cancelled, every other project is left alone, and
   * the number cancelled is returned.
   */
  method AutoCancelExpiredProjects(projects: ProjectStore, uploads: UploadStore, now: int) returns (cancelledCount: nat)
    modifies projects
    ensures projects.projects.Keys == old(projects.projects).Keys
    ensures forall id :: id in projects.projects ==>
      projects.projects[id] == AfterAutoCancel(old(projects.projects)[id], VerifiedCount(uploads.uploads, id), now)
    ensures cancelledCount == |Cancellable(old(projects.projects), uploads.uploads, now)|
  {
    ghost var start := projects.projects;
    var expiredProjects := set id | id in projects.projects && Expired(projects.projects[id], now);
    cancelledCount := CancelEach(projects, uploads.uploads, expiredProjects, now);
    assert forall id :: id in start && id !in expiredProjects ==> !Expired(start[id], now);
    assert ShortOf(uploads.uploads, expiredProjects) == Cancellable(start, uploads.uploads, now);
  }
}

=== FILE: ecoenzim_project_model.dfy ===
/**
 * An eco-enzyme fermentation project and its photo and check-in uploads.
 * A project runs from its start date to its end date; three verified
 * monthly photo uploads (months 1, 2 and 3) complete it, and a completed
 * project's earned points can be claimed once. Uploads keep insertion order
 * and an upload's identifier is its position.
 */
module EcoenzimProjectModel {
  import opened Common
  import opened Entities

  type ProjectId = nat
  type UploadId = nat

  datatype ProjectStatus = NotStarted | Ongoing | Cancelled | Completed

  datatype UploadStatus = Pending | Verified | Rejected

  datatype Project = Project(
    userId: UserId,
    organicWasteWeight: int,
    started: bool,
    startedAt: Option<int>,
    startDate: int,
    endDate: int,
    status: ProjectStatus,
    prePointsEarned: Option<int>,
    points: Option<int>,
    canClaim: bool,
    isClaimed: bool,
    claimedAt: Option<int>)

  /** A project created with only the required fields: the schema's defaults fill the rest. */
  function NewProject(userId: UserId, organicWasteWeight: int, startDate: int, endDate: int): (p: Project)
    ensures p.userId == userId && p.organicWasteWeight == organicWasteWeight
    ensures p.startDate == startDate && p.endDate == endDate
    ensures !p.started && p.startedAt.None? && p.status == NotStarted
    ensures p.prePointsEarned == Some(0) && p.points == Some(0)
    ensures !p.canClaim && !p.isClaimed && p.claimedAt.None?
  {
    Project(userId, organicWasteWeight, false, None, startDate, endDate, NotStarted, Some(0), Some(0), false, false, None)
  }

  datatype Upload = Upload(
    projectId: ProjectId,
    userId: UserId,
    monthNumber: Option<int>,
    photoUrl: Option<string>,
    uploadedDate: int,
    prePointsEarned: int,
    status: UploadStatus)

  class ProjectStore {
    var projects: map<ProjectId, Project>

    constructor ()
      ensures projects == map[]
    {
      projects := map[];
    }
  }

  class UploadStore {
    var uploads: seq<Upload>

    constructor ()
      ensures uploads == []
    {
      uploads := [];
    }
  }

  predicate IsVerifiedOf(u: Upload, pid: ProjectId)
  {
    u.projectId == pid && u.status == Verified
  }

  /** A monthly photo stage: month 1, 2 or 3. */
  predicate IsMilestoneMonth(m: Option<int>)
  {
    m.Some? && 1 <= m.value <= 3
  }

  /** The verified uploads of a project, daily check-ins included. */
  function VerifiedCount(uploads: seq<Upload>, pid: ProjectId): (n: nat)
    ensures n <= |uploads|
  {
    if |uploads| == 0 then 0
    else VerifiedCount(uploads[..|uploads| - 1], pid) + (if IsVerifiedOf(uploads[|uploads| - 1], pid) then 1 else 0)
  }

  /** The verified monthly photo uploads (months 1 to 3) of a project. */
  function MilestoneCount(uploads: seq<Upload>, pid: ProjectId): (n: nat)
    ensures n <= |uploads|
  {
    if |uploads| == 0 then 0
    else
      var last := uploads[|uploads| - 1];
      MilestoneCount(uploads[..|uploads| - 1], pid) + (if IsVerifiedOf(last, pid) && IsMilestoneMonth(last.monthNumber) then 1 else 0)
  }

  /** Verified photo stages are among the verified uploads. */
  lemma {:induction false} MilestonesAmongVerified(uploads: seq<Upload>, pid: ProjectId)
    ensures MilestoneCount(uploads, pid) <= VerifiedCount(uploads, pid)
  {
    if |uploads| > 0 {
      MilestonesAmongVerified(uploads[..|uploads| - 1], pid);
    }
  }

  /** Appending an upload adds one to a count exactly when the upload is counted. */
  lemma CountsAppend(uploads: seq<Upload>, u: Upload, pid: ProjectId)
    ensures VerifiedCount(uploads + [u], pid) == VerifiedCount(uploads, pid) + (if IsVerifiedOf(u, pid) then 1 else 0)
    ensures MilestoneCount(uploads + [u], pid)
         == MilestoneCount(uploads, pid) + (if IsVerifiedOf(u, pid) && IsMilestoneMonth(u.monthNumber) then 1 else 0)
  {
    assert (uploads + [u])[..|uploads|] == uploads;
  }

  /**
   * `updateProjectStatus` given the verified photo stages: once a started
   * project reaches its end date it is completed with three stages (and
   * claimable) or cancelled; before that, a started project that never left
   * "not started" becomes ongoing. Nothing else changes.
   */
  function StatusUpdated(p: Project, milestones: nat, now: int): (r: Project)
    ensures r.(status := p.status, canClaim := p.canClaim) == p
    ensures p.started && now >= p.endDate ==>
      r.status == (if milestones >= 3 then Completed else Cancelled) && r.canClaim == (milestones >= 3)
    ensures !(p.started && now >= p.endDate) ==> r.canClaim == p.canClaim
    ensures !(p.started && now >= p.endDate) && p.started && p.status == NotStarted ==> r.status == Ongoing
    ensures !(p.started && now >= p.endDate) && !(p.started && p.status == NotStarted) ==> r == p
  {
    if p.started && now >= p.endDate then
      p.(status := if milestones >= 3 then Completed else Cancelled, canClaim := milestones >= 3)
    else if p.started && p.status == NotStarted then
      p.(status := Ongoing)
    else p
  }

  /** Running the status update twice at the same moment equals running it once. */
  lemma StatusUpdateIdempotent(p: Project, milestones: nat, now: int)
    ensures StatusUpdated(StatusUpdated(p, milestones, now), milestones, now) == StatusUpdated(p, milestones, now)
  {
  }

  /** A project that was never started is left exactly as it is. */
  lemma UnstartedUntouched(p: Project, milestones: nat, now: int)
    requires !p.started
    ensures StatusUpdated(p, milestones, now) == p
  {
  }

  /** Once the end date has passed, the outcome no longer depends on the stored status or on later moments. */
  lemma StatusFinalAfterEnd(p: Project, milestones: nat, now: int, later: int)
    requires p.started && now >= p.endDate && later >= now
    ensures StatusUpdated(StatusUpdated(p, milestones, now), milestones, later) == StatusUpdated(p, milestones, now)
  {
  }

  /** `project.updateProjectStatus()` on a stored project, counting its verified photo stages. */
  method UpdateProjectStatus(store: ProjectStore, uploads: seq<Upload>, pid: ProjectId, now: int)
    requires pid in store.projects
    modifies store
    ensures store.projects == old(store.projects)[pid := StatusUpdated(old(store.projects)[pid], MilestoneCount(uploads, pid), now)]
  {
    var project := store.projects[pid];
    var verifiedUploads := MilestoneCount(uploads, pid);
    if project.started && now >= project.endDate {
      project := project.(status := if verifiedUploads >= 3 then Completed else Cancelled, canClaim := verifiedUploads >= 3);
      store.projects := store.projects[pid := project];
    } else if project.started && project.status == NotStarted {
      project := project.(status := Ongoing);
      store.projects := store.projects[pid := project];
    } else {
      assert store.projects[pid := project] == store.projects;
    }
  }
}

=== FILE: entities.dfy ===
/**
 * Records that several services share, and the collections that hold them.
 * A collection is a small class whose map field the operations reassign; a
 * record is a value. Identifiers are natural numbers; `IdString` is the text
 * form an identifier takes where the services compare or store it as a string.
 */
module Entities {
  import opened Common

  type UserId = nat
  type SessionId = nat
  type TaskId = nat
  type FruitId = nat

  /** The string form of an identifier (`_id.toString()`). */
  function IdString(id: nat): string
  {
    NatToString(id)
  }

  /**
   * The user's last played sorting-game day. The schema default is null; a
   * document written before the field existed has no field at all.
   */
  datatype LastBucket = Absent | NullBucket | Day(day: int)

  datatype User = User(
    email: string,
    username: string,
    totalPoints: int,
    sortingStreak: int,
    sortingBestStreak: int,
    sortingLastPlayedBucket: LastBucket)

  /** A fresh user document: points and streak counters at their defaults. */
  function NewUser(email: string, username: string): (u: User)
    ensures u.totalPoints == 0 && u.sortingStreak == 0 && u.sortingBestStreak == 0
    ensures u.sortingLastPlayedBucket == NullBucket
  {
    User(email, username, 0, 0, 0, NullBucket)
  }

  class UserStore {
    var users: map<UserId, User>

    constructor ()
      ensures users == map[]
    {
      users := map[];
    }
  }

  /** A played round of the sorting game. */
  datatype GameSession = GameSession(
    userId: UserId,
    playedDate: int,
    dayBucket: Option<int>,
    isCompleted: bool)

  class SessionStore {
    var sessions: map<SessionId, GameSession>

    constructor ()
      ensures sessions == map[]
    {
      sessions := map[];
    }
  }

  /** A task of the daily pool. */
  datatype DailyTask = DailyTask(id: TaskId, title: string, category: string, symbol: string)

  /** A fruit on the user's tree, worth points once harvested. */
  datatype TreeFruit = TreeFruit(
    userId: UserId,
    harvestReadyDate: Option<int>,
    isClaimed: bool,
    claimedAt: Option<int>,
    pointsAwarded: int)

  class FruitStore {
    var fruits: map<FruitId, TreeFruit>
    var nextId: FruitId

    predicate Valid()
      reads this
    {
      forall id :: id in fruits ==> id < nextId
    }

    constructor ()
      ensures Valid() && fruits == map[]
    {
      fruits := map[];
      nextId := 0;
    }
  }

  /** The per-user tree counters (at most one tracker per user: the key is the user). */
  datatype TreeTracker = TreeTracker(
    totalGreenLeaves: int,
    totalYellowLeaves: int,
    totalFruitsHarvested: int,
    lastActivityDate: int)

  /** A tracker as created with the schema defaults. */
  function NewTracker(now: int): (t: TreeTracker)
    ensures t.totalGreenLeaves == 0 && t.totalYellowLeaves == 0 && t.totalFruitsHarvested == 0
    ensures t.lastActivityDate == now
  {
    TreeTracker(0, 0, 0, now)
  }

  class TrackerStore {
    var trackers: map<UserId, TreeTracker>

    constructor ()
      ensures trackers == map[]
    {
      trackers := map[];
    }
  }
}

=== FILE: game_sorting_service.dfy ===
/**
 * Completing a sorting-game session: the session is marked completed, gets
 * today's day bucket when it has none, and the player's sorting streak is
 * bumped for the same day.
 */
module GameSortingService {
  import opened Common
  import opened Entities
  import StreakService

  /** The session after completion on day `today`: completed, with its bucket filled only when absent. */
  function Completed(s: GameSession, today: int): (r: GameSession)
    ensures r.isCompleted
    ensures s.dayBucket.Some? ==> r.dayBucket == s.dayBucket
    ensures s.dayBucket.None? ==> r.dayBucket == Some(today)
    ensures r.userId == s.userId && r.playedDate == s.playedDate
  {
    s.(isCompleted := true, dayBucket := if s.dayBucket.None? then Some(today) else s.dayBucket)
  }

  /** The user table after the streak bump for `userId` on day `today`. */
  function BumpedTable(users: map<UserId, User>, userId: UserId, today: int): map<UserId, User>
  {
    if userId in users then users[userId := StreakService.Bumped(users[userId], today)] else users
  }

  /**
   * `completeGameSession(sessionId, userId, now)`: an unknown session fails
   * with "Session not found" and nothing changes; otherwise the session is
   * completed and the streak of `userId` is bumped with the same day.
   */
  method CompleteGameSession(sessions: SessionStore, users: UserStore, sessionId: SessionId, userId: UserId, today: int)
    returns (r: Result<GameSession>)
    modifies sessions, users
    ensures sessionId !in old(sessions.sessions) ==>
      r == Err(ServerError, "Session not found")
      && sessions.sessions == old(sessions.sessions) && users.users == old(users.users)
    ensures sessionId in old(sessions.sessions) ==>
      var s := Completed(old(sessions.sessions)[sessionId], today);
      r == Ok(s)
      && sessions.sessions == old(sessions.sessions)[sessionId := s]
      && users.users == BumpedTable(old(users.users), userId, today)
  {
    if sessionId !in sessions.sessions {
      return Err(ServerError, "Session not found");
    }
    var session := sessions.sessions[sessionId].(isCompleted := true);
    sessions.sessions := sessions.sessions[sessionId := session];
    if session.dayBucket.None? {
      session := session.(dayBucket := Some(today));
      sessions.sessions := sessions.sessions[sessionId := session];
    }
    var _ := StreakService.BumpSortingStreak(users, userId, today);
    return Ok(session);
  }
}

=== FILE: home_service.dfy ===
/**
 * The home screen: the user's card, today's habits with their completion
 * percentage, the running eco-enzyme project's progress and the banners of
 * the active vouchers.
 *
 * Reading today's habits goes through the daily checklist, which creates the
 * day's missing checklist rows. The user found by name, the user's projects
 * in creation order, the uploads and the active-voucher listing are
 * parameters; the clock is `now`, and the ISO timestamps the service returns
 * are kept as millisecond times.
 */
module HomeService {
  import opened Common
  import opened Entities
  import opened DateUtils
  import opened EcoenzimProjectModel
  import opened DailyTaskChecklistModel
  import opened DailyTaskChecklistService

  // ---------------------------------------------------------------------
  // Today's habits
  // ---------------------------------------------------------------------

  /** One of today's tasks as the home screen shows it. */
  datatype Habit = Habit(title: string, category: string, icon: string, done: bool)

  /** The habit of a checklist entry: its task's title, category and symbol, done when the row is completed. */
  function HabitOf(task: TodayTask): (h: Habit)
    ensures h.done == task.isCompleted && h.title == task.title
  {
    Habit(task.title, task.category, task.symbol, task.isCompleted)
  }

  function HabitsOf(tasks: seq<TodayTask>): (hs: seq<Habit>)
    ensures |hs| == |tasks|
    ensures forall k :: 0 <= k < |tasks| ==> hs[k] == HabitOf(tasks[k])
  {
    seq(|tasks|, k requires 0 <= k < |tasks| => HabitOf(tasks[k]))
  }

  predicate IsDone(h: Habit) { h.done }

  /** The number of habits done. */
  function DoneCount(habits: seq<Habit>): (n: nat)
    ensures n <= |habits|
  {
    Count(habits, IsDone)
  }

  /** Every habit done counts every habit; none done counts none. */
  lemma {:induction false} DoneCountExtremes(habits: seq<Habit>)
    ensures (forall k :: 0 <= k < |habits| ==> habits[k].done) ==> DoneCount(habits) == |habits|
    ensures (forall k :: 0 <= k < |habits| ==> !habits[k].done) ==> DoneCount(habits) == 0
  {
    if |habits| > 0 {
      var init := habits[..|habits| - 1];
      assert forall k :: 0 <= k < |init| ==> init[k] == habits[k];
      DoneCountExtremes(init);
    }
  }

  /**
   * `total ? Math.round((completed / total) * 100) : 0`: no habits give 0;
   * otherwise the nearest whole percentage, halves rounded up.
   */
  function HabitPercent(completed: nat, total: nat): (p: int)
    requires completed <= total
    ensures 0 <= p <= 100
    ensures total == 0 || completed == 0 ==> p == 0
    ensures total > 0 && completed == total ==> p == 100
    ensures total > 0 ==> total * (2 * p - 1) <= 200 * completed < total * (2 * p + 1)
  {
    if total == 0 then 0
    else
      var p := RoundDiv(completed * 100, total);
      PercentBounds(completed, total, p);
      p
  }

  /** A rounded share of a whole is a percentage, exact at none and at all. */
  lemma PercentBounds(completed: nat, total: nat, p: int)
    requires 0 < total && completed <= total
    requires total * (2 * p - 1) <= 200 * completed < total * (2 * p + 1)
    ensures 0 <= p <= 100
    ensures completed == 0 ==> p == 0
    ensures completed == total ==> p == 100
  {
    if p <= -1 {
      MulMonotone(total, 2 * p + 1, -1);
    }
    if p >= 101 {
      MulMonotone(total, 201, 2 * p - 1);
    }
    if completed == 0 && p >= 1 {
      MulMonotone(total, 1, 2 * p - 1);
    }
    if completed == total && p <= 99 {
      MulMonotone(total, 2 * p + 1, 199);
    }
  }

  /** What `buildHabitsToday` returns; `date` is the day's start as a time. */
  datatype HabitSummary = HabitSummary(habits: seq<Habit>, total: nat, completed: nat, percent: int, date: int)

  /** The summary of a day without tasks. */
  function NoHabits(todayStart: int): (s: HabitSummary)
    ensures s.habits == [] && s.total == 0 && s.completed == 0 && s.percent == 0 && s.date == todayStart
  {
    HabitSummary([], 0, 0, 0, todayStart)
  }

  /** The failures `buildHabitsToday` answers with an empty summary: no tasks available, or any 404. */
  predicate IsNoTasks<T>(fetched: Result<T>)
  {
    fetched.Err? && (fetched.message == "NO_DAILY_TASKS_AVAILABLE" || fetched.status == 404)
  }

  /**
   * `buildHabitsToday` over the result of reading today's checklist:
   * `todayStart` is the local midnight and `parseDate` reads the checklist's
   * `YYYY-MM-DD` date at midnight in UTC+7 (None for an invalid date).
   */
  function BuildHabitsToday(fetched: Result<TodayChecklist>, todayStart: int, parseDate: string -> Option<int>)
    : (r: Result<HabitSummary>)
    ensures IsNoTasks(fetched) ==> r == Ok(NoHabits(todayStart))
    ensures fetched.Err? && !IsNoTasks(fetched) ==> r == Err(fetched.status, fetched.message)
    ensures fetched.Ok? ==>
      r.Ok? && r.value.habits == HabitsOf(fetched.value.tasks)
      && r.value.total == |fetched.value.tasks|
      && r.value.completed == DoneCount(r.value.habits) <= r.value.total
      && r.value.percent == HabitPercent(r.value.completed, r.value.total)
    ensures fetched.Ok? ==>
      var date := fetched.value.date;
      r.value.date == (if date != "" && parseDate(date).Some? then parseDate(date).value else todayStart)
  {
    match fetched
    case Err(status, message) =>
      if message == "NO_DAILY_TASKS_AVAILABLE" || status == 404 then Ok(NoHabits(todayStart))
      else Err(status, message)
    case Ok(checklist) =>
      var habits := HabitsOf(checklist.tasks);
      var total := |habits|;
      var completed := DoneCount(habits);
      var percent := HabitPercent(completed, total);
      var isoDate :=
        if checklist.date != "" && parseDate(checklist.date).Some? then parseDate(checklist.date).value
        else todayStart;
      Ok(HabitSummary(habits, total, completed, percent, isoDate))
  }

  /** A day whose habits are all done reads 100%, one with none done 0%. */
  lemma HabitPercentExtremes(fetched: Result<TodayChecklist>, todayStart: int, parseDate: string -> Option<int>)
    requires fetched.Ok?
    ensures var s := BuildHabitsToday(fetched, todayStart, parseDate).value;
      ((forall k :: 0 <= k < |fetched.value.tasks| ==> fetched.value.tasks[k].isCompleted) && s.total > 0 ==> s.percent == 100)
      && ((forall k :: 0 <= k < |fetched.value.tasks| ==> !fetched.value.tasks[k].isCompleted) ==> s.percent == 0)
  {
    var habits := HabitsOf(fetched.value.tasks);
    DoneCountExtremes(habits);
  }

  // ---------------------------------------------------------------------
  // The eco-enzyme project
  // ---------------------------------------------------------------------

  /**
   * `progressPercent`: the elapsed share of the project's span, with the span
   * at least 1 ms and the elapsed time clamped into it.
   */
  function ProjectProgress(start: int, end: int, now: int): (p: int)
    ensures 0 <= p <= 100
    ensures now <= start ==> p == 0
    ensures now >= end && now > start ==> p == 100
  {
    var totalDuration := Max(end - start, 1);
    var elapsed := Clamp(now - start, 0, totalDuration);
    var p := RoundDiv(elapsed * 100, totalDuration);
    PercentBounds(elapsed, totalDuration, p);
    p
  }

  /** Progress never goes back as time passes. */
  lemma ProgressMonotone(start: int, end: int, now: int, later: int)
    requires now <= later
    ensures ProjectProgress(start, end, now) <= ProjectProgress(start, end, later)
  {
    var totalDuration := Max(end - start, 1);
    var e1 := Clamp(now - start, 0, totalDuration);
    var e2 := Clamp(later - start, 0, totalDuration);
    assert e1 <= e2;
    MulMonotone(100, e1, e2);
    RoundDivMonotone(e1 * 100, e2 * 100, totalDuration);
  }

  /** `Math.max(Math.ceil((end - now) / MS_PER_DAY), 0)`: the days left, counting a started day. */
  function DaysRemaining(end: int, now: int): (d: nat)
    ensures now >= end ==> d == 0
    ensures end > now ==> d >= 1 && (d - 1) * MsPerDay < end - now <= d * MsPerDay
  {
    Max(CeilDiv(end - now, MsPerDay), 0)
  }

  /** The position of the last ongoing project among the user's projects in creation order. */
  function LatestOngoing(projects: seq<(ProjectId, Project)>): (i: Option<nat>)
    ensures i.Some? ==> i.value < |projects| && projects[i.value].1.status == Ongoing
    ensures i.Some? ==> forall j :: i.value < j < |projects| ==> projects[j].1.status != Ongoing
    ensures i.None? <==> forall j :: 0 <= j < |projects| ==> projects[j].1.status != Ongoing
  {
    if |projects| == 0 then None
    else if projects[|projects| - 1].1.status == Ongoing then Some(|projects| - 1)
    else LatestOngoing(projects[..|projects| - 1])
  }

  /** `allProjects.findIndex(...)`: the first position holding the project's identifier. */
  function IndexOfProject(projects: seq<(ProjectId, Project)>, pid: ProjectId): (i: Option<nat>)
    ensures i.Some? ==> i.value < |projects| && projects[i.value].0 == pid
    ensures i.Some? ==> forall j :: 0 <= j < i.value ==> projects[j].0 != pid
    ensures i.None? <==> forall j :: 0 <= j < |projects| ==> projects[j].0 != pid
  {
    if |projects| == 0 then None
    else if projects[0].0 == pid then Some(0)
    else
      var rest := IndexOfProject(projects[1..], pid);
      if rest.Some? then Some(rest.value + 1) else None
  }

  /** `batchNumber`: the project's 1-based position in creation order, or 1 when it is not there. */
  function BatchNumber(projects: seq<(ProjectId, Project)>, pid: ProjectId): (b: nat)
    ensures b >= 1
    ensures IndexOfProject(projects, pid).Some? ==> b == IndexOfProject(projects, pid).value + 1
    ensures IndexOfProject(projects, pid).None? ==> b == 1
  {
    var i := IndexOfProject(projects, pid);
    if i.Some? then i.value + 1 else 1
  }

  predicate DistinctIds(projects: seq<(ProjectId, Project)>)
  {
    forall i, j :: 0 <= i < j < |projects| ==> projects[i].0 != projects[j].0
  }

  /** With identifiers unique, a project's batch number is its own position plus one. */
  lemma BatchOfPosition(projects: seq<(ProjectId, Project)>, i: nat)
    requires DistinctIds(projects) && i < |projects|
    ensures BatchNumber(projects, projects[i].0) == i + 1
  {
    var found := IndexOfProject(projects, projects[i].0);
    assert found.Some?;
  }

  /**
   * `latestVerifiedUpload?.monthNumber`: of the project's verified uploads,
   * the greatest month number; an upload without one sorts last, so None
   * when no verified upload has a month number.
   */
  function LatestVerifiedMonth(uploads: seq<Upload>, pid: ProjectId): (m: Option<int>)
    ensures m.Some? ==> exists k :: 0 <= k < |uploads| && IsVerifiedOf(uploads[k], pid) && uploads[k].monthNumber == m
    ensures m.Some? ==> forall k :: 0 <= k < |uploads| && IsVerifiedOf(uploads[k], pid) && uploads[k].monthNumber.Some? ==>
      uploads[k].monthNumber.value <= m.value
    ensures m.None? <==> forall k :: 0 <= k < |uploads| && IsVerifiedOf(uploads[k], pid) ==> uploads[k].monthNumber.None?
  {
    if |uploads| == 0 then None
    else
      var init := uploads[..|uploads| - 1];
      var last := uploads[|uploads| - 1];
      var before := LatestVerifiedMonth(init, pid);
      assert forall k :: 0 <= k < |init| ==> init[k] == uploads[k];
      if !IsVerifiedOf(last, pid) || last.monthNumber.None? then before
      else if before.Some? && before.value >= last.monthNumber.value then before
      else last.monthNumber
  }

  /** The project card: identifier, status, progress, month reached, days left and batch. */
  datatype EcoenzymSummary = EcoenzymSummary(
    projectId: string,
    status: ProjectStatus,
    progress: int,
    monthNumber: int,
    daysRemaining: nat,
    batchNumber: nat)

  /**
   * `buildEcoenzymSummary`: null without an ongoing project; otherwise the
   * card of the most recently created ongoing one.
   */
  function BuildEcoenzymSummary(projects: seq<(ProjectId, Project)>, uploads: seq<Upload>, now: int)
    : (s: Option<EcoenzymSummary>)
    ensures s.None? <==> forall j :: 0 <= j < |projects| ==> projects[j].1.status != Ongoing
    ensures s.Some? ==>
      var i := LatestOngoing(projects).value;
      var (pid, p) := projects[i];
      s.value.projectId == IdString(pid) && s.value.status == Ongoing
      && 0 <= s.value.progress <= 100 && s.value.progress == ProjectProgress(p.startDate, p.endDate, now)
      && s.value.daysRemaining == DaysRemaining(p.endDate, now)
      && s.value.batchNumber == BatchNumber(projects, pid) >= 1
      && (LatestVerifiedMonth(uploads, pid).Some? ==> s.value.monthNumber == LatestVerifiedMonth(uploads, pid).value)
      && (LatestVerifiedMonth(uploads, pid).None? ==> s.value.monthNumber == 0)
  {
    var latest := LatestOngoing(projects);
    if latest.None? then None
    else
      var (pid, p) := projects[latest.value];
      var month := LatestVerifiedMonth(uploads, pid);
      Some(EcoenzymSummary(
        IdString(pid), p.status, ProjectProgress(p.startDate, p.endDate, now),
        if month.Some? then month.value else 0,
        DaysRemaining(p.endDate, now), BatchNumber(projects, pid)))
  }

  /** With unique identifiers the batch number counts the projects up to the ongoing one. */
  lemma BatchOfOngoing(projects: seq<(ProjectId, Project)>, uploads: seq<Upload>, now: int)
    requires DistinctIds(projects)
    requires BuildEcoenzymSummary(projects, uploads, now).Some?
    ensures var i := LatestOngoing(projects).value;
      BuildEcoenzymSummary(projects, uploads, now).value.batchNumber == i + 1
  {
    BatchOfPosition(projects, LatestOngoing(projects).value);
  }

  // ---------------------------------------------------------------------
  // Voucher banners and the whole summary
  // ---------------------------------------------------------------------

  /** A voucher as the active-voucher listing returns it, reduced to what a banner shows. */
  datatype ListedVoucher = ListedVoucher(name: string, bannerUrl: Option<string>, landingUrl: Option<string>)

  datatype Banner = Banner(name: string, image: Option<string>, href: Option<string>)

  /** `buildVoucherBanners`: one banner per listed voucher, in order; a failed listing gives none. */
  function VoucherBanners(listed: Result<seq<ListedVoucher>>): (b: seq<Banner>)
    ensures listed.Err? ==> b == []
    ensures listed.Ok? ==> |b| == |listed.value|
    ensures listed.Ok? ==> forall k :: 0 <= k < |b| ==>
      b[k].name == listed.value[k].name && b[k].image == listed.value[k].bannerUrl && b[k].href == listed.value[k].landingUrl
  {
    if listed.Err? then []
    else
      seq(|listed.value|, k requires 0 <= k < |listed.value| =>
        Banner(listed.value[k].name, listed.value[k].bannerUrl, listed.value[k].landingUrl))
  }

  /** The fields of the user the home screen selects. */
  datatype HomeUser = HomeUser(username: string, photoUrl: Option<string>, totalPoints: int)

  datatype Progress = Progress(date: int, total: nat, completed: nat, percent: int)

  datatype HomeSummary = HomeSummary(
    user: HomeUser,
    progress: Progress,
    ecoenzym: Option<EcoenzymSummary>,
    rewardsBanners: seq<Banner>,
    habitsToday: seq<Habit>)

  /** A habit shown for `task` is the one its checklist row backs. */
  predicate HabitBacked(h: Habit, task: DailyTask, rows: seq<Checklist>, userId: UserId)
  {
    var found := FindRow(rows, userId, task.id);
    found.Some? && h == Habit(task.title, task.category, task.symbol, rows[found.value].isCompleted)
  }

  /** Habits made from backed entries are backed by the same rows. */
  lemma HabitsBacked(tasks: seq<TodayTask>, sel: seq<DailyTask>, rows: seq<Checklist>, userId: UserId)
    requires |tasks| == |sel|
    requires forall k :: 0 <= k < |sel| ==> Backed(tasks[k], sel[k], rows, userId)
    ensures forall k :: 0 <= k < |sel| ==> HabitBacked(HabitsOf(tasks)[k], sel[k], rows, userId)
  {
    forall k | 0 <= k < |sel|
      ensures HabitBacked(HabitsOf(tasks)[k], sel[k], rows, userId)
    {
      assert HabitsOf(tasks)[k] == HabitOf(tasks[k]);
    }
  }

  /**
   * `getHomeSummary`: an unknown user is refused with 404; otherwise today's
   * checklist is read (creating its missing rows), and the habits, the
   * project card and the banners are put together. A day without tasks
   * shows no habits at 0%.
   */
  method GetHomeSummary(user: Option<(UserId, HomeUser)>, checklists: ChecklistStore, pool: seq<DailyTask>,
                        today: CalendarDate, todayStart: int, parseDate: string -> Option<int>, random: int -> real,
                        projects: seq<(ProjectId, Project)>, uploads: seq<Upload>,
                        listed: Result<seq<ListedVoucher>>, now: int)
    returns (r: Result<HomeSummary>)
    requires ValidDate(today) && UnitInterval(random)
    modifies checklists
    ensures user.None? ==> r == Err(404, "USER_NOT_FOUND") && checklists.rows == old(checklists.rows)
    ensures |old(checklists.rows)| <= |checklists.rows| && checklists.rows[..|old(checklists.rows)|] == old(checklists.rows)
    ensures user.Some? ==>
      r.Ok? && r.value.user == user.value.1
      && r.value.ecoenzym == BuildEcoenzymSummary(projects, uploads, now)
      && r.value.rewardsBanners == VoucherBanners(listed)
      && r.value.progress.completed == DoneCount(r.value.habitsToday) <= r.value.progress.total
      && r.value.progress.total == |r.value.habitsToday|
      && r.value.progress.percent == HabitPercent(r.value.progress.completed, r.value.progress.total)
    ensures user.Some? && |pool| == 0 ==>
      r.value.habitsToday == [] && r.value.progress == Progress(todayStart, 0, 0, 0)
      && checklists.rows == old(checklists.rows)
    ensures user.Some? && |pool| > 0 ==>
      var sel := Selection(pool, random, Seed(today));
      |r.value.habitsToday| == |sel|
      && (forall k :: 0 <= k < |sel| ==> HabitBacked(r.value.habitsToday[k], sel[k], checklists.rows, user.value.0))
    ensures user.Some? && |pool| > 0 ==>
      var date := DateString(today);
      r.value.progress.date == (if parseDate(date).Some? then parseDate(date).value else todayStart)
  {
    if user.None? {
      return Err(404, "USER_NOT_FOUND");
    }
    var userId := user.value.0;
    var fetched := GetTodayChecklistForUser(checklists, pool, userId, today, now, random);
    var habits := BuildHabitsToday(fetched, todayStart, parseDate);
    assert habits.Ok?;
    if |pool| > 0 {
      HabitsBacked(fetched.value.tasks, Selection(pool, random, Seed(today)), checklists.rows, userId);
    }
    var summary := habits.value;
    var ecoenzym := BuildEcoenzymSummary(projects, uploads, now);
    var banners := VoucherBanners(listed);
    r := Ok(HomeSummary(
      user.value.1,
      Progress(summary.date, summary.total, summary.completed, summary.percent),
      ecoenzym, banners, summary.habits));
  }
}

=== FILE: points_history.dfy ===
/**
 * The points ledger: every change to a user's balance is appended as one
 * entry (amount, source, optional reference). The collection keeps entries in
 * insertion order and an entry's identifier is its position. The schema
 * restricts `source` to a fixed list and stores `referenceId` trimmed.
 *
 * The search side turns loose query values into a filter: a user, a set of
 * sources, a date range, a points range and a credit/debit direction, plus a
 * page window.
 */
module PointsHistory {
  import opened Common
  import opened Entities

  /** The schema's list of sources an entry may have. */
  predicate IsLedgerSource(source: string)
  {
    source == "reward" || source == "voucher" || source == "ecoenzym" || source == "game" || source == "tree"
  }

  type EntryId = nat

  datatype Entry = Entry(
    userId: UserId,
    pointsAmount: int,
    source: string,
    referenceId: Option<string>,
    createdAt: int)

  /** The shape the service hands out: identifiers as strings, a blank reference as null. */
  datatype HistoryEntry = HistoryEntry(
    id: string,
    userId: string,
    pointsAmount: int,
    source: string,
    referenceId: Option<string>,
    createdAt: int)

  class Ledger {
    var entries: seq<Entry>

    constructor ()
      ensures entries == []
    {
      entries := [];
    }
  }

  /** `mapHistoryEntry`: the reference survives only when it is a string that is not blank. */
  function MapHistoryEntry(id: EntryId, e: Entry): (h: HistoryEntry)
    ensures h.id == IdString(id) && h.userId == IdString(e.userId)
    ensures h.pointsAmount == e.pointsAmount && h.source == e.source && h.createdAt == e.createdAt
    ensures h.referenceId.Some? <==> e.referenceId.Some? && Trim(e.referenceId.value) != ""
    ensures h.referenceId.Some? ==> h.referenceId == e.referenceId
  {
    var referenceId := if e.referenceId.Some? && Trim(e.referenceId.value) != "" then e.referenceId else None;
    HistoryEntry(IdString(id), IdString(e.userId), e.pointsAmount, e.source, referenceId, e.createdAt)
  }

  /** The entry as the schema stores it: the reference is trimmed. */
  function StoredEntry(userId: UserId, pointsAmount: int, source: string, referenceId: Option<string>, createdAt: int): (e: Entry)
    ensures e.userId == userId && e.pointsAmount == pointsAmount && e.source == source && e.createdAt == createdAt
    ensures e.referenceId.Some? <==> referenceId.Some?
    ensures e.referenceId.Some? ==> e.referenceId.value == Trim(referenceId.value)
  {
    Entry(userId, pointsAmount, source, if referenceId.Some? then Some(Trim(referenceId.value)) else None, createdAt)
  }

  /**
   * `recordPointsChange`: a source outside the schema's list fails validation
   * (an error without a status) and nothing is written; otherwise exactly one
   * entry is appended and returned in mapped form.
   */
  method RecordPointsChange(ledger: Ledger, userId: UserId, pointsAmount: int, source: string,
                            referenceId: Option<string>, createdAt: int)
    returns (r: Result<HistoryEntry>)
    modifies ledger
    ensures !IsLedgerSource(source) ==>
      r.Err? && r.status == ServerError && ledger.entries == old(ledger.entries)
    ensures IsLedgerSource(source) ==>
      ledger.entries == old(ledger.entries) + [StoredEntry(userId, pointsAmount, source, referenceId, createdAt)]
    ensures IsLedgerSource(source) ==>
      r == Ok(MapHistoryEntry(|old(ledger.entries)|, StoredEntry(userId, pointsAmount, source, referenceId, createdAt)))
  {
    if !IsLedgerSource(source) {
      return Err(ServerError, "ValidationError");
    }
    var e := StoredEntry(userId, pointsAmount, source, referenceId, createdAt);
    var id := |ledger.entries|;
    ledger.entries := ledger.entries + [e];
    r := Ok(MapHistoryEntry(id, e));
  }

  /** A recorded reference reads back trimmed when it is not blank, and as null when it is. */
  lemma RecordedReference(userId: UserId, pointsAmount: int, source: string, referenceId: Option<string>, createdAt: int, id: EntryId)
    ensures var h := MapHistoryEntry(id, StoredEntry(userId, pointsAmount, source, referenceId, createdAt));
      (referenceId.Some? && Trim(referenceId.value) != "" ==> h.referenceId == Some(Trim(referenceId.value)))
      && (referenceId.None? || Trim(referenceId.value) == "" ==> h.referenceId.None?)
  {
    if referenceId.Some? {
      TrimIdempotent(referenceId.value);
    }
  }

  /** The ledger's source list does not contain the spelling "ecoenzim". */
  lemma EcoenzimNotALedgerSource()
    ensures !IsLedgerSource("ecoenzim")
    ensures IsLedgerSource("ecoenzym")
  {
    assert "ecoenzim" != "ecoenzym" by { assert "ecoenzim"[6] != "ecoenzym"[6]; }
  }

  // ---------------------------------------------------------------------
  // Pagination
  // ---------------------------------------------------------------------

  datatype Page = Page(limit: nat, page: nat, skip: nat)

  /** `parseInt(v, 10) || fallback` on the parsed value: NaN and 0 give the fallback. */
  function OrDefault(n: Option<int>, fallback: int): int
  {
    if n.None? || n.value == 0 then fallback else n.value
  }

  /**
   * The page window for the limit and page as parsed: the limit defaults to
   * 20 and is clamped into [1, 100], the page defaults to 1 and is at least
   * 1, and `skip` counts the entries of the earlier pages.
   */
  function PageFor(limitN: Option<int>, pageN: Option<int>): (p: Page)
    ensures 1 <= p.limit <= 100 && p.page >= 1
    ensures (limitN.None? || limitN == Some(0)) ==> p.limit == 20
    ensures limitN.Some? && limitN.value != 0 ==>
      (1 <= limitN.value <= 100 ==> p.limit == limitN.value)
      && (limitN.value < 1 ==> p.limit == 1)
      && (limitN.value > 100 ==> p.limit == 100)
    ensures (pageN.None? || pageN.value < 1) ==> p.page == 1
    ensures pageN.Some? && pageN.value >= 1 ==> p.page == pageN.value
  {
    var safeLimit := Clamp(OrDefault(limitN, 20), 1, 100);
    var safePage := Max(OrDefault(pageN, 1), 1);
    var skip := (safePage - 1) * safeLimit;
    assert skip >= 0 by { NonNegProduct(safePage - 1, safeLimit); }
    Page(safeLimit, safePage, skip)
  }

  /** The pages before the current one are skipped whole. */
  lemma SkipsEarlierPages(limitN: Option<int>, pageN: Option<int>)
    ensures var p := PageFor(limitN, pageN);
      p.skip == (p.page - 1) * p.limit
  {
  }

  lemma NonNegProduct(a: int, b: int)
    requires a >= 0 && b >= 0
    ensures a * b >= 0
  {
  }

  /** `getPagination`: the window for the limit and page as `parseInt` reads them. */
  function GetPagination(limit: JsValue, page: JsValue): Page
  {
    PageFor(ParseInt(limit), ParseInt(page))
  }

  /** A numeral page and limit inside the bounds are taken as given. */
  lemma PaginationOfNumerals(limit: nat, page: nat)
    requires 1 <= limit <= 100 && page >= 1
    ensures GetPagination(JsStr(NatToString(limit)), JsStr(NatToString(page))).limit == limit
    ensures GetPagination(JsStr(NatToString(limit)), JsStr(NatToString(page))).page == page
  {
    ParseIntOfNumeral(limit);
    ParseIntOfNumeral(page);
  }

  /** `Math.ceil(total / limit) || 1`: enough pages to hold `total` entries, and at least one. */
  function Pages(total: nat, limit: int): (pages: int)
    requires limit >= 1
    ensures pages >= 1
    ensures total > 0 ==> (pages - 1) * limit < total <= pages * limit
    ensures total == 0 ==> pages == 1
  {
    var c := CeilDiv(total, limit);
    if c == 0 then 1 else c
  }

  // ---------------------------------------------------------------------
  // Coercion of query values
  // ---------------------------------------------------------------------

  /** The largest time value (milliseconds from the epoch) a JavaScript date can hold. */
  const MaxTime: int := 8_640_000_000_000_000

  predicate ValidTime(t: int)
  {
    -MaxTime <= t <= MaxTime
  }

  /**
   * `coerceDate`: falsy values give no date; a number is a time value, valid
   * within the date range; anything else is turned into a string and parsed
   * by `parseDate`, which stands for the runtime's date parser. A parse that
   * yields no time, or one out of range, is an invalid date and gives none.
   */
  function CoerceDate(value: JsValue, parseDate: string -> Option<int>): (r: Option<int>)
    ensures !Truthy(value) ==> r.None?
    ensures r.Some? ==> ValidTime(r.value)
    ensures Truthy(value) && value.JsNum? ==> (r.Some? <==> ValidTime(value.n)) && (r.Some? ==> r.value == value.n)
    ensures Truthy(value) && !value.JsNum? && r.Some? ==> parseDate(JsToString(value)) == r
    ensures Truthy(value) && !value.JsNum? ==>
              (r.Some? <==> parseDate(JsToString(value)).Some? && ValidTime(parseDate(JsToString(value)).value))
  {
    if !Truthy(value) then None
    else
      var t := if value.JsNum? then Some(value.n) else parseDate(JsToString(value));
      if t.Some? && ValidTime(t.value) then t else None
  }

  /** `coerceNumber`: null and undefined give none, otherwise `Number(v)` unless it is NaN. */
  function CoerceNumber(value: JsValue): (r: Option<int>)
    ensures IsNullish(value) ==> r.None?
    ensures !IsNullish(value) ==> r == ToNumber(value)
  {
    if IsNullish(value) then None else ToNumber(value)
  }

  /** A numeral query value is read as its number; an empty one is read as 0. */
  lemma CoerceNumberOfNumeral(n: nat)
    ensures CoerceNumber(JsStr(NatToString(n))) == Some(n)
    ensures CoerceNumber(JsStr("")) == Some(0)
  {
    StringToNumberOfNumeral(n);
  }

  // ---------------------------------------------------------------------
  // Source lists
  // ---------------------------------------------------------------------

  /** The comma-separated, trimmed, non-empty tokens of the string items; other items give none. */
  function StringItemTokens(items: seq<JsValue>): (r: seq<string>)
    ensures forall k :: 0 <= k < |r| ==> r[k] != "" && Trim(r[k]) == r[k] && ',' !in r[k]
  {
    if |items| == 0 then []
    else
      var own := if items[0].JsStr? then CommaTokens(items[0].s) else [];
      own + StringItemTokens(items[1..])
  }

  /** `s.split(",").map(trim).filter(Boolean)`. */
  function CommaTokens(s: string): (r: seq<string>)
    ensures forall k :: 0 <= k < |r| ==> r[k] != "" && Trim(r[k]) == r[k] && ',' !in r[k]
  {
    TrimmedNonEmptyAvoids(Split(s, ','), ',');
    TrimmedNonEmpty(Split(s, ','))
  }

  function LowerAll(tokens: seq<string>): (r: seq<string>)
    ensures |r| == |tokens|
    ensures forall k :: 0 <= k < |r| ==> r[k] == Lower(tokens[k])
  {
    seq(|tokens|, k requires 0 <= k < |tokens| => Lower(tokens[k]))
  }

  /** Lowering keeps a string non-empty and keeps a comma out. */
  lemma LowerKeeps(s: string)
    ensures |Lower(s)| == |s|
    ensures IsLowered(Lower(s))
    ensures ',' !in s ==> ',' !in Lower(s)
  {
    if ',' in Lower(s) {
      var i :| 0 <= i < |s| && Lower(s)[i] == ',';
      assert LowerChar(s[i]) == ',';
    }
  }

  /** The items `normalizeSources` reads: an array's elements, or the single value. */
  function SourceItems(input: JsValue): seq<JsValue>
  {
    if input.JsArray? then input.items else [input]
  }

  /**
   * `normalizeSources`: falsy input gives no sources; otherwise the string
   * items are split on commas, trimmed, emptied parts dropped, lowercased and
   * deduplicated keeping first occurrences.
   */
  function NormalizeSources(input: JsValue): (r: seq<string>)
    ensures !Truthy(input) ==> r == []
    ensures Distinct(r)
    ensures forall k :: 0 <= k < |r| ==> r[k] != "" && ',' !in r[k] && IsLowered(r[k])
    ensures Truthy(input) ==>
      forall x :: x in r <==> x in LowerAll(StringItemTokens(SourceItems(input)))
    ensures Truthy(input) ==> r == Dedupe(LowerAll(StringItemTokens(SourceItems(input))))
  {
    if !Truthy(input) then []
    else
      var tokens := StringItemTokens(SourceItems(input));
      var lowered := LowerAll(tokens);
      forall k | 0 <= k < |lowered|
        ensures lowered[k] != "" && ',' !in lowered[k] && IsLowered(lowered[k])
      {
        LowerKeeps(tokens[k]);
      }
      var d := Dedupe(lowered);
      forall k | 0 <= k < |d|
        ensures d[k] != "" && ',' !in d[k] && IsLowered(d[k])
      {
        assert d[k] in lowered;
      }
      d
  }

  /** A token that is already trimmed, non-empty and comma-free is its own token list. */
  lemma SingleToken(t: string)
    requires t != "" && Trim(t) == t && ',' !in t
    ensures CommaTokens(t) == [t]
  {
    SplitNoSep(t, ',');
  }

  /** Strings as an array of JavaScript strings. */
  function StringItems(tokens: seq<string>): (items: seq<JsValue>)
    ensures |items| == |tokens|
    ensures forall k :: 0 <= k < |items| ==> items[k] == JsStr(tokens[k])
  {
    seq(|tokens|, k requires 0 <= k < |tokens| => JsStr(tokens[k]))
  }

  /** Clean tokens passed as an array of strings are filtered on lowercased, each kept at its first occurrence. */
  lemma ArraySources(tokens: seq<string>)
    requires forall k :: 0 <= k < |tokens| ==> tokens[k] != "" && Trim(tokens[k]) == tokens[k] && ',' !in tokens[k]
    ensures NormalizeSources(JsArray(StringItems(tokens))) == Dedupe(LowerAll(tokens))
  {
    CleanTokensKept(tokens);
  }

  /** Clean tokens passed as an array of strings come out of the tokenizer unchanged. */
  lemma {:induction false} CleanTokensKept(tokens: seq<string>)
    requires forall k :: 0 <= k < |tokens| ==> tokens[k] != "" && Trim(tokens[k]) == tokens[k] && ',' !in tokens[k]
    ensures StringItemTokens(StringItems(tokens)) == tokens
  {
    if |tokens| > 0 {
      CleanTokensKept(tokens[1..]);
      CleanTokensCons(tokens);
    }
  }

  /** One clean token in front of tokens that come out unchanged comes out unchanged too. */
  lemma CleanTokensCons(tokens: seq<string>)
    requires |tokens| > 0 && tokens[0] != "" && Trim(tokens[0]) == tokens[0] && ',' !in tokens[0]
    requires StringItemTokens(StringItems(tokens[1..])) == tokens[1..]
    ensures StringItemTokens(StringItems(tokens)) == tokens
  {
    var items := StringItems(tokens);
    assert items[1..] == StringItems(tokens[1..]);
    SingleToken(tokens[0]);
    assert StringItemTokens(items) == CommaTokens(tokens[0]) + StringItemTokens(items[1..]);
    assert [tokens[0]] + tokens[1..] == tokens;
  }

  // ---------------------------------------------------------------------
  // The filter
  // ---------------------------------------------------------------------

  datatype SourceFilter = AnySource | SourceIs(source: string) | SourceIn(sources: seq<string>)

  /** An optional lower (`$gte`) and upper (`$lte`) bound. */
  datatype Range = Range(gte: Option<int>, lte: Option<int>)

  datatype Filter = Filter(
    userId: Option<string>,
    source: SourceFilter,
    createdAt: Option<Range>,
    pointsAmount: Option<Range>)

  /** The arguments of `searchPointsHistory`. */
  datatype SearchArgs = SearchArgs(
    userId: Option<string>,
    sources: JsValue,
    from: JsValue,
    to: JsValue,
    minPoints: JsValue,
    maxPoints: JsValue,
    direction: JsValue,
    limit: JsValue,
    page: JsValue)

  predicate InRange(x: int, r: Range)
  {
    (r.gte.None? || x >= r.gte.value) && (r.lte.None? || x <= r.lte.value)
  }

  predicate SourceMatches(f: SourceFilter, source: string)
  {
    match f
    case AnySource => true
    case SourceIs(s) => source == s
    case SourceIn(list) => source in list
  }

  /** No condition for an empty list, an equality for one source, a membership test for more. */
  function SourceFilterFor(list: seq<string>): (f: SourceFilter)
    ensures |list| == 0 ==> f == AnySource
    ensures |list| == 1 ==> f == SourceIs(list[0])
    ensures |list| > 1 ==> f == SourceIn(list)
  {
    if |list| == 1 then SourceIs(list[0])
    else if |list| > 1 then SourceIn(list)
    else AnySource
  }

  /** Whatever its shape, the source condition admits exactly the listed sources, or all for none. */
  lemma SourceFilterAdmits(list: seq<string>, source: string)
    ensures SourceMatches(SourceFilterFor(list), source) <==> |list| == 0 || source in list
  {
    if |list| == 1 {
      assert source in list <==> source == list[0];
    }
  }

  /** `typeof direction === "string" ? direction.trim().toLowerCase() : null` */
  function NormalizeDirection(direction: JsValue): (r: Option<string>)
    ensures direction.JsStr? <==> r.Some?
    ensures r.Some? ==> IsLowered(r.value)
  {
    if direction.JsStr? then
      LowerKeeps(Trim(direction.s));
      Some(Lower(Trim(direction.s)))
    else None
  }

  /**
   * The points bounds after the direction: "credit" raises the lower bound
   * to at least 0, "debit" lowers the upper bound to at most 0, anything
   * else keeps the given bounds.
   */
  function DirectionBounds(min: Option<int>, max: Option<int>, direction: Option<string>): (r: Range)
    ensures direction == Some("credit") ==>
      r.gte == Some(if min.Some? then Max(min.value, 0) else 0) && r.lte == max
    ensures direction == Some("debit") ==>
      r.lte == Some(if max.Some? then Min(max.value, 0) else 0) && r.gte == min
    ensures direction != Some("credit") && direction != Some("debit") ==> r == Range(min, max)
  {
    if direction == Some("credit") then Range(Some(if min.Some? then Max(min.value, 0) else 0), max)
    else if direction == Some("debit") then Range(min, Some(if max.Some? then Min(max.value, 0) else 0))
    else Range(min, max)
  }

  /** "credit" admits exactly the non-negative amounts within the given bounds, "debit" the non-positive ones. */
  lemma DirectionSelectsSign(min: Option<int>, max: Option<int>, amount: int)
    ensures InRange(amount, DirectionBounds(min, max, Some("credit"))) <==> InRange(amount, Range(min, max)) && amount >= 0
    ensures InRange(amount, DirectionBounds(min, max, Some("debit"))) <==> InRange(amount, Range(min, max)) && amount <= 0
  {
    assert Some("credit") != Some("debit") by { assert "credit"[0] != "debit"[0]; }
  }

  /** The range condition is set only when it has a bound. */
  function RangeCondition(r: Range): (c: Option<Range>)
    ensures c.Some? <==> r.gte.Some? || r.lte.Some?
    ensures c.Some? ==> c.value == r
  {
    if r.gte.Some? || r.lte.Some? then Some(r) else None
  }

  /** An entry passes the filter. */
  predicate EntryMatches(e: Entry, f: Filter)
  {
    (f.userId.None? || IdString(e.userId) == f.userId.value)
    && SourceMatches(f.source, e.source)
    && (f.createdAt.None? || InRange(e.createdAt, f.createdAt.value))
    && (f.pointsAmount.None? || InRange(e.pointsAmount, f.pointsAmount.value))
  }

  /**
   * The filter of `searchPointsHistory`, built condition by condition: the
   * user when given, the sources, a date range when either end is a valid
   * date, and a points range when a bound exists after the direction.
   */
  method BuildFilter(args: SearchArgs, parseDate: string -> Option<int>) returns (filter: Filter)
    ensures filter.userId.Some? <==> args.userId.Some? && args.userId.value != ""
    ensures filter.userId.Some? ==> filter.userId == args.userId
    ensures filter.source == SourceFilterFor(NormalizeSources(args.sources))
    ensures var from := CoerceDate(args.from, parseDate);
      var to := CoerceDate(args.to, parseDate);
      filter.createdAt == (if from.Some? || to.Some? then Some(Range(from, to)) else None)
    ensures filter.pointsAmount ==
      RangeCondition(DirectionBounds(CoerceNumber(args.minPoints), CoerceNumber(args.maxPoints), NormalizeDirection(args.direction)))
    ensures filter == SearchFilter(args, parseDate)
  {
    filter := Filter(None, AnySource, None, None);
    if args.userId.Some? && args.userId.value != "" {
      filter := filter.(userId := args.userId);
    }
    ghost var user := if args.userId.Some? && args.userId.value != "" then args.userId else None;
    assert filter == Filter(user, AnySource, None, None);

    var sourceList := NormalizeSources(args.sources);
    if |sourceList| == 1 {
      filter := filter.(source := SourceIs(sourceList[0]));
    } else if |sourceList| > 1 {
      filter := filter.(source := SourceIn(sourceList));
    }
    assert filter == Filter(user, SourceFilterFor(sourceList), None, None);

    var fromDate := CoerceDate(args.from, parseDate);
    var toDate := CoerceDate(args.to, parseDate);
    if fromDate.Some? || toDate.Some? {
      filter := filter.(createdAt := Some(Range(fromDate, toDate)));
    }
    ghost var dates := if fromDate.Some? || toDate.Some? then Some(Range(fromDate, toDate)) else None;
    assert filter == Filter(user, SourceFilterFor(sourceList), dates, None);

    var min := CoerceNumber(args.minPoints);
    var max := CoerceNumber(args.maxPoints);
    var normalizedDirection := NormalizeDirection(args.direction);
    var pointsFilter := PointsBounds(min, max, normalizedDirection);
    if pointsFilter.gte.Some? || pointsFilter.lte.Some? {
      filter := filter.(pointsAmount := Some(pointsFilter));
    }
    assert filter == Filter(user, SourceFilterFor(sourceList), dates, RangeCondition(pointsFilter));
  }

  /** The filter `searchPointsHistory` builds from the arguments. */
  function SearchFilter(args: SearchArgs, parseDate: string -> Option<int>): Filter
  {
    var from := CoerceDate(args.from, parseDate);
    var to := CoerceDate(args.to, parseDate);
    Filter(
      if args.userId.Some? && args.userId.value != "" then args.userId else None,
      SourceFilterFor(NormalizeSources(args.sources)),
      if from.Some? || to.Some? then Some(Range(from, to)) else None,
      RangeCondition(DirectionBounds(CoerceNumber(args.minPoints), CoerceNumber(args.maxPoints), NormalizeDirection(args.direction))))
  }

  /** The points bounds: the given ones, then the direction's bound applied. */
  method PointsBounds(min: Option<int>, max: Option<int>, normalizedDirection: Option<string>) returns (pointsFilter: Range)
    ensures pointsFilter == DirectionBounds(min, max, normalizedDirection)
  {
    pointsFilter := Range(min, max);
    if normalizedDirection == Some("credit") {
      var threshold := if pointsFilter.gte.Some? then Max(pointsFilter.gte.value, 0) else 0;
      pointsFilter := pointsFilter.(gte := Some(threshold));
    } else if normalizedDirection == Some("debit") {
      var ceiling := if pointsFilter.lte.Some? then Min(pointsFilter.lte.value, 0) else 0;
      pointsFilter := pointsFilter.(lte := Some(ceiling));
    }
  }

  // ---------------------------------------------------------------------
  // The search
  // ---------------------------------------------------------------------

  /** How many entries pass the filter (`countDocuments`). */
  function MatchCount(entries: seq<Entry>, f: Filter): (n: nat)
    ensures n <= |entries|
  {
    if |entries| == 0 then 0
    else MatchCount(entries[..|entries| - 1], f) + (if EntryMatches(entries[|entries| - 1], f) then 1 else 0)
  }

  /**
   * The positions of the entries passing the filter, in ledger order: every
   * such position once, increasing, and no other.
   */
  function MatchingIds(entries: seq<Entry>, f: Filter): (ids: seq<EntryId>)
    ensures forall k :: 0 <= k < |ids| ==> ids[k] < |entries| && EntryMatches(entries[ids[k]], f)
    ensures forall i {:trigger i in ids} :: 0 <= i < |entries| && EntryMatches(entries[i], f) ==> i in ids
    ensures forall i, j :: 0 <= i < j < |ids| ==> ids[i] < ids[j]
    ensures |ids| == MatchCount(entries, f)
  {
    if |entries| == 0 then []
    else
      var n := |entries| - 1;
      var init := entries[..n];
      var earlier := MatchingIds(init, f);
      assert forall i :: 0 <= i < n ==> init[i] == entries[i];
      if EntryMatches(entries[n], f) then earlier + [n] else earlier
  }

  /** The page window: `limit` items after skipping `skip`. */
  function Window<T>(s: seq<T>, skip: nat, limit: nat): (w: seq<T>)
    ensures |w| == Min(limit, Max(|s| - skip, 0))
    ensures forall k :: 0 <= k < |w| ==> w[k] == s[skip + k]
  {
    if skip >= |s| then [] else Prefix(s[skip..], limit)
  }

  datatype PageInfo = PageInfo(total: nat, page: int, limit: int, pages: int)

  datatype SearchResult = SearchResult(pagination: PageInfo, items: seq<HistoryEntry>)

  /** The entries newest-appended first. */
  function NewestFirst(ids: seq<EntryId>): (r: seq<EntryId>)
    ensures |r| == |ids|
    ensures forall k :: 0 <= k < |r| ==> r[k] == ids[|ids| - 1 - k]
  {
    seq(|ids|, k requires 0 <= k < |ids| => ids[|ids| - 1 - k])
  }

  /** The entries at the given positions, in mapped form. */
  function MapEntries(entries: seq<Entry>, ids: seq<EntryId>): (items: seq<HistoryEntry>)
    requires forall k :: 0 <= k < |ids| ==> ids[k] < |entries|
    ensures |items| == |ids|
    ensures forall k :: 0 <= k < |ids| ==> items[k] == MapHistoryEntry(ids[k], entries[ids[k]])
  {
    seq(|ids|, k requires 0 <= k < |ids| => MapHistoryEntry(ids[k], entries[ids[k]]))
  }

  /** `h` is the mapped form of an entry of the ledger that passes the filter. */
  ghost predicate MappedMatch(h: HistoryEntry, entries: seq<Entry>, f: Filter)
  {
    exists id :: 0 <= id < |entries| && EntryMatches(entries[id], f) && h == MapHistoryEntry(id, entries[id])
  }

  lemma MappedMatchAt(entries: seq<Entry>, f: Filter, id: EntryId)
    requires id < |entries| && EntryMatches(entries[id], f)
    ensures MappedMatch(MapHistoryEntry(id, entries[id]), entries, f)
  {
  }

  /** One page of the matching entries, newest-appended first, in mapped form. */
  function PageOf(entries: seq<Entry>, f: Filter, ids: seq<EntryId>, skip: nat, limit: nat): (items: seq<HistoryEntry>)
    requires forall k :: 0 <= k < |ids| ==> ids[k] < |entries| && EntryMatches(entries[ids[k]], f)
    ensures |items| == Min(limit, Max(|ids| - skip, 0))
    ensures forall k :: 0 <= k < |items| ==> MappedMatch(items[k], entries, f)
    ensures forall k :: 0 <= k < |items| ==>
      skip + k < |ids| && items[k] == MapHistoryEntry(ids[|ids| - 1 - (skip + k)], entries[ids[|ids| - 1 - (skip + k)]])
  {
    var window := Window(NewestFirst(ids), skip, limit);
    var items := MapEntries(entries, window);
    forall k | 0 <= k < |items|
      ensures MappedMatch(items[k], entries, f)
      ensures skip + k < |ids| && items[k] == MapHistoryEntry(ids[|ids| - 1 - (skip + k)], entries[ids[|ids| - 1 - (skip + k)]])
    {
      var j := |ids| - 1 - (skip + k);
      assert 0 <= j < |ids| && window[k] == ids[j];
      MappedMatchAt(entries, f, window[k]);
    }
    items
  }

  /**
   * What a search answers for a filter and a page window: the total counts
   * every entry passing the filter, the page and limit are the window's,
   * `pages` is the page count, and the `k`-th item is the mapped form of
   * the `skip + k`-th newest entry passing the filter.
   */
  ghost predicate Answers(entries: seq<Entry>, filter: Filter, p: Page, r: SearchResult)
    requires p.limit >= 1
  {
    AnswersFor(entries, filter, p, r, MatchingIds(entries, filter))
  }

  /** `Answers`, with the matching positions `ids` given. */
  ghost predicate AnswersFor(entries: seq<Entry>, filter: Filter, p: Page, r: SearchResult, ids: seq<EntryId>)
    requires p.limit >= 1
    requires forall k :: 0 <= k < |ids| ==> ids[k] < |entries|
  {
    r.pagination == PageInfo(MatchCount(entries, filter), p.page, p.limit, Pages(MatchCount(entries, filter), p.limit))
    && |r.items| == Min(p.limit, Max(r.pagination.total - p.skip, 0))
    && (forall k :: 0 <= k < |r.items| ==> MappedMatch(r.items[k], entries, filter))
    && forall k :: 0 <= k < |r.items| ==>
         p.skip + k < |ids| && r.items[k] == MapHistoryEntry(ids[|ids| - 1 - (p.skip + k)], entries[ids[|ids| - 1 - (p.skip + k)]])
  }

  /** The query for a built filter and a page window: count, then one page of mapped entries. */
  method Query(ledger: Ledger, filter: Filter, p: Page) returns (r: SearchResult)
    requires p.limit >= 1
    ensures Answers(ledger.entries, filter, p, r)
  {
    var ids := MatchingIds(ledger.entries, filter);
    var items := PageOf(ledger.entries, filter, ids, p.skip, p.limit);
    r := SearchResult(PageInfo(|ids|, p.page, p.limit, Pages(|ids|, p.limit)), items);
    AnswersFromParts(ledger.entries, filter, p, r, ids);
  }

  /** A result whose count and items are those of the matching positions `ids` is an answer over them. */
  lemma AnswersFromParts(entries: seq<Entry>, filter: Filter, p: Page, r: SearchResult, ids: seq<EntryId>)
    requires p.limit >= 1
    requires forall k :: 0 <= k < |ids| ==> ids[k] < |entries|
    requires r.pagination == PageInfo(|ids|, p.page, p.limit, Pages(|ids|, p.limit)) && |ids| == MatchCount(entries, filter)
    requires |r.items| == Min(p.limit, Max(|ids| - p.skip, 0))
    requires forall k :: 0 <= k < |r.items| ==> MappedMatch(r.items[k], entries, filter)
    requires forall k :: 0 <= k < |r.items| ==>
      p.skip + k < |ids| && r.items[k] == MapHistoryEntry(ids[|ids| - 1 - (p.skip + k)], entries[ids[|ids| - 1 - (p.skip + k)]])
    ensures AnswersFor(entries, filter, p, r, ids)
  {
  }

  /**
   * `searchPointsHistory` without the user join: the answer for the filter
   * built from the arguments and the normalised page window.
   */
  method Search(ledger: Ledger, args: SearchArgs, parseDate: string -> Option<int>) returns (r: SearchResult)
    ensures Answers(ledger.entries, SearchFilter(args, parseDate), GetPagination(args.limit, args.page), r)
  {
    var p := GetPagination(args.limit, args.page);
    var filter := BuildFilter(args, parseDate);
    r := Query(ledger, filter, p);
  }
}

=== FILE: points_history_admin.dfy ===
/**
 * The administrators' ledger listing: query-string parameters are read
 * loosely (a boolean from "1"/"true"/"yes", a list from repeated or
 * comma-separated values) and assembled into the search arguments; errors
 * are answered with their own status when it is a positive integer.
 */
module PointsHistoryAdmin {
  import opened Common
  import opened PointsHistory

  /** `parseBoolean`: booleans as they are; strings by their trimmed, lowercased text; anything else false. */
  function ParseBoolean(value: JsValue): (b: bool)
    ensures value.JsBool? ==> b == value.b
    ensures value.JsStr? ==> (b <==> Lower(Trim(value.s)) in ["1", "true", "yes"])
    ensures !value.JsBool? && !value.JsStr? ==> !b
  {
    match value
    case JsBool(v) => v
    case JsStr(s) => Lower(Trim(s)) in ["1", "true", "yes"]
    case _ => false
  }

  /**
   * White space on either side and the letter case do not change how a
   * string flag reads: the padded text reads as its lower-cased body, and an
   * upper-cased body reads as the body itself.
   */
  lemma ParseBooleanIgnoresPadding(pre: string, body: string, post: string)
    requires forall k :: 0 <= k < |pre| ==> IsSpace(pre[k])
    requires forall k :: 0 <= k < |post| ==> IsSpace(post[k])
    requires |body| > 0 && !IsSpace(body[0]) && !IsSpace(body[|body| - 1])
    ensures ParseBoolean(JsStr(pre + body + post)) <==> Lower(body) in ["1", "true", "yes"]
    ensures ParseBoolean(JsStr(pre + Upper(body) + post)) == ParseBoolean(JsStr(body))
  {
    PaddedBodyTrim(pre, body, post);
    ReadsAsTrimmed(pre + body + post, body);
    UpperKeepsEnds(body);
    PaddedBodyTrim(pre, Upper(body), post);
    ReadsAsTrimmed(pre + Upper(body) + post, Upper(body));
    BodyTrim(body);
    ReadsAsTrimmed(body, body);
    LowerUpper(body);
  }

  /** A string flag reads as its trimmed text lower-cased. */
  lemma ReadsAsTrimmed(s: string, t: string)
    requires Trim(s) == t
    ensures ParseBoolean(JsStr(s)) == (Lower(t) in ["1", "true", "yes"])
  {
  }

  /** Upper-casing changes no white space at either end. */
  lemma UpperKeepsEnds(body: string)
    requires |body| > 0 && !IsSpace(body[0]) && !IsSpace(body[|body| - 1])
    ensures |Upper(body)| > 0 && !IsSpace(Upper(body)[0]) && !IsSpace(Upper(body)[|Upper(body)| - 1])
  {
    assert Upper(body)[0] == UpperChar(body[0]);
    assert Upper(body)[|body| - 1] == UpperChar(body[|body| - 1]);
  }

  /** A body without white space at its ends is its own trim. */
  lemma BodyTrim(body: string)
    requires |body| > 0 && !IsSpace(body[0]) && !IsSpace(body[|body| - 1])
    ensures Trim(body) == body
  {
    PaddedBodyTrim([], body, []);
    assert [] + body + [] == body;
  }

  /** Trimming white space off both sides of a body gives back the body. */
  lemma PaddedBodyTrim(pre: string, body: string, post: string)
    requires forall k :: 0 <= k < |pre| ==> IsSpace(pre[k])
    requires forall k :: 0 <= k < |post| ==> IsSpace(post[k])
    requires |body| > 0 && !IsSpace(body[0]) && !IsSpace(body[|body| - 1])
    ensures Trim(pre + body + post) == body
  {
    assert pre + body + post == pre + (body + post);
    PaddingTrimmed(pre, body + post);
    TrailingPaddingTrimmed(body, post);
  }

  /** The values `parseArrayParam` joins: an array's elements, or the single value. */
  function ParamParts(value: JsValue): seq<JsValue>
  {
    if value.JsArray? then value.items else [value]
  }

  /**
   * `parseArrayParam`: a falsy value gives no tokens; otherwise the parts are
   * joined with commas, split on commas, trimmed and the empty ones dropped.
   */
  function ParseArrayParam(value: JsValue): (r: seq<string>)
    ensures !Truthy(value) ==> r == []
    ensures forall k :: 0 <= k < |r| ==> r[k] != "" && Trim(r[k]) == r[k] && ',' !in r[k]
  {
    if !Truthy(value) then []
    else CommaTokens(ArrayItemsToString(JsArray(ParamParts(value)), 0))
  }

  /** A comma-joined list of clean tokens parses back to the same tokens. */
  lemma ParseArrayParamOfJoin(tokens: seq<string>)
    requires forall k :: 0 <= k < |tokens| ==> tokens[k] != "" && Trim(tokens[k]) == tokens[k] && ',' !in tokens[k]
    ensures ParseArrayParam(JsStr(Join(tokens, ","))) == tokens
  {
    if |tokens| > 0 {
      var joined := Join(tokens, ",");
      JoinNonEmpty(tokens, ",");
      SingleStringJoin(joined);
      SplitJoin(tokens, ',');
      TrimmedNonEmptyKeeps(tokens);
    }
  }

  /** Joining a one-element array of a string gives the string. */
  lemma SingleStringJoin(x: string)
    ensures ArrayItemsToString(JsArray([JsStr(x)]), 0) == x
  {
    assert ArrayItemsToString(JsArray([JsStr(x)]), 1) == "";
  }

  /** The query string of the listing. */
  datatype AdminQuery = AdminQuery(
    userId: JsValue,
    source: JsValue,
    sources: JsValue,
    from: JsValue,
    to: JsValue,
    minPoints: JsValue,
    maxPoints: JsValue,
    typeParam: JsValue,
    limit: JsValue,
    page: JsValue,
    includeUser: JsValue)

  /** The `sources` tokens followed by the `source` tokens. */
  function SourceTokens(q: AdminQuery): (r: seq<string>)
    ensures r == ParseArrayParam(q.sources) + ParseArrayParam(q.source)
    ensures forall k :: 0 <= k < |r| ==> r[k] != "" && Trim(r[k]) == r[k] && ',' !in r[k]
  {
    ParseArrayParam(q.sources) + ParseArrayParam(q.source)
  }

  /**
   * The arguments `listPointsHistoryAdminHandler` passes to the search: the
   * source tokens as an array, the user trimmed or null when blank, the
   * direction trimmed and lowercased or null when blank, and the rest as
   * given.
   */
  function AdminSearchArgs(q: AdminQuery): (args: SearchArgs)
    ensures args.sources == JsArray(StringItems(SourceTokens(q)))
    ensures args.userId.Some? <==> q.userId.JsStr? && Trim(q.userId.s) != ""
    ensures args.userId.Some? ==> args.userId.value == Trim(q.userId.s)
    ensures args.direction.JsStr? <==> q.typeParam.JsStr? && Trim(q.typeParam.s) != ""
    ensures args.direction.JsStr? ==> args.direction.s == Lower(Trim(q.typeParam.s))
    ensures !args.direction.JsStr? ==> args.direction == JsNull
    ensures args.from == q.from && args.to == q.to && args.minPoints == q.minPoints && args.maxPoints == q.maxPoints
    ensures args.limit == q.limit && args.page == q.page
  {
    var userId := if q.userId.JsStr? && Trim(q.userId.s) != "" then Some(Trim(q.userId.s)) else None;
    var direction := if q.typeParam.JsStr? && Trim(q.typeParam.s) != "" then JsStr(Lower(Trim(q.typeParam.s))) else JsNull;
    SearchArgs(userId, JsArray(StringItems(SourceTokens(q))), q.from, q.to, q.minPoints, q.maxPoints, direction, q.limit, q.page)
  }

  /** The sources the search filters on are the query's tokens lowercased, each kept at its first occurrence. */
  lemma AdminSourcesReachFilter(q: AdminQuery)
    ensures NormalizeSources(AdminSearchArgs(q).sources) == Dedupe(LowerAll(SourceTokens(q)))
  {
    var tokens := SourceTokens(q);
    assert AdminSearchArgs(q).sources == JsArray(StringItems(tokens));
    ArraySources(tokens);
  }

  /** The direction the search applies is the one the administrator typed, whatever its case and padding. */
  lemma AdminDirectionReachesFilter(q: AdminQuery)
    requires q.typeParam.JsStr? && Trim(q.typeParam.s) != ""
    ensures NormalizeDirection(AdminSearchArgs(q).direction) == Some(Lower(Trim(q.typeParam.s)))
  {
    var t := Trim(q.typeParam.s);
    var d := AdminSearchArgs(q).direction;
    assert d == JsStr(Lower(t));
    TrimIdempotent(q.typeParam.s);
    LowerTrimmed(t);
    LowerIdempotent(t);
  }

  /** Lowering twice is lowering once. */
  lemma LowerIdempotent(t: string)
    ensures Lower(Lower(t)) == Lower(t)
  {
    var l := Lower(t);
    forall i | 0 <= i < |t|
      ensures LowerChar(l[i]) == l[i]
    {
      assert l[i] == LowerChar(t[i]);
    }
  }

  /** Lowering a trimmed string keeps it trimmed. */
  lemma LowerTrimmed(t: string)
    requires Trim(t) == t
    ensures Trim(Lower(t)) == Lower(t)
  {
    var l := Lower(t);
    if |t| > 0 {
      assert t[0] == Trim(t)[0] && t[|t| - 1] == Trim(t)[|Trim(t)| - 1];
      assert !IsSpace(t[0]) && !IsSpace(t[|t| - 1]);
      assert !IsSpace(l[0]) && !IsSpace(l[|l| - 1]);
      assert TrimStart(l) == l;
    }
  }

  /** A failure as `respondError` sees it: the thrown value's `status` and `message`. */
  datatype Failure = Failure(status: JsValue, message: JsValue)

  /** `respondError`'s status: the failure's own status when it is a positive integer, the fallback otherwise. */
  function ErrorStatus(e: Failure, fallback: int): (status: int)
    ensures e.status.JsNum? && e.status.n > 0 ==> status == e.status.n
    ensures !(e.status.JsNum? && e.status.n > 0) ==> status == fallback
    ensures fallback > 0 ==> status > 0
  {
    if e.status.JsNum? && e.status.n > 0 then e.status.n else fallback
  }

  /** `respondError`'s message: the failure's message trimmed when it is a non-blank string, the fallback otherwise. */
  function ErrorMessage(e: Failure, fallback: string): (message: string)
    ensures e.message.JsStr? && Trim(e.message.s) != "" ==> message == Trim(e.message.s)
    ensures !(e.message.JsStr? && Trim(e.message.s) != "") ==> message == fallback
    ensures fallback != "" ==> message != ""
  {
    if e.message.JsStr? && Trim(e.message.s) != "" then Trim(e.message.s) else fallback
  }

  /** The listing's answer to a failure: 400 "Gagal memuat riwayat poin" unless the failure says otherwise. */
  function ListingFailure(e: Failure): (r: Result<SearchResult>)
    ensures r.Err? && r.status > 0 && r.message != ""
  {
    Err(ErrorStatus(e, 400), ErrorMessage(e, "Gagal memuat riwayat poin"))
  }

  /**
   * `listPointsHistoryAdminHandler`: the search over the assembled arguments.
   * `storeFailure` is what the ledger store throws, when it fails; the
   * handler's `catch` then answers it through `respondError`.
   */
  method ListPointsHistoryAdmin(ledger: Ledger, q: AdminQuery, parseDate: string -> Option<int>, storeFailure: Option<Failure>)
    returns (r: Result<SearchResult>)
    ensures storeFailure.Some? ==> r == ListingFailure(storeFailure.value)
    ensures storeFailure.None? ==> r.Ok?
    ensures storeFailure.None? ==>
      Answers(ledger.entries, SearchFilter(AdminSearchArgs(q), parseDate), GetPagination(q.limit, q.page), r.value)
    ensures SearchFilter(AdminSearchArgs(q), parseDate).source == SourceFilterFor(Dedupe(LowerAll(SourceTokens(q))))
  {
    var args := AdminSearchArgs(q);
    AdminSourcesReachFilter(q);
    if storeFailure.Some? {
      r := ListingFailure(storeFailure.value);
    } else {
      var history := Search(ledger, args, parseDate);
      r := Ok(history);
    }
  }
}

=== FILE: profile_service.dfy ===
/**
 * The public profile of a user: a feed of recent activities (completed
 * daily tasks, voucher redemptions, eco-enzyme projects, harvested fruits,
 * sorting-game rewards and streak events) newest first, the streak
 * milestones with the progress shown and whether each can be claimed, and
 * up to five vouchers with the user's progress towards them. The records
 * the summary reads are the results of its queries, given as parameters.
 */
module ProfileService {
  import opened Common
  import opened Entities
  import opened DateUtils
  import RewardService
  import VoucherService
  import EcoenzimProjectModel
  import DailyTaskChecklistModel

  // ---------------------------------------------------------------------
  // The streak of consecutive days
  // ---------------------------------------------------------------------

  predicate StrictlyDescending(s: seq<int>)
  {
    forall i, j :: 0 <= i < j < |s| ==> s[i] > s[j]
  }

  /** Places a value in a strictly descending sequence, unless it is already there. */
  function InsertDescending(x: int, s: seq<int>): (r: seq<int>)
    requires StrictlyDescending(s)
    ensures StrictlyDescending(r)
    ensures forall y :: y in r <==> y in s || y == x
  {
    if |s| == 0 then [x]
    else if x > s[0] then [x] + s
    else if x == s[0] then s
    else
      var rest := InsertDescending(x, s[1..]);
      assert s == [s[0]] + s[1..];
      ConsDescending(s[0], s[1..], rest, x);
      [s[0]] + rest
  }

  /** Putting back the head in front of the insertion into the tail. */
  lemma ConsDescending(h: int, t: seq<int>, rest: seq<int>, x: int)
    requires StrictlyDescending([h] + t) && x < h
    requires StrictlyDescending(rest) && forall y :: y in rest <==> y in t || y == x
    ensures StrictlyDescending([h] + rest)
    ensures forall y :: y in [h] + rest <==> y in [h] + t || y == x
  {
    forall y | y in t
      ensures y < h
    {
      var k :| 0 <= k < |t| && t[k] == y;
      assert ([h] + t)[0] == h && ([h] + t)[k + 1] == y;
    }
    var r := [h] + rest;
    forall i, j | 0 <= i < j < |r|
      ensures r[i] > r[j]
    {
      assert r[j] == rest[j - 1];
      if i > 0 {
        assert r[i] == rest[i - 1];
      } else {
        assert rest[j - 1] in rest;
      }
    }
  }

  /** The calendar days of the timestamps. */
  function Days(timestamps: seq<int>): set<int>
  {
    set t | t in timestamps :: DayOf(t)
  }

  /** `Array.from(new Set(days)).sort((a, b) => b - a)`: the distinct days, latest first. */
  function SortedDays(timestamps: seq<int>): (r: seq<int>)
    ensures StrictlyDescending(r)
    ensures forall d :: d in r <==> d in Days(timestamps)
  {
    if |timestamps| == 0 then []
    else
      var init := timestamps[..|timestamps| - 1];
      var last := timestamps[|timestamps| - 1];
      assert timestamps == init + [last];
      InsertDescending(DayOf(last), SortedDays(init))
  }

  /** The first of the sorted days is the latest day of all. */
  lemma SortedDaysStartLatest(timestamps: seq<int>)
    requires |timestamps| > 0
    ensures |SortedDays(timestamps)| > 0
    ensures forall d :: d in Days(timestamps) ==> d <= SortedDays(timestamps)[0]
  {
    assert DayOf(timestamps[0]) in Days(timestamps);
  }

  /**
   * The profile's streak: 0 without timestamps or when the latest day is
   * before today; otherwise the run of consecutive days ending at the
   * latest day.
   */
  function ProfileStreak(timestamps: seq<int>, now: int): (n: nat)
    ensures n > 0 ==> |timestamps| > 0
    ensures |timestamps| > 0 ==>
      var latest := SortedDays(timestamps)[0];
      (latest < DayOf(now) ==> n == 0)
      && (latest >= DayOf(now) ==> n >= 1 && forall x :: latest - n < x <= latest ==> x in Days(timestamps))
      && (latest >= DayOf(now) ==> latest - n !in Days(timestamps))
  {
    if |timestamps| == 0 then 0
    else
      SortedDaysStartLatest(timestamps);
      var latest := SortedDays(timestamps)[0];
      if latest < DayOf(now) then 0
      else
        assert latest in Days(timestamps);
        RewardService.StreakFrom(Days(timestamps), latest)
  }

  /** The end of a run of consecutive days at the head of a strictly descending sequence. */
  lemma RunEnds(sorted: seq<int>, n: nat)
    requires StrictlyDescending(sorted) && 1 <= n <= |sorted|
    requires forall j :: 0 <= j < n ==> sorted[j] == sorted[0] - j
    requires n == |sorted| || sorted[n] != sorted[0] - n
    ensures sorted[0] - n !in sorted
    ensures forall x :: sorted[0] - n < x <= sorted[0] ==> x in sorted
  {
    forall j | 0 <= j < |sorted|
      ensures sorted[j] != sorted[0] - n
    {
      if j < n {
      } else if j > n {
        assert sorted[j] < sorted[n] <= sorted[n - 1] - 1;
      }
    }
    forall x | sorted[0] - n < x <= sorted[0]
      ensures x in sorted
    {
      assert sorted[sorted[0] - x] == x;
    }
  }

  /**
   * `computeStreakDays` of the profile: the distinct days sorted latest
   * first; 0 when the latest is before today; otherwise one for the latest
   * day and one more for each following day exactly one day earlier.
   */
  method ComputeStreakDays(timestamps: seq<int>, now: int) returns (streak: nat)
    ensures streak == ProfileStreak(timestamps, now)
  {
    if |timestamps| == 0 {
      return 0;
    }
    var sortedDays := SortedDays(timestamps);
    SortedDaysStartLatest(timestamps);
    var today := DayOf(now);
    if sortedDays[0] < today {
      return 0;
    }
    streak := 1;
    for i := 1 to |sortedDays|
      invariant streak == i
      invariant forall j :: 0 <= j < i ==> sortedDays[j] == sortedDays[0] - j
    {
      var prev := sortedDays[i - 1];
      var current := sortedDays[i];
      if prev - current == 1 {
        streak := streak + 1;
      } else {
        break;
      }
    }
    RunEnds(sortedDays, streak);
    RewardService.StreakFromUnique(Days(timestamps), sortedDays[0], streak);
  }

  /** The completion timestamps of the rows that have one, in their order. */
  function Completions(rows: seq<DailyTaskChecklistModel.Checklist>): (ts: seq<int>)
    ensures forall t :: t in ts <==> exists k :: 0 <= k < |rows| && rows[k].completedAt == Some(t)
  {
    if |rows| == 0 then []
    else
      var init := rows[..|rows| - 1];
      var last := rows[|rows| - 1];
      assert forall k :: 0 <= k < |init| ==> init[k] == rows[k];
      Completions(init) + (if last.completedAt.Some? then [last.completedAt.value] else [])
  }

  /** The reward claim's timestamps for the same completions. */
  function AsRewardTimestamps(timestamps: seq<int>): (r: seq<Option<int>>)
    ensures |r| == |timestamps| && forall k :: 0 <= k < |r| ==> r[k] == Some(timestamps[k])
  {
    seq(|timestamps|, k requires 0 <= k < |timestamps| => Some(timestamps[k]))
  }

  /**
   * The two streak calculators agree whenever no completion lies after
   * today: the profile counts back from the latest day, the reward claim
   * from today, and both give 0 when today has no completion.
   */
  lemma StreaksAgree(timestamps: seq<int>, now: int)
    requires forall t :: t in timestamps ==> DayOf(t) <= DayOf(now)
    ensures ProfileStreak(timestamps, now)
         == RewardService.StreakFrom(RewardService.DaySet(AsRewardTimestamps(timestamps)), DayOf(now))
  {
    var ts := AsRewardTimestamps(timestamps);
    var days := Days(timestamps);
    assert RewardService.DaySet(ts) == days by {
      forall d | d in days
        ensures d in RewardService.DaySet(ts)
      {
        var t :| t in timestamps && DayOf(t) == d;
        var k :| 0 <= k < |timestamps| && timestamps[k] == t;
        assert ts[k] == Some(t);
      }
    }
    var today := DayOf(now);
    if |timestamps| == 0 {
      assert today !in days;
    } else {
      SortedDaysStartLatest(timestamps);
      var latest := SortedDays(timestamps)[0];
      assert latest in days;
      if latest < today {
        assert today !in days;
      } else {
        assert latest == today;
      }
    }
  }

  // ---------------------------------------------------------------------
  // Activities
  // ---------------------------------------------------------------------

  datatype ActivityKind = Leaf | Redeem | Gain | Prepoint | Fruit | Game | Streak

  /** An entry of the feed; a streak entry that reports a broken streak has `broken` set. */
  datatype Activity = Activity(
    kind: ActivityKind,
    points: Option<int>,
    time: Option<int>,
    projectStatus: Option<EcoenzimProjectModel.ProjectStatus>,
    projectId: Option<nat>,
    milestone: Option<int>,
    streakDays: Option<int>,
    missedDays: Option<int>,
    broken: bool,
    dayBucket: Option<string>,
    pointsLabel: Option<string>)

  function Plain(kind: ActivityKind, points: Option<int>, time: Option<int>): Activity
  {
    Activity(kind, points, time, None, None, None, None, None, false, None, None)
  }

  /** `mapLeafActivity`: a completed daily task, timed by its completion when it has one. */
  function MapLeafActivity(row: DailyTaskChecklistModel.Checklist): (a: Activity)
    ensures a.kind == Leaf && a.points.None? && a.time == row.completedAt
  {
    Plain(Leaf, None, row.completedAt)
  }

  /** `mapVoucherActivity`: a redemption costs the points it deducted. */
  function MapVoucherActivity(rd: VoucherService.Redemption): (a: Activity)
    ensures a.kind == Redeem && a.points == Some(-rd.pointsDeducted) && a.time == Some(rd.redeemedAt)
  {
    Plain(Redeem, Some(-rd.pointsDeducted), Some(rd.redeemedAt))
  }

  /** `mapCompletedEcoenzymProjectActivity`: the project's points, timed by its claim or else its end date. */
  function MapCompletedProjectActivity(id: nat, p: EcoenzimProjectModel.Project): (a: Activity)
    ensures a.kind == Gain && a.projectId == Some(id) && a.projectStatus == Some(p.status)
    ensures a.points == Some(if p.points.Some? then p.points.value else 0)
    ensures p.claimedAt.Some? ==> a.time == p.claimedAt
    ensures p.claimedAt.None? ==> a.time == Some(p.endDate)
  {
    var time := if p.claimedAt.Some? then p.claimedAt.value else p.endDate;
    Plain(Gain, Some(if p.points.Some? then p.points.value else 0), Some(time))
      .(projectStatus := Some(p.status), projectId := Some(id))
  }

  /** `mapOngoingEcoenzymProjectActivity`: the pre-points earned so far, timed by the project's last update. */
  function MapOngoingProjectActivity(id: nat, p: EcoenzimProjectModel.Project, updatedAt: int): (a: Activity)
    ensures a.kind == Prepoint && a.projectId == Some(id) && a.projectStatus == Some(p.status)
    ensures a.points == Some(if p.prePointsEarned.Some? then p.prePointsEarned.value else 0)
    ensures a.time == Some(updatedAt)
  {
    Plain(Prepoint, Some(if p.prePointsEarned.Some? then p.prePointsEarned.value else 0), Some(updatedAt))
      .(projectStatus := Some(p.status), projectId := Some(id))
  }

  /** A sorting-game reward as stored: its day, its points (default 0) and when it was claimed. */
  datatype GameReward = GameReward(dayBucket: string, pointAwarded: Option<int>, claimedAt: int)

  /** `mapGameSortingActivity`: the reward's points with a "+N point" label. */
  function MapGameActivity(g: GameReward): (a: Activity)
    ensures var points := if g.pointAwarded.Some? then g.pointAwarded.value else 0;
      a.kind == Game && a.points == Some(points) && a.time == Some(g.claimedAt)
      && a.dayBucket == Some(g.dayBucket) && a.pointsLabel == Some("+" + IntToString(points) + " point")
  {
    var points := if g.pointAwarded.Some? then g.pointAwarded.value else 0;
    Plain(Game, Some(points), Some(g.claimedAt))
      .(dayBucket := Some(g.dayBucket), pointsLabel := Some("+" + IntToString(points) + " point"))
  }

  /** `mapTreeFruitActivity`: the fruit's points, timed by its harvest. */
  function MapFruitActivity(f: TreeFruit): (a: Activity)
    ensures a.kind == Fruit && a.points == Some(f.pointsAwarded) && a.time == f.claimedAt
  {
    Plain(Fruit, Some(f.pointsAwarded), f.claimedAt)
  }

  /**
   * The streak events, for a user with a latest completion: a 7-day and a
   * 30-day milestone just after it when the streak reaches them, and a
   * broken streak the day after it when it was two days before today.
   */
  function StreakActivities(completions: seq<int>, streak: nat, now: int): (r: seq<Activity>)
    ensures |completions| == 0 ==> r == []
    ensures forall a :: a in r ==> a.kind == Streak && a.time.Some?
    ensures |completions| > 0 ==>
      var latest := completions[0];
      ((exists a :: a in r && a.milestone == Some(7)) <==> streak >= 7)
      && ((exists a :: a in r && a.milestone == Some(30)) <==> streak >= 30)
      && ((exists a :: a in r && a.broken) <==> DaysBetween(latest, now) == 2)
  {
    if |completions| == 0 then []
    else
      var latest := completions[0];
      var seven := if streak >= 7 then [Plain(Streak, None, Some(latest + 1)).(milestone := Some(7), streakDays := Some(streak))] else [];
      var thirty := if streak >= 30 then [Plain(Streak, None, Some(latest + 2)).(milestone := Some(30), streakDays := Some(streak))] else [];
      var diffDays := DaysBetween(latest, now);
      var brokenStreak :=
        if diffDays == 2 then [Plain(Streak, None, Some(Midnight(latest) + MsPerDay)).(streakDays := Some(0), missedDays := Some(diffDays), broken := true)]
        else [];
      seven + thirty + brokenStreak
  }

  /** A broken streak is reported exactly when the latest completion's calendar day is two days before today. */
  lemma BrokenStreakTwoDaysBack(completions: seq<int>, streak: nat, now: int)
    requires |completions| > 0
    ensures (exists a :: a in StreakActivities(completions, streak, now) && a.broken)
        <==> DayOf(now) - DayOf(completions[0]) == 2
  {
    var r := StreakActivities(completions, streak, now);
    assert (exists a :: a in r && a.broken) <==> DaysBetween(completions[0], now) == 2;
    DaysBetweenIsDayDifference(completions[0], now);
  }

  /** The activities with a time. */
  function Timed(acts: seq<Activity>): (r: seq<Activity>)
    ensures forall a :: a in r <==> a in acts && a.time.Some?
    ensures multiset(r) <= multiset(acts)
  {
    if |acts| == 0 then []
    else
      var init := acts[..|acts| - 1];
      var last := acts[|acts| - 1];
      assert acts == init + [last];
      assert multiset(acts) == multiset(init) + multiset{last};
      Timed(init) + (if last.time.Some? then [last] else [])
  }

  predicate AllTimed(acts: seq<Activity>)
  {
    forall a :: a in acts ==> a.time.Some?
  }

  /** The time an activity is sorted by (every sorted activity has one). */
  function TimeOf(a: Activity): int
  {
    if a.time.Some? then a.time.value else 0
  }

  predicate NewestFirst(acts: seq<Activity>)
  {
    forall i, j :: 0 <= i < j < |acts| ==> TimeOf(acts[i]) >= TimeOf(acts[j])
  }

  /** Places an activity after every activity at least as recent: equal times keep their order. */
  function InsertByTime(a: Activity, sorted: seq<Activity>): (r: seq<Activity>)
    requires NewestFirst(sorted)
    ensures NewestFirst(r)
    ensures |r| == |sorted| + 1
    ensures multiset(r) == multiset(sorted) + multiset{a}
  {
    if |sorted| == 0 then [a]
    else if TimeOf(sorted[0]) >= TimeOf(a) then
      NewestFirstTail(sorted);
      var rest := InsertByTime(a, sorted[1..]);
      BehindNewest(a, sorted, rest);
      [sorted[0]] + rest
    else
      assert forall k :: 0 <= k < |sorted| ==> TimeOf(sorted[k]) <= TimeOf(sorted[0]);
      NewerInFront(a, sorted);
      [a] + sorted
  }

  lemma NewestFirstTail(sorted: seq<Activity>)
    requires |sorted| > 0 && NewestFirst(sorted)
    ensures NewestFirst(sorted[1..])
  {
  }

  /** Inserting behind the newest activity keeps the order and the activities. */
  lemma BehindNewest(a: Activity, sorted: seq<Activity>, rest: seq<Activity>)
    requires |sorted| > 0 && NewestFirst(sorted) && TimeOf(sorted[0]) >= TimeOf(a)
    requires NewestFirst(rest) && multiset(rest) == multiset(sorted[1..]) + multiset{a}
    ensures NewestFirst([sorted[0]] + rest)
    ensures multiset([sorted[0]] + rest) == multiset(sorted) + multiset{a}
  {
    InsertedBehind(a, sorted, rest);
    NewerInFront(sorted[0], rest);
    assert sorted == [sorted[0]] + sorted[1..];
  }

  /** What is inserted behind the newest activity is no more recent than it. */
  lemma InsertedBehind(a: Activity, sorted: seq<Activity>, rest: seq<Activity>)
    requires |sorted| > 0 && NewestFirst(sorted) && TimeOf(sorted[0]) >= TimeOf(a)
    requires multiset(rest) == multiset(sorted[1..]) + multiset{a}
    ensures forall k :: 0 <= k < |rest| ==> TimeOf(rest[k]) <= TimeOf(sorted[0])
  {
    forall k | 0 <= k < |rest|
      ensures TimeOf(rest[k]) <= TimeOf(sorted[0])
    {
      if rest[k] != a {
        assert rest[k] in multiset(rest);
        assert rest[k] in sorted[1..];
        var j :| 0 <= j < |sorted[1..]| && sorted[1..][j] == rest[k];
        assert sorted[j + 1] == rest[k];
      }
    }
  }

  /** An activity at least as recent as every activity of a sorted list can go in front of it. */
  lemma NewerInFront(h: Activity, rest: seq<Activity>)
    requires NewestFirst(rest)
    requires forall k :: 0 <= k < |rest| ==> TimeOf(rest[k]) <= TimeOf(h)
    ensures NewestFirst([h] + rest)
  {
    var r := [h] + rest;
    forall i, j | 0 <= i < j < |r|
      ensures TimeOf(r[i]) >= TimeOf(r[j])
    {
      assert r[j] == rest[j - 1];
      if i > 0 {
        assert r[i] == rest[i - 1];
      }
    }
  }

  /** The activities newest first; activities of the same time keep their order (a stable sort). */
  function SortNewestFirst(acts: seq<Activity>): (r: seq<Activity>)
    ensures NewestFirst(r)
    ensures multiset(r) == multiset(acts)
  {
    if |acts| == 0 then []
    else
      var init := acts[..|acts| - 1];
      assert acts == init + [acts[|acts| - 1]];
      InsertByTime(acts[|acts| - 1], SortNewestFirst(init))
  }

  /** The feed: the activities with a time, newest first. */
  function Feed(raw: seq<Activity>): (r: seq<Activity>)
    ensures AllTimed(r) && NewestFirst(r)
    ensures forall a :: a in r <==> a in raw && a.time.Some?
    ensures multiset(r) == multiset(Timed(raw))
  {
    var timed := Timed(raw);
    var r := SortNewestFirst(timed);
    assert forall a :: a in r <==> a in multiset(r);
    assert forall a :: a in timed <==> a in multiset(timed);
    r
  }

  // ---------------------------------------------------------------------
  // Milestones
  // ---------------------------------------------------------------------

  /** A reward as listed: its identifier's text, its code and its target. */
  datatype RewardItem = RewardItem(id: string, code: string, pointsReward: int, targetDays: int)

  /** A claim as listed: the reward's identifier text, the code, the recorded progress and awarded points. */
  datatype ClaimItem = ClaimItem(rewardId: string, code: string, progressDays: int, pointsAwarded: int, claimedAt: Option<int>)

  /** A claim item is filed under a key when its reward identifier or its code is that non-empty key. */
  predicate FiledUnder(item: ClaimItem, key: string)
  {
    key != "" && (item.rewardId == key || item.code == key)
  }

  /**
   * `m` files the claims of `items` as `claimMap` does: a key is present
   * exactly when some item is filed under it, and it holds the last such item.
   */
  ghost predicate FilesLast(items: seq<ClaimItem>, m: map<string, ClaimItem>)
  {
    && (forall key :: key in m <==> exists i :: 0 <= i < |items| && FiledUnder(items[i], key))
    && (forall key :: key in m ==>
          exists i :: 0 <= i < |items| && FiledUnder(items[i], key) && m[key] == items[i]
            && forall j :: i < j < |items| ==> !FiledUnder(items[j], key))
  }

  /** One more claim filed under its identifier and then its code. */
  function FileClaim(m: map<string, ClaimItem>, item: ClaimItem): map<string, ClaimItem>
  {
    var m1 := if item.rewardId != "" then m[item.rewardId := item] else m;
    if item.code != "" then m1[item.code := item] else m1
  }

  /** `claimMap`: each claim under its reward identifier and under its code, a later claim replacing an earlier one. */
  function ClaimMap(items: seq<ClaimItem>): (m: map<string, ClaimItem>)
    ensures forall key :: key in m ==> key != ""
    ensures FilesLast(items, m)
  {
    if |items| == 0 then map[]
    else
      var init := items[..|items| - 1];
      var m0 := ClaimMap(init);
      assert items == init + [items[|items| - 1]];
      FileClaimStep(init, items[|items| - 1], m0);
      FileClaim(m0, items[|items| - 1])
  }

  /** Filing one more claim keeps the map filing the last claim under each key. */
  lemma FileClaimStep(init: seq<ClaimItem>, item: ClaimItem, m0: map<string, ClaimItem>)
    requires FilesLast(init, m0)
    ensures FilesLast(init + [item], FileClaim(m0, item))
  {
    var items := init + [item];
    var m := FileClaim(m0, item);
    forall key
      ensures key in m <==> exists i :: 0 <= i < |items| && FiledUnder(items[i], key)
    {
      FileClaimKey(init, item, m0, key);
    }
    forall key | key in m
      ensures exists i :: 0 <= i < |items| && FiledUnder(items[i], key) && m[key] == items[i]
                && forall j :: i < j < |items| ==> !FiledUnder(items[j], key)
    {
      FileClaimValue(init, item, m0, key);
    }
  }

  /** A key is filed after one more claim exactly when that claim or an earlier one is filed under it. */
  lemma FileClaimKey(init: seq<ClaimItem>, item: ClaimItem, m0: map<string, ClaimItem>, key: string)
    requires forall key :: key in m0 <==> exists i :: 0 <= i < |init| && FiledUnder(init[i], key)
    ensures key in FileClaim(m0, item) <==> exists i :: 0 <= i < |init + [item]| && FiledUnder((init + [item])[i], key)
  {
    var items := init + [item];
    var n := |init|;
    if FiledUnder(item, key) {
      assert items[n] == item;
    } else {
      assert key in FileClaim(m0, item) <==> key in m0;
      if key in m0 {
        var i :| 0 <= i < n && FiledUnder(init[i], key);
        assert items[i] == init[i];
      }
      if exists i :: 0 <= i < |items| && FiledUnder(items[i], key) {
        var i :| 0 <= i < |items| && FiledUnder(items[i], key);
        assert i < n && items[i] == init[i];
      }
    }
  }

  /** The claim filed under a key after one more claim is the last one filed under it. */
  lemma FileClaimValue(init: seq<ClaimItem>, item: ClaimItem, m0: map<string, ClaimItem>, key: string)
    requires forall key :: key in m0 ==>
      exists i :: 0 <= i < |init| && FiledUnder(init[i], key) && m0[key] == init[i]
        && forall j :: i < j < |init| ==> !FiledUnder(init[j], key)
    requires key in FileClaim(m0, item)
    ensures var items := init + [item];
      exists i :: 0 <= i < |items| && FiledUnder(items[i], key) && FileClaim(m0, item)[key] == items[i]
        && forall j :: i < j < |items| ==> !FiledUnder(items[j], key)
  {
    var items := init + [item];
    var n := |init|;
    var m := FileClaim(m0, item);
    if FiledUnder(item, key) {
      assert m[key] == item && items[n] == item;
    } else {
      assert key in m0 && m[key] == m0[key];
      var i :| 0 <= i < n && FiledUnder(init[i], key) && m0[key] == init[i]
               && forall j :: i < j < n ==> !FiledUnder(init[j], key);
      assert items[i] == init[i];
      forall j | i < j < |items|
        ensures !FiledUnder(items[j], key)
      {
        if j < n { assert items[j] == init[j]; }
      }
    }
  }

  /** The claim shown for a reward: by its identifier, else by its code. */
  function ClaimFor(m: map<string, ClaimItem>, reward: RewardItem): (c: Option<ClaimItem>)
    ensures reward.id != "" && reward.id in m ==> c == Some(m[reward.id])
    ensures c.None? <==> (reward.id == "" || reward.id !in m) && (reward.code == "" || reward.code !in m)
  {
    if reward.id != "" && reward.id in m then Some(m[reward.id])
    else if reward.code != "" && reward.code in m then Some(m[reward.code])
    else None
  }

  datatype MilestoneEntry = MilestoneEntry(
    code: string,
    targetDays: int,
    progressDays: int,
    pointsAwarded: int,
    claimedAt: Option<int>,
    canClaim: bool)

  /**
   * A reward as the profile shows it: progress is the larger of the
   * recorded progress and the current streak, and it can be claimed when
   * nothing was awarded yet, the target is positive and progress reaches it.
   */
  function Milestone(reward: RewardItem, claim: Option<ClaimItem>, streak: nat): (e: MilestoneEntry)
    ensures e.code == reward.code && e.targetDays == reward.targetDays
    ensures e.progressDays >= streak
    ensures claim.Some? ==> e.progressDays >= claim.value.progressDays
    ensures claim.None? ==> e.progressDays == streak
    ensures claim.Some? ==> e.progressDays == streak || e.progressDays == claim.value.progressDays
    ensures claim.Some? ==> e.pointsAwarded == claim.value.pointsAwarded && e.claimedAt == claim.value.claimedAt
    ensures claim.None? ==> e.pointsAwarded == 0 && e.claimedAt.None?
    ensures e.canClaim <==> e.pointsAwarded <= 0 && reward.targetDays > 0 && e.progressDays >= reward.targetDays
  {
    var recorded := if claim.Some? then claim.value.progressDays else 0;
    var progress := Max(recorded, streak);
    var awarded := if claim.Some? then claim.value.pointsAwarded else 0;
    MilestoneEntry(reward.code, reward.targetDays, progress, awarded,
                   if claim.Some? then claim.value.claimedAt else None,
                   !(awarded > 0) && reward.targetDays > 0 && progress >= reward.targetDays)
  }

  /** A reward whose target the current streak reaches, and that awarded nothing yet, is shown as claimable. */
  lemma ClaimableWhenStreakReaches(reward: RewardItem, claim: Option<ClaimItem>, streak: nat)
    requires reward.targetDays > 0 && streak >= reward.targetDays
    requires claim.None? || claim.value.pointsAwarded <= 0
    ensures Milestone(reward, claim, streak).canClaim
  {
  }

  /**
   * The profile can show a reward as claimable on recorded progress alone,
   * while the claim itself counts only the current streak and refuses it.
   */
  lemma ClaimableOverstatesStreak(reward: RewardItem, claim: ClaimItem, streak: nat,
                                  rewards: seq<RewardService.Reward>, users: map<UserId, User>,
                                  claims: map<RewardService.ClaimKey, RewardService.Claim>, userId: UserId,
                                  rewardCode: JsValue, rid: RewardService.RewardId)
    requires RewardService.RequestedCode(rewardCode).Some?
    requires RewardService.FindReward(rewards, RewardService.RequestedCode(rewardCode).value, 0) == Some(rid)
    requires rewards[rid].isActive && rewards[rid].targetDays == reward.targetDays && userId in users
    requires !RewardService.AlreadyClaimed(claims, RewardService.ClaimKey(userId, rid))
    requires claim.pointsAwarded <= 0 && streak < reward.targetDays <= claim.progressDays
    ensures Milestone(reward, Some(claim), streak).canClaim
    ensures RewardService.ClaimCheck(rewards, users, claims, userId, rewardCode, streak)
         == Err(409, "REWARD_PROGRESS_INSUFFICIENT")
  {
  }

  // ---------------------------------------------------------------------
  // Vouchers on show
  // ---------------------------------------------------------------------

  /** A voucher as the profile shows it, with the user's progress towards its price. */
  datatype VoucherCard = VoucherCard(id: VoucherService.VoucherId, pointsRequired: int, stock: Option<int>, current: int, target: int)

  /** The card of a listed voucher: the listed progress, or 0 out of the price (at least 1). */
  function Card(v: VoucherService.VoucherView): (c: VoucherCard)
    ensures c.id == v.id && c.pointsRequired == v.pointsRequired && c.stock == v.stock
    ensures v.progress.None? ==> c.current == 0 && c.target == Max(v.pointsRequired, 1)
    ensures v.progress.Some? ==> c.current == v.progress.value.current && c.target == v.progress.value.target
  {
    var current := if v.progress.Some? then v.progress.value.current else 0;
    var target := if v.progress.Some? then v.progress.value.target else Max(v.pointsRequired, 1);
    VoucherCard(v.id, v.pointsRequired, v.stock, current, target)
  }

  function Ids(vs: seq<VoucherService.VoucherView>): set<VoucherService.VoucherId>
  {
    set v | v in vs :: v.id
  }

  /** The listed vouchers with a repeated identifier dropped after its first occurrence. */
  function FirstPerId(vs: seq<VoucherService.VoucherView>): (r: seq<VoucherService.VoucherView>)
    ensures forall i, j :: 0 <= i < j < |r| ==> r[i].id != r[j].id
    ensures forall v :: v in r ==> v in vs
    ensures Ids(r) == Ids(vs)
  {
    if |vs| == 0 then []
    else
      var init := vs[..|vs| - 1];
      var last := vs[|vs| - 1];
      assert vs == init + [last];
      var r0 := FirstPerId(init);
      assert Ids(vs) == Ids(init) + {last.id};
      if last.id in Ids(r0) then r0
      else
        assert Ids(r0 + [last]) == Ids(r0) + {last.id};
        r0 + [last]
  }

  /** The cards of a sequence of listed vouchers. */
  function Cards(vs: seq<VoucherService.VoucherView>): (r: seq<VoucherCard>)
    ensures |r| == |vs| && forall k :: 0 <= k < |vs| ==> r[k] == Card(vs[k])
  {
    seq(|vs|, k requires 0 <= k < |vs| => Card(vs[k]))
  }

  /** How the first voucher of each identifier grows by one more listed voucher. */
  lemma FirstPerIdStep(items: seq<VoucherService.VoucherView>, i: nat)
    requires i < |items|
    ensures var r0 := FirstPerId(items[..i]);
      && FirstPerId(items[..i + 1]) == (if items[i].id in Ids(r0) then r0 else r0 + [items[i]])
      && Ids(r0 + [items[i]]) == Ids(r0) + {items[i].id}
  {
    var vs := items[..i + 1];
    assert vs[..|vs| - 1] == items[..i];
    assert vs[|vs| - 1] == items[i];
    var r0 := FirstPerId(items[..i]);
    assert Ids(r0 + [items[i]]) == Ids(r0) + {items[i].id};
  }

  /** The cards of the first five after one more voucher. */
  lemma CardsGrow(r: seq<VoucherService.VoucherView>, x: VoucherService.VoucherView)
    ensures |r| < 5 ==> Cards(Prefix(r + [x], 5)) == Cards(Prefix(r, 5)) + [Card(x)]
    ensures |r| >= 5 ==> Prefix(r + [x], 5) == Prefix(r, 5)
  {
    if |r| < 5 {
      assert Prefix(r + [x], 5) == Prefix(r, 5) + [x];
    } else {
      assert (r + [x])[..5] == r[..5];
    }
  }

  /**
   * The "available" vouchers: walking the listed vouchers, one is skipped
   * when its identifier was already taken or five are taken; the others
   * are taken as cards.
   */
  method AvailableVouchers(items: seq<VoucherService.VoucherView>) returns (available: seq<VoucherCard>)
    ensures available == Cards(Prefix(FirstPerId(items), 5))
    ensures |available| <= 5
    ensures forall i, j :: 0 <= i < j < |available| ==> available[i].id != available[j].id
  {
    var seen: set<VoucherService.VoucherId> := {};
    available := [];
    for i := 0 to |items|
      invariant available == Cards(Prefix(FirstPerId(items[..i]), 5))
      invariant |FirstPerId(items[..i])| < 5 ==> seen == Ids(FirstPerId(items[..i]))
      invariant |available| == Min(|FirstPerId(items[..i])|, 5)
    {
      var item := items[i];
      FirstPerIdStep(items, i);
      CardsGrow(FirstPerId(items[..i]), item);
      if item.id in seen || |available| >= 5 {
        continue;
      }
      seen := seen + {item.id};
      available := available + [Card(item)];
    }
    assert items[..|items|] == items;
  }

  // ---------------------------------------------------------------------
  // The summary
  // ---------------------------------------------------------------------

  /** The query results the summary is built from (each query's order and limit already applied). */
  datatype ProfileData = ProfileData(
    completedChecklists: seq<DailyTaskChecklistModel.Checklist>,
    redemptions: seq<VoucherService.Redemption>,
    completedProjects: seq<(nat, EcoenzimProjectModel.Project)>,
    ongoingProjects: seq<(nat, EcoenzimProjectModel.Project, int)>,
    fruits: seq<TreeFruit>,
    gameRewards: seq<GameReward>,
    rewards: seq<RewardItem>,
    claims: seq<ClaimItem>,
    vouchers: seq<VoucherService.VoucherView>)

  datatype ProfileSummary = ProfileSummary(
    totalPoints: int,
    activities: seq<Activity>,
    milestones: seq<MilestoneEntry>,
    available: seq<VoucherCard>)

  /** The feed's sources in the summary's order: tasks, redemptions, projects completed and ongoing, fruits, games. */
  function RawActivities(data: ProfileData): (r: seq<Activity>)
    ensures |r| == |data.completedChecklists| + |data.redemptions| + |data.completedProjects|
                 + |data.ongoingProjects| + |data.fruits| + |data.gameRewards|
  {
    seq(|data.completedChecklists|, k requires 0 <= k < |data.completedChecklists| => MapLeafActivity(data.completedChecklists[k]))
    + seq(|data.redemptions|, k requires 0 <= k < |data.redemptions| => MapVoucherActivity(data.redemptions[k]))
    + seq(|data.completedProjects|, k requires 0 <= k < |data.completedProjects| =>
            MapCompletedProjectActivity(data.completedProjects[k].0, data.completedProjects[k].1))
    + seq(|data.ongoingProjects|, k requires 0 <= k < |data.ongoingProjects| =>
            MapOngoingProjectActivity(data.ongoingProjects[k].0, data.ongoingProjects[k].1, data.ongoingProjects[k].2))
    + seq(|data.fruits|, k requires 0 <= k < |data.fruits| => MapFruitActivity(data.fruits[k]))
    + seq(|data.gameRewards|, k requires 0 <= k < |data.gameRewards| => MapGameActivity(data.gameRewards[k]))
  }

  /** The milestones, one per listed reward, in the listing's order. */
  function Milestones(data: ProfileData, streak: nat): (r: seq<MilestoneEntry>)
    ensures |r| == |data.rewards|
    ensures forall k :: 0 <= k < |r| ==> r[k] == Milestone(data.rewards[k], ClaimFor(ClaimMap(data.claims), data.rewards[k]), streak)
  {
    var m := ClaimMap(data.claims);
    seq(|data.rewards|, k requires 0 <= k < |data.rewards| => Milestone(data.rewards[k], ClaimFor(m, data.rewards[k]), streak))
  }

  /**
   * `getUserProfileSummary`: 404 for an unknown user; otherwise the user's
   * total, the feed, the milestones and the vouchers on show.
   */
  method GetUserProfileSummary(user: Option<User>, data: ProfileData, now: int) returns (r: Result<ProfileSummary>)
    ensures user.None? ==> r == Err(404, "USER_NOT_FOUND")
    ensures user.Some? ==>
      var completions := Completions(data.completedChecklists);
      var streak := ProfileStreak(completions, now);
      r.Ok?
      && r.value.totalPoints == user.value.totalPoints
      && r.value.activities == Feed(RawActivities(data) + StreakActivities(completions, streak, now))
      && r.value.milestones == Milestones(data, streak)
      && r.value.available == Cards(Prefix(FirstPerId(data.vouchers), 5))
  {
    if user.None? {
      return Err(404, "USER_NOT_FOUND");
    }
    var completions := Completions(data.completedChecklists);
    var streak := ComputeStreakDays(completions, now);
    var raw := RawActivities(data) + StreakActivities(completions, streak, now);
    var available := AvailableVouchers(data.vouchers);
    r := Ok(ProfileSummary(user.value.totalPoints, Feed(raw), Milestones(data, streak), available));
  }
}

=== FILE: reward_service.dfy ===
/**
 * Streak milestones ("rewards"). A reward names a number of consecutive
 * days of completed daily tasks; a user whose streak reaches it claims the
 * reward's points once. A milestone claim is kept per (user, reward): it
 * records the progress, whether it is completed and the points awarded,
 * and a claim that already awarded points refuses a second award.
 * Timestamps are milliseconds; a calendar day is `DateUtils.DayOf`.
 */
module RewardService {
  import opened Common
  import opened Entities
  import opened DateUtils
  import PointsHistory
  import DailyTaskChecklistModel

  /** A reward's identifier is its position among the stored rewards. */
  type RewardId = nat

  /** The stored fields of a reward that the claim rules read. */
  datatype Reward = Reward(code: string, pointsReward: int, targetDays: int, isActive: bool)

  datatype ClaimStatus = InProgress | Completed

  /** A milestone claim; `pointsAwarded` is `None` once a progress update has unset it. */
  datatype Claim = Claim(
    code: string,
    progressDays: int,
    pointsAwarded: Option<int>,
    status: ClaimStatus,
    claimedAt: Option<int>)

  /** The unique index of the claims: one claim per user and reward. */
  datatype ClaimKey = ClaimKey(userId: UserId, rewardId: RewardId)

  class ClaimStore {
    var claims: map<ClaimKey, Claim>

    constructor ()
      ensures claims == map[]
    {
      claims := map[];
    }
  }

  /** `claim.pointsAwarded ?? 0`. */
  function AwardedOf(c: Claim): int
  {
    if c.pointsAwarded.Some? then c.pointsAwarded.value else 0
  }

  // ---------------------------------------------------------------------
  // Reward codes
  // ---------------------------------------------------------------------

  /** `normalizeCode`: nothing for a falsy value, otherwise its string form trimmed. */
  function NormalizeCode(code: JsValue): (r: Option<string>)
    ensures !Truthy(code) ==> r.None?
    ensures r.Some? ==> Trim(r.value) == r.value
    ensures code.JsStr? && Trim(code.s) != "" ==> r == Some(Trim(code.s))
  {
    if !Truthy(code) then None else Some(Trim(JsToString(code)))
  }

  /** A normalized code fed back in comes out unchanged. */
  lemma NormalizeCodeIdempotent(code: JsValue)
    requires NormalizeCode(code).Some? && NormalizeCode(code).value != ""
    ensures NormalizeCode(JsStr(NormalizeCode(code).value)) == NormalizeCode(code)
  {
    TrimIdempotent(JsToString(code));
  }

  /** The code a request names, when `!normalizedCode` does not reject it. */
  function RequestedCode(code: JsValue): (r: Option<string>)
    ensures r.Some? <==> NormalizeCode(code).Some? && NormalizeCode(code).value != ""
    ensures r.Some? ==> r == NormalizeCode(code) && r.value != ""
  {
    var normalized := NormalizeCode(code);
    if normalized.Some? && normalized.value != "" then normalized else None
  }

  /** The case-insensitive comparison of the reward lookup. */
  predicate CodeMatches(r: Reward, code: string)
  {
    Lower(r.code) == Lower(code)
  }

  /** `Reward.findOne({ code })` with a case-insensitive collation: the first stored reward whose code matches. */
  function FindReward(rewards: seq<Reward>, code: string, from: nat): (r: Option<RewardId>)
    requires from <= |rewards|
    ensures r.Some? ==>
      from <= r.value < |rewards| && CodeMatches(rewards[r.value], code)
      && forall j :: from <= j < r.value ==> !CodeMatches(rewards[j], code)
    ensures r.None? ==> forall j :: from <= j < |rewards| ==> !CodeMatches(rewards[j], code)
    decreases |rewards| - from
  {
    if from == |rewards| then None
    else if CodeMatches(rewards[from], code) then Some(from)
    else FindReward(rewards, code, from + 1)
  }

  /** The lookup ignores the case of the requested code. */
  lemma FindRewardIgnoresCase(rewards: seq<Reward>, code: string)
    ensures FindReward(rewards, Upper(code), 0) == FindReward(rewards, code, 0)
  {
    LowerUpper(code);
    FindRewardSameKey(rewards, Upper(code), code, 0);
  }

  /** Two codes that lower-case alike find the same reward. */
  lemma {:induction false} FindRewardSameKey(rewards: seq<Reward>, a: string, b: string, from: nat)
    requires from <= |rewards| && Lower(a) == Lower(b)
    ensures FindReward(rewards, a, from) == FindReward(rewards, b, from)
    decreases |rewards| - from
  {
    if from < |rewards| {
      FindRewardSameKey(rewards, a, b, from + 1);
    }
  }

  // ---------------------------------------------------------------------
  // The streak of consecutive days
  // ---------------------------------------------------------------------

  /** The calendar days on which a timestamp falls; `None` stands for a null or invalid timestamp. */
  function DaySet(timestamps: seq<Option<int>>): (days: set<int>)
    ensures forall d :: d in days <==>
      exists k :: 0 <= k < |timestamps| && timestamps[k].Some? && DayOf(timestamps[k].value) == d
  {
    if |timestamps| == 0 then {}
    else
      var init := timestamps[..|timestamps| - 1];
      var last := timestamps[|timestamps| - 1];
      assert forall k :: 0 <= k < |init| ==> init[k] == timestamps[k];
      DaySet(init) + (if last.Some? then {DayOf(last.value)} else {})
  }

  /** One more timestamp adds its day, if it has one. */
  lemma DaySetStep(timestamps: seq<Option<int>>, i: nat)
    requires i < |timestamps|
    ensures DaySet(timestamps[..i + 1])
         == DaySet(timestamps[..i]) + (if timestamps[i].Some? then {DayOf(timestamps[i].value)} else {})
  {
    assert timestamps[..i + 1][..i] == timestamps[..i];
  }

  /** The days of `days` up to `d`: the measure of the backward walk. */
  function DaysUpTo(days: set<int>, d: int): set<int>
  {
    set x | x in days && x <= d
  }

  /** Stepping back from a day of the set leaves fewer days to walk. */
  lemma DaysUpToShrinks(days: set<int>, d: int)
    requires d in days
    ensures |DaysUpTo(days, d - 1)| < |DaysUpTo(days, d)|
  {
    assert DaysUpTo(days, d) == DaysUpTo(days, d - 1) + {d};
  }

  /**
   * The run of consecutive days of `days` that ends at `d`: every day from
   * `d` back over the run is in the set, and the day before it is not.
   */
  function StreakFrom(days: set<int>, d: int): (n: nat)
    ensures forall x :: d - n < x <= d ==> x in days
    ensures d - n !in days
    decreases |DaysUpTo(days, d)|
  {
    if d !in days then 0
    else
      DaysUpToShrinks(days, d);
      StreakFrom(days, d - 1) + 1
  }

  /** A run is determined by its two ends: the days present and the first day missing. */
  lemma StreakFromUnique(days: set<int>, d: int, n: nat)
    requires forall x :: d - n < x <= d ==> x in days
    requires d - n !in days
    ensures StreakFrom(days, d) == n
  {
  }

  /**
   * `computeStreakDays`: the calendar days of the given timestamps are
   * collected, then the days are counted back from today while each one is
   * present. No timestamp on today's date gives 0.
   */
  method ComputeStreakDays(timestamps: seq<Option<int>>, now: int) returns (streak: nat)
    ensures streak == StreakFrom(DaySet(timestamps), DayOf(now))
    ensures forall x :: DayOf(now) - streak < x <= DayOf(now) ==> x in DaySet(timestamps)
    ensures DayOf(now) - streak !in DaySet(timestamps)
    ensures DayOf(now) !in DaySet(timestamps) ==> streak == 0
  {
    if |timestamps| == 0 {
      return 0;
    }
    var daySet := CollectDays(timestamps);
    if |daySet| == 0 {
      return 0;
    }
    streak := CountBack(daySet, DayOf(now));
  }

  /** The set of calendar days built from the timestamps, one at a time. */
  method CollectDays(timestamps: seq<Option<int>>) returns (daySet: set<int>)
    ensures daySet == DaySet(timestamps)
  {
    daySet := {};
    for i := 0 to |timestamps|
      invariant daySet == DaySet(timestamps[..i])
    {
      DaySetStep(timestamps, i);
      if timestamps[i].Some? {
        daySet := daySet + {DayOf(timestamps[i].value)};
      }
    }
    assert timestamps[..|timestamps|] == timestamps;
  }

  /** The walk back from `today` while the day is in the set. */
  method CountBack(days: set<int>, today: int) returns (streak: nat)
    ensures streak == StreakFrom(days, today)
  {
    streak := 0;
    var cursor := today;
    while cursor in days
      invariant cursor == today - streak
      invariant forall x :: cursor < x <= today ==> x in days
      decreases |DaysUpTo(days, cursor)|
    {
      DaysUpToShrinks(days, cursor);
      streak := streak + 1;
      cursor := cursor - 1;
    }
    StreakFromUnique(days, today, streak);
  }

  // ---------------------------------------------------------------------
  // Claiming a milestone
  // ---------------------------------------------------------------------

  /** `(existingClaim?.pointsAwarded ?? 0) > 0`: the user's claim of the reward has awarded points. */
  predicate AlreadyClaimed(claims: map<ClaimKey, Claim>, key: ClaimKey)
  {
    key in claims && AwardedOf(claims[key]) > 0
  }

  /**
   * The refusals of `claimRewardMilestone`, in order: 400 without a code,
   * 404 for an unknown code, 400 for an inactive reward, 404 for an unknown
   * user, 409 when the existing claim already awarded points, 409 when the
   * streak falls short of the reward's target. Otherwise the reward found.
   */
  function ClaimCheck(rewards: seq<Reward>, users: map<UserId, User>, claims: map<ClaimKey, Claim>,
                      userId: UserId, rewardCode: JsValue, streak: nat): (r: Result<RewardId>)
    ensures RequestedCode(rewardCode).None? ==> r == Err(400, "REWARD_CODE_REQUIRED")
    ensures RequestedCode(rewardCode).Some? ==>
      var found := FindReward(rewards, RequestedCode(rewardCode).value, 0);
      (found.None? ==> r == Err(404, "REWARD_NOT_FOUND"))
      && (found.Some? ==>
            var reward := rewards[found.value];
            var key := ClaimKey(userId, found.value);
            (!reward.isActive ==> r == Err(400, "REWARD_INACTIVE"))
            && (reward.isActive && userId !in users ==> r == Err(404, "USER_NOT_FOUND"))
            && (reward.isActive && userId in users && AlreadyClaimed(claims, key) ==> r == Err(409, "REWARD_ALREADY_CLAIMED"))
            && (reward.isActive && userId in users && !AlreadyClaimed(claims, key) && streak < reward.targetDays ==>
                  r == Err(409, "REWARD_PROGRESS_INSUFFICIENT"))
            && (r.Ok? <==> reward.isActive && userId in users && !AlreadyClaimed(claims, key) && streak >= reward.targetDays)
            && (r.Ok? ==> r.value == found.value))
  {
    var code := RequestedCode(rewardCode);
    if code.None? then Err(400, "REWARD_CODE_REQUIRED")
    else
      var found := FindReward(rewards, code.value, 0);
      if found.None? then Err(404, "REWARD_NOT_FOUND")
      else
        var reward := rewards[found.value];
        var key := ClaimKey(userId, found.value);
        if !reward.isActive then Err(400, "REWARD_INACTIVE")
        else if userId !in users then Err(404, "USER_NOT_FOUND")
        else if AlreadyClaimed(claims, key) then Err(409, "REWARD_ALREADY_CLAIMED")
        else if streak < reward.targetDays then Err(409, "REWARD_PROGRESS_INSUFFICIENT")
        else Ok(found.value)
  }

  /**
   * The claim once the checks pass: the existing one brought to the streak
   * and completed, or a new completed one; then, when it has awarded
   * nothing yet, it takes the reward's points and the claim time.
   */
  function Settled(existing: Option<Claim>, reward: Reward, streak: nat, now: int): (c: Claim)
    ensures c.progressDays == streak && c.status == Completed
    ensures existing.None? ==> c.code == reward.code
    ensures existing.Some? ==> c.code == existing.value.code
    ensures var before := if existing.Some? then AwardedOf(existing.value) else 0;
      (before == 0 ==> c.pointsAwarded == Some(reward.pointsReward) && c.claimedAt == Some(now))
      && (before != 0 ==> c.pointsAwarded == existing.value.pointsAwarded && c.claimedAt == existing.value.claimedAt)
  {
    var base :=
      if existing.None? then Claim(reward.code, streak, Some(0), Completed, None)
      else existing.value.(progressDays := streak, status := Completed);
    if AwardedOf(base) == 0 then base.(pointsAwarded := Some(reward.pointsReward), status := Completed, claimedAt := Some(now))
    else base
  }

  /** Whether the claim awards points now: the claim found (if any) has awarded nothing. */
  predicate AwardsNow(existing: Option<Claim>)
  {
    existing.None? || AwardedOf(existing.value) == 0
  }

  /** What a successful claim reports. */
  datatype ClaimOutcome = ClaimOutcome(rewardId: RewardId, claim: Claim, pointsAwarded: int)

  /** The claim stored under a key, if any. */
  function ClaimAt(claims: map<ClaimKey, Claim>, key: ClaimKey): Option<Claim>
  {
    if key in claims then Some(claims[key]) else None
  }

  /** The award of a claim: the user's total grows by the reward's points. */
  function Credited(u: User, points: int): (v: User)
    ensures v.totalPoints == u.totalPoints + points
    ensures v.(totalPoints := u.totalPoints) == u
  {
    u.(totalPoints := u.totalPoints + points)
  }

  /** The award of a claim: the user's total and the ledger take the reward's points. */
  method AwardPoints(users: UserStore, ledger: PointsHistory.Ledger, userId: UserId, points: int, code: string, now: int)
    requires userId in users.users
    modifies users, ledger
    ensures users.users == old(users.users)[userId := Credited(old(users.users)[userId], points)]
    ensures ledger.entries == old(ledger.entries) + [PointsHistory.StoredEntry(userId, points, "reward", Some(code), now)]
  {
    var user := users.users[userId];
    users.users := users.users[userId := Credited(user, points)];
    RecordRewardClaim(ledger, userId, points, code, now);
  }

  /** The ledger write of an award: a "reward" entry of the points, referring to the reward's code. */
  method RecordRewardClaim(ledger: PointsHistory.Ledger, userId: UserId, points: int, code: string, now: int)
    modifies ledger
    ensures ledger.entries == old(ledger.entries) + [PointsHistory.StoredEntry(userId, points, "reward", Some(code), now)]
  {
    var recorded := PointsHistory.RecordPointsChange(ledger, userId, points, "reward", Some(code), now);
  }

  /** The time a completed row counts for: its completion time, else its last update. */
  function ClaimTimestamps(rows: seq<DailyTaskChecklistModel.Checklist>): (ts: seq<Option<int>>)
    ensures |ts| == |rows|
    ensures forall k :: 0 <= k < |rows| ==>
      ts[k] == Some(if rows[k].completedAt.Some? then rows[k].completedAt.value else rows[k].updatedAt)
  {
    seq(|rows|, k requires 0 <= k < |rows| =>
      Some(if rows[k].completedAt.Some? then rows[k].completedAt.value else rows[k].updatedAt))
  }

  /**
   * `claimRewardMilestone`: the streak over the user's completed daily-task
   * rows (the most recent ones the query returns), the checks in order,
   * then the claim settled; when it awards, the user's total and the ledger
   * take the reward's points.
   */
  method ClaimRewardMilestone(rewards: seq<Reward>, users: UserStore, store: ClaimStore, ledger: PointsHistory.Ledger,
                              userId: UserId, rewardCode: JsValue, completed: seq<DailyTaskChecklistModel.Checklist>,
                              now: int)
    returns (r: Result<ClaimOutcome>)
    modifies users, store, ledger
    ensures var check := ClaimCheck(rewards, old(users.users), old(store.claims), userId, rewardCode,
                                    StreakFrom(DaySet(ClaimTimestamps(completed)), DayOf(now)));
      (check.Err? ==>
         r == Err(check.status, check.message)
         && users.users == old(users.users) && store.claims == old(store.claims) && ledger.entries == old(ledger.entries))
      && (check.Ok? ==> r.Ok? && r.value.rewardId == check.value)
    ensures r.Ok? ==>
      var reward := rewards[r.value.rewardId];
      var key := ClaimKey(userId, r.value.rewardId);
      var existing := ClaimAt(old(store.claims), key);
      var streak := StreakFrom(DaySet(ClaimTimestamps(completed)), DayOf(now));
      r.value.claim == Settled(existing, reward, streak, now)
      && store.claims == old(store.claims)[key := r.value.claim]
      && (AwardsNow(existing) ==>
            r.value.pointsAwarded == reward.pointsReward
            && users.users == old(users.users)[userId := Credited(old(users.users)[userId], reward.pointsReward)]
            && ledger.entries == old(ledger.entries)
                 + [PointsHistory.StoredEntry(userId, reward.pointsReward, "reward", Some(reward.code), now)])
      && (!AwardsNow(existing) ==>
            r.value.pointsAwarded == 0 && users.users == old(users.users) && ledger.entries == old(ledger.entries))
  {
    var timestamps := ClaimTimestamps(completed);
    var streak := ComputeStreakDays(timestamps, now);
    var check := ClaimCheck(rewards, users.users, store.claims, userId, rewardCode, streak);
    if check.Err? {
      return Err(check.status, check.message);
    }
    var outcome := SettleClaim(rewards, users, store, ledger, userId, check.value, streak, now);
    r := Ok(outcome);
  }

  /** The write of a claim that passed its checks: the claim settled, and the points awarded when it awards. */
  method SettleClaim(rewards: seq<Reward>, users: UserStore, store: ClaimStore, ledger: PointsHistory.Ledger,
                     userId: UserId, rewardId: RewardId, streak: nat, now: int)
    returns (outcome: ClaimOutcome)
    requires rewardId < |rewards| && userId in users.users
    modifies users, store, ledger
    ensures var reward := rewards[rewardId];
      var key := ClaimKey(userId, rewardId);
      var existing := ClaimAt(old(store.claims), key);
      outcome.rewardId == rewardId
      && outcome.claim == Settled(existing, reward, streak, now)
      && store.claims == old(store.claims)[key := outcome.claim]
      && (AwardsNow(existing) ==>
            outcome.pointsAwarded == reward.pointsReward
            && users.users == old(users.users)[userId := Credited(old(users.users)[userId], reward.pointsReward)]
            && ledger.entries == old(ledger.entries)
                 + [PointsHistory.StoredEntry(userId, reward.pointsReward, "reward", Some(reward.code), now)])
      && (!AwardsNow(existing) ==>
            outcome.pointsAwarded == 0 && users.users == old(users.users) && ledger.entries == old(ledger.entries))
  {
    var reward := rewards[rewardId];
    var key := ClaimKey(userId, rewardId);
    var existing := ClaimAt(store.claims, key);
    var claim := Settled(existing, reward, streak, now);
    store.claims := store.claims[key := claim];
    var awarded := 0;
    if AwardsNow(existing) {
      AwardPoints(users, ledger, userId, reward.pointsReward, reward.code, now);
      awarded := reward.pointsReward;
    }
    outcome := ClaimOutcome(rewardId, claim, awarded);
  }

  /**
   * A claim that awarded a reward worth points makes every later claim of
   * that reward by the same user fail as already claimed.
   */
  lemma ClaimedOnce(rewards: seq<Reward>, claims: map<ClaimKey, Claim>, userId: UserId, rewardCode: JsValue,
                    rid: RewardId, streak: nat, now: int, laterUsers: map<UserId, User>, laterStreak: nat)
    requires RequestedCode(rewardCode).Some? && FindReward(rewards, RequestedCode(rewardCode).value, 0) == Some(rid)
    requires rewards[rid].isActive && rewards[rid].pointsReward > 0
    requires AwardsNow(ClaimAt(claims, ClaimKey(userId, rid)))
    requires userId in laterUsers
    ensures var key := ClaimKey(userId, rid);
      var settled := Settled(ClaimAt(claims, key), rewards[rid], streak, now);
      ClaimCheck(rewards, laterUsers, claims[key := settled], userId, rewardCode, laterStreak)
        == Err(409, "REWARD_ALREADY_CLAIMED")
  {
    var key := ClaimKey(userId, rid);
    var settled := Settled(ClaimAt(claims, key), rewards[rid], streak, now);
    SettledAwards(ClaimAt(claims, key), rewards[rid], streak, now);
    assert AlreadyClaimed(claims[key := settled], key);
    CheckOfClaimed(rewards, laterUsers, claims[key := settled], userId, rewardCode, laterStreak, rid);
  }

  /** A claim settled while it awards points has awarded the reward's points. */
  lemma SettledAwards(existing: Option<Claim>, reward: Reward, streak: nat, now: int)
    requires AwardsNow(existing) && reward.pointsReward > 0
    ensures AwardedOf(Settled(existing, reward, streak, now)) == reward.pointsReward
  {
  }

  /** A claim that has awarded points refuses the next claim of its reward, whatever the streak. */
  lemma CheckOfClaimed(rewards: seq<Reward>, users: map<UserId, User>, claims: map<ClaimKey, Claim>,
                       userId: UserId, rewardCode: JsValue, streak: nat, rid: RewardId)
    requires RequestedCode(rewardCode).Some? && FindReward(rewards, RequestedCode(rewardCode).value, 0) == Some(rid)
    requires rewards[rid].isActive && userId in users && AlreadyClaimed(claims, ClaimKey(userId, rid))
    ensures ClaimCheck(rewards, users, claims, userId, rewardCode, streak) == Err(409, "REWARD_ALREADY_CLAIMED")
  {
  }

  // ---------------------------------------------------------------------
  // Progress updates
  // ---------------------------------------------------------------------

  /** `Math.max(Number(progressDays) || 0, 0)`: a number that is not a count gives 0. */
  function SafeProgress(progressDays: JsValue): (p: int)
    ensures p >= 0
    ensures ToNumber(progressDays).Some? && ToNumber(progressDays).value >= 0 ==> p == ToNumber(progressDays).value
    ensures ToNumber(progressDays).None? || ToNumber(progressDays).value <= 0 ==> p == 0
  {
    var n := ToNumber(progressDays);
    Max(if n.None? then 0 else n.value, 0)
  }

  /**
   * The upsert of `updateMilestoneProgress`: code, progress and status are
   * set and the awarded points are unset; a claim created by the upsert
   * takes its claim time from the schema default (none).
   */
  function ProgressSet(existing: Option<Claim>, reward: Reward, progress: int): (c: Claim)
    ensures c.code == reward.code && c.progressDays == progress && c.pointsAwarded.None?
    ensures c.status == Completed <==> progress >= reward.targetDays
    ensures existing.Some? ==> c.claimedAt == existing.value.claimedAt
    ensures existing.None? ==> c.claimedAt.None?
  {
    var status := if progress >= reward.targetDays then Completed else InProgress;
    if existing.Some? then existing.value.(code := reward.code, progressDays := progress, status := status, pointsAwarded := None)
    else Claim(reward.code, progress, None, status, None)
  }

  /** `updateMilestoneProgress`: 400 without a code, 404 for an unknown code, otherwise the upsert. */
  method UpdateMilestoneProgress(rewards: seq<Reward>, store: ClaimStore, userId: UserId, rewardCode: JsValue,
                                 progressDays: JsValue)
    returns (r: Result<Claim>)
    modifies store
    ensures RequestedCode(rewardCode).None? ==> r == Err(400, "REWARD_CODE_REQUIRED") && store.claims == old(store.claims)
    ensures RequestedCode(rewardCode).Some? && FindReward(rewards, RequestedCode(rewardCode).value, 0).None? ==>
      r == Err(404, "REWARD_NOT_FOUND") && store.claims == old(store.claims)
    ensures r.Ok? <==> RequestedCode(rewardCode).Some? && FindReward(rewards, RequestedCode(rewardCode).value, 0).Some?
    ensures r.Ok? ==>
      var rid := FindReward(rewards, RequestedCode(rewardCode).value, 0).value;
      var key := ClaimKey(userId, rid);
      r.value == ProgressSet(ClaimAt(old(store.claims), key), rewards[rid], SafeProgress(progressDays))
      && store.claims == old(store.claims)[key := r.value]
  {
    var code := RequestedCode(rewardCode);
    if code.None? {
      return Err(400, "REWARD_CODE_REQUIRED");
    }
    var found := FindReward(rewards, code.value, 0);
    if found.None? {
      return Err(404, "REWARD_NOT_FOUND");
    }
    var key := ClaimKey(userId, found.value);
    var claim := ProgressSet(ClaimAt(store.claims, key), rewards[found.value], SafeProgress(progressDays));
    store.claims := store.claims[key := claim];
    r := Ok(claim);
  }

  /**
   * A progress update unsets the awarded points, so a claim that was
   * already paid no longer counts as claimed: with the streak still long
   * enough, claiming again passes every check and awards the points again.
   */
  lemma ProgressUpdateReopensClaim(rewards: seq<Reward>, users: map<UserId, User>, claims: map<ClaimKey, Claim>,
                                   userId: UserId, rewardCode: JsValue, progress: int, streak: nat)
    requires RequestedCode(rewardCode).Some?
    requires FindReward(rewards, RequestedCode(rewardCode).value, 0).Some?
    requires var reward := rewards[FindReward(rewards, RequestedCode(rewardCode).value, 0).value];
      reward.isActive && streak >= reward.targetDays
    requires userId in users
    ensures var rid := FindReward(rewards, RequestedCode(rewardCode).value, 0).value;
      var key := ClaimKey(userId, rid);
      var reopened := claims[key := ProgressSet(ClaimAt(claims, key), rewards[rid], progress)];
      ClaimCheck(rewards, users, reopened, userId, rewardCode, streak) == Ok(rid)
      && AwardsNow(ClaimAt(reopened, key))
  {
    var rid := FindReward(rewards, RequestedCode(rewardCode).value, 0).value;
    var key := ClaimKey(userId, rid);
    var updated := ProgressSet(ClaimAt(claims, key), rewards[rid], progress);
    var reopened := claims[key := updated];
    assert ClaimAt(reopened, key) == Some(updated) && AwardedOf(updated) == 0;
    CheckOfOpen(rewards, users, reopened, userId, rewardCode, streak, rid);
  }

  /** A claim that has awarded nothing lets the claim through once the streak is long enough. */
  lemma CheckOfOpen(rewards: seq<Reward>, users: map<UserId, User>, claims: map<ClaimKey, Claim>,
                    userId: UserId, rewardCode: JsValue, streak: nat, rid: RewardId)
    requires RequestedCode(rewardCode).Some? && FindReward(rewards, RequestedCode(rewardCode).value, 0) == Some(rid)
    requires rewards[rid].isActive && streak >= rewards[rid].targetDays
    requires userId in users && !AlreadyClaimed(claims, ClaimKey(userId, rid))
    ensures ClaimCheck(rewards, users, claims, userId, rewardCode, streak) == Ok(rid)
  {
  }

  // ---------------------------------------------------------------------
  // Listing claims
  // ---------------------------------------------------------------------

  function ClaimStatusName(s: ClaimStatus): string
  {
    match s
    case InProgress => "in-progress"
    case Completed => "completed"
  }

  /**
   * The status filter of `listMilestoneClaims`: none for a falsy value;
   * otherwise its string form trimmed and lower-cased must name a claim
   * status, or the listing fails with 400.
   */
  function ClaimStatusFilter(status: JsValue): (r: Result<Option<ClaimStatus>>)
    ensures !Truthy(status) ==> r == Ok(None)
    ensures r.Ok? && r.value.Some? ==> Truthy(status) && ClaimStatusName(r.value.value) == Lower(Trim(JsToString(status)))
    ensures r.Err? <==> Truthy(status) && forall st :: ClaimStatusName(st) != Lower(Trim(JsToString(status)))
    ensures r.Err? ==> r == Err(400, "INVALID_STATUS")
  {
    if !Truthy(status) then Ok(None)
    else
      match ClaimStatusNamed(Lower(Trim(JsToString(status))))
      case Some(st) => Ok(Some(st))
      case None => Err(400, "INVALID_STATUS")
  }

  /** The claim status with the given name, if any. */
  function ClaimStatusNamed(name: string): (r: Option<ClaimStatus>)
    ensures r.Some? ==> ClaimStatusName(r.value) == name
    ensures r.None? ==> forall st :: ClaimStatusName(st) != name
  {
    if name == "in-progress" then Some(InProgress)
    else if name == "completed" then Some(Completed)
    else None
  }

  /** A blank string is truthy, so unlike an absent filter it is refused. */
  lemma BlankStatusRefused(pad: string)
    requires |pad| > 0 && forall k :: 0 <= k < |pad| ==> IsSpace(pad[k])
    ensures ClaimStatusFilter(JsStr(pad)) == Err(400, "INVALID_STATUS")
  {
    HalfPaddingTrimmed(pad);
  }

  /** White space alone trims to nothing. */
  lemma {:induction false} HalfPaddingTrimmed(pad: string)
    requires forall k :: 0 <= k < |pad| ==> IsSpace(pad[k])
    ensures Trim(pad) == ""
  {
    if |pad| > 0 {
      HalfPaddingTrimmed(pad[1..]);
    }
  }

  /** Every status name, in any case and with any padding, selects that status. */
  lemma ClaimStatusFilterOfName(s: ClaimStatus, pad: string)
    requires forall k :: 0 <= k < |pad| ==> IsSpace(pad[k])
    ensures ClaimStatusFilter(JsStr(pad + Upper(ClaimStatusName(s)) + pad)) == Ok(Some(s))
  {
    var name := ClaimStatusName(s);
    assert forall k :: 0 <= k < |name| ==> IsLowerAscii(name[k]) || name[k] == '-';
    PaddedUpperOfWord(pad, name);
    StatusOfName(JsStr(pad + Upper(name) + pad), s);
  }

  /** A string that normalizes to a status name selects that status. */
  lemma StatusOfName(status: JsValue, s: ClaimStatus)
    requires status.JsStr? && Lower(Trim(status.s)) == ClaimStatusName(s)
    ensures ClaimStatusFilter(status) == Ok(Some(s))
  {
    assert status.s != "" by {
      assert |Lower(Trim(status.s))| > 0;
    }
    NamedOfName(s);
  }

  /** Every claim status is found by its name. */
  lemma NamedOfName(s: ClaimStatus)
    ensures ClaimStatusNamed(ClaimStatusName(s)) == Some(s)
  {
    match s
    case InProgress =>
    case Completed =>
  }

  /** A non-empty word of lower-case letters and dashes, upper-cased and padded, normalizes back to itself. */
  lemma PaddedUpperOfWord(pad: string, name: string)
    requires forall k :: 0 <= k < |pad| ==> IsSpace(pad[k])
    requires |name| > 0 && IsLowerAscii(name[0]) && IsLowerAscii(name[|name| - 1])
    requires forall k :: 0 <= k < |name| ==> IsLowerAscii(name[k]) || name[k] == '-'
    ensures Lower(Trim(pad + Upper(name) + pad)) == name
  {
    UpperEndsNotSpace(name);
    PaddedTrim(pad, Upper(name));
    LowerOfWord(name);
  }

  /** A word whose ends are lower-case letters, upper-cased, has no white space at either end. */
  lemma UpperEndsNotSpace(name: string)
    requires |name| > 0 && IsLowerAscii(name[0]) && IsLowerAscii(name[|name| - 1])
    ensures |Upper(name)| > 0 && !IsSpace(Upper(name)[0]) && !IsSpace(Upper(name)[|Upper(name)| - 1])
  {
    var up := Upper(name);
    assert up[0] == UpperChar(name[0]) && up[|up| - 1] == UpperChar(name[|name| - 1]);
  }

  /** Upper-casing and lower-casing a word of lower-case letters and dashes gives the word back. */
  lemma LowerOfWord(name: string)
    requires forall k :: 0 <= k < |name| ==> IsLowerAscii(name[k]) || name[k] == '-'
    ensures Lower(Upper(name)) == name
  {
    LowerUpper(name);
    var l := Lower(name);
    forall k | 0 <= k < |name|
      ensures l[k] == name[k]
    {
    }
  }
}

=== FILE: sorting_streak_reset.dfy ===
/**
 * The nightly sorting-streak reset: one bulk update that zeroes the streak of
 * every user who has a streak but did not play today or yesterday. The query
 * matches a user whose last-played field is absent, or whose last-played day
 * is before yesterday; a stored null matches neither (a `$lt` on a day string
 * only compares with strings).
 */
module SortingStreakReset {
  import opened Common
  import opened Entities

  /** The user matches the reset query for day `today`. */
  predicate ResetSelects(u: User, today: int)
  {
    var yesterday := today - 1;
    u.sortingStreak > 0
    && (u.sortingLastPlayedBucket.Absent?
        || (u.sortingLastPlayedBucket.Day? && u.sortingLastPlayedBucket.day < yesterday))
  }

  /** The user after the bulk update: only the streak can change, and only to 0. */
  function AfterReset(u: User, today: int): (r: User)
    ensures r.(sortingStreak := u.sortingStreak) == u
    ensures r.sortingStreak == 0 || r == u
    ensures r != u <==> ResetSelects(u, today)
  {
    if ResetSelects(u, today) then u.(sortingStreak := 0) else u
  }

  /** The whole table after the reset job ran on day `today`. */
  function ResetTable(users: map<UserId, User>, today: int): (r: map<UserId, User>)
    ensures r.Keys == users.Keys
  {
    map id | id in users :: AfterReset(users[id], today)
  }

  /** The cron job's `updateMany`. */
  method ResetStreaks(store: UserStore, today: int)
    modifies store
    ensures store.users == ResetTable(old(store.users), today)
  {
    store.users := map id | id in store.users :: AfterReset(store.users[id], today);
  }

  /** A user who played today or yesterday keeps the streak. */
  lemma RecentPlayerKeepsStreak(u: User, today: int)
    requires u.sortingLastPlayedBucket == Day(today) || u.sortingLastPlayedBucket == Day(today - 1)
    ensures AfterReset(u, today) == u
  {
  }

  /** A user with a streak whose last play is before yesterday, or unrecorded, drops to 0. */
  lemma StaleStreakIsZeroed(u: User, today: int)
    requires u.sortingStreak > 0
    requires u.sortingLastPlayedBucket.Absent? || (u.sortingLastPlayedBucket.Day? && u.sortingLastPlayedBucket.day < today - 1)
    ensures AfterReset(u, today).sortingStreak == 0
    ensures AfterReset(u, today).sortingBestStreak == u.sortingBestStreak
  {
  }

  /** A stored null last-played day is not matched, so that user keeps the streak. */
  lemma NullBucketNotReset(u: User, today: int)
    requires u.sortingLastPlayedBucket.NullBucket?
    ensures AfterReset(u, today) == u
  {
  }

  /** Running the reset twice on the same day equals running it once. */
  lemma ResetIdempotent(users: map<UserId, User>, today: int)
    ensures ResetTable(ResetTable(users, today), today) == ResetTable(users, today)
  {
    var once := ResetTable(users, today);
    forall id | id in once
      ensures AfterReset(once[id], today) == once[id]
    {
      assert !ResetSelects(once[id], today);
    }
  }
}

=== FILE: streak_service.dfy ===
/**
 * The sorting-game streak: a play on a day bumps the user's streak once per
 * day, continuing it when the previous play was the day before and restarting
 * it at 1 after a gap. Days are integer buckets; yesterday is `today - 1`.
 */
module StreakService {
  import opened Common
  import opened Entities

  /** The user record after `bumpSortingStreak` on day `today`. */
  function Bumped(u: User, today: int): (r: User)
    ensures r.sortingLastPlayedBucket == Day(today)
    ensures r.sortingBestStreak >= r.sortingStreak || u.sortingLastPlayedBucket == Day(today)
    ensures r.email == u.email && r.username == u.username && r.totalPoints == u.totalPoints
  {
    if u.sortingLastPlayedBucket == Day(today) then u
    else
      var next := if u.sortingLastPlayedBucket == Day(today - 1) then u.sortingStreak + 1 else 1;
      u.(sortingStreak := next,
         sortingBestStreak := Max(u.sortingBestStreak, next),
         sortingLastPlayedBucket := Day(today))
  }

  /**
   * `bumpSortingStreak(userId, now)`: an unknown user gives None and nothing
   * changes; otherwise the stored user becomes `Bumped` and is returned.
   */
  method BumpSortingStreak(store: UserStore, userId: UserId, today: int) returns (r: Option<User>)
    modifies store
    ensures userId !in old(store.users) ==> r == None && store.users == old(store.users)
    ensures userId in old(store.users) ==>
      var u' := Bumped(old(store.users)[userId], today);
      r == Some(u') && store.users == old(store.users)[userId := u']
  {
    if userId !in store.users {
      return None;
    }
    var user := store.users[userId];
    if user.sortingLastPlayedBucket == Day(today) {
      assert store.users[userId := user] == store.users;
      return Some(user);
    }
    var nextStreak := 1;
    if user.sortingLastPlayedBucket == Day(today - 1) {
      nextStreak := user.sortingStreak + 1;
    }
    var best := Max(user.sortingBestStreak, nextStreak);
    user := user.(sortingStreak := nextStreak, sortingBestStreak := best, sortingLastPlayedBucket := Day(today));
    store.users := store.users[userId := user];
    return Some(user);
  }

  /** A second play on the same day changes nothing. */
  lemma BumpIdempotentWithinDay(u: User, today: int)
    ensures Bumped(Bumped(u, today), today) == Bumped(u, today)
  {
  }

  /** A play the day after the last one extends the streak; any other first play of a day restarts it at 1. */
  lemma BumpStreakRule(u: User, today: int)
    requires u.sortingLastPlayedBucket != Day(today)
    ensures u.sortingLastPlayedBucket == Day(today - 1) ==> Bumped(u, today).sortingStreak == u.sortingStreak + 1
    ensures u.sortingLastPlayedBucket != Day(today - 1) ==> Bumped(u, today).sortingStreak == 1
    ensures Bumped(u, today).sortingBestStreak == Max(u.sortingBestStreak, Bumped(u, today).sortingStreak)
  {
  }

  /** The best streak never falls below the current one, and never decreases. */
  lemma BumpKeepsBestAtLeastStreak(u: User, today: int)
    requires u.sortingBestStreak >= u.sortingStreak
    ensures Bumped(u, today).sortingBestStreak >= Bumped(u, today).sortingStreak
    ensures Bumped(u, today).sortingBestStreak >= u.sortingBestStreak
  {
  }

  /** The user after plays on the `k` consecutive days `first`, `first + 1`, ..., `first + k - 1`. */
  function PlayRun(u: User, first: int, k: nat): User
  {
    if k == 0 then u else Bumped(PlayRun(u, first, k - 1), first + k - 1)
  }

  /** No recorded play on `day` or later. */
  predicate LastPlayBefore(u: User, day: int)
  {
    !u.sortingLastPlayedBucket.Day? || u.sortingLastPlayedBucket.day < day
  }

  /**
   * Playing on `k` consecutive days yields a streak of `k`, added to the old
   * streak when the run starts the day after the last play; the best streak
   * is at least the final streak.
   */
  lemma {:induction false} PlayRunStreak(u: User, first: int, k: nat)
    requires k >= 1
    requires LastPlayBefore(u, first)
    ensures PlayRun(u, first, k).sortingLastPlayedBucket == Day(first + k - 1)
    ensures PlayRun(u, first, k).sortingStreak
         == k + (if u.sortingLastPlayedBucket == Day(first - 1) then u.sortingStreak else 0)
    ensures PlayRun(u, first, k).sortingBestStreak >= PlayRun(u, first, k).sortingStreak
  {
    if k > 1 {
      PlayRunStreak(u, first, k - 1);
    }
  }
}

=== FILE: tree_fruits_controller.dfy ===
/**
 * Fruits: listing a user's unharvested fruits and harvesting one. A harvest
 * marks the fruit claimed with 10 points, adds 10 to the user's point total
 * and counts the fruit on the user's tracker; it writes no points-ledger
 * entry.
 */
module TreeFruitsController {
  import opened Common
  import opened Entities

  /** The points a harvested fruit is worth. */
  const FruitPoints: int := 10

  /** `TreeFruit.find({ userId, isClaimed: false })` */
  function AvailableFruits(fruits: map<FruitId, TreeFruit>, userId: UserId): (r: map<FruitId, TreeFruit>)
    ensures forall id :: id in r <==> id in fruits && fruits[id].userId == userId && !fruits[id].isClaimed
    ensures forall id :: id in r ==> r[id] == fruits[id]
  {
    map id | id in fruits && fruits[id].userId == userId && !fruits[id].isClaimed :: fruits[id]
  }

  /** The fruit after harvest: claimed at `now`, worth 10 points. */
  function Harvested(f: TreeFruit, now: int): (r: TreeFruit)
    ensures r.isClaimed && r.claimedAt == Some(now) && r.pointsAwarded == FruitPoints
    ensures r.userId == f.userId && r.harvestReadyDate == f.harvestReadyDate
  {
    f.(isClaimed := true, claimedAt := Some(now), pointsAwarded := FruitPoints)
  }

  /** The checks of `claimFruit` on the fruit found for `(id, userId)`: 404 when none, 400 when already claimed. */
  function ClaimCheck(fruits: map<FruitId, TreeFruit>, id: FruitId, userId: UserId): (r: Result<TreeFruit>)
    ensures r.Ok? <==> id in fruits && fruits[id].userId == userId && !fruits[id].isClaimed
    ensures r.Ok? ==> r.value == fruits[id]
    ensures r.Err? ==> r.status in {404, 400}
    ensures r.Err? && r.status == 404 <==> !(id in fruits && fruits[id].userId == userId)
  {
    if !(id in fruits && fruits[id].userId == userId) then Err(404, "Buah tidak ditemukan.")
    else if fruits[id].isClaimed then Err(400, "Buah sudah dipanen.")
    else Ok(fruits[id])
  }

  /** A harvested fruit cannot be harvested again: the second claim is refused with 400. */
  lemma ClaimAtMostOnce(fruits: map<FruitId, TreeFruit>, id: FruitId, userId: UserId, now: int)
    requires ClaimCheck(fruits, id, userId).Ok?
    ensures ClaimCheck(fruits[id := Harvested(fruits[id], now)], id, userId) == Err(400, "Buah sudah dipanen.")
  {
  }

  /** The user's tracker after `$inc` of `totalFruitsHarvested` (no upsert). */
  function FruitCounted(t: TreeTracker, now: int): (r: TreeTracker)
    ensures r.totalFruitsHarvested == t.totalFruitsHarvested + 1 && r.lastActivityDate == now
    ensures r.totalGreenLeaves == t.totalGreenLeaves && r.totalYellowLeaves == t.totalYellowLeaves
  {
    t.(totalFruitsHarvested := t.totalFruitsHarvested + 1, lastActivityDate := now)
  }

  /**
   * `claimFruit`: refused as `ClaimCheck` says, with nothing changed;
   * otherwise the fruit is harvested, the user (if stored) gains 10 points
   * and the tracker (if any) counts one more fruit.
   */
  method ClaimFruit(fruits: FruitStore, users: UserStore, trackers: TrackerStore,
                    id: FruitId, userId: UserId, now: int) returns (r: Result<TreeFruit>)
    modifies fruits, users, trackers
    ensures fruits.nextId == old(fruits.nextId)
    ensures ClaimCheck(old(fruits.fruits), id, userId).Err? ==>
      r == ClaimCheck(old(fruits.fruits), id, userId)
      && fruits.fruits == old(fruits.fruits) && users.users == old(users.users) && trackers.trackers == old(trackers.trackers)
    ensures ClaimCheck(old(fruits.fruits), id, userId).Ok? ==>
      r == Ok(Harvested(old(fruits.fruits)[id], now))
      && fruits.fruits == old(fruits.fruits)[id := r.value]
      && (userId in old(users.users) ==>
            users.users == old(users.users)[userId := old(users.users)[userId].(totalPoints := old(users.users)[userId].totalPoints + FruitPoints)])
      && (userId !in old(users.users) ==> users.users == old(users.users))
      && (userId in old(trackers.trackers) ==>
            trackers.trackers == old(trackers.trackers)[userId := FruitCounted(old(trackers.trackers)[userId], now)])
      && (userId !in old(trackers.trackers) ==> trackers.trackers == old(trackers.trackers))
  {
    var check := ClaimCheck(fruits.fruits, id, userId);
    if check.Err? {
      return check;
    }
    var fruit := Harvested(check.value, now);
    fruits.fruits := fruits.fruits[id := fruit];
    if userId in users.users {
      var u := users.users[userId];
      users.users := users.users[userId := u.(totalPoints := u.totalPoints + FruitPoints)];
    }
    if userId in trackers.trackers {
      trackers.trackers := trackers.trackers[userId := FruitCounted(trackers.trackers[userId], now)];
    }
    return Ok(fruit);
  }
}

=== FILE: tree_leaves_controller.dfy ===
/**
 * Tree progression. Completing a checklist revives one of the user's yellow
 * leaves if there is any, otherwise grows a new green leaf, counts it on the
 * user's tracker and, at every fifth green leaf, grows a fruit. The nightly
 * sweep yellows the oldest green leaf of every user who completed nothing
 * yesterday and revives the oldest yellow leaf of every user who did.
 * Unchecking a checklist removes the leaf grown for it.
 */
module TreeLeavesController {
  import opened Common
  import opened Entities
  import opened DailyTaskChecklistModel
  import opened TreeLeavesModel

  /** The leaf after being turned green again: no longer in need of recovery, status change stamped. */
  function Revived(l: Leaf, now: int): (r: Leaf)
    ensures r.status == Green && !r.needRecovery && r.statusChangedDate == Some(now)
    ensures r.(status := l.status, needRecovery := l.needRecovery, statusChangedDate := l.statusChangedDate) == l
  {
    l.(status := Green, needRecovery := false, statusChangedDate := Some(now))
  }

  /** The leaf after turning yellow: in need of recovery, status change stamped. */
  function Yellowed(l: Leaf, now: int): (r: Leaf)
    ensures r.status == Yellow && r.needRecovery && r.statusChangedDate == Some(now)
    ensures r.(status := l.status, needRecovery := l.needRecovery, statusChangedDate := l.statusChangedDate) == l
  {
    l.(status := Yellow, needRecovery := true, statusChangedDate := Some(now))
  }

  /** `findByIdAndUpdate(checklistId, { treeLeafId })`: an unknown row is left alone. */
  function LinkChecklist(rows: seq<Checklist>, checklistId: ChecklistId, leafId: LeafId, now: int): (r: seq<Checklist>)
    ensures |r| == |rows|
    ensures checklistId < |rows| ==> r[checklistId] == rows[checklistId].(treeLeafId := Some(leafId), updatedAt := now)
    ensures forall k :: 0 <= k < |rows| && k != checklistId ==> r[k] == rows[k]
  {
    if checklistId < |rows| then rows[checklistId := rows[checklistId].(treeLeafId := Some(leafId), updatedAt := now)]
    else rows
  }

  /** The tracker after the `$inc` of `totalGreenLeaves` with upsert: a missing tracker is created with one leaf. */
  function GreenLeafCounted(t: Option<TreeTracker>, now: int): (r: TreeTracker)
    ensures r.totalGreenLeaves == (if t.Some? then t.value.totalGreenLeaves else 0) + 1
    ensures r.lastActivityDate == now
    ensures t.Some? ==> r.totalYellowLeaves == t.value.totalYellowLeaves && r.totalFruitsHarvested == t.value.totalFruitsHarvested
    ensures t.None? ==> r.totalYellowLeaves == 0 && r.totalFruitsHarvested == 0
  {
    if t.Some? then t.value.(totalGreenLeaves := t.value.totalGreenLeaves + 1, lastActivityDate := now)
    else NewTracker(now).(totalGreenLeaves := 1)
  }

  /** A fruit that just appeared: ready now, not claimed, no points yet. */
  function NewFruit(userId: UserId, now: int): (f: TreeFruit)
    ensures f.userId == userId && f.harvestReadyDate == Some(now)
    ensures !f.isClaimed && f.claimedAt.None? && f.pointsAwarded == 0
  {
    TreeFruit(userId, Some(now), false, None, 0)
  }

  /** A fruit appears when the user's green-leaf count is a multiple of 5. */
  predicate FruitDue(greenCount: nat)
  {
    greenCount % 5 == 0
  }

  /** The user's leaves with a given status. */
  function LeavesWith(leaves: map<LeafId, Leaf>, userId: UserId, status: LeafStatus): set<LeafId>
  {
    set j | j in leaves && Matches(leaves[j], userId, status)
  }

  /** A new green leaf of the user raises the user's green count by exactly one. */
  lemma NewGreenLeafCount(leaves: map<LeafId, Leaf>, id: LeafId, l: Leaf)
    requires id !in leaves && Matches(l, l.userId, Green)
    ensures CountLeaves(leaves[id := l], l.userId, Some(Green)) == CountLeaves(leaves, l.userId, Some(Green)) + 1
    ensures CountLeaves(leaves[id := l], l.userId, None) == CountLeaves(leaves, l.userId, None) + 1
  {
    LeafAdded(leaves, id, l, Some(Green));
    LeafAdded(leaves, id, l, None);
  }

  /** A new leaf joins exactly the leaf sets whose filter it matches. */
  lemma LeafAdded(leaves: map<LeafId, Leaf>, id: LeafId, l: Leaf, status: Option<LeafStatus>)
    requires id !in leaves && (status.None? || l.status == status.value)
    ensures |LeafSet(leaves[id := l], l.userId, status)| == |LeafSet(leaves, l.userId, status)| + 1
  {
    var before := LeafSet(leaves, l.userId, status);
    assert LeafSet(leaves[id := l], l.userId, status) == before + {id};
    assert id !in before;
  }

  /**
   * `handleChecklistComplete`: when the user has a yellow leaf, some yellow
   * leaf (any of them) is revived and linked to the checklist, and nothing
   * else changes. Otherwise a green leaf numbered after the user's leaves is
   * added and linked, the tracker counts it, and a fruit appears when the
   * user's green count becomes a multiple of 5.
   */
  method HandleChecklistComplete(leafStore: LeafStore, checklists: ChecklistStore, trackers: TrackerStore,
                                 fruits: FruitStore, userId: UserId, checklistId: ChecklistId,
                                 todayStart: int, now: int)
    returns (id: LeafId, leaf: Leaf)
    requires leafStore.Valid() && fruits.Valid()
    modifies leafStore, checklists, trackers, fruits
    ensures leafStore.Valid() && fruits.Valid()
    ensures checklists.rows == LinkChecklist(old(checklists.rows), checklistId, id, now)
    ensures leafStore.leaves == old(leafStore.leaves)[id := leaf]
    ensures HasLeaf(old(leafStore.leaves), userId, Yellow) ==>
      id in old(leafStore.leaves) && Matches(old(leafStore.leaves)[id], userId, Yellow)
      && leaf == Revived(old(leafStore.leaves)[id], now)
      && leafStore.nextId == old(leafStore.nextId)
      && trackers.trackers == old(trackers.trackers)
      && fruits.fruits == old(fruits.fruits) && fruits.nextId == old(fruits.nextId)
    ensures !HasLeaf(old(leafStore.leaves), userId, Yellow) ==>
      id == old(leafStore.nextId) && id !in old(leafStore.leaves) && leafStore.nextId == id + 1
      && leaf == NewLeaf(userId, Some(checklistId), Some(CountLeaves(old(leafStore.leaves), userId, None) + 1),
                         todayStart, now).(statusChangedDate := Some(now))
      && trackers.trackers == old(trackers.trackers)[userId :=
           GreenLeafCounted(if userId in old(trackers.trackers) then Some(old(trackers.trackers)[userId]) else None, now)]
      && (FruitDue(CountLeaves(old(leafStore.leaves), userId, Some(Green)) + 1) ==>
            fruits.fruits == old(fruits.fruits)[old(fruits.nextId) := NewFruit(userId, now)]
            && fruits.nextId == old(fruits.nextId) + 1)
      && (!FruitDue(CountLeaves(old(leafStore.leaves), userId, Some(Green)) + 1) ==>
            fruits.fruits == old(fruits.fruits) && fruits.nextId == old(fruits.nextId))
  {
    if exists j | j in leafStore.leaves :: Matches(leafStore.leaves[j], userId, Yellow) {
      id :| id in leafStore.leaves && Matches(leafStore.leaves[id], userId, Yellow);
      var yellowLeaf := leafStore.leaves[id];
      SaveLeaf(leafStore, id, yellowLeaf.(status := Green, needRecovery := false, statusChangedDate := Some(now)), now);
      leaf := leafStore.leaves[id];
      checklists.rows := LinkChecklist(checklists.rows, checklistId, id, now);
      return;
    }
    var dayNumber := CountLeaves(leafStore.leaves, userId, None) + 1;
    var doc := NewLeaf(userId, Some(checklistId), Some(dayNumber), todayStart, now);
    ghost var before := leafStore.leaves;
    id := InsertLeaf(leafStore, doc, now);
    leaf := leafStore.leaves[id];
    checklists.rows := LinkChecklist(checklists.rows, checklistId, id, now);
    var current := if userId in trackers.trackers then Some(trackers.trackers[userId]) else None;
    trackers.trackers := trackers.trackers[userId := GreenLeafCounted(current, now)];
    NewGreenLeafCount(before, id, leaf);
    var totalLeaves := CountLeaves(leafStore.leaves, userId, Some(Green));
    if totalLeaves % 5 == 0 {
      fruits.fruits := fruits.fruits[fruits.nextId := NewFruit(userId, now)];
      fruits.nextId := fruits.nextId + 1;
    }
  }

  // ---------------------------------------------------------------------
  // The nightly sweep
  // ---------------------------------------------------------------------

  /** Users with at least one checklist row (`distinct("userId")`). */
  function UsersWithChecklists(rows: seq<Checklist>): set<UserId>
  {
    set k | 0 <= k < |rows| :: rows[k].userId
  }

  /** The row was completed within `[yesterdayStart, todayStart)`. */
  predicate CompletedYesterday(c: Checklist, yesterdayStart: int, todayStart: int)
  {
    c.isCompleted && c.completedAt.Some? && yesterdayStart <= c.completedAt.value < todayStart
  }

  /** Users with a row completed yesterday. */
  function ActiveUsers(rows: seq<Checklist>, yesterdayStart: int, todayStart: int): (r: set<UserId>)
    ensures r <= UsersWithChecklists(rows)
  {
    set k | 0 <= k < |rows| && CompletedYesterday(rows[k], yesterdayStart, todayStart) :: rows[k].userId
  }

  /**
   * A leaf after the sweep has handled the users in `yellowing` (oldest green
   * leaf turns yellow) and in `greening` (oldest yellow leaf turns green), the
   * oldest leaves being those before the sweep.
   */
  function SweptLeaf(l0: map<LeafId, Leaf>, id: LeafId, yellowing: set<UserId>, greening: set<UserId>, now: int): Leaf
    requires id in l0
  {
    var l := l0[id];
    if l.userId in yellowing && IsOldest(l0, id, l.userId, Green) then Yellowed(l, now)
    else if l.userId in greening && IsOldest(l0, id, l.userId, Yellow) then Revived(l, now)
    else l
  }

  function Swept(l0: map<LeafId, Leaf>, yellowing: set<UserId>, greening: set<UserId>, now: int): (r: map<LeafId, Leaf>)
    ensures r.Keys == l0.Keys
  {
    map id | id in l0 :: SweptLeaf(l0, id, yellowing, greening, now)
  }

  /** The sweep keeps each leaf's owner and creation time. */
  predicate SameOwners(l0: map<LeafId, Leaf>, l: map<LeafId, Leaf>)
  {
    l.Keys == l0.Keys
    && forall j :: j in l0 ==> l[j].userId == l0[j].userId && l[j].createdAt == l0[j].createdAt
  }

  /** Where a user's leaves are untouched, that user's oldest leaf of each status is unchanged. */
  lemma OldestStable(l0: map<LeafId, Leaf>, l: map<LeafId, Leaf>, u: UserId, status: LeafStatus)
    requires SameOwners(l0, l)
    requires forall j :: j in l0 && l0[j].userId == u ==> l[j] == l0[j]
    ensures forall id :: IsOldest(l, id, u, status) <==> IsOldest(l0, id, u, status)
    ensures HasLeaf(l, u, status) <==> HasLeaf(l0, u, status)
  {
    assert forall j :: j in l0 ==> (Matches(l[j], u, status) <==> Matches(l0[j], u, status));
  }

  lemma SweptSameOwners(l0: map<LeafId, Leaf>, yellowing: set<UserId>, greening: set<UserId>, now: int)
    ensures SameOwners(l0, Swept(l0, yellowing, greening, now))
  {
  }

  /** Handling one more user of the yellowing set changes at most that user's oldest green leaf. */
  lemma YellowStep(l0: map<LeafId, Leaf>, yellowing: set<UserId>, greening: set<UserId>, u: UserId, now: int)
    requires u !in yellowing && u !in greening
    ensures var l := Swept(l0, yellowing, greening, now);
      && (forall id :: IsOldest(l, id, u, Green) <==> IsOldest(l0, id, u, Green))
      && (HasLeaf(l, u, Green) <==> HasLeaf(l0, u, Green))
      && (forall id :: IsOldest(l, id, u, Green) ==>
            Swept(l0, yellowing + {u}, greening, now) == l[id := Yellowed(l[id], now)])
      && (!HasLeaf(l0, u, Green) ==> Swept(l0, yellowing + {u}, greening, now) == l)
  {
    var l := Swept(l0, yellowing, greening, now);
    OldestStable(l0, l, u, Green);
    forall id | IsOldest(l, id, u, Green)
      ensures Swept(l0, yellowing + {u}, greening, now) == l[id := Yellowed(l[id], now)]
    {
      YellowOne(l0, yellowing, greening, u, now, id);
    }
    if !HasLeaf(l0, u, Green) {
      NoLeafUntouched(l0, yellowing, greening, u, now, Green);
    }
  }

  /** Adding `u` to the yellowing set yellows exactly its oldest green leaf. */
  lemma YellowOne(l0: map<LeafId, Leaf>, yellowing: set<UserId>, greening: set<UserId>, u: UserId, now: int, id: LeafId)
    requires u !in yellowing && u !in greening && IsOldest(l0, id, u, Green)
    ensures var l := Swept(l0, yellowing, greening, now);
      Swept(l0, yellowing + {u}, greening, now) == l[id := Yellowed(l[id], now)]
  {
    var l := Swept(l0, yellowing, greening, now);
    forall j | j in l0
      ensures SweptLeaf(l0, j, yellowing + {u}, greening, now) == l[id := Yellowed(l[id], now)][j]
    {
      if j != id && l0[j].userId == u && IsOldest(l0, j, u, Green) {
        OldestUnique(l0, j, id, u, Green);
      }
    }
  }

  /** Adding `u` to the greening set revives exactly its oldest yellow leaf. */
  lemma GreenOne(l0: map<LeafId, Leaf>, yellowing: set<UserId>, greening: set<UserId>, u: UserId, now: int, id: LeafId)
    requires u !in yellowing && u !in greening && IsOldest(l0, id, u, Yellow)
    ensures var l := Swept(l0, yellowing, greening, now);
      Swept(l0, yellowing, greening + {u}, now) == l[id := Revived(l[id], now)]
  {
    var l := Swept(l0, yellowing, greening, now);
    forall j | j in l0
      ensures SweptLeaf(l0, j, yellowing, greening + {u}, now) == l[id := Revived(l[id], now)][j]
    {
      if j != id && l0[j].userId == u && IsOldest(l0, j, u, Yellow) {
        OldestUnique(l0, j, id, u, Yellow);
      }
    }
  }

  /** A user without a leaf of the status the pass looks for is left alone by that pass. */
  lemma NoLeafUntouched(l0: map<LeafId, Leaf>, yellowing: set<UserId>, greening: set<UserId>, u: UserId, now: int,
                        status: LeafStatus)
    requires !HasLeaf(l0, u, status)
    ensures status == Green ==> Swept(l0, yellowing + {u}, greening, now) == Swept(l0, yellowing, greening, now)
    ensures status == Yellow ==> Swept(l0, yellowing, greening + {u}, now) == Swept(l0, yellowing, greening, now)
  {
    forall j | j in l0 && l0[j].userId == u
      ensures !IsOldest(l0, j, u, status)
    {
    }
  }

  /** Handling one more user of the greening set changes at most that user's oldest yellow leaf. */
  lemma GreenStep(l0: map<LeafId, Leaf>, yellowing: set<UserId>, greening: set<UserId>, u: UserId, now: int)
    requires u !in yellowing && u !in greening
    ensures var l := Swept(l0, yellowing, greening, now);
      && (forall id :: IsOldest(l, id, u, Yellow) <==> IsOldest(l0, id, u, Yellow))
      && (HasLeaf(l, u, Yellow) <==> HasLeaf(l0, u, Yellow))
      && (forall id :: IsOldest(l, id, u, Yellow) ==>
            Swept(l0, yellowing, greening + {u}, now) == l[id := Revived(l[id], now)])
      && (!HasLeaf(l0, u, Yellow) ==> Swept(l0, yellowing, greening + {u}, now) == l)
  {
    var l := Swept(l0, yellowing, greening, now);
    OldestStable(l0, l, u, Yellow);
    forall id | IsOldest(l, id, u, Yellow)
      ensures Swept(l0, yellowing, greening + {u}, now) == l[id := Revived(l[id], now)]
    {
      GreenOne(l0, yellowing, greening, u, now, id);
    }
    if !HasLeaf(l0, u, Yellow) {
      NoLeafUntouched(l0, yellowing, greening, u, now, Yellow);
    }
  }

  /** One step of the first loop: the user's oldest green leaf, if any, turns yellow. */
  method YellowOldestGreen(leafStore: LeafStore, u: UserId, now: int)
    modifies leafStore
    ensures leafStore.nextId == old(leafStore.nextId)
    ensures !HasLeaf(old(leafStore.leaves), u, Green) ==> leafStore.leaves == old(leafStore.leaves)
    ensures HasLeaf(old(leafStore.leaves), u, Green) ==>
      exists id :: IsOldest(old(leafStore.leaves), id, u, Green)
        && leafStore.leaves == old(leafStore.leaves)[id := Yellowed(old(leafStore.leaves)[id], now)]
  {
    if exists j | j in leafStore.leaves :: Matches(leafStore.leaves[j], u, Green) {
      OldestExists(leafStore.leaves, u, Green);
      var id :| id in leafStore.leaves && IsOldest(leafStore.leaves, id, u, Green);
      var greenLeaf := leafStore.leaves[id];
      SaveLeaf(leafStore, id, greenLeaf.(status := Yellow, needRecovery := true, statusChangedDate := Some(now)), now);
    }
  }

  /** One step of the second loop: the user's oldest yellow leaf, if any, turns green. */
  method ReviveOldestYellow(leafStore: LeafStore, u: UserId, now: int)
    modifies leafStore
    ensures leafStore.nextId == old(leafStore.nextId)
    ensures !HasLeaf(old(leafStore.leaves), u, Yellow) ==> leafStore.leaves == old(leafStore.leaves)
    ensures HasLeaf(old(leafStore.leaves), u, Yellow) ==>
      exists id :: IsOldest(old(leafStore.leaves), id, u, Yellow)
        && leafStore.leaves == old(leafStore.leaves)[id := Revived(old(leafStore.leaves)[id], now)]
  {
    if exists j | j in leafStore.leaves :: Matches(leafStore.leaves[j], u, Yellow) {
      OldestExists(leafStore.leaves, u, Yellow);
      var id :| id in leafStore.leaves && IsOldest(leafStore.leaves, id, u, Yellow);
      var yellowLeaf := leafStore.leaves[id];
      SaveLeaf(leafStore, id, yellowLeaf.(status := Green, needRecovery := false, statusChangedDate := Some(now)), now);
    }
  }

  /** A yellowing step done on the swept leaves extends the sweep by its user. */
  lemma YellowStepped(l0: map<LeafId, Leaf>, done: set<UserId>, u: UserId, now: int,
                      before: map<LeafId, Leaf>, after: map<LeafId, Leaf>)
    requires u !in done && before == Swept(l0, done, {}, now)
    requires !HasLeaf(before, u, Green) ==> after == before
    requires HasLeaf(before, u, Green) ==>
      exists id :: IsOldest(before, id, u, Green) && after == before[id := Yellowed(before[id], now)]
    ensures after == Swept(l0, done + {u}, {}, now)
  {
    YellowStep(l0, done, {}, u, now);
    if HasLeaf(before, u, Green) {
      var id :| IsOldest(before, id, u, Green) && after == before[id := Yellowed(before[id], now)];
    }
  }

  /** A greening step done on the swept leaves extends the sweep by its user. */
  lemma GreenStepped(l0: map<LeafId, Leaf>, yellowing: set<UserId>, done: set<UserId>, u: UserId, now: int,
                     before: map<LeafId, Leaf>, after: map<LeafId, Leaf>)
    requires u !in yellowing && u !in done && before == Swept(l0, yellowing, done, now)
    requires !HasLeaf(before, u, Yellow) ==> after == before
    requires HasLeaf(before, u, Yellow) ==>
      exists id :: IsOldest(before, id, u, Yellow) && after == before[id := Revived(before[id], now)]
    ensures after == Swept(l0, yellowing, done + {u}, now)
  {
    GreenStep(l0, yellowing, done, u, now);
    if HasLeaf(before, u, Yellow) {
      var id :| IsOldest(before, id, u, Yellow) && after == before[id := Revived(before[id], now)];
    }
  }

  /** The first loop of the sweep: the oldest green leaf of each user in `users` turns yellow. */
  method YellowOldestGreenLeaves(leafStore: LeafStore, users: set<UserId>, now: int)
    modifies leafStore
    ensures leafStore.nextId == old(leafStore.nextId)
    ensures leafStore.leaves == Swept(old(leafStore.leaves), users, {}, now)
  {
    ghost var l0 := leafStore.leaves;
    assert Swept(l0, {}, {}, now) == l0;
    var pending := users;
    assert users - pending == {};
    while pending != {}
      invariant pending <= users
      invariant leafStore.nextId == old(leafStore.nextId)
      invariant leafStore.leaves == Swept(l0, users - pending, {}, now)
      decreases |pending|
    {
      var u :| u in pending;
      ghost var done := users - pending;
      ghost var before := leafStore.leaves;
      YellowOldestGreen(leafStore, u, now);
      YellowStepped(l0, done, u, now, before, leafStore.leaves);
      assert done + {u} == users - (pending - {u});
      pending := pending - {u};
    }
    assert users - pending == users;
  }

  /** The second loop of the sweep: the oldest yellow leaf of each user in `users` turns green. */
  method ReviveOldestYellowLeaves(leafStore: LeafStore, users: set<UserId>, now: int,
                                  ghost l0: map<LeafId, Leaf>, ghost yellowing: set<UserId>)
    requires users !! yellowing
    requires leafStore.leaves == Swept(l0, yellowing, {}, now)
    modifies leafStore
    ensures leafStore.nextId == old(leafStore.nextId)
    ensures leafStore.leaves == Swept(l0, yellowing, users, now)
  {
    var pending := users;
    assert users - pending == {};
    while pending != {}
      invariant pending <= users
      invariant leafStore.nextId == old(leafStore.nextId)
      invariant leafStore.leaves == Swept(l0, yellowing, users - pending, now)
      decreases |pending|
    {
      var u :| u in pending;
      ghost var done := users - pending;
      ghost var before := leafStore.leaves;
      ReviveOldestYellow(leafStore, u, now);
      GreenStepped(l0, yellowing, done, u, now, before, leafStore.leaves);
      assert done + {u} == users - (pending - {u});
      pending := pending - {u};
    }
    assert users - pending == users;
  }

  /**
   * `updateYellowLeavesForInactiveUsers`: users with checklist rows but no
   * completion yesterday lose their oldest green leaf to yellow; users with a
   * completion yesterday get their oldest yellow leaf back to green.
   */
  method UpdateYellowLeavesForInactiveUsers(leafStore: LeafStore, rows: seq<Checklist>,
                                            yesterdayStart: int, todayStart: int, now: int)
    modifies leafStore
    ensures leafStore.nextId == old(leafStore.nextId)
    ensures leafStore.leaves == Swept(old(leafStore.leaves),
                                      UsersWithChecklists(rows) - ActiveUsers(rows, yesterdayStart, todayStart),
                                      ActiveUsers(rows, yesterdayStart, todayStart), now)
  {
    var allUsers := UsersWithChecklists(rows);
    var activeUsers := ActiveUsers(rows, yesterdayStart, todayStart);
    var inactiveUsers := allUsers - activeUsers;
    ghost var l0 := leafStore.leaves;
    YellowOldestGreenLeaves(leafStore, inactiveUsers, now);
    ReviveOldestYellowLeaves(leafStore, activeUsers, now, l0, inactiveUsers);
  }

  /**
   * The sweep creates and deletes no leaf, and for a user handled by only
   * one of its two passes at most one leaf changes.
   */
  lemma SweepOneLeafPerUser(l0: map<LeafId, Leaf>, yellowing: set<UserId>, greening: set<UserId>, now: int,
                            a: LeafId, b: LeafId)
    requires yellowing !! greening
    requires a in l0 && b in l0 && l0[a].userId == l0[b].userId
    requires Swept(l0, yellowing, greening, now)[a] != l0[a] && Swept(l0, yellowing, greening, now)[b] != l0[b]
    ensures a == b
  {
    var u := l0[a].userId;
    if u in yellowing {
      assert IsOldest(l0, a, u, Green) && IsOldest(l0, b, u, Green);
      OldestUnique(l0, a, b, u, Green);
    } else {
      assert IsOldest(l0, a, u, Yellow) && IsOldest(l0, b, u, Yellow);
      OldestUnique(l0, a, b, u, Yellow);
    }
  }

  // ---------------------------------------------------------------------
  // Uncheck
  // ---------------------------------------------------------------------

  /** The leaf was grown for checklist `checklistId` of `userId`. */
  predicate GrownFor(l: Leaf, userId: UserId, checklistId: ChecklistId)
  {
    l.userId == userId && l.dailyTaskChecklistId == Some(checklistId)
  }

  /** The tracker after the `$inc` of -1 on `totalGreenLeaves` (no upsert). */
  function GreenLeafRemoved(t: TreeTracker, now: int): (r: TreeTracker)
    ensures r.totalGreenLeaves == t.totalGreenLeaves - 1 && r.lastActivityDate == now
    ensures r.totalYellowLeaves == t.totalYellowLeaves && r.totalFruitsHarvested == t.totalFruitsHarvested
  {
    t.(totalGreenLeaves := t.totalGreenLeaves - 1, lastActivityDate := now)
  }

  /**
   * `handleChecklistUncheck`: one leaf grown for the checklist (any of them)
   * is deleted and the user's tracker, if there is one, counts one green leaf
   * less; with no such leaf nothing changes. Fruits are never touched.
   */
  method HandleChecklistUncheck(leafStore: LeafStore, trackers: TrackerStore, userId: UserId,
                                checklistId: ChecklistId, now: int)
    returns (deleted: Option<LeafId>)
    modifies leafStore, trackers
    ensures leafStore.nextId == old(leafStore.nextId)
    ensures deleted.None? <==> forall j :: j in old(leafStore.leaves) ==> !GrownFor(old(leafStore.leaves)[j], userId, checklistId)
    ensures deleted.None? ==> leafStore.leaves == old(leafStore.leaves) && trackers.trackers == old(trackers.trackers)
    ensures deleted.Some? ==>
      deleted.value in old(leafStore.leaves) && GrownFor(old(leafStore.leaves)[deleted.value], userId, checklistId)
      && leafStore.leaves == old(leafStore.leaves) - {deleted.value}
      && (userId in old(trackers.trackers) ==>
            trackers.trackers == old(trackers.trackers)[userId := GreenLeafRemoved(old(trackers.trackers)[userId], now)])
      && (userId !in old(trackers.trackers) ==> trackers.trackers == old(trackers.trackers))
  {
    if exists j | j in leafStore.leaves :: GrownFor(leafStore.leaves[j], userId, checklistId) {
      var id :| id in leafStore.leaves && GrownFor(leafStore.leaves[id], userId, checklistId);
      leafStore.leaves := leafStore.leaves - {id};
      if userId in trackers.trackers {
        trackers.trackers := trackers.trackers[userId := GreenLeafRemoved(trackers.trackers[userId], now)];
      }
      return Some(id);
    }
    return None;
  }

  /** Unchecking after completing on the new-leaf path removes exactly the leaf just grown. */
  lemma UncheckUndoesNewLeaf(leaves: map<LeafId, Leaf>, id: LeafId, l: Leaf, checklistId: ChecklistId)
    requires id !in leaves && GrownFor(l, l.userId, checklistId)
    requires forall j :: j in leaves ==> !GrownFor(leaves[j], l.userId, checklistId)
    ensures forall d :: d in leaves[id := l] && GrownFor(leaves[id := l][d], l.userId, checklistId) ==>
      d == id && leaves[id := l] - {d} == leaves
  {
    forall d | d in leaves[id := l] && GrownFor(leaves[id := l][d], l.userId, checklistId)
      ensures d == id && leaves[id := l] - {d} == leaves
    {
      assert d == id;
      assert leaves[id := l] - {d} == leaves;
    }
  }
}

=== FILE: tree_leaves_model.dfy ===
/**
 * A leaf of the user's tree: green while the user keeps up with the daily
 * tasks, yellow after a missed day. The collection is keyed by leaf
 * identifier; new identifiers come from a counter, so they grow in creation
 * order. Saving a leaf runs the schema's pre-save hook, which stamps
 * `statusChangedDate` whenever the status was modified.
 */
module TreeLeavesModel {
  import opened Common
  import opened Entities
  import opened DailyTaskChecklistModel

  /** The status enum: only green or yellow; green is the default. */
  datatype LeafStatus = Green | Yellow

  type LeafId = nat

  datatype Leaf = Leaf(
    userId: UserId,
    dailyTaskChecklistId: Option<ChecklistId>,
    status: LeafStatus,
    dayNumber: Option<int>,
    needRecovery: bool,
    createdDate: int,
    statusChangedDate: Option<int>,
    createdAt: int)

  /**
   * A leaf built from the required user, an optional checklist and day
   * number: green, not in need of recovery, created on `todayStart` (the
   * current day at midnight), no status change recorded yet.
   */
  function NewLeaf(userId: UserId, checklistId: Option<ChecklistId>, dayNumber: Option<int>,
                   todayStart: int, now: int): (l: Leaf)
    ensures l.userId == userId && l.dailyTaskChecklistId == checklistId && l.dayNumber == dayNumber
    ensures l.status == Green && !l.needRecovery && l.statusChangedDate.None?
    ensures l.createdDate == todayStart && l.createdAt == now
  {
    Leaf(userId, checklistId, Green, dayNumber, false, todayStart, None, now)
  }

  /** `isModified("status")`: a new leaf, or a status different from the stored one. */
  predicate StatusModified(stored: Option<Leaf>, doc: Leaf)
  {
    stored.None? || stored.value.status != doc.status
  }

  /** The pre-save hook: the leaf as written, given the stored leaf (None for a new one). */
  function LeafPreSave(stored: Option<Leaf>, doc: Leaf, now: int): (r: Leaf)
    ensures r.(statusChangedDate := doc.statusChangedDate) == doc
    ensures StatusModified(stored, doc) ==> r.statusChangedDate == Some(now)
    ensures !StatusModified(stored, doc) ==> r == doc
  {
    if StatusModified(stored, doc) then doc.(statusChangedDate := Some(now)) else doc
  }

  class LeafStore {
    var leaves: map<LeafId, Leaf>
    var nextId: LeafId

    /** Every stored identifier was handed out by the counter. */
    predicate Valid()
      reads this
    {
      forall id :: id in leaves ==> id < nextId
    }

    constructor ()
      ensures Valid() && leaves == map[] && nextId == 0
    {
      leaves := map[];
      nextId := 0;
    }
  }

  /** `save()` of the leaf `id`: the hook runs against the stored leaf. */
  method SaveLeaf(store: LeafStore, id: LeafId, doc: Leaf, now: int)
    requires id in store.leaves
    modifies store
    ensures store.leaves == old(store.leaves)[id := LeafPreSave(Some(old(store.leaves)[id]), doc, now)]
    ensures store.nextId == old(store.nextId)
  {
    store.leaves := store.leaves[id := LeafPreSave(Some(store.leaves[id]), doc, now)];
  }

  /** `save()` of a new leaf: it gets the next identifier, which is returned. */
  method InsertLeaf(store: LeafStore, doc: Leaf, now: int) returns (id: LeafId)
    requires store.Valid()
    modifies store
    ensures store.Valid()
    ensures id == old(store.nextId) && id !in old(store.leaves)
    ensures store.leaves == old(store.leaves)[id := LeafPreSave(None, doc, now)]
    ensures store.nextId == id + 1
  {
    id := store.nextId;
    store.leaves := store.leaves[id := LeafPreSave(None, doc, now)];
    store.nextId := store.nextId + 1;
  }

  /** The leaf belongs to `userId` and has status `status`. */
  predicate Matches(l: Leaf, userId: UserId, status: LeafStatus)
  {
    l.userId == userId && l.status == status
  }

  /** Leaf `a` sorts no later than leaf `b` by creation time, ties by identifier. */
  predicate NoLater(leaves: map<LeafId, Leaf>, a: LeafId, b: LeafId)
    requires a in leaves && b in leaves
  {
    leaves[a].createdAt < leaves[b].createdAt || (leaves[a].createdAt == leaves[b].createdAt && a <= b)
  }

  /** `findOne({ userId, status }).sort({ createdAt: 1 })` returns leaf `id`. */
  predicate IsOldest(leaves: map<LeafId, Leaf>, id: LeafId, userId: UserId, status: LeafStatus)
  {
    id in leaves && Matches(leaves[id], userId, status)
    && forall j :: j in leaves && Matches(leaves[j], userId, status) ==> NoLater(leaves, id, j)
  }

  /** The user has a leaf with this status. */
  predicate HasLeaf(leaves: map<LeafId, Leaf>, userId: UserId, status: LeafStatus)
  {
    exists j :: j in leaves && Matches(leaves[j], userId, status)
  }

  /** Among the matching leaves in `cands` one sorts first. */
  lemma {:induction false} OldestAmong(leaves: map<LeafId, Leaf>, cands: set<LeafId>, userId: UserId, status: LeafStatus)
    requires cands != {} && cands <= leaves.Keys
    ensures exists m :: m in cands && forall j :: j in cands ==> NoLater(leaves, m, j)
    decreases |cands|
  {
    var x :| x in cands;
    if cands == {x} {
      assert forall j :: j in cands ==> j == x;
      assert NoLater(leaves, x, x);
    } else {
      var rest := cands - {x};
      OldestAmong(leaves, rest, userId, status);
      var m :| m in rest && forall j :: j in rest ==> NoLater(leaves, m, j);
      if NoLater(leaves, m, x) {
        assert forall j :: j in cands ==> NoLater(leaves, m, j);
      } else {
        forall j | j in cands
          ensures NoLater(leaves, x, j)
        {
          if j != x {
            assert NoLater(leaves, m, j);
          }
        }
      }
    }
  }

  /** A user with a leaf of some status has an oldest one, and only one. */
  lemma OldestExists(leaves: map<LeafId, Leaf>, userId: UserId, status: LeafStatus)
    requires HasLeaf(leaves, userId, status)
    ensures exists id :: IsOldest(leaves, id, userId, status)
  {
    var cands := set j | j in leaves && Matches(leaves[j], userId, status);
    var w :| w in leaves && Matches(leaves[w], userId, status);
    assert w in cands;
    OldestAmong(leaves, cands, userId, status);
    var m :| m in cands && forall j :: j in cands ==> NoLater(leaves, m, j);
    assert IsOldest(leaves, m, userId, status);
  }

  /** The oldest matching leaf is unique. */
  lemma OldestUnique(leaves: map<LeafId, Leaf>, a: LeafId, b: LeafId, userId: UserId, status: LeafStatus)
    requires IsOldest(leaves, a, userId, status) && IsOldest(leaves, b, userId, status)
    ensures a == b
  {
    assert NoLater(leaves, a, b) && NoLater(leaves, b, a);
  }

  /** The user's leaves, with an optional status filter. */
  function LeafSet(leaves: map<LeafId, Leaf>, userId: UserId, status: Option<LeafStatus>): (r: set<LeafId>)
    ensures forall j :: j in r <==> j in leaves && leaves[j].userId == userId && (status.None? || leaves[j].status == status.value)
  {
    set j | j in leaves && leaves[j].userId == userId && (status.None? || leaves[j].status == status.value)
  }

  /** `countDocuments` of the user's leaves with an optional status filter. */
  function CountLeaves(leaves: map<LeafId, Leaf>, userId: UserId, status: Option<LeafStatus>): nat
  {
    |LeafSet(leaves, userId, status)|
  }
}

=== FILE: tree_trackers_controller.dfy ===
/**
 * The per-user tree tracker: get-or-create, read, overwrite the counters, and
 * an explicit create that refuses a second tracker. The store is keyed by
 * user, so a user has at most one tracker.
 */
module TreeTrackersController {
  import opened Common
  import opened Entities

  /** `createTreeTrackerForUser`: an existing tracker is returned unchanged; otherwise a zeroed one is stored. */
  method CreateTreeTrackerForUser(trackers: TrackerStore, userId: UserId, now: int) returns (t: TreeTracker)
    modifies trackers
    ensures userId in old(trackers.trackers) ==> t == old(trackers.trackers)[userId] && trackers.trackers == old(trackers.trackers)
    ensures userId !in old(trackers.trackers) ==> t == NewTracker(now) && trackers.trackers == old(trackers.trackers)[userId := t]
  {
    if userId in trackers.trackers {
      return trackers.trackers[userId];
    }
    t := NewTracker(now);
    trackers.trackers := trackers.trackers[userId := t];
  }

  /** `getTreeTracker`: the user's tracker, or 404. */
  function GetTreeTracker(trackers: map<UserId, TreeTracker>, userId: UserId): (r: Result<TreeTracker>)
    ensures r.Ok? <==> userId in trackers
    ensures r.Ok? ==> r.value == trackers[userId]
    ensures r.Err? ==> r.status == 404
  {
    if userId in trackers then Ok(trackers[userId]) else Err(404, "Tree tracker belum dibuat.")
  }

  /**
   * How Mongoose casts one counter of the `$set` of `updateTreeTracker` to the
   * schema's Number: an undefined counter (absent from the body) is dropped
   * from the update, an array or a value whose `Number(v)` is NaN raises a
   * CastError, and anything else is written as `Number(v)`.
   */
  datatype CounterCast = Keep | Write(n: int) | CastFails

  function CastCounter(v: JsValue): (c: CounterCast)
    ensures c.Keep? <==> v.JsUndefined?
    ensures c.CastFails? <==> !v.JsUndefined? && (v.JsArray? || ToNumber(v).None?)
    ensures c.Write? ==> ToNumber(v) == Some(c.n)
  {
    match v
    case JsUndefined => Keep
    case JsArray(_) => CastFails
    case _ => if ToNumber(v).Some? then Write(ToNumber(v).value) else CastFails
  }

  /** The stored counter after its cast: kept when dropped from the update, else the cast value. */
  function Applied(c: CounterCast, stored: int): int
  {
    if c.Write? then c.n else stored
  }

  /** The CastError raised for the counter at `path`. */
  function CastErrorMessage(path: string): string
  {
    "Cast to Number failed at path \"" + path + "\""
  }

  /**
   * The `$set` of `updateTreeTracker` applied to a stored tracker: None when a
   * counter fails to cast, otherwise each given counter overwritten, each
   * absent one kept, and the activity date now.
   */
  function Overwritten(t: TreeTracker, green: JsValue, yellow: JsValue, harvested: JsValue, now: int): (r: Option<TreeTracker>)
    ensures r.None? <==> CastCounter(green).CastFails? || CastCounter(yellow).CastFails? || CastCounter(harvested).CastFails?
    ensures r.Some? ==> r.value.totalGreenLeaves == (if green.JsUndefined? then t.totalGreenLeaves else ToNumber(green).value)
    ensures r.Some? ==> r.value.totalYellowLeaves == (if yellow.JsUndefined? then t.totalYellowLeaves else ToNumber(yellow).value)
    ensures r.Some? ==> r.value.totalFruitsHarvested == (if harvested.JsUndefined? then t.totalFruitsHarvested else ToNumber(harvested).value)
    ensures r.Some? ==> r.value.lastActivityDate == now
  {
    var g, y, h := CastCounter(green), CastCounter(yellow), CastCounter(harvested);
    if g.CastFails? || y.CastFails? || h.CastFails? then None
    else Some(t.(totalGreenLeaves := Applied(g, t.totalGreenLeaves),
                 totalYellowLeaves := Applied(y, t.totalYellowLeaves),
                 totalFruitsHarvested := Applied(h, t.totalFruitsHarvested),
                 lastActivityDate := now))
  }

  /** The message of the first CastError among the three counters, in the order of the `$set`. */
  function FirstCastError(green: JsValue, yellow: JsValue, harvested: JsValue): string
  {
    if CastCounter(green).CastFails? then CastErrorMessage("totalGreenLeaves")
    else if CastCounter(yellow).CastFails? then CastErrorMessage("totalYellowLeaves")
    else CastErrorMessage("totalFruitsHarvested")
  }

  /**
   * `updateTreeTracker`: the update is cast before it is sent, so a counter
   * that fails to cast answers 500 whether or not a tracker exists; otherwise
   * 404 without a tracker, or the tracker with the `$set` applied.
   */
  method UpdateTreeTracker(trackers: TrackerStore, userId: UserId, green: JsValue, yellow: JsValue, harvested: JsValue, now: int)
    returns (r: Result<TreeTracker>)
    modifies trackers
    ensures CastCounter(green).CastFails? || CastCounter(yellow).CastFails? || CastCounter(harvested).CastFails? ==>
      r == Err(500, FirstCastError(green, yellow, harvested)) && trackers.trackers == old(trackers.trackers)
    ensures !CastCounter(green).CastFails? && !CastCounter(yellow).CastFails? && !CastCounter(harvested).CastFails? ==>
      (userId !in old(trackers.trackers) ==>
        r == Err(404, "Tree tracker tidak ditemukan.") && trackers.trackers == old(trackers.trackers))
      && (userId in old(trackers.trackers) ==>
        Overwritten(old(trackers.trackers)[userId], green, yellow, harvested, now).Some?
        && r == Ok(Overwritten(old(trackers.trackers)[userId], green, yellow, harvested, now).value)
        && trackers.trackers == old(trackers.trackers)[userId := r.value])
  {
    if CastCounter(green).CastFails? || CastCounter(yellow).CastFails? || CastCounter(harvested).CastFails? {
      return Err(500, FirstCastError(green, yellow, harvested));
    }
    if userId !in trackers.trackers {
      return Err(404, "Tree tracker tidak ditemukan.");
    }
    var t := Overwritten(trackers.trackers[userId], green, yellow, harvested, now);
    trackers.trackers := trackers.trackers[userId := t.value];
    return Ok(t.value);
  }

  /** `createNewTreeTracker`: 400 with the existing tracker, or 201 with a new zeroed one. */
  method CreateNewTreeTracker(trackers: TrackerStore, userId: UserId, now: int) returns (status: int, t: TreeTracker)
    modifies trackers
    ensures userId in old(trackers.trackers) ==>
      status == 400 && t == old(trackers.trackers)[userId] && trackers.trackers == old(trackers.trackers)
    ensures userId !in old(trackers.trackers) ==>
      status == 201 && t == NewTracker(now) && trackers.trackers == old(trackers.trackers)[userId := t]
  {
    if userId in trackers.trackers {
      return 400, trackers.trackers[userId];
    }
    t := NewTracker(now);
    trackers.trackers := trackers.trackers[userId := t];
    return 201, t;
  }
}

=== FILE: user_management_validators.dfy ===
/**
 * The validator of an administrator's user update: each of `email`,
 * `username`, `role` and `phoneNumber` is checked only when it is present,
 * in that order, and the first failing check answers 422.
 */
module UserManagementValidators {
  import opened Common
  import opened Validators
  import UsernameUtils

  const MsgEmailEmpty := "Email tidak boleh kosong"
  const MsgEmailFormat := "Format email tidak valid"
  const MsgUsernameEmpty := "Username tidak boleh kosong"
  const MsgUsernameLength := "Username harus 3-30 karakter"
  const MsgRole := "Role harus 'user' atau 'admin'"
  const MsgPhone := "Format nomor telepon tidak valid"

  const UpdateUsernameMin := 3
  const UpdateUsernameMax := 30

  function Invalid(details: string): Verdict
  {
    Reject(UnprocessableEntity, ValidationError, details)
  }

  /** The e-mail, when given, is neither "" nor badly formed. */
  function EmailCheck(v: JsValue, emailSyntax: string -> bool): (r: Verdict)
    ensures r == Next <==> v == JsUndefined || (v != JsStr("") && IsEmail(emailSyntax, v))
    ensures v == JsStr("") ==> r == Invalid(MsgEmailEmpty)
    ensures r != Next ==> r == Invalid(MsgEmailEmpty) || r == Invalid(MsgEmailFormat)
  {
    if v == JsUndefined then Next
    else if v == JsStr("") then Invalid(MsgEmailEmpty)
    else if !IsEmail(emailSyntax, v) then Invalid(MsgEmailFormat)
    else Next
  }

  /**
   * The username, when given, is not "" and its `length` is not outside
   * 3..30; a value without a length passes, and null throws.
   */
  function UsernameCheck(v: JsValue): (r: Verdict)
    ensures v == JsNull ==> r == Thrown
    ensures v.JsStr? ==> (r == Next <==> UpdateUsernameMin <= |v.s| <= UpdateUsernameMax)
    ensures v.JsStr? && r != Next ==> r == Invalid(if v.s == "" then MsgUsernameEmpty else MsgUsernameLength)
    ensures v.JsBool? || v.JsNum? || v.JsObject? || v == JsUndefined ==> r == Next
  {
    if v == JsUndefined then Next
    else if v == JsStr("") then Invalid(MsgUsernameEmpty)
    else if v == JsNull then Thrown
    else
      var length := JsLength(v);
      if length.Some? && (length.value < UpdateUsernameMin || length.value > UpdateUsernameMax) then Invalid(MsgUsernameLength)
      else Next
  }

  /** `["user", "admin"].includes(role)` when the role is given. */
  function RoleCheck(v: JsValue): (r: Verdict)
    ensures r == Next <==> v in {JsUndefined, JsStr("user"), JsStr("admin")}
    ensures r != Next ==> r == Invalid(MsgRole)
  {
    if v != JsUndefined && v != JsStr("user") && v != JsStr("admin") then Invalid(MsgRole) else Next
  }

  /** A character of `/[0-9+\-\s()]/`. */
  predicate PhoneChar(c: char)
  {
    IsDigit(c) || c == '+' || c == '-' || IsSpace(c) || c == '(' || c == ')'
  }

  /** `/^[0-9+\-\s()]+$/.test(s)` */
  predicate PhonePattern(s: string)
  {
    |s| > 0 && forall i :: 0 <= i < |s| ==> PhoneChar(s[i])
  }

  /** The phone number, when neither absent, null nor "", matches the pattern after conversion to a string. */
  function PhoneCheck(v: JsValue): (r: Verdict)
    ensures IsNullish(v) || v == JsStr("") ==> r == Next
    ensures v.JsStr? && v.s != "" ==> (r == Next <==> PhonePattern(v.s))
    ensures r != Next ==> r == Invalid(MsgPhone)
  {
    if !IsNullish(v) && v != JsStr("") && !PhonePattern(JsToString(v)) then Invalid(MsgPhone) else Next
  }

  /** The four checks' verdicts, in the order they are made. */
  function FieldVerdicts(body: Body, emailSyntax: string -> bool): (vs: seq<Verdict>)
    ensures |vs| == 4
    ensures vs[0] == EmailCheck(Field(body, "email"), emailSyntax)
    ensures vs[1] == UsernameCheck(Field(body, "username"))
    ensures vs[2] == RoleCheck(Field(body, "role"))
    ensures vs[3] == PhoneCheck(Field(body, "phoneNumber"))
  {
    [ EmailCheck(Field(body, "email"), emailSyntax),
      UsernameCheck(Field(body, "username")),
      RoleCheck(Field(body, "role")),
      PhoneCheck(Field(body, "phoneNumber")) ]
  }

  /** The first verdict that is not `Next`, or `Next`. */
  function FirstFailure(vs: seq<Verdict>): (r: Verdict)
    ensures r == Next <==> forall i :: 0 <= i < |vs| ==> vs[i] == Next
    ensures r != Next ==> exists i :: 0 <= i < |vs| && r == vs[i] && forall j :: 0 <= j < i ==> vs[j] == Next
  {
    if |vs| == 0 then Next
    else if vs[0] != Next then vs[0]
    else
      var r := FirstFailure(vs[1..]);
      assert forall i :: 1 <= i < |vs| ==> vs[i] == vs[1..][i - 1];
      r
  }

  /**
   * `validateUserUpdate()(req, res, next)`: `next()` exactly when every
   * given field passes; otherwise the verdict of the first field that fails.
   */
  function UserUpdateVerdict(body: Body, emailSyntax: string -> bool): (r: Verdict)
    ensures r == Next <==>
      EmailCheck(Field(body, "email"), emailSyntax) == Next
      && UsernameCheck(Field(body, "username")) == Next
      && RoleCheck(Field(body, "role")) == Next
      && PhoneCheck(Field(body, "phoneNumber")) == Next
    ensures EmailCheck(Field(body, "email"), emailSyntax) != Next ==> r == EmailCheck(Field(body, "email"), emailSyntax)
    ensures (EmailCheck(Field(body, "email"), emailSyntax) == Next
      && UsernameCheck(Field(body, "username")) != Next) ==>
      r == UsernameCheck(Field(body, "username"))
    ensures (EmailCheck(Field(body, "email"), emailSyntax) == Next
      && UsernameCheck(Field(body, "username")) == Next
      && RoleCheck(Field(body, "role")) != Next) ==>
      r == RoleCheck(Field(body, "role"))
    ensures (EmailCheck(Field(body, "email"), emailSyntax) == Next
      && UsernameCheck(Field(body, "username")) == Next
      && RoleCheck(Field(body, "role")) == Next
      && PhoneCheck(Field(body, "phoneNumber")) != Next) ==>
      r == PhoneCheck(Field(body, "phoneNumber"))
  {
    var vs := FieldVerdicts(body, emailSyntax);
    var r := FirstFailure(vs);
    assert r == Next <==> vs[0] == Next && vs[1] == Next && vs[2] == Next && vs[3] == Next;
    r
  }

  /** Fields that are absent are not checked: an update that changes nothing passes. */
  lemma EmptyUpdatePasses(emailSyntax: string -> bool)
    ensures UserUpdateVerdict(map[], emailSyntax) == Next
  {
    assert Field(map[], "email") == JsUndefined;
    assert Field(map[], "username") == JsUndefined;
    assert Field(map[], "role") == JsUndefined;
    assert Field(map[], "phoneNumber") == JsUndefined;
  }

  /** Fields the validator does not know about are not checked. */
  lemma OtherFieldsIgnored(body: Body, key: string, value: JsValue, emailSyntax: string -> bool)
    requires key !in {"email", "username", "role", "phoneNumber"}
    ensures UserUpdateVerdict(body[key := value], emailSyntax) == UserUpdateVerdict(body, emailSyntax)
  {
    var body' := body[key := value];
    assert Field(body', "email") == Field(body, "email");
    assert Field(body', "username") == Field(body, "username");
    assert Field(body', "role") == Field(body, "role");
    assert Field(body', "phoneNumber") == Field(body, "phoneNumber");
    assert FieldVerdicts(body', emailSyntax) == FieldVerdicts(body, emailSyntax);
  }

  /**
   * The two username rules disagree on two-character names: such a name is
   * a normal form of `normalizeUsername`, yet this validator refuses it.
   */
  lemma TwoCharacterUsernameRefused(u: string)
    requires UsernameUtils.WellFormed(u) && |u| == 2
    ensures UsernameCheck(JsStr(u)) == Invalid(MsgUsernameLength)
  {
  }

  /** Every other normal form of `normalizeUsername` passes the username check. */
  lemma NormalUsernameAccepted(u: string)
    requires UsernameUtils.WellFormed(u) && |u| >= 3
    ensures UsernameCheck(JsStr(u)) == Next
  {
  }
}

=== FILE: username_service.dfy ===
/**
 * Username suggestions: candidates derived from a base name (the base
 * itself, the base with a word appended, or the base with a random
 * three-digit number appended), filtered against the usernames already
 * taken.
 *
 * `Math.random` is a parameter `random`; the `n`-th attempt draws
 * `random(n)`, and the two fallbacks draw from negative positions. The taken
 * usernames are a parameter `usernames`.
 */
module UsernameService {
  import opened Common
  import opened UsernameUtils

  const DefaultSuggestionCount: nat := 5
  const MaxSuggestionAttempts: nat := 60
  const FallbackBase := "user"
  const AltSuffixes: seq<string> := ["eco", "green", "hero", "leaf", "earth"]

  /** `Math.floor(100 + Math.random() * 900)`: a three-digit number. */
  function RandomSuffix(r: real): (n: nat)
    requires 0.0 <= r < 1.0
    ensures 100 <= n <= 999
  {
    (100.0 + r * 900.0).Floor
  }

  /**
   * `buildCandidate(base, attempt)`: attempt 0 of a base of at least two
   * characters is the base cut to 30; otherwise the base (or "user" when it
   * is too short) followed by "eco" on every fifth attempt and by a random
   * three-digit number on the others, cut to 30.
   */
  function BuildCandidate(base: string, attempt: nat, r: real): (c: string)
    requires 0.0 <= r < 1.0
    ensures UsernameMinLength <= |c| <= UsernameMaxLength
  {
    var trimmedBase := Prefix(base, UsernameMaxLength);
    if attempt == 0 && |trimmedBase| >= UsernameMinLength then trimmedBase
    else
      var randomSuffix := NatToString(RandomSuffix(r));
      var stem := if |trimmedBase| < UsernameMinLength then FallbackBase else trimmedBase;
      var appended := if attempt % 5 == 0 then stem + AltSuffixes[attempt % |AltSuffixes|] else stem + randomSuffix;
      var candidate := Prefix(appended, UsernameMaxLength);
      if |candidate| < UsernameMinLength then Prefix(FallbackBase + randomSuffix, UsernameMaxLength)
      else candidate
  }

  /**
   * What a candidate is: the base itself on attempt 0, otherwise the base
   * (or "user") with "eco" or the drawn three-digit number appended, cut to
   * 30 characters; never the unused further fallback.
   */
  lemma CandidateShape(base: string, attempt: nat, r: real)
    requires 0.0 <= r < 1.0
    ensures attempt == 0 && |Prefix(base, UsernameMaxLength)| >= UsernameMinLength ==>
      BuildCandidate(base, attempt, r) == Prefix(base, UsernameMaxLength)
    ensures !(attempt == 0 && |Prefix(base, UsernameMaxLength)| >= UsernameMinLength) ==>
      var stem := if |Prefix(base, UsernameMaxLength)| < UsernameMinLength then FallbackBase else Prefix(base, UsernameMaxLength);
      BuildCandidate(base, attempt, r)
      == Prefix(stem + (if attempt % 5 == 0 then "eco" else NatToString(RandomSuffix(r))), UsernameMaxLength)
  {
  }

  /** On every fifth attempt the appended word is "eco", whatever the draw. */
  lemma EveryFifthIsEco(base: string, attempt: nat, r: real, r': real)
    requires 0.0 <= r < 1.0 && 0.0 <= r' < 1.0
    requires attempt % 5 == 0 && attempt > 0
    ensures BuildCandidate(base, attempt, r) == BuildCandidate(base, attempt, r')
  {
  }

  /** The base the suggestions grow from: the given one cut to 30, or "user" when shorter than two characters. */
  function NormalizedBase(base: string): (b: string)
    ensures UsernameMinLength <= |b| <= UsernameMaxLength
    ensures |base| < UsernameMinLength ==> b == FallbackBase
    ensures |base| >= UsernameMinLength ==> b == Prefix(base, UsernameMaxLength)
  {
    if |base| >= UsernameMinLength then Prefix(base, UsernameMaxLength) else FallbackBase
  }

  /** The candidate of each attempt `a`, drawing `random(a)`. */
  function CandidateOf(nb: string, random: int -> real): (candidateOf: nat -> string)
    requires UnitInterval(random)
    ensures forall a: nat :: candidateOf(a) == BuildCandidate(nb, a, random(a))
    ensures ShapedCandidates(candidateOf)
  {
    (a: nat) => BuildCandidate(nb, a, random(a))
  }

  /** `s` is the candidate of one of the allowed attempts. */
  ghost predicate Among(candidateOf: nat -> string, s: string)
  {
    exists a: nat :: a < MaxSuggestionAttempts && s == candidateOf(a)
  }

  /** Every attempt's candidate has a username's length. */
  ghost predicate ShapedCandidates(candidateOf: nat -> string)
  {
    forall a: nat :: UsernameMinLength <= |candidateOf(a)| <= UsernameMaxLength
  }

  /** The suggestion of last resort, offered unchecked when every candidate is taken. */
  function LastResort(random: int -> real): string
    requires UnitInterval(random)
  {
    BuildCandidate(FallbackBase, (random(-3) * 100.0).Floor, random(-4))
  }

  /** Every name in `s` has a username's length. */
  predicate ShapedNames(s: seq<string>)
  {
    forall x :: x in s ==> UsernameMinLength <= |x| <= UsernameMaxLength
  }

  /** What `available.slice(0, count)` keeps. */
  lemma SliceOfSuggestions(available: seq<string>, count: int)
    ensures forall x :: x in SliceTo(available, count) ==> x in available
    ensures Distinct(available) ==> Distinct(SliceTo(available, count))
    ensures count >= 1 && |available| >= 1 ==> 1 <= |SliceTo(available, count)| <= count
    ensures count <= 0 && |available| <= 1 ==> SliceTo(available, count) == []
    ensures |SliceTo(available, count)| < count ==> SliceTo(available, count) == available
  {
  }

  /** `candidates.filter((c) => !taken.has(c))` with `taken` the candidates already used. */
  function Unused(candidates: seq<string>, usernames: set<string>): (r: seq<string>)
    ensures |r| <= |candidates|
    ensures forall x :: x in r <==> x in candidates && x !in usernames
    ensures Distinct(candidates) ==> Distinct(r)
  {
    if |candidates| == 0 then []
    else
      var init := Unused(candidates[..|candidates| - 1], usernames);
      var last := candidates[|candidates| - 1];
      assert forall x :: x in candidates[..|candidates| - 1] ==> x in candidates;
      assert forall x :: x in candidates ==> x in candidates[..|candidates| - 1] || x == last;
      if last in usernames then init else init + [last]
  }

  /**
   * The first loop of `generateUsernameSuggestions`: attempts from 0 on,
   * each new candidate kept once in the order met, until `count * 3` are kept
   * or 60 attempts are spent.
   */
  method FirstCandidates(candidateOf: nat -> string, count: int) returns (attempted: seq<string>, attempts: nat)
    requires ShapedCandidates(candidateOf)
    ensures attempts <= MaxSuggestionAttempts
    ensures count <= 0 ==> attempted == []
    ensures count >= 1 ==> |attempted| > 0
    ensures Distinct(attempted) && ShapedNames(attempted)
    ensures forall k :: 0 <= k < |attempted| ==> Among(candidateOf, attempted[k])
    ensures forall a: nat :: a < attempts ==> candidateOf(a) in attempted
  {
    attempted := [];
    attempts := 0;
    while attempts < MaxSuggestionAttempts && |attempted| < count * 3
      invariant attempts <= MaxSuggestionAttempts
      invariant count <= 0 ==> attempts == 0 && attempted == []
      invariant attempts > 0 ==> |attempted| > 0
      invariant Distinct(attempted) && ShapedNames(attempted)
      invariant forall k :: 0 <= k < |attempted| ==> Among(candidateOf, attempted[k])
      invariant forall a: nat :: a < attempts ==> candidateOf(a) in attempted
      decreases MaxSuggestionAttempts - attempts
    {
      var candidate := candidateOf(attempts);
      if candidate !in attempted {
        attempted := attempted + [candidate];
      }
      attempts := attempts + 1;
    }
  }

  /**
   * The second loop of `generateUsernameSuggestions`: further attempts while
   * fewer than `count` are free, a free new candidate appended, a taken one
   * remembered as taken.
   */
  method TopUp(candidateOf: nat -> string, count: int, usernames: set<string>,
               available0: seq<string>, taken0: set<string>, attempts0: nat)
    returns (available: seq<string>, attempts: nat)
    requires ShapedCandidates(candidateOf)
    requires attempts0 <= MaxSuggestionAttempts
    requires Distinct(available0) && ShapedNames(available0)
    requires forall x :: x in taken0 ==> x in usernames
    requires forall k :: 0 <= k < |available0| ==> available0[k] !in usernames
    requires forall a: nat :: a < attempts0 && candidateOf(a) !in usernames ==>
      candidateOf(a) in available0
    ensures attempts <= MaxSuggestionAttempts
    ensures |available| < count ==> attempts == MaxSuggestionAttempts
    ensures count <= |available0| ==> available == available0
    ensures Distinct(available) && ShapedNames(available)
    ensures forall k :: 0 <= k < |available| ==> available[k] !in usernames
    ensures forall k :: 0 <= k < |available| ==> available[k] in available0 || Among(candidateOf, available[k])
    ensures forall a: nat :: a < attempts && candidateOf(a) !in usernames ==>
      candidateOf(a) in available
  {
    available := available0;
    attempts := attempts0;
    var taken := taken0;
    while |available| < count && attempts < MaxSuggestionAttempts
      invariant attempts <= MaxSuggestionAttempts
      invariant count <= |available0| ==> available == available0
      invariant Distinct(available) && ShapedNames(available)
      invariant forall x :: x in taken ==> x in usernames
      invariant forall k :: 0 <= k < |available| ==> available[k] !in usernames
      invariant forall k :: 0 <= k < |available| ==> available[k] in available0 || Among(candidateOf, available[k])
      invariant forall a: nat :: a < attempts && candidateOf(a) !in usernames ==>
        candidateOf(a) in available
      decreases MaxSuggestionAttempts - attempts
    {
      var candidate := candidateOf(attempts);
      attempts := attempts + 1;
      if candidate !in taken && candidate !in available {
        if candidate !in usernames {
          available := available + [candidate];
        } else {
          taken := taken + {candidate};
        }
      }
    }
  }

  /**
   * The body of `generateUsernameSuggestions` for any candidate of each
   * attempt, `firstFallback` the candidate used when the first loop kept
   * none and `lastResort` the one suggested when nothing is free.
   */
  method SuggestFrom(candidateOf: nat -> string, count: int, usernames: set<string>, firstFallback: string, lastResort: string)
    returns (suggestions: seq<string>)
    requires ShapedCandidates(candidateOf)
    requires UsernameMinLength <= |firstFallback| <= UsernameMaxLength
    requires UsernameMinLength <= |lastResort| <= UsernameMaxLength
    ensures ShapedNames(suggestions)
    ensures Distinct(suggestions)
    ensures count <= 0 ==> suggestions == []
    ensures count >= 1 ==> 1 <= |suggestions| <= count
    ensures count >= 1 ==>
      suggestions == [lastResort]
      || forall k :: 0 <= k < |suggestions| ==> suggestions[k] !in usernames && Among(candidateOf, suggestions[k])
    ensures count >= 1 && |suggestions| < count ==>
      forall a: nat :: a < MaxSuggestionAttempts && candidateOf(a) !in usernames ==> candidateOf(a) in suggestions
    ensures count >= 1 && (exists a: nat :: a < MaxSuggestionAttempts && candidateOf(a) !in usernames) ==>
      forall k :: 0 <= k < |suggestions| ==> suggestions[k] !in usernames && Among(candidateOf, suggestions[k])
  {
    var attempted, attempts := FirstCandidates(candidateOf, count);
    var candidates := attempted;
    if |candidates| == 0 {
      candidates := [firstFallback];
    }
    var available0 := Unused(candidates, usernames);
    var taken := set c | c in candidates && c in usernames;
    var available;
    available, attempts := TopUp(candidateOf, count, usernames, available0, taken, attempts);
    assert count >= 1 ==> forall k :: 0 <= k < |available| ==> Among(candidateOf, available[k]) by {
      if count >= 1 {
        forall k | 0 <= k < |available|
          ensures Among(candidateOf, available[k])
        {
          if available[k] in available0 {
            var j :| 0 <= j < |attempted| && attempted[j] == available[k];
          }
        }
      }
    }
    var offered := available;
    if |offered| == 0 {
      offered := [lastResort];
    }
    suggestions := SliceTo(offered, count);
    SuggestionsOffered(candidateOf, count, usernames, lastResort, available, offered);
  }

  /** The first `count` names offered: the free candidates found, or the last resort when there are none. */
  lemma SuggestionsOffered(candidateOf: nat -> string, count: int, usernames: set<string>, lastResort: string,
                           available: seq<string>, offered: seq<string>)
    requires UsernameMinLength <= |lastResort| <= UsernameMaxLength
    requires Distinct(available) && ShapedNames(available)
    requires offered == if |available| == 0 then [lastResort] else available
    requires count <= 0 ==> |available| <= 1
    requires forall k :: 0 <= k < |available| ==> available[k] !in usernames
    requires count >= 1 ==> forall k :: 0 <= k < |available| ==> Among(candidateOf, available[k])
    requires |available| < count ==>
      forall a: nat :: a < MaxSuggestionAttempts && candidateOf(a) !in usernames ==> candidateOf(a) in available
    ensures var s := SliceTo(offered, count);
      && ShapedNames(s) && Distinct(s)
      && (count <= 0 ==> s == [])
      && (count >= 1 ==> 1 <= |s| <= count)
      && (count >= 1 ==> s == [lastResort] || forall k :: 0 <= k < |s| ==> s[k] !in usernames && Among(candidateOf, s[k]))
      && (count >= 1 && |s| < count ==>
            forall a: nat :: a < MaxSuggestionAttempts && candidateOf(a) !in usernames ==> candidateOf(a) in s)
      && (count >= 1 && (exists a: nat :: a < MaxSuggestionAttempts && candidateOf(a) !in usernames) ==>
            forall k :: 0 <= k < |s| ==> s[k] !in usernames && Among(candidateOf, s[k]))
  {
    SliceOfSuggestions(offered, count);
    var s := SliceTo(offered, count);
    if count >= 1 && (exists a: nat :: a < MaxSuggestionAttempts && candidateOf(a) !in usernames) {
      var a: nat :| a < MaxSuggestionAttempts && candidateOf(a) !in usernames;
      if |available| == 0 {
        assert false;
      }
    }
    if count >= 1 && |available| > 0 {
      forall k | 0 <= k < |s|
        ensures s[k] !in usernames && Among(candidateOf, s[k])
      {
        assert s[k] == available[k];
      }
    }
  }

  /**
   * `generateUsernameSuggestions(base, count)`: up to `count * 3` distinct
   * candidates from the first attempts, those not taken kept, then further
   * attempts until `count` are free or 60 attempts are spent; at most
   * `count` of the free ones are suggested. Only when none of the 60
   * attempts is free is a last-resort candidate suggested, without a check.
   */
  method GenerateUsernameSuggestions(base: string, count: int, random: int -> real, usernames: set<string>)
    returns (suggestions: seq<string>)
    requires UnitInterval(random)
    ensures ShapedNames(suggestions)
    ensures Distinct(suggestions)
    ensures count <= 0 ==> suggestions == []
    ensures count >= 1 ==> 1 <= |suggestions| <= count
    ensures count >= 1 ==>
      suggestions == [LastResort(random)]
      || forall k :: 0 <= k < |suggestions| ==>
           suggestions[k] !in usernames && Among(CandidateOf(NormalizedBase(base), random), suggestions[k])
    ensures count >= 1 && |suggestions| < count ==>
      forall a: nat :: a < MaxSuggestionAttempts && CandidateOf(NormalizedBase(base), random)(a) !in usernames ==>
        CandidateOf(NormalizedBase(base), random)(a) in suggestions
    ensures count >= 1 && (exists a: nat :: a < MaxSuggestionAttempts && CandidateOf(NormalizedBase(base), random)(a) !in usernames) ==>
      forall k :: 0 <= k < |suggestions| ==>
        suggestions[k] !in usernames && Among(CandidateOf(NormalizedBase(base), random), suggestions[k])
  {
    var candidateOf := CandidateOf(NormalizedBase(base), random);
    var firstFallback := BuildCandidate(FallbackBase, (random(-1) * 10.0).Floor, random(-2));
    suggestions := SuggestFrom(candidateOf, count, usernames, firstFallback, LastResort(random));
  }
}

=== FILE: username_utils.dfy ===
/**
 * The normal form of a username: typed as "@name" (the "@" required or
 * optional), surrounding white space dropped, lower-cased, between 2 and 30
 * characters of letters, digits, '.', '_' and '-'.
 */
module UsernameUtils {
  import opened Common

  const UsernameMinLength: nat := 2
  const UsernameMaxLength: nat := 30

  /** `normalizeUsername`'s outcome: the normal form, or the validation error's message. */
  datatype Normalized = Valid(name: string) | Invalid(message: string)

  const MsgRequired := "Username wajib diisi"
  const MsgNotString := "Username harus berupa string"
  const MsgNeedsAt := "Username harus diawali @"
  const MsgTooShort := "Username minimal 2 karakter"
  const MsgTooLong := "Username maksimal 30 karakter"
  const MsgSpace := "Username tidak boleh mengandung spasi"
  const MsgChars := "Username hanya boleh huruf, angka, titik, underscore, atau strip"

  /** A character of `/^[A-Za-z0-9._-]+$/`. */
  predicate AllowedChar(c: char)
  {
    IsAlnumAscii(c) || c == '.' || c == '_' || c == '-'
  }

  predicate AllowedChars(s: string)
  {
    forall i :: 0 <= i < |s| ==> AllowedChar(s[i])
  }

  /** What a successful, non-empty normalisation yields. */
  predicate WellFormed(u: string)
  {
    UsernameMinLength <= |u| <= UsernameMaxLength && IsLowered(u) && NoSpace(u) && AllowedChars(u)
  }

  /** `value.startsWith("@")` */
  predicate StartsWithAt(s: string)
  {
    |s| > 0 && s[0] == '@'
  }

  /** The checks on the lower-cased name, in the order `normalizeUsername` makes them. */
  function CheckNormalized(normalized: string): (r: Normalized)
    requires IsLowered(normalized)
    ensures r.Valid? <==> WellFormed(normalized)
    ensures r.Valid? ==> r.name == normalized
  {
    if |normalized| < UsernameMinLength then Invalid(MsgTooShort)
    else if |normalized| > UsernameMaxLength then Invalid(MsgTooLong)
    else if !NoSpace(normalized) then Invalid(MsgSpace)
    else if !AllowedChars(normalized) then Invalid(MsgChars)
    else Valid(normalized)
  }

  /**
   * `normalizeUsername(rawInput, { requireAt, allowEmpty })`: null or
   * undefined is empty; anything else that is not a string is refused; the
   * trimmed text must start with "@" when `requireAt` and may otherwise; the
   * rest, trimmed and lower-cased, must be a well-formed name. An empty name
   * is accepted as "" exactly when `allowEmpty`.
   */
  function NormalizeUsername(raw: JsValue, requireAt: bool, allowEmpty: bool): (r: Normalized)
    ensures IsNullish(raw) ==> r == (if allowEmpty then Valid("") else Invalid(MsgRequired))
    ensures !IsNullish(raw) && !raw.JsStr? ==> r == Invalid(MsgNotString)
    ensures requireAt && raw.JsStr? && Trim(raw.s) != "" && !StartsWithAt(Trim(raw.s)) ==> r == Invalid(MsgNeedsAt)
    ensures raw.JsStr? && Trim(raw.s) == "" ==>
      r == (if allowEmpty then Valid("") else if requireAt then Invalid(MsgNeedsAt) else Invalid(MsgRequired))
    ensures raw.JsStr? && StartsWithAt(Trim(raw.s)) && Trim(Trim(raw.s)[1..]) == "" ==>
      r == (if allowEmpty then Valid("") else Invalid(MsgRequired))
    ensures r.Valid? && r.name != "" ==> WellFormed(r.name)
    ensures r == Valid("") ==> allowEmpty
  {
    if IsNullish(raw) then
      if allowEmpty then Valid("") else Invalid(MsgRequired)
    else if !raw.JsStr? then Invalid(MsgNotString)
    else NormalizeText(Trim(raw.s), requireAt, allowEmpty)
  }

  /** The trimmed text: empty, or refused without its "@", or its name after the "@" checked. */
  function NormalizeText(value: string, requireAt: bool, allowEmpty: bool): (r: Normalized)
    ensures requireAt && value != "" && !StartsWithAt(value) ==> r == Invalid(MsgNeedsAt)
    ensures value == "" ==>
      r == (if allowEmpty then Valid("") else if requireAt then Invalid(MsgNeedsAt) else Invalid(MsgRequired))
    ensures StartsWithAt(value) && Trim(value[1..]) == "" ==>
      r == (if allowEmpty then Valid("") else Invalid(MsgRequired))
    ensures r.Valid? && r.name != "" ==> WellFormed(r.name)
    ensures r == Valid("") ==> allowEmpty
  {
    if value == "" && allowEmpty then Valid("")
    else if requireAt && !StartsWithAt(value) then Invalid(MsgNeedsAt)
    else NormalizeRest(Trim(if StartsWithAt(value) then value[1..] else value), allowEmpty)
  }

  /** The name after the "@", trimmed: empty, or lower-cased and checked. */
  function NormalizeRest(rest: string, allowEmpty: bool): (r: Normalized)
    ensures r.Valid? && r.name != "" ==> WellFormed(r.name)
    ensures r == Valid("") ==> allowEmpty
  {
    if rest == "" then
      if allowEmpty then Valid("") else Invalid(MsgRequired)
    else
      LowerIsLowered(rest);
      CheckNormalized(Lower(rest))
  }

  lemma LowerIsLowered(s: string)
    ensures IsLowered(Lower(s))
  {
  }

  /** A lower-cased well-formed name is unchanged by upper-casing and lower-casing again. */
  lemma LowerOfUpper(u: string)
    requires WellFormed(u)
    ensures Lower(Upper(u)) == u
  {
    LowerUpper(u);
    forall i | 0 <= i < |u|
      ensures Lower(u)[i] == u[i]
    {
    }
  }

  /**
   * Normalising is a round trip: a normalised name typed back as "@name",
   * in any case and with any surrounding white space, normalises to itself,
   * whichever the options.
   */
  lemma NormalizeRoundTrip(u: string, pad: string, requireAt: bool, allowEmpty: bool)
    requires WellFormed(u)
    requires forall k :: 0 <= k < |pad| ==> IsSpace(pad[k])
    ensures NormalizeUsername(JsStr(pad + "@" + Upper(u) + pad), requireAt, allowEmpty) == Valid(u)
  {
    var up := Upper(u);
    UpperNoSpace(u);
    PaddedAt(pad, up);
    TrimNoSpace(up);
    LowerOfUpper(u);
    NormalizeAtName(pad + "@" + up + pad, up, requireAt, allowEmpty);
  }

  /** Upper-casing a well-formed name brings in no white space. */
  lemma UpperNoSpace(u: string)
    requires WellFormed(u)
    ensures |Upper(u)| > 0 && NoSpace(Upper(u))
  {
    var up := Upper(u);
    forall i | 0 <= i < |up|
      ensures !IsSpace(up[i])
    {
      assert up[i] == UpperChar(u[i]);
    }
  }

  /** Padding around "@" and a name without white space is trimmed away. */
  lemma PaddedAt(pad: string, up: string)
    requires forall k :: 0 <= k < |pad| ==> IsSpace(pad[k])
    requires |up| > 0 && NoSpace(up)
    ensures Trim(pad + "@" + up + pad) == "@" + up
  {
    var body := "@" + up;
    assert body[|body| - 1] == up[|up| - 1];
    assert pad + "@" + up + pad == pad + body + pad;
    PaddedTrim(pad, body);
  }

  /** Text that trims to "@" and a trimmed name normalises to that name lower-cased, when that is well formed. */
  lemma NormalizeAtName(raw: string, x: string, requireAt: bool, allowEmpty: bool)
    requires Trim(raw) == "@" + x && x != "" && Trim(x) == x && WellFormed(Lower(x))
    ensures NormalizeUsername(JsStr(raw), requireAt, allowEmpty) == Valid(Lower(x))
  {
    TextAfterAt("@" + x, x, requireAt, allowEmpty);
    LowerIsLowered(x);
    assert CheckNormalized(Lower(x)) == Valid(Lower(x));
    assert NormalizeRest(x, allowEmpty) == Valid(Lower(x));
    StringUsernameIsText(raw, requireAt, allowEmpty);
  }

  /** A string is normalised by its trimmed text. */
  lemma StringUsernameIsText(raw: string, requireAt: bool, allowEmpty: bool)
    ensures NormalizeUsername(JsStr(raw), requireAt, allowEmpty) == NormalizeText(Trim(raw), requireAt, allowEmpty)
  {
  }

  /** After a leading "@", the trimmed name is what is checked. */
  lemma TextAfterAt(value: string, x: string, requireAt: bool, allowEmpty: bool)
    requires value == "@" + x && Trim(x) == x
    ensures NormalizeText(value, requireAt, allowEmpty) == NormalizeRest(x, allowEmpty)
  {
    assert value[0] == '@' && value[1..] == x;
  }

  /** Without a required "@", a normalised name typed as it is normalises to itself. */
  lemma PlainNameAccepted(u: string, allowEmpty: bool)
    requires WellFormed(u)
    ensures NormalizeUsername(JsStr(u), false, allowEmpty) == Valid(u)
  {
    TrimNoSpace(u);
    assert !StartsWithAt(u) by {
      assert AllowedChar(u[0]);
    }
    TrimNoSpace(u);
    assert Lower(u) == u by {
      forall i | 0 <= i < |u|
        ensures Lower(u)[i] == u[i]
      {
      }
    }
  }

  /** With "@" required, the bare name is refused. */
  lemma BareNameRefused(u: string, allowEmpty: bool)
    requires WellFormed(u)
    ensures NormalizeUsername(JsStr(u), true, allowEmpty) == Invalid(MsgNeedsAt)
  {
    TrimNoSpace(u);
    assert AllowedChar(u[0]);
  }
}

=== FILE: validators.dfy ===
/**
 * Request-body validators run before the handlers: the required-fields
 * check and the registration check. A validator either passes the request
 * on (`next()`), answers with an error, or throws (reading `.length` of
 * null or undefined).
 *
 * The e-mail syntax test of the `validator` package is a parameter
 * `emailSyntax`.
 */
module Validators {
  import opened Common

  /** What a validator does with a request. */
  datatype Verdict =
    | Next
    | Reject(status: int, code: string, details: string)
    | Thrown

  type Body = map<string, JsValue>

  const ValidationError := "VALIDATION_ERROR"
  const PasswordNotMatch := "PASSWORD_NOT_MATCH"
  const UnprocessableEntity := 422
  const PasswordMinLength := 8

  /** `req.body[f]`: an absent key reads as undefined. */
  function Field(body: Body, f: string): (v: JsValue)
    ensures f !in body ==> v == JsUndefined
    ensures f in body ==> v == body[f]
  {
    if f in body then body[f] else JsUndefined
  }

  /** `v === undefined || v === null || v === ""` */
  predicate Missing(v: JsValue)
  {
    v == JsUndefined || v == JsNull || v == JsStr("")
  }

  /** The text `isEmail` hands to the syntax test: `String(value || "")`. */
  function EmailText(v: JsValue): (t: string)
    ensures !Truthy(v) ==> t == ""
    ensures v.JsStr? ==> t == v.s
  {
    if Truthy(v) then JsToString(v) else ""
  }

  /** `isEmail(value)` */
  predicate IsEmail(emailSyntax: string -> bool, v: JsValue)
  {
    emailSyntax(EmailText(v))
  }

  /** `v.length`: defined for strings and arrays, undefined for other values, a thrown error for null and undefined. */
  function JsLength(v: JsValue): (r: Option<nat>)
    requires !IsNullish(v)
    ensures r.Some? <==> v.JsStr? || v.JsArray?
    ensures v.JsStr? ==> r == Some(|v.s|)
  {
    match v
    case JsStr(s) => Some(|s|)
    case JsArray(items) => Some(|items|)
    case JsBool(_) => None
    case JsNum(_) => None
    case JsObject => None
  }

  /**
   * `a === b` on values read from a parsed body: primitives by type and
   * value; two arrays or objects are never the same object.
   */
  predicate StrictEquals(a: JsValue, b: JsValue)
  {
    match (a, b)
    case (JsUndefined, JsUndefined) => true
    case (JsNull, JsNull) => true
    case (JsBool(x), JsBool(y)) => x == y
    case (JsNum(x), JsNum(y)) => x == y
    case (JsStr(x), JsStr(y)) => x == y
    case _ => false
  }

  // ---------------------------------------------------------------------
  // requireBody(fields)
  // ---------------------------------------------------------------------

  /** The first of `fields` missing from the body, if any. */
  function FirstMissing(fields: seq<string>, body: Body): (r: Option<nat>)
    ensures r.None? <==> forall i :: 0 <= i < |fields| ==> !Missing(Field(body, fields[i]))
    ensures r.Some? ==>
      r.value < |fields| && Missing(Field(body, fields[r.value]))
      && forall i :: 0 <= i < r.value ==> !Missing(Field(body, fields[i]))
    decreases |fields|
  {
    if |fields| == 0 then None
    else
      match FirstMissing(fields[..|fields| - 1], body)
      case Some(i) => Some(i)
      case None => if Missing(Field(body, fields[|fields| - 1])) then Some(|fields| - 1) else None
  }

  /** The answer of `requireBody` naming a missing field. */
  function Required(f: string): Verdict
  {
    Reject(UnprocessableEntity, ValidationError, f + " is required")
  }

  /**
   * `requireBody(fields)(req, res, next)`: 422 naming the first listed field
   * that is undefined, null or "", otherwise `next()`.
   */
  method RequireBody(fields: seq<string>, body: Body) returns (v: Verdict)
    ensures v.Next? <==> FirstMissing(fields, body).None?
    ensures FirstMissing(fields, body).Some? ==> v == Required(fields[FirstMissing(fields, body).value])
    ensures v.Next? || v.Reject?
  {
    for i := 0 to |fields|
      invariant FirstMissing(fields[..i], body).None?
    {
      assert fields[..i + 1][..i] == fields[..i];
      if Missing(Field(body, fields[i])) {
        assert FirstMissing(fields[..i + 1], body) == Some(i);
        MissingPrefix(fields, i + 1, body);
        return Required(fields[i]);
      }
    }
    assert fields[..|fields|] == fields;
    return Next;
  }

  /** The first missing field of a prefix that has one is the first missing field of the whole list. */
  lemma {:induction false} MissingPrefix(fields: seq<string>, n: nat, body: Body)
    requires n <= |fields| && FirstMissing(fields[..n], body).Some?
    ensures FirstMissing(fields, body) == FirstMissing(fields[..n], body)
    decreases |fields| - n
  {
    if n < |fields| {
      assert fields[..n + 1][..n] == fields[..n];
      MissingPrefix(fields, n + 1, body);
    } else {
      assert fields[..n] == fields;
    }
  }

  /** Requiring more fields never lets through a body that fewer refused, and a body passing all fields passes any part of them. */
  lemma RequireFewer(fields: seq<string>, more: seq<string>, body: Body)
    requires FirstMissing(fields + more, body).None?
    ensures FirstMissing(fields, body).None? && FirstMissing(more, body).None?
  {
    forall i | 0 <= i < |fields|
      ensures !Missing(Field(body, fields[i]))
    {
      assert (fields + more)[i] == fields[i];
    }
    forall i | 0 <= i < |more|
      ensures !Missing(Field(body, more[i]))
    {
      assert (fields + more)[|fields| + i] == more[i];
    }
  }

  // ---------------------------------------------------------------------
  // validateRegister()
  // ---------------------------------------------------------------------

  const MsgInvalidEmail := "Invalid email format"
  const MsgShortPassword := "Password minimal 8 karakter"
  const MsgPasswordMismatch := "Password tidak sama"

  /**
   * The checks of `validateRegister`, in order: the e-mail, then the
   * password's length (a thrown error when there is no password), then
   * `password === confirm_password`.
   */
  function RegisterVerdict(body: Body, emailSyntax: string -> bool): (r: Verdict)
    ensures !IsEmail(emailSyntax, Field(body, "email")) ==> r == Reject(UnprocessableEntity, ValidationError, MsgInvalidEmail)
    ensures r == Thrown <==> IsEmail(emailSyntax, Field(body, "email")) && IsNullish(Field(body, "password"))
    ensures r == Next <==>
      IsEmail(emailSyntax, Field(body, "email"))
      && !IsNullish(Field(body, "password"))
      && !(JsLength(Field(body, "password")).Some? && JsLength(Field(body, "password")).value < PasswordMinLength)
      && StrictEquals(Field(body, "password"), Field(body, "confirm_password"))
    ensures (IsEmail(emailSyntax, Field(body, "email")) && !IsNullish(Field(body, "password"))
      && JsLength(Field(body, "password")).Some? && JsLength(Field(body, "password")).value < PasswordMinLength) ==>
      r == Reject(UnprocessableEntity, ValidationError, MsgShortPassword)
    ensures (IsEmail(emailSyntax, Field(body, "email")) && !IsNullish(Field(body, "password"))
      && !(JsLength(Field(body, "password")).Some? && JsLength(Field(body, "password")).value < PasswordMinLength)
      && !StrictEquals(Field(body, "password"), Field(body, "confirm_password"))) ==>
      r == Reject(UnprocessableEntity, PasswordNotMatch, MsgPasswordMismatch)
    ensures r == Next && Field(body, "password").JsStr? ==>
      |Field(body, "password").s| >= PasswordMinLength && Field(body, "confirm_password") == Field(body, "password")
  {
    var password := Field(body, "password");
    if !IsEmail(emailSyntax, Field(body, "email")) then Reject(UnprocessableEntity, ValidationError, MsgInvalidEmail)
    else if IsNullish(password) then Thrown
    else if JsLength(password).Some? && JsLength(password).value < PasswordMinLength then
      Reject(UnprocessableEntity, ValidationError, MsgShortPassword)
    else if !StrictEquals(password, Field(body, "confirm_password")) then
      Reject(UnprocessableEntity, PasswordNotMatch, MsgPasswordMismatch)
    else Next
  }

  /** A request and its parsed body, which `validateRegister` edits in place. */
  class Request {
    var body: Body

    constructor (body: Body)
      ensures this.body == body
    {
      this.body := body;
    }
  }

  /**
   * `validateRegister()(req, res, next)`: on success `confirm_password` is
   * deleted from the body before `next()`; otherwise the body is left alone.
   */
  method ValidateRegister(req: Request, emailSyntax: string -> bool) returns (v: Verdict)
    modifies req
    ensures v == RegisterVerdict(old(req.body), emailSyntax)
    ensures v.Next? ==> req.body == old(req.body) - {"confirm_password"}
    ensures !v.Next? ==> req.body == old(req.body)
  {
    v := RegisterVerdict(req.body, emailSyntax);
    if v.Next? {
      req.body := req.body - {"confirm_password"};
    }
  }

  /**
   * The check does not pass twice: once `confirm_password` is deleted, the
   * same body is refused as a mismatch.
   */
  lemma RegisterNotRepeatable(body: Body, emailSyntax: string -> bool)
    requires RegisterVerdict(body, emailSyntax) == Next
    ensures RegisterVerdict(body - {"confirm_password"}, emailSyntax)
         == Reject(UnprocessableEntity, PasswordNotMatch, MsgPasswordMismatch)
  {
    var after := body - {"confirm_password"};
    assert Field(after, "email") == Field(body, "email");
    assert Field(after, "password") == Field(body, "password");
    assert Field(after, "confirm_password") == JsUndefined;
  }

  /** A well-formed registration passes: a valid e-mail and the same password of at least 8 characters twice. */
  lemma RegisterAccepts(email: string, password: string, emailSyntax: string -> bool)
    requires email != "" && emailSyntax(email) && |password| >= PasswordMinLength
    ensures RegisterVerdict(map["email" := JsStr(email), "password" := JsStr(password), "confirm_password" := JsStr(password)], emailSyntax) == Next
  {
  }
}

=== FILE: voucher_service.dfy ===
/**
 * Vouchers and their redemption. A voucher is redeemable while it is active,
 * inside its validity window and not sold out; redeeming one spends the
 * voucher's price from the user's point total, takes one unit of stock,
 * stores a redemption with a fresh code and writes a "voucher" entry of the
 * negative price to the points ledger. Times are millisecond timestamps;
 * a voucher's status is derived, never stored.
 */
module VoucherService {
  import opened Common
  import opened Entities
  import PointsHistory

  type VoucherId = nat
  type RedemptionId = nat

  /** The values the schema accepts for `category`. */
  const VoucherCategories := ["eco-action", "health", "learning", "other"]

  /**
   * The stored fields the voucher rules read and write (descriptive text,
   * images and links are not modelled).
   */
  datatype Voucher = Voucher(
    slug: string,
    name: string,
    category: string,
    pointsRequired: int,
    stock: Option<int>,
    redeemedCount: int,
    isActive: bool,
    validFrom: Option<int>,
    validUntil: Option<int>,
    terms: seq<string>,
    instructions: seq<string>)

  class VoucherStore {
    var vouchers: map<VoucherId, Voucher>
    var nextId: VoucherId

    predicate Valid()
      reads this
    {
      forall id :: id in vouchers ==> id < nextId
    }

    constructor ()
      ensures Valid() && vouchers == map[]
    {
      vouchers := map[];
      nextId := 0;
    }
  }

  datatype VoucherStatus = Inactive | Upcoming | Expired | Active

  /** The status as the services spell it. */
  function StatusName(s: VoucherStatus): (name: string)
    ensures name in ["inactive", "upcoming", "expired", "active"]
  {
    match s
    case Inactive => "inactive"
    case Upcoming => "upcoming"
    case Expired => "expired"
    case Active => "active"
  }

  /** The validity window has not opened yet. */
  predicate NotYetValid(v: Voucher, now: int)
  {
    v.validFrom.Some? && v.validFrom.value > now
  }

  /** The validity window has closed. */
  predicate NoLongerValid(v: Voucher, now: int)
  {
    v.validUntil.Some? && v.validUntil.value < now
  }

  /** A limited stock that is used up. */
  predicate SoldOut(v: Voucher)
  {
    v.stock.Some? && v.stock.value <= 0
  }

  /**
   * `determineVoucherStatus`: inactive when switched off; otherwise upcoming
   * before its window, expired after its window or when sold out, and active
   * otherwise.
   */
  function DetermineVoucherStatus(v: Voucher, now: int): (s: VoucherStatus)
    ensures s == Inactive <==> !v.isActive
    ensures s == Upcoming <==> v.isActive && NotYetValid(v, now)
    ensures s == Expired <==> v.isActive && !NotYetValid(v, now) && (NoLongerValid(v, now) || SoldOut(v))
    ensures s == Active <==> v.isActive && !NotYetValid(v, now) && !NoLongerValid(v, now) && !SoldOut(v)
  {
    if !v.isActive then Inactive
    else if NotYetValid(v, now) then Upcoming
    else if NoLongerValid(v, now) then Expired
    else if SoldOut(v) then Expired
    else Active
  }

  /**
   * `applyStatusSideEffects`: the voucher's `isActive` once a status is
   * applied to it — off for "inactive" and "expired", on for "active" and
   * "upcoming", unchanged for a blank or any other status.
   */
  function StatusSideEffect(status: JsValue, isActive: bool): (active: bool)
    ensures status == JsStr("inactive") || status == JsStr("expired") ==> !active
    ensures status == JsStr("active") || status == JsStr("upcoming") ==> active
    ensures !(status.JsStr? && status.s in ["inactive", "expired", "active", "upcoming"]) ==> active == isActive
  {
    if !Truthy(status) then isActive
    else if status == JsStr("inactive") || status == JsStr("expired") then false
    else if status == JsStr("active") || status == JsStr("upcoming") then true
    else isActive
  }

  // ---------------------------------------------------------------------
  // Text lists
  // ---------------------------------------------------------------------

  /** The string elements of an array, trimmed, the blank ones and the non-strings dropped. */
  function TrimmedStrings(items: seq<JsValue>): (r: seq<string>)
    ensures forall k :: 0 <= k < |r| ==> r[k] != "" && Trim(r[k]) == r[k]
    ensures |r| <= |items|
  {
    if |items| == 0 then []
    else
      var rest := TrimmedStrings(items[1..]);
      if items[0].JsStr? && Trim(items[0].s) != "" then
        TrimIdempotent(items[0].s);
        TrimmedInFront(Trim(items[0].s), rest);
        [Trim(items[0].s)] + rest
      else rest
  }

  /** A trimmed, non-blank string put in front of trimmed, non-blank strings. */
  lemma TrimmedInFront(x: string, rest: seq<string>)
    requires x != "" && Trim(x) == x
    requires forall k :: 0 <= k < |rest| ==> rest[k] != "" && Trim(rest[k]) == rest[k]
    ensures forall k :: 0 <= k < |[x] + rest| ==> ([x] + rest)[k] != "" && Trim(([x] + rest)[k]) == ([x] + rest)[k]
  {
    var r := [x] + rest;
    forall k | 0 <= k < |r|
      ensures r[k] != "" && Trim(r[k]) == r[k]
    {
      if k > 0 {
        assert r[k] == rest[k - 1];
      }
    }
  }

  /**
   * `normalizeStringArray`: nothing for a falsy value; an array's string
   * elements, trimmed, without blanks; a string's lines, trimmed, without
   * blanks; nothing for any other value.
   */
  function NormalizeStringArray(value: JsValue): (r: seq<string>)
    ensures !Truthy(value) ==> r == []
    ensures !value.JsArray? && !value.JsStr? ==> r == []
    ensures forall k :: 0 <= k < |r| ==> r[k] != "" && Trim(r[k]) == r[k]
    ensures value.JsStr? ==> forall k :: 0 <= k < |r| ==> '\n' !in r[k]
  {
    if !Truthy(value) then []
    else match value
      case JsArray(items) => TrimmedStrings(items)
      case JsStr(s) =>
        TrimmedNonEmptyAvoids(Split(s, '\n'), '\n');
        TrimmedNonEmpty(Split(s, '\n'))
      case _ => []
  }

  /** An array of clean strings is kept as it is. */
  lemma {:induction false} CleanStringsKept(lines: seq<string>)
    requires forall k :: 0 <= k < |lines| ==> lines[k] != "" && Trim(lines[k]) == lines[k]
    ensures TrimmedStrings(PointsHistory.StringItems(lines)) == lines
  {
    var items := PointsHistory.StringItems(lines);
    if |lines| > 0 {
      CleanStringsKept(lines[1..]);
      assert items[1..] == PointsHistory.StringItems(lines[1..]);
      assert [lines[0]] + lines[1..] == lines;
    }
  }

  /** Normalizing an already normalized list, given back as an array, changes nothing. */
  lemma NormalizeStringArrayIdempotent(value: JsValue)
    ensures var once := NormalizeStringArray(value);
      NormalizeStringArray(JsArray(PointsHistory.StringItems(once))) == once
  {
    CleanArrayKept(NormalizeStringArray(value));
  }

  /** An array of clean strings normalizes to those strings. */
  lemma CleanArrayKept(lines: seq<string>)
    requires forall k :: 0 <= k < |lines| ==> lines[k] != "" && Trim(lines[k]) == lines[k]
    ensures NormalizeStringArray(JsArray(PointsHistory.StringItems(lines))) == lines
  {
    CleanStringsKept(lines);
  }

  /** Clean lines joined with line breaks are read back as the same lines. */
  lemma NormalizeJoinedLines(lines: seq<string>)
    requires |lines| > 0
    requires forall k :: 0 <= k < |lines| ==> lines[k] != "" && Trim(lines[k]) == lines[k] && '\n' !in lines[k]
    ensures NormalizeStringArray(JsStr(Join(lines, "\n"))) == lines
  {
    var j := Join(lines, "\n");
    assert Truthy(JsStr(j)) by {
      JoinNonEmpty(lines, "\n");
    }
    assert Split(j, '\n') == lines by {
      SplitJoin(lines, '\n');
    }
    assert NormalizeStringArray(JsStr(j)) == TrimmedNonEmpty(Split(j, '\n'));
    TrimmedNonEmptyKeeps(lines);
  }

  // ---------------------------------------------------------------------
  // The voucher as the API shows it
  // ---------------------------------------------------------------------

  datatype Progress = Progress(current: int, target: int, percent: int)

  /**
   * The progress of a user with `current` points towards a voucher: the
   * target is the price, at least 1, and the percentage is rounded and
   * capped at 100.
   */
  function ProgressOf(pointsRequired: int, current: int): (p: Progress)
    ensures p.current == current && p.target == Max(pointsRequired, 1) && p.target >= 1
    ensures p.percent <= 100
    ensures current >= p.target ==> p.percent == 100
    ensures current >= 0 ==> p.percent >= 0
    ensures p.percent < 100 ==> p.target * (2 * p.percent - 1) <= 200 * current < p.target * (2 * p.percent + 1)
  {
    var target := Max(pointsRequired, 1);
    Progress(current, target, Min(100, RoundDiv(current * 100, target)))
  }

  /** More points never show less progress. */
  lemma ProgressMonotone(pointsRequired: int, a: int, b: int)
    requires a <= b
    ensures ProgressOf(pointsRequired, a).percent <= ProgressOf(pointsRequired, b).percent
  {
    RoundDivMonotone(a * 100, b * 100, Max(pointsRequired, 1));
  }

  datatype VoucherView = VoucherView(
    id: VoucherId,
    slug: string,
    name: string,
    category: string,
    pointsRequired: int,
    stock: Option<int>,
    redeemedCount: int,
    isActive: bool,
    status: VoucherStatus,
    validFrom: Option<int>,
    validUntil: Option<int>,
    terms: seq<string>,
    instructions: seq<string>,
    progress: Option<Progress>)

  /** `mapVoucher`: the voucher with its derived status and, for a known user, the user's progress. */
  function MapVoucher(id: VoucherId, v: Voucher, user: Option<User>, now: int): (view: VoucherView)
    ensures view.status == DetermineVoucherStatus(v, now)
    ensures view.progress.Some? <==> user.Some?
    ensures user.Some? ==> view.progress.value == ProgressOf(v.pointsRequired, user.value.totalPoints)
    ensures view.id == id && view.slug == v.slug && view.isActive == v.isActive && view.stock == v.stock
    ensures view.pointsRequired == v.pointsRequired && view.redeemedCount == v.redeemedCount
    ensures view.name == v.name && view.category == v.category
  {
    VoucherView(id, v.slug, v.name, v.category, v.pointsRequired, v.stock, v.redeemedCount, v.isActive, DetermineVoucherStatus(v, now),
                v.validFrom, v.validUntil, v.terms, v.instructions,
                if user.Some? then Some(ProgressOf(v.pointsRequired, user.value.totalPoints)) else None)
  }

  // ---------------------------------------------------------------------
  // Availability and eligibility
  // ---------------------------------------------------------------------

  /**
   * `ensureVoucherAvailability`: the first failing check, in the order
   * missing (404), switched off, not yet valid, no longer valid, sold out
   * (each 400).
   */
  function EnsureVoucherAvailability(v: Option<Voucher>, now: int): (r: Result<Voucher>)
    ensures v.None? ==> r == Err(404, "Voucher tidak ditemukan")
    ensures v.Some? ==> (r.Ok? <==> DetermineVoucherStatus(v.value, now) == Active)
    ensures r.Ok? ==> r == Ok(v.value)
    ensures v.Some? && r.Err? ==> r.status == 400
  {
    if v.None? then Err(404, "Voucher tidak ditemukan")
    else if !v.value.isActive then Err(400, "Voucher sedang tidak aktif")
    else if NotYetValid(v.value, now) then Err(400, "Voucher belum tersedia saat ini")
    else if NoLongerValid(v.value, now) then Err(400, "Voucher sudah kadaluarsa")
    else if SoldOut(v.value) then Err(400, "Voucher sudah habis")
    else Ok(v.value)
  }

  const ReasonInactive := "Voucher sedang tidak aktif"
  const ReasonUpcoming := "Voucher belum tersedia saat ini"
  const ReasonExpired := "Voucher sudah kadaluarsa"
  const ReasonSoldOut := "Voucher sudah habis"
  const ReasonPoints := "Poin tidak mencukupi untuk menukar voucher"

  datatype Eligibility = Eligibility(
    eligible: bool,
    reasons: seq<string>,
    currentPoints: int,
    pointsRequired: int,
    stockLeft: Option<int>)

  /**
   * `evaluateVoucherEligibility`: every reason the voucher cannot be redeemed
   * by a user with `userPoints` points, in the order redemption checks them;
   * eligible exactly when there is none.
   */
  method EvaluateVoucherEligibility(v: Voucher, userPoints: Option<int>, now: int) returns (e: Eligibility)
    ensures e.currentPoints == (if userPoints.Some? then userPoints.value else 0)
    ensures e.pointsRequired == v.pointsRequired
    ensures e.stockLeft == (if v.stock.Some? then Some(Max(v.stock.value, 0)) else None)
    ensures e.eligible <==> |e.reasons| == 0
    ensures e.eligible <==> EnsureVoucherAvailability(Some(v), now).Ok? && e.currentPoints >= e.pointsRequired
    ensures EnsureVoucherAvailability(Some(v), now).Err? ==>
      |e.reasons| > 0 && e.reasons[0] == EnsureVoucherAvailability(Some(v), now).message
    ensures ReasonPoints in e.reasons <==> e.currentPoints < e.pointsRequired
    ensures ReasonSoldOut in e.reasons <==> SoldOut(v)
    ensures |e.reasons| <= 5
  {
    var reasons: seq<string> := [];
    if !v.isActive {
      reasons := reasons + [ReasonInactive];
    }
    if NotYetValid(v, now) {
      reasons := reasons + [ReasonUpcoming];
    }
    if NoLongerValid(v, now) {
      reasons := reasons + [ReasonExpired];
    }
    var stockLeft: Option<int> := None;
    if v.stock.Some? {
      stockLeft := Some(Max(v.stock.value, 0));
      if v.stock.value <= 0 {
        reasons := reasons + [ReasonSoldOut];
      }
    }
    var currentPoints := if userPoints.Some? then userPoints.value else 0;
    var pointsRequired := v.pointsRequired;
    if currentPoints < pointsRequired {
      reasons := reasons + [ReasonPoints];
    }
    e := Eligibility(|reasons| == 0, reasons, currentPoints, pointsRequired, stockLeft);
  }

  /** `previewVoucher`: 404 for a missing voucher or user, the eligibility otherwise. */
  method PreviewVoucher(vouchers: VoucherStore, users: UserStore, voucherId: VoucherId, userId: UserId, now: int)
    returns (r: Result<Eligibility>)
    ensures voucherId !in vouchers.vouchers ==> r == Err(404, "Voucher tidak ditemukan")
    ensures voucherId in vouchers.vouchers && userId !in users.users ==> r == Err(404, "Pengguna tidak ditemukan")
    ensures voucherId in vouchers.vouchers && userId in users.users ==>
      r.Ok? && r.value.currentPoints == users.users[userId].totalPoints
      && (r.value.eligible <==>
            EnsureVoucherAvailability(Some(vouchers.vouchers[voucherId]), now).Ok?
            && users.users[userId].totalPoints >= vouchers.vouchers[voucherId].pointsRequired)
  {
    if voucherId !in vouchers.vouchers {
      return Err(404, "Voucher tidak ditemukan");
    }
    if userId !in users.users {
      return Err(404, "Pengguna tidak ditemukan");
    }
    var e := EvaluateVoucherEligibility(vouchers.vouchers[voucherId], Some(users.users[userId].totalPoints), now);
    r := Ok(e);
  }

  // ---------------------------------------------------------------------
  // Redemption codes
  // ---------------------------------------------------------------------

  /** One hexadecimal digit, upper case. */
  function HexDigit(d: nat): (c: char)
    requires d < 16
    ensures IsDigit(c) || 'A' <= c <= 'F'
  {
    if d < 10 then (48 + d) as char else (55 + d) as char
  }

  /** The value of an upper-case hexadecimal digit. */
  function HexValue(c: char): nat
  {
    if IsDigit(c) then c as int - 48
    else if 'A' <= c <= 'F' then c as int - 55
    else 0
  }

  predicate IsByte(b: int) { 0 <= b < 256 }

  /** `bytes.toString("hex").toUpperCase()`: two digits per byte. */
  function HexUpper(bytes: seq<int>): (s: string)
    requires forall k :: 0 <= k < |bytes| ==> IsByte(bytes[k])
    ensures |s| == 2 * |bytes|
    ensures forall k :: 0 <= k < |s| ==> IsDigit(s[k]) || 'A' <= s[k] <= 'F'
  {
    if |bytes| == 0 then ""
    else
      assert IsByte(bytes[0]);
      [HexDigit(bytes[0] / 16), HexDigit(bytes[0] % 16)] + HexUpper(bytes[1..])
  }

  /** Reading two hexadecimal digits per byte. */
  function HexBytes(s: string): seq<int>
    decreases |s|
  {
    if |s| < 2 then [] else [16 * HexValue(s[0]) + HexValue(s[1])] + HexBytes(s[2..])
  }

  /** The suffix of a code gives back the random bytes it was made from. */
  lemma {:induction false} HexRoundTrip(bytes: seq<int>)
    requires forall k :: 0 <= k < |bytes| ==> IsByte(bytes[k])
    ensures HexBytes(HexUpper(bytes)) == bytes
  {
    if |bytes| > 0 {
      var s := HexUpper(bytes);
      assert s[2..] == HexUpper(bytes[1..]);
      HexRoundTrip(bytes[1..]);
      assert 16 * HexValue(s[0]) + HexValue(s[1]) == bytes[0] by {
        ByteDigits(bytes[0]);
      }
      assert [bytes[0]] + bytes[1..] == bytes;
    }
  }

  /** The two digits of a byte read back as the byte. */
  lemma ByteDigits(b: int)
    requires IsByte(b)
    ensures 16 * HexValue(HexDigit(b / 16)) + HexValue(HexDigit(b % 16)) == b
  {
    var hi, lo := b / 16, b % 16;
    assert HexValue(HexDigit(hi)) == hi && HexValue(HexDigit(lo)) == lo;
  }

  /** The letters and digits of a string, in order. */
  function AlnumOnly(s: string): (r: string)
    ensures forall k :: 0 <= k < |r| ==> IsAlnumAscii(r[k])
    ensures |r| <= |s|
  {
    if |s| == 0 then "" else (if IsAlnumAscii(s[0]) then [s[0]] else "") + AlnumOnly(s[1..])
  }

  /** The code prefix: the letters and digits of the slug's first three characters, upper-cased, or "HER". */
  function CodePrefix(slug: string): (p: string)
    ensures 1 <= |p| <= 3
    ensures forall k :: 0 <= k < |p| ==> IsDigit(p[k]) || IsUpperAscii(p[k])
    ensures AlnumOnly(Prefix(slug, 3)) == "" ==> p == "HER"
  {
    var kept := AlnumOnly(Prefix(slug, 3));
    if kept == "" then "HER"
    else
      var up := Upper(kept);
      assert forall k :: 0 <= k < |up| ==> up[k] == UpperChar(kept[k]);
      up
  }

  /** `generateRedemptionCode` given the three random bytes: PREFIX-SUFFIX. */
  function RedemptionCode(slug: string, bytes: seq<int>): (code: string)
    requires |bytes| == 3 && forall k :: 0 <= k < 3 ==> IsByte(bytes[k])
    ensures code == CodePrefix(slug) + "-" + HexUpper(bytes)
    ensures 8 <= |code| <= 10
  {
    CodePrefix(slug) + "-" + HexUpper(bytes)
  }

  /** A code splits at its dash into the prefix and a suffix that reads back as the random bytes. */
  lemma RedemptionCodeRoundTrip(slug: string, bytes: seq<int>)
    requires |bytes| == 3 && forall k :: 0 <= k < 3 ==> IsByte(bytes[k])
    ensures var parts := Split(RedemptionCode(slug, bytes), '-');
      |parts| == 2 && parts[0] == CodePrefix(slug) && HexBytes(parts[1]) == bytes
  {
    var p := CodePrefix(slug);
    var h := HexUpper(bytes);
    assert '-' !in p;
    assert '-' !in h;
    SplitAtFirst(p, '-', h);
    SplitNoSep(h, '-');
    HexRoundTrip(bytes);
  }

  // ---------------------------------------------------------------------
  // Redemption
  // ---------------------------------------------------------------------

  datatype RedemptionStatus = Unused | Used | Cancelled

  datatype Redemption = Redemption(
    voucherId: VoucherId,
    userId: UserId,
    pointsDeducted: int,
    code: string,
    status: RedemptionStatus,
    redeemedAt: int,
    expiresAt: Option<int>,
    notes: Option<string>)

  /** Redemptions in insertion order; a redemption's identifier is its position. */
  class RedemptionStore {
    var redemptions: seq<Redemption>

    constructor ()
      ensures redemptions == []
    {
      redemptions := [];
    }
  }

  /** The voucher after one redemption: one unit of a limited stock taken (never below 0), one more redeemed. */
  function Redeemed(v: Voucher): (r: Voucher)
    ensures r.stock.Some? <==> v.stock.Some?
    ensures v.stock.Some? ==> r.stock.value == Max(v.stock.value - 1, 0)
    ensures r.redeemedCount == v.redeemedCount + 1
    ensures r.(stock := v.stock, redeemedCount := v.redeemedCount) == v
  {
    v.(stock := if v.stock.Some? then Some(Max(v.stock.value - 1, 0)) else None, redeemedCount := v.redeemedCount + 1)
  }

  /** The user after paying `price` points, never below 0. */
  function Charged(u: User, price: int): (r: User)
    ensures r.totalPoints == Max(u.totalPoints - price, 0)
    ensures r.(totalPoints := u.totalPoints) == u
  {
    u.(totalPoints := Max(u.totalPoints - price, 0))
  }

  /** `note.trim() || null` for a string note, null otherwise. */
  function NoteOf(note: JsValue): (r: Option<string>)
    ensures r.Some? ==> note.JsStr? && r.value == Trim(note.s) && r.value != ""
    ensures note.JsStr? && Trim(note.s) != "" ==> r.Some?
  {
    if note.JsStr? && Trim(note.s) != "" then Some(Trim(note.s)) else None
  }

  /** A user who can afford an available voucher pays exactly its price, and the ledger entry records that change. */
  lemma ChargeIsExact(u: User, price: int)
    requires u.totalPoints >= price
    ensures Charged(u, price).totalPoints == u.totalPoints - price
    ensures Charged(u, price).totalPoints - u.totalPoints == -price
  {
  }

  /** An available voucher with a limited stock loses exactly one unit. */
  lemma AvailableStockTakesOne(v: Voucher, now: int)
    requires EnsureVoucherAvailability(Some(v), now).Ok? && v.stock.Some?
    ensures Redeemed(v).stock == Some(v.stock.value - 1)
  {
  }

  /** Redeeming the last unit leaves the voucher sold out, so it cannot be redeemed again. */
  lemma LastUnitRedeemedOnce(v: Voucher, now: int)
    requires EnsureVoucherAvailability(Some(v), now).Ok? && v.stock == Some(1)
    ensures EnsureVoucherAvailability(Some(Redeemed(v)), now) == Err(400, "Voucher sudah habis")
    ensures DetermineVoucherStatus(Redeemed(v), now) == Expired
  {
  }

  /** A stored redemption already carries the code (the codes are a unique index). */
  predicate CodeTaken(redemptions: seq<Redemption>, code: string)
  {
    exists k :: 0 <= k < |redemptions| && redemptions[k].code == code
  }

  /** The ledger entry of a redemption: minus the voucher's price, referring to the redemption's identifier. */
  function SpendEntry(userId: UserId, v: Voucher, id: nat, now: int): (e: PointsHistory.Entry)
    ensures e.userId == userId && e.pointsAmount == -v.pointsRequired && e.source == "voucher" && e.createdAt == now
    ensures e.referenceId == Some(IdString(id))
  {
    NumeralTrimmed(id);
    PointsHistory.StoredEntry(userId, -v.pointsRequired, "voucher", Some(IdString(id)), now)
  }

  /**
   * The second half of `redeemVoucher`, once the voucher and the user are
   * saved: the redemption is stored under the next position, unless its code
   * is already taken, and the "voucher" ledger entry of minus the price is
   * written with the redemption's identifier as its reference.
   */
  method IssueRedemption(store: RedemptionStore, ledger: PointsHistory.Ledger, v: Voucher, voucherId: VoucherId,
                         userId: UserId, note: JsValue, code: string, now: int)
    returns (r: Result<Redemption>)
    modifies store, ledger
    ensures r.Err? ==> r.status == ServerError && store.redemptions == old(store.redemptions) && ledger.entries == old(ledger.entries)
    ensures r.Err? <==> v.pointsRequired < 0 || CodeTaken(old(store.redemptions), code)
    ensures r.Ok? ==>
      r.value == Redemption(voucherId, userId, v.pointsRequired, code, Unused, now, v.validUntil, NoteOf(note))
      && store.redemptions == old(store.redemptions) + [r.value]
      && ledger.entries == old(ledger.entries)
           + [SpendEntry(userId, v, |old(store.redemptions)|, now)]
  {
    if v.pointsRequired < 0 {
      return Err(ServerError, "ValidationError");
    }
    if CodeTaken(store.redemptions, code) {
      return Err(ServerError, "DuplicateKey");
    }
    var redemption := Redemption(voucherId, userId, v.pointsRequired, code, Unused, now, v.validUntil, NoteOf(note));
    var reference := IdString(|store.redemptions|);
    store.redemptions := store.redemptions + [redemption];
    RecordVoucherSpend(ledger, userId, -v.pointsRequired, reference, now);
    r := Ok(redemption);
  }

  /** The ledger write of a redemption: a "voucher" entry of the amount (minus the price), referring to the redemption. */
  method RecordVoucherSpend(ledger: PointsHistory.Ledger, userId: UserId, amount: int, reference: string, now: int)
    modifies ledger
    ensures ledger.entries == old(ledger.entries) + [PointsHistory.StoredEntry(userId, amount, "voucher", Some(reference), now)]
  {
    var recorded := PointsHistory.RecordPointsChange(ledger, userId, amount, "voucher", Some(reference), now);
  }

  /**
   * The refusals of `redeemVoucher`, in order: the voucher's availability,
   * then 404 for a missing user, then 409 for a user who cannot afford it.
   */
  function RedeemCheck(vouchers: map<VoucherId, Voucher>, users: map<UserId, User>,
                       voucherId: VoucherId, userId: UserId, now: int): (r: Result<Voucher>)
    ensures var found := if voucherId in vouchers then Some(vouchers[voucherId]) else None;
      EnsureVoucherAvailability(found, now).Err? ==> r == EnsureVoucherAvailability(found, now)
    ensures r.Ok? <==>
      voucherId in vouchers && DetermineVoucherStatus(vouchers[voucherId], now) == Active
      && userId in users && users[userId].totalPoints >= vouchers[voucherId].pointsRequired
    ensures r.Ok? ==> r.value == vouchers[voucherId]
    ensures r.Err? && r.status == 409 <==>
      voucherId in vouchers && DetermineVoucherStatus(vouchers[voucherId], now) == Active
      && userId in users && users[userId].totalPoints < vouchers[voucherId].pointsRequired
  {
    var found := if voucherId in vouchers then Some(vouchers[voucherId]) else None;
    var available := EnsureVoucherAvailability(found, now);
    if available.Err? then available
    else if userId !in users then Err(404, "Pengguna tidak ditemukan")
    else if users[userId].totalPoints < available.value.pointsRequired then
      Err(409, "Poin tidak mencukupi untuk menukar voucher")
    else available
  }

  /**
   * `redeemVoucher`: refused as `ensureVoucherAvailability` says, with 404
   * for a missing user and 409 when the user cannot afford it, changing
   * nothing. Otherwise the voucher and the user are saved first; a code that
   * is already taken then fails with 500 and stores no redemption; else the
   * redemption is stored and a "voucher" entry of minus the price is
   * written to the ledger.
   */
  method RedeemVoucher(vouchers: VoucherStore, users: UserStore, store: RedemptionStore, ledger: PointsHistory.Ledger,
                       voucherId: VoucherId, userId: UserId, note: JsValue, bytes: seq<int>, now: int)
    returns (r: Result<Redemption>)
    requires |bytes| == 3 && forall k :: 0 <= k < 3 ==> IsByte(bytes[k])
    modifies vouchers, users, store, ledger
    ensures vouchers.nextId == old(vouchers.nextId)
    ensures var check := RedeemCheck(old(vouchers.vouchers), old(users.users), voucherId, userId, now);
      check.Err? ==>
        r == Err(check.status, check.message)
        && vouchers.vouchers == old(vouchers.vouchers) && users.users == old(users.users)
        && store.redemptions == old(store.redemptions) && ledger.entries == old(ledger.entries)
    ensures var check := RedeemCheck(old(vouchers.vouchers), old(users.users), voucherId, userId, now);
      check.Ok? ==>
        vouchers.vouchers == old(vouchers.vouchers)[voucherId := Redeemed(check.value)]
        && users.users == old(users.users)[userId := Charged(old(users.users)[userId], check.value.pointsRequired)]
    ensures var check := RedeemCheck(old(vouchers.vouchers), old(users.users), voucherId, userId, now);
      check.Ok? ==>
        (r.Err? <==> check.value.pointsRequired < 0 || CodeTaken(old(store.redemptions), RedemptionCode(check.value.slug, bytes)))
    ensures var check := RedeemCheck(old(vouchers.vouchers), old(users.users), voucherId, userId, now);
      check.Ok? && r.Ok? ==>
        var v := check.value;
        r.value == Redemption(voucherId, userId, v.pointsRequired, RedemptionCode(v.slug, bytes), Unused, now,
                              v.validUntil, NoteOf(note))
        && store.redemptions == old(store.redemptions) + [r.value]
        && ledger.entries == old(ledger.entries)
             + [SpendEntry(userId, v, |old(store.redemptions)|, now)]
    ensures r.Err? ==> store.redemptions == old(store.redemptions) && ledger.entries == old(ledger.entries)
  {
    var check := RedeemCheck(vouchers.vouchers, users.users, voucherId, userId, now);
    if check.Err? {
      return Err(check.status, check.message);
    }
    SaveRedeemed(vouchers, users, voucherId, userId, check.value);
    var code := RedemptionCode(check.value.slug, bytes);
    r := IssueRedemption(store, ledger, check.value, voucherId, userId, note, code, now);
  }

  /** The first half of `redeemVoucher`: the voucher's counters and the user's balance are saved. */
  method SaveRedeemed(vouchers: VoucherStore, users: UserStore, voucherId: VoucherId, userId: UserId, voucher: Voucher)
    requires userId in users.users
    modifies vouchers, users
    ensures vouchers.nextId == old(vouchers.nextId)
    ensures vouchers.vouchers == old(vouchers.vouchers)[voucherId := Redeemed(voucher)]
    ensures users.users == old(users.users)[userId := Charged(old(users.users)[userId], voucher.pointsRequired)]
  {
    vouchers.vouchers := vouchers.vouchers[voucherId := Redeemed(voucher)];
    users.users := users.users[userId := Charged(users.users[userId], voucher.pointsRequired)];
  }

  /** The statuses a redemption listing may be filtered by, as spelled in requests. */
  function RedemptionStatusName(s: RedemptionStatus): string
  {
    match s
    case Unused => "unused"
    case Used => "used"
    case Cancelled => "cancelled"
  }

  /**
   * The status filter of `getUserRedemptions`: none unless a non-blank string
   * is given; that string trimmed and lower-cased must name a redemption
   * status, or the request fails with 400.
   */
  function RedemptionStatusFilter(status: JsValue): (r: Result<Option<RedemptionStatus>>)
    ensures !status.JsStr? ==> r == Ok(None)
    ensures status.JsStr? && Lower(Trim(status.s)) == "" ==> r == Ok(None)
    ensures r.Ok? && r.value.Some? ==> status.JsStr? && RedemptionStatusName(r.value.value) == Lower(Trim(status.s))
    ensures r.Err? <==> status.JsStr? && Lower(Trim(status.s)) != ""
                        && forall st :: RedemptionStatusName(st) != Lower(Trim(status.s))
    ensures r.Err? ==> r == Err(400, "Status riwayat tidak valid")
  {
    if !status.JsStr? then Ok(None)
    else
      var normalized := Lower(Trim(status.s));
      if normalized == "" then Ok(None)
      else match RedemptionStatusNamed(normalized)
        case Some(st) => Ok(Some(st))
        case None => Err(400, "Status riwayat tidak valid")
  }

  /** The redemption status with the given name, if any. */
  function RedemptionStatusNamed(name: string): (r: Option<RedemptionStatus>)
    ensures r.Some? ==> RedemptionStatusName(r.value) == name
    ensures r.None? ==> forall st :: RedemptionStatusName(st) != name
  {
    if name == "unused" then Some(Unused)
    else if name == "used" then Some(Used)
    else if name == "cancelled" then Some(Cancelled)
    else None
  }

  /** Every status name, in any case and with any padding, selects that status. */
  lemma RedemptionStatusFilterOfName(s: RedemptionStatus, pad: string)
    requires forall k :: 0 <= k < |pad| ==> IsSpace(pad[k])
    ensures RedemptionStatusFilter(JsStr(pad + Upper(RedemptionStatusName(s)) + pad)) == Ok(Some(s))
  {
    var name := RedemptionStatusName(s);
    assert forall k :: 0 <= k < |name| ==> IsLowerAscii(name[k]);
    PaddedUpperNormalizes(pad, name);
    FilterOfName(JsStr(pad + Upper(name) + pad), s);
  }

  /** A string that normalizes to a status name selects that status. */
  lemma FilterOfName(status: JsValue, s: RedemptionStatus)
    requires status.JsStr? && Lower(Trim(status.s)) == RedemptionStatusName(s)
    ensures RedemptionStatusFilter(status) == Ok(Some(s))
  {
  }

  /** A word of lower-case letters, upper-cased and padded, trims and lower-cases back to itself. */
  lemma PaddedUpperNormalizes(pad: string, name: string)
    requires forall k :: 0 <= k < |pad| ==> IsSpace(pad[k])
    requires |name| > 0 && forall k :: 0 <= k < |name| ==> IsLowerAscii(name[k])
    ensures Lower(Trim(pad + Upper(name) + pad)) == name
  {
    var up := Upper(name);
    UpperWordEnds(name);
    PaddedTrim(pad, up);
    LowerOfUpper(name);
  }

  /** An upper-cased word of letters neither starts nor ends with white space. */
  lemma UpperWordEnds(name: string)
    requires |name| > 0 && forall k :: 0 <= k < |name| ==> IsLowerAscii(name[k])
    ensures !IsSpace(Upper(name)[0]) && !IsSpace(Upper(name)[|name| - 1])
  {
    assert Upper(name)[0] == UpperChar(name[0]);
    assert Upper(name)[|name| - 1] == UpperChar(name[|name| - 1]);
  }

  /** Lower-casing an upper-cased word of lower-case letters gives the word back. */
  lemma LowerOfUpper(name: string)
    requires forall k :: 0 <= k < |name| ==> IsLowerAscii(name[k])
    ensures Lower(Upper(name)) == name
  {
    var l := Lower(Upper(name));
    forall k | 0 <= k < |name|
      ensures l[k] == name[k]
    {
      assert l[k] == LowerChar(UpperChar(name[k]));
    }
  }

  // ---------------------------------------------------------------------
  // Creating and editing vouchers
  // ---------------------------------------------------------------------

  /** The fields of a create request the rules read; the status given in it is not a stored field and is dropped. */
  datatype VoucherPayload = VoucherPayload(
    slug: string,
    name: Option<string>,
    category: Option<string>,
    pointsRequired: Option<int>,
    stock: Option<int>,
    redeemedCount: Option<int>,
    isActive: Option<bool>,
    validFrom: Option<int>,
    validUntil: Option<int>,
    terms: JsValue,
    instructions: JsValue)

  /**
   * The new voucher before its status is applied: given fields, the schema's
   * defaults for the rest. The slug and the name are trimmed; an absent name
   * is stored as "" (which the required check refuses) and an absent
   * category as "other".
   */
  function Draft(p: VoucherPayload): (v: Voucher)
    requires p.pointsRequired.Some?
    ensures v.slug == Trim(p.slug) && v.pointsRequired == p.pointsRequired.value && v.stock == p.stock
    ensures v.name == (if p.name.Some? then Trim(p.name.value) else "")
    ensures v.category == (if p.category.Some? then p.category.value else "other")
    ensures SchemaValid(v) <==>
      Trim(p.slug) != "" && p.pointsRequired.value >= 0 && (p.stock.Some? ==> p.stock.value >= 0)
      && p.name.Some? && Trim(p.name.value) != ""
      && (p.category.None? || p.category.value in VoucherCategories)
  {
    Voucher(Trim(p.slug), if p.name.Some? then Trim(p.name.value) else "", if p.category.Some? then p.category.value else "other",
            p.pointsRequired.value, p.stock, if p.redeemedCount.Some? then p.redeemedCount.value else 0,
            if p.isActive.Some? then p.isActive.value else true, p.validFrom, p.validUntil,
            NormalizeStringArray(p.terms), NormalizeStringArray(p.instructions))
  }

  /** The created voucher: its derived status is applied to it, which switches off a voucher created expired. */
  function Created(p: VoucherPayload, now: int): (v: Voucher)
    requires p.pointsRequired.Some?
    ensures v == Draft(p).(isActive := v.isActive)
    ensures v.isActive <==> DetermineVoucherStatus(Draft(p), now) in {Active, Upcoming}
  {
    var d := Draft(p);
    d.(isActive := StatusSideEffect(JsStr(StatusName(DetermineVoucherStatus(d, now))), d.isActive))
  }

  /** A voucher is never created expired yet switched on: it shows as inactive instead. */
  lemma CreatedNeverExpired(p: VoucherPayload, now: int)
    requires p.pointsRequired.Some?
    ensures var before := DetermineVoucherStatus(Draft(p), now);
      DetermineVoucherStatus(Created(p, now), now) == (if before == Expired then Inactive else before)
  {
  }

  /**
   * The schema's checks on a voucher about to be saved: a slug and a name
   * (both required), a listed category, a price of at least 0, a stock of at
   * least 0.
   */
  predicate SchemaValid(v: Voucher)
  {
    v.slug != "" && v.name != "" && v.category in VoucherCategories
    && v.pointsRequired >= 0 && (v.stock.Some? ==> v.stock.value >= 0)
  }

  predicate SlugTaken(vouchers: map<VoucherId, Voucher>, slug: string)
  {
    exists id :: id in vouchers && vouchers[id].slug == slug
  }

  /**
   * `createVoucher`: 400 without a slug, 409 when the slug is taken, a
   * validation failure (500) when the price is missing or a field breaks the
   * schema or the trimmed slug is taken; otherwise the created voucher is
   * stored under a fresh identifier.
   */
  method CreateVoucher(store: VoucherStore, p: VoucherPayload, now: int) returns (r: Result<VoucherView>)
    requires store.Valid()
    modifies store
    ensures store.Valid()
    ensures p.slug == "" ==> r == Err(400, "Slug voucher wajib diisi") && store.vouchers == old(store.vouchers)
    ensures p.slug != "" && SlugTaken(old(store.vouchers), p.slug) ==>
      r == Err(409, "Slug voucher sudah digunakan") && store.vouchers == old(store.vouchers)
    ensures p.slug != "" && !SlugTaken(old(store.vouchers), p.slug)
            && (p.pointsRequired.None? || !SchemaValid(Draft(p)) || SlugTaken(old(store.vouchers), Trim(p.slug))) ==>
      r.Err? && r.status == ServerError && store.vouchers == old(store.vouchers)
    ensures r.Ok? ==>
      p.pointsRequired.Some? && old(store.nextId) !in old(store.vouchers)
      && store.vouchers == old(store.vouchers)[old(store.nextId) := Created(p, now)]
      && r.value == MapVoucher(old(store.nextId), Created(p, now), None, now)
  {
    if p.slug == "" {
      return Err(400, "Slug voucher wajib diisi");
    }
    if exists id :: id in store.vouchers && store.vouchers[id].slug == p.slug {
      return Err(409, "Slug voucher sudah digunakan");
    }
    if p.pointsRequired.None? {
      return Err(ServerError, "ValidationError");
    }
    var doc := Draft(p);
    var status := DetermineVoucherStatus(doc, now);
    doc := doc.(isActive := StatusSideEffect(JsStr(StatusName(status)), doc.isActive));
    assert doc == Created(p, now);
    assert SchemaValid(doc) == SchemaValid(Draft(p)) && doc.slug == Trim(p.slug);
    if !SchemaValid(doc) {
      return Err(ServerError, "ValidationError");
    }
    if exists id :: id in store.vouchers && store.vouchers[id].slug == doc.slug {
      return Err(ServerError, "DuplicateKey");
    }
    var id := store.nextId;
    assert id !in store.vouchers;
    store.vouchers := store.vouchers[id := doc];
    store.nextId := store.nextId + 1;
    r := Ok(MapVoucher(id, doc, None, now));
  }

  /** The `valid: { from, until }` object of an edit request; an inner `None` stands for null. */
  datatype ValidWindow = ValidWindow(from: Option<Option<int>>, until: Option<Option<int>>)

  /** The fields an edit request carries; `None` means the field is absent, an inner `None` that it is null. */
  datatype VoucherUpdates = VoucherUpdates(
    slug: Option<string>,
    name: Option<string>,
    category: Option<string>,
    pointsRequired: Option<int>,
    stock: Option<Option<int>>,
    redeemedCount: Option<int>,
    validFrom: Option<Option<int>>,
    validUntil: Option<Option<int>>,
    valid: Option<ValidWindow>,
    status: Option<JsValue>,
    isActive: Option<bool>,
    terms: Option<JsValue>,
    instructions: Option<JsValue>)

  function OrKeep<T>(given: Option<T>, current: T): T
  {
    if given.Some? then given.value else current
  }

  /** The voucher with the plain fields of the request copied over it, the `valid` window last. */
  function FieldsApplied(v: Voucher, u: VoucherUpdates): (w: Voucher)
    ensures w.slug == v.slug && w.isActive == v.isActive
    ensures w.name == (if u.name.Some? then Trim(u.name.value) else v.name)
    ensures w.category == OrKeep(u.category, v.category)
    ensures u.valid.Some? && u.valid.value.from.Some? ==> w.validFrom == u.valid.value.from.value
    ensures u.valid.Some? && u.valid.value.until.Some? ==> w.validUntil == u.valid.value.until.value
  {
    var w := v.(name := if u.name.Some? then Trim(u.name.value) else v.name,
                category := OrKeep(u.category, v.category),
                pointsRequired := OrKeep(u.pointsRequired, v.pointsRequired),
                stock := OrKeep(u.stock, v.stock),
                redeemedCount := OrKeep(u.redeemedCount, v.redeemedCount),
                validFrom := OrKeep(u.validFrom, v.validFrom),
                validUntil := OrKeep(u.validUntil, v.validUntil));
    if u.valid.Some? then
      w.(validFrom := OrKeep(u.valid.value.from, w.validFrom), validUntil := OrKeep(u.valid.value.until, w.validUntil))
    else w
  }

  /** The status `updateVoucher` applies: the one in the request when it is truthy, the derived one otherwise. */
  function AppliedStatus(w: Voucher, u: VoucherUpdates, now: int): (s: JsValue)
    ensures Truthy(s)
  {
    if u.status.Some? && Truthy(u.status.value) then u.status.value
    else JsStr(StatusName(DetermineVoucherStatus(w, now)))
  }

  /**
   * The edited voucher: fields copied, the applied status's side effect on
   * `isActive`, then an explicit `isActive` of the request, then the text
   * lists of the request normalized.
   */
  function Updated(v: Voucher, slug: string, u: VoucherUpdates, now: int): (r: Voucher)
    ensures u.isActive.Some? ==> r.isActive == u.isActive.value
    ensures u.terms.Some? ==> r.terms == NormalizeStringArray(u.terms.value)
    ensures u.terms.None? ==> r.terms == v.terms
    ensures u.instructions.Some? ==> r.instructions == NormalizeStringArray(u.instructions.value)
    ensures u.instructions.None? ==> r.instructions == v.instructions
    ensures r.slug == slug
  {
    var w := FieldsApplied(v, u).(slug := slug);
    var active := StatusSideEffect(AppliedStatus(w, u, now), w.isActive);
    w.(isActive := OrKeep(u.isActive, active),
       terms := if u.terms.Some? then NormalizeStringArray(u.terms.value) else w.terms,
       instructions := if u.instructions.Some? then NormalizeStringArray(u.instructions.value) else w.instructions)
  }

  /** Without a status or a switch in the request, an edit leaves a voucher on exactly when it is live or upcoming. */
  lemma UpdateDerivesActivity(v: Voucher, slug: string, u: VoucherUpdates, now: int)
    requires u.status.None? && u.isActive.None?
    ensures Updated(v, slug, u, now).isActive
        <==> DetermineVoucherStatus(FieldsApplied(v, u).(slug := slug), now) in {Active, Upcoming}
  {
  }

  /** A request that sets the status "inactive" or "expired" without a switch leaves the voucher off. */
  lemma UpdateToClosedStatusSwitchesOff(v: Voucher, slug: string, u: VoucherUpdates, now: int)
    requires u.isActive.None?
    requires u.status == Some(JsStr("inactive")) || u.status == Some(JsStr("expired"))
    ensures !Updated(v, slug, u, now).isActive
  {
  }

  /**
   * The edits `updateVoucher` makes to the loaded voucher, one field at a
   * time: the request's fields, the status's side effect, the switch, then
   * the text lists. The status it settles on is not a stored field.
   */
  method EditVoucher(voucher: Voucher, slug: string, u: VoucherUpdates, now: int) returns (edited: Voucher)
    ensures edited == Updated(voucher, slug, u, now)
  {
    edited := FieldsApplied(voucher, u).(slug := slug);

    var status: JsValue := JsUndefined;
    if u.status.Some? {
      status := u.status.value;
    }
    if !Truthy(status) {
      status := JsStr(StatusName(DetermineVoucherStatus(edited, now)));
    }
    edited := edited.(isActive := StatusSideEffect(status, edited.isActive));

    if u.isActive.Some? {
      edited := edited.(isActive := u.isActive.value);
      if !edited.isActive && status == JsStr("active") {
        status := JsStr("inactive");
      }
      if edited.isActive && status == JsStr("inactive") {
        status := JsStr(StatusName(DetermineVoucherStatus(edited, now)));
      }
    }
    if u.terms.Some? {
      edited := edited.(terms := NormalizeStringArray(u.terms.value));
    }
    if u.instructions.Some? {
      edited := edited.(instructions := NormalizeStringArray(u.instructions.value));
    }
  }

  /**
   * `updateVoucher`: 404 for a missing voucher, 409 when a new slug is taken
   * by another voucher; a validation failure (500) when the edited voucher
   * breaks the schema or its trimmed slug is taken; otherwise the edited
   * voucher is stored.
   */
  method UpdateVoucher(store: VoucherStore, id: VoucherId, u: VoucherUpdates, now: int) returns (r: Result<VoucherView>)
    modifies store
    ensures store.nextId == old(store.nextId)
    ensures id !in old(store.vouchers) ==> r == Err(404, "Voucher tidak ditemukan") && store.vouchers == old(store.vouchers)
    ensures r.Err? ==> store.vouchers == old(store.vouchers)
    ensures r.Ok? ==>
      var v := old(store.vouchers)[id];
      var newSlug := u.slug.Some? && u.slug.value != "" && u.slug.value != v.slug;
      var slug := if newSlug then Trim(u.slug.value) else v.slug;
      id in old(store.vouchers)
      && (newSlug ==> !(exists other :: other in old(store.vouchers) && other != id && old(store.vouchers)[other].slug == u.slug.value))
      && SchemaValid(Updated(v, slug, u, now))
      && store.vouchers == old(store.vouchers)[id := Updated(v, slug, u, now)]
      && r.value == MapVoucher(id, Updated(v, slug, u, now), None, now)
  {
    if id !in store.vouchers {
      return Err(404, "Voucher tidak ditemukan");
    }
    var voucher := store.vouchers[id];
    var slug := voucher.slug;
    if u.slug.Some? && u.slug.value != "" && u.slug.value != voucher.slug {
      if exists other :: other in store.vouchers && other != id && store.vouchers[other].slug == u.slug.value {
        return Err(409, "Slug voucher sudah digunakan");
      }
      slug := Trim(u.slug.value);
    }
    var edited := EditVoucher(voucher, slug, u, now);

    if !SchemaValid(edited) {
      return Err(ServerError, "ValidationError");
    }
    if exists other :: other in store.vouchers && other != id && store.vouchers[other].slug == edited.slug {
      return Err(ServerError, "DuplicateKey");
    }
    store.vouchers := store.vouchers[id := edited];
    r := Ok(MapVoucher(id, edited, None, now));
  }
}

=== FILE: weekly_progress_controller.dfy ===
/**
 * The weekly progress report: for the seven days ending today (days in
 * Western Indonesian Time, UTC+7), how many of the user's checklist rows
 * were completed on each day, against five tasks a day; the totals are
 * stored in a weekly record keyed by the user and the week's first and last
 * day, replaced when the same week is reported again.
 *
 * Days are whole day numbers since the epoch; the report's `YYYY-MM-DD`
 * date strings are left as those numbers. The server's own clock zone is
 * taken to be UTC, as in the calendar helpers.
 */
module WeeklyProgressController {
  import opened Common
  import opened Entities
  import opened DateUtils
  import opened DailyTaskChecklistModel

  /** Western Indonesian Time is seven hours ahead of UTC. */
  const WibOffset: int := 7 * 60 * 60 * 1000

  /** Sunday first, as `Date.prototype.getDay` counts. */
  const DayNames: seq<string> := ["Min", "Sen", "Sel", "Rab", "Kam", "Jum", "Sab"]

  /** The tasks a day offers. */
  const TasksPerDay: nat := 5

  /** The Western Indonesian day of an instant. */
  function WibDay(t: int): int
  {
    DayOf(t + WibOffset)
  }

  /** `getDay()` of day `day`: the epoch's first day was a Thursday. */
  function WeekdayOf(day: int): (w: nat)
    ensures w < 7
  {
    (day + 4) % 7
  }

  /** Seven consecutive days fall on seven different weekdays. */
  lemma WeekdaysDistinct(day: int, d: int)
    requires 0 < d < 7
    ensures WeekdayOf(day) != WeekdayOf(day + d)
  {
    var a := day + 4;
    var q, r := a / 7, a % 7;
    assert a == 7 * q + r;
    if r + d < 7 {
      assert a + d == 7 * q + (r + d);
    } else {
      assert a + d == 7 * (q + 1) + (r + d - 7);
    }
  }

  /** `new Date(c.completedAt).getTime()`: a missing completion time reads as the epoch. */
  function CompletedTime(c: Checklist): int
  {
    if c.completedAt.Some? then c.completedAt.value else 0
  }

  /** The day filter: the completion time shifted to UTC+7 lies between 00:00 and 23:59:59.999 of the day. */
  predicate InDay(c: Checklist, dayStart: int)
  {
    dayStart <= CompletedTime(c) + WibOffset <= dayStart + MsPerDay - 1
  }

  /** An instant lies in a day's span exactly when it falls on that day. */
  lemma InDaySpan(t: int, day: int)
    ensures day * MsPerDay <= t <= day * MsPerDay + MsPerDay - 1 <==> DayOf(t) == day
  {
    var q, r := t / MsPerDay, t % MsPerDay;
    assert t == q * MsPerDay + r;
    if q < day {
      MulMonotone(MsPerDay, q + 1, day);
    }
    if q > day {
      MulMonotone(MsPerDay, day + 1, q);
    }
  }

  /** `checklists.filter(...).length` for one day. */
  function CountInDay(rows: seq<Checklist>, dayStart: int): (n: nat)
    ensures n <= |rows|
  {
    if |rows| == 0 then 0
    else CountInDay(rows[..|rows| - 1], dayStart) + (if InDay(rows[|rows| - 1], dayStart) then 1 else 0)
  }

  /** The rows completed, in UTC+7, on a day from `lo` up to but excluding `hi`. */
  function CountInRange(rows: seq<Checklist>, lo: int, hi: int): (n: nat)
    ensures n <= |rows|
  {
    if |rows| == 0 then 0
    else
      var c := rows[|rows| - 1];
      CountInRange(rows[..|rows| - 1], lo, hi) + (if lo <= WibDay(CompletedTime(c)) < hi then 1 else 0)
  }

  /** Counting one day's span is counting that day. */
  lemma {:induction false} CountInDayIsDay(rows: seq<Checklist>, day: int)
    ensures CountInDay(rows, day * MsPerDay) == CountInRange(rows, day, day + 1)
  {
    if |rows| > 0 {
      CountInDayIsDay(rows[..|rows| - 1], day);
      InDaySpan(CompletedTime(rows[|rows| - 1]) + WibOffset, day);
    }
  }

  /** A range of days counts its first days and its last day. */
  lemma {:induction false} CountInRangeSplit(rows: seq<Checklist>, lo: int, mid: int, hi: int)
    requires lo <= mid && hi == mid + 1
    ensures CountInRange(rows, lo, hi) == CountInRange(rows, lo, mid) + CountInRange(rows, mid, hi)
  {
    if |rows| > 0 {
      CountInRangeSplit(rows[..|rows| - 1], lo, mid, hi);
    }
  }

  /** The checklist query: the user's rows completed between `from` and `to`, inclusive, in stored order. */
  function QueryRows(rows: seq<Checklist>, userId: UserId, from: int, to: int): (q: seq<Checklist>)
    ensures forall k :: 0 <= k < |q| ==>
      q[k].userId == userId && q[k].completedAt.Some? && from <= q[k].completedAt.value <= to
  {
    if |rows| == 0 then []
    else
      var c := rows[|rows| - 1];
      var keep := c.userId == userId && c.completedAt.Some? && from <= c.completedAt.value <= to;
      QueryRows(rows[..|rows| - 1], userId, from, to) + (if keep then [c] else [])
  }

  /** The query of the report for the week ending on day `today`: from 00:00 UTC+7 six days back to 24:00 UTC+7 today. */
  function WeekRows(rows: seq<Checklist>, userId: UserId, today: int): seq<Checklist>
  {
    QueryRows(rows, userId, (today - 6) * MsPerDay - WibOffset, today * MsPerDay + 17 * 60 * 60 * 1000)
  }

  /** The user's rows completed, in UTC+7, on a day from `lo` up to but excluding `hi`. */
  function UserCompletions(rows: seq<Checklist>, userId: UserId, lo: int, hi: int): nat
  {
    if |rows| == 0 then 0
    else
      var c := rows[|rows| - 1];
      UserCompletions(rows[..|rows| - 1], userId, lo, hi)
        + (if c.userId == userId && c.completedAt.Some? && lo <= WibDay(c.completedAt.value) < hi then 1 else 0)
  }

  /** A completion on one of the week's days lies inside the query's window. */
  lemma WeekWindow(t: int, today: int)
    requires today - 6 <= WibDay(t) <= today
    ensures (today - 6) * MsPerDay - WibOffset <= t <= today * MsPerDay + 17 * 60 * 60 * 1000
  {
    var d := WibDay(t);
    InDaySpan(t + WibOffset, d);
    MulMonotone(MsPerDay, today - 6, d);
    MulMonotone(MsPerDay, d, today);
  }

  lemma CountInRangeAppend(s: seq<Checklist>, c: Checklist, lo: int, hi: int)
    ensures CountInRange(s + [c], lo, hi) == CountInRange(s, lo, hi) + (if lo <= WibDay(CompletedTime(c)) < hi then 1 else 0)
  {
    assert (s + [c])[..|s|] == s;
  }

  /** Counting within the week over the query's rows counts all the user's rows completed that week. */
  lemma {:induction false} WeekRowsCoverWeek(rows: seq<Checklist>, userId: UserId, today: int)
    ensures CountInRange(WeekRows(rows, userId, today), today - 6, today + 1) == UserCompletions(rows, userId, today - 6, today + 1)
  {
    if |rows| > 0 {
      var init := rows[..|rows| - 1];
      var c := rows[|rows| - 1];
      WeekRowsCoverWeek(init, userId, today);
      var q := WeekRows(init, userId, today);
      var keep := c.userId == userId && c.completedAt.Some?
        && (today - 6) * MsPerDay - WibOffset <= c.completedAt.value <= today * MsPerDay + 17 * 60 * 60 * 1000;
      assert WeekRows(rows, userId, today) == q + (if keep then [c] else []);
      if c.userId == userId && c.completedAt.Some? && today - 6 <= WibDay(c.completedAt.value) < today + 1 {
        WeekWindow(c.completedAt.value, today);
        CountInRangeAppend(q, c, today - 6, today + 1);
      } else if keep {
        CountInRangeAppend(q, c, today - 6, today + 1);
      } else {
        assert q + [] == q;
      }
    }
  }

  /** One day of the report. */
  datatype DayProgress = DayProgress(dayName: string, date: int, completed: nat, total: nat, progress: int)

  /** Day `day` of the report over the queried rows: its count against five tasks, as a rounded percentage. */
  function DayEntry(checklists: seq<Checklist>, day: int): (e: DayProgress)
    ensures e.date == day && e.total == TasksPerDay
    ensures e.completed == CountInDay(checklists, day * MsPerDay)
    ensures e.dayName == DayNames[WeekdayOf(day)]
    ensures e.progress == 20 * e.completed
  {
    var completed := CountInDay(checklists, day * MsPerDay);
    DayProgress(DayNames[WeekdayOf(day)], day, completed, TasksPerDay, RoundDiv(completed * 100, TasksPerDay))
  }

  /** The entries of `n` days starting with day `first`. */
  function DayEntries(checklists: seq<Checklist>, first: int, n: nat): (es: seq<DayProgress>)
    ensures |es| == n
  {
    if n == 0 then [] else DayEntries(checklists, first, n - 1) + [DayEntry(checklists, first + (n - 1))]
  }

  /** The `k`-th entry is the entry of the `k`-th day. */
  lemma {:induction false} DayEntryAt(checklists: seq<Checklist>, first: int, n: nat, k: nat)
    requires k < n
    ensures DayEntries(checklists, first, n)[k] == DayEntry(checklists, first + k)
  {
    if k < n - 1 {
      DayEntryAt(checklists, first, n - 1, k);
    }
  }

  /** `result.reduce((sum, d) => sum + d.completed, 0)` */
  function SumCompleted(entries: seq<DayProgress>): nat
  {
    if |entries| == 0 then 0 else SumCompleted(entries[..|entries| - 1]) + entries[|entries| - 1].completed
  }

  /** `result.reduce((sum, d) => sum + d.progress, 0)` */
  function SumProgress(entries: seq<DayProgress>): int
  {
    if |entries| == 0 then 0 else SumProgress(entries[..|entries| - 1]) + entries[|entries| - 1].progress
  }

  /** The completed counts of `n` days starting with day `first`. */
  function DaysTotal(checklists: seq<Checklist>, first: int, n: nat): nat
  {
    if n == 0 then 0 else DaysTotal(checklists, first, n - 1) + CountInDay(checklists, (first + (n - 1)) * MsPerDay)
  }

  /** The days' counts add up to the count over the whole span of days. */
  lemma {:induction false} DaysTotalIsRange(checklists: seq<Checklist>, first: int, n: nat)
    ensures DaysTotal(checklists, first, n) == CountInRange(checklists, first, first + n)
  {
    if n > 0 {
      DaysTotalIsRange(checklists, first, n - 1);
      CountInDayIsDay(checklists, first + (n - 1));
      CountInRangeSplit(checklists, first, first + (n - 1), first + n);
    } else {
      EmptyRange(checklists, first);
    }
  }

  /** The entries' completed counts add up to the days' total. */
  lemma {:induction false} SumOfDays(checklists: seq<Checklist>, first: int, n: nat)
    ensures SumCompleted(DayEntries(checklists, first, n)) == DaysTotal(checklists, first, n)
  {
    if n > 0 {
      var es := DayEntries(checklists, first, n);
      assert es[..n - 1] == DayEntries(checklists, first, n - 1);
      SumOfDays(checklists, first, n - 1);
    }
  }

  /** Every day's percentage is twenty per task, so the percentages add up to twenty per completed task. */
  lemma {:induction false} SumOfPercentages(checklists: seq<Checklist>, first: int, n: nat)
    ensures SumProgress(DayEntries(checklists, first, n)) == 20 * SumCompleted(DayEntries(checklists, first, n))
  {
    if n > 0 {
      var es := DayEntries(checklists, first, n);
      assert es[..n - 1] == DayEntries(checklists, first, n - 1);
      SumOfPercentages(checklists, first, n - 1);
    }
  }

  lemma {:induction false} EmptyRange(rows: seq<Checklist>, day: int)
    ensures CountInRange(rows, day, day) == 0
  {
    if |rows| > 0 {
      EmptyRange(rows[..|rows| - 1], day);
    }
  }

  /** The stored weekly record, which the report also returns. */
  datatype WeeklyRecord = WeeklyRecord(
    userId: UserId,
    weekStart: int,
    weekEnd: int,
    progress: seq<DayProgress>,
    totalCompleted: nat,
    avgProgress: int)

  /** The unique key of a weekly record. */
  datatype WeekKey = WeekKey(userId: UserId, weekStart: int, weekEnd: int)

  class WeeklyStore {
    var records: map<WeekKey, WeeklyRecord>

    constructor ()
      ensures records == map[]
    {
      records := map[];
    }
  }

  /**
   * `getWeeklyProgress`: the seven days from six days back to today, each
   * with its completed count; the total of the counts, the average of the
   * percentages; the record upserted under the user and the week.
   */
  method GetWeeklyProgress(store: WeeklyStore, rows: seq<Checklist>, userId: UserId, now: int)
    returns (weekly: WeeklyRecord)
    modifies store
    ensures var today := WibDay(now);
      weekly.userId == userId && weekly.weekStart == today - 6 && weekly.weekEnd == today
      && weekly.progress == DayEntries(WeekRows(rows, userId, today), today - 6, 7)
      && weekly.totalCompleted == UserCompletions(rows, userId, today - 6, today + 1)
      && weekly.avgProgress == RoundDiv(20 * weekly.totalCompleted, 7)
    ensures store.records == old(store.records)[WeekKey(userId, WibDay(now) - 6, WibDay(now)) := weekly]
  {
    var today := WibDay(now);
    var weekStart := today - 6;
    var checklists := QueryRows(rows, userId, weekStart * MsPerDay - WibOffset, today * MsPerDay + 17 * 60 * 60 * 1000);
    assert checklists == WeekRows(rows, userId, today);
    var result := WeekDays(checklists, weekStart);
    var totalCompleted := SumCompleted(result);
    var avgProgress := RoundDiv(SumProgress(result), 7);
    WeekTotals(rows, userId, today);
    weekly := WeeklyRecord(userId, weekStart, today, result, totalCompleted, avgProgress);
    store.records := store.records[WeekKey(userId, weekStart, today) := weekly];
  }

  /** The loop of the report: one entry per day of the seven days from `weekStart`. */
  method WeekDays(checklists: seq<Checklist>, weekStart: int) returns (result: seq<DayProgress>)
    ensures result == DayEntries(checklists, weekStart, 7)
  {
    result := [];
    for i := 0 to 7
      invariant result == DayEntries(checklists, weekStart, i)
    {
      var day := weekStart + i;
      var completed := CountInDay(checklists, day * MsPerDay);
      var entry := DayProgress(DayNames[WeekdayOf(day)], day, completed, TasksPerDay, RoundDiv(completed * 100, TasksPerDay));
      assert entry == DayEntry(checklists, weekStart + i);
      result := result + [entry];
    }
  }

  /** The week's completed total is the user's completions over the seven days, and its percentages add up to 20 per completion. */
  lemma WeekTotals(rows: seq<Checklist>, userId: UserId, today: int)
    ensures var es := DayEntries(WeekRows(rows, userId, today), today - 6, 7);
      SumCompleted(es) == UserCompletions(rows, userId, today - 6, today + 1)
      && SumProgress(es) == 20 * SumCompleted(es)
  {
    var checklists := WeekRows(rows, userId, today);
    SumOfDays(checklists, today - 6, 7);
    DaysTotalIsRange(checklists, today - 6, 7);
    assert today - 6 + 7 == today + 1;
    SumOfPercentages(checklists, today - 6, 7);
    WeekRowsCoverWeek(rows, userId, today);
  }

  /** Each of the report's seven days has its own weekday name. */
  lemma WeekNamesDistinct(checklists: seq<Checklist>, first: int, i: nat, j: nat)
    requires i < j < 7
    ensures DayEntries(checklists, first, 7)[i].dayName != DayEntries(checklists, first, 7)[j].dayName
  {
    WeekdaysDistinct(first + i, j - i);
    DayEntryAt(checklists, first, 7, i);
    DayEntryAt(checklists, first, 7, j);
    assert first + i + (j - i) == first + j;
  }

  /** A report that runs again on the same day replaces its record rather than adding one. */
  lemma ReportAgainReplaces(records: map<WeekKey, WeeklyRecord>, key: WeekKey, first: WeeklyRecord, second: WeeklyRecord)
    ensures records[key := first][key := second] == records[key := second]
    ensures |records[key := first][key := second]| == |records[key := first]|
  {
  }
}
